=== FILE: README.md ===
# Airguard core in Dafny

Airguard is an air-quality monitoring system. Sensors post particle and gas
concentrations to an Express backend. The backend turns each concentration
into a sub-index using the EPA breakpoint tables and stores the reading with
its overall AQI. A job averages the last ten minutes of readings into an
aggregated record. A Flask service fits ARIMA and Holt-Winters models to the
aggregated series and forecasts it, and an Express proxy sits in front of
that service. A React front end classifies AQI values into categories,
colours and advice, and drives the report, alert, historical-report, login,
profile and dashboard pages through page-local state and two Redux stores.

This project models that core as pure Dafny functions over immutable
datatypes and proves properties of them. One module follows each source
component:

- `Common`: options, JavaScript numbers (`undefined`, `null`, `NaN`, finite),
  `Math.round`, text helpers, filter and map.
- `Breakpoints`, `AqiIndex` and `Readings`: the breakpoint tables,
  `calculateIndex`, and the sub-indices of one reading with their maximum.
- `Ingestion`: the two POST routes that store a reading.
- `Aggregation`: the ten-minute aggregation job.
- `Sorting`: the stable sort shared by the routes and pages that sort.
- `HistoricalRoute`: the hourly grouping route.
- `Reports`: the pollution-report controller.
- `Auth`: registration, login and the password-reset routes.
- `Json`, `ForecastService` and `ForecastProxy`: the Flask `/train` and
  `/forecast` endpoints and the Express proxy in front of them.
- `Categories`: every AQI classifier of the front end.
- `Health`: the health-recommendation component.
- `Maps`: the embedded map and the full-screen map page.
- `Dashboard`: the admin dashboard.
- `UserDashboard`: the user dashboard and the home page.
- `HistoricalPages`: the two historical report pages.
- `ReportForm`: the report form.
- `Slices`: the report and alert stores.
- `Forms`: the login, sign-up and profile forms.
- `AppShell`: the application shell and its routes.

Everything the code reaches outside itself is a parameter of the function that needs it:

- the clock;
- the database contents;
- bcrypt, JWT signing, SHA-256;
- the e-mail deliverability service;
- the model fit and forecast;
- the image host's URLs;
- date parsing;
- `parseFloat` and `Number` on strings;
- the reply of a downstream service.

Unbounded integers and reals stand in for JavaScript numbers. `NaN`,
`null` and `undefined` are modelled where the code distinguishes them.

## Model

| member | source | states |
|---|---|---|
| Common.ToNumber | Airguard/Airguard-Final-Ruq/project/backend/utils/calculateAqi.js:7 | the numeric conversion a comparison applies gives NaN or a finite number, and leaves a finite number unchanged |
| Common.OrZero | Airguard/Airguard-Final-Ruq/project/backend/routes/airDataRoutes.js:25-28 | the default-to-zero `or`: a falsy value (undefined, null, NaN, 0) gives 0, any other value is a finite number and is kept |
| Common.Round | Airguard/Airguard-Final-Ruq/project/backend/utils/calculateAqi.js:10 | `Math.round` gives the integer within one half of its argument, ties going up |
| Common.TrimEmptyIffBlank | Airguard/Airguard-Final-Ruq/project/frontend/src/pages/Dashboard.jsx:195 | `trim` leaves the empty string exactly when every character is white space or a line terminator in the sense of ECMAScript |
| Breakpoints.PollutantOfKey | Airguard/Airguard-Final-Ruq/project/backend/utils/calculateAqi.js:4 | a key selects a table exactly when it is one of the six exported keys, and the table selected is the one exported under that key |
| Breakpoints.KeysDistinct | Airguard/Airguard-Final-Ruq/project/backend/utils/aqiBreakpoints.js:1-48 | no two pollutants share an export key, so a key names at most one table |
| Breakpoints.TablesWellFormed | Airguard/Airguard-Final-Ruq/project/backend/utils/aqiBreakpoints.js:1-48 | every table starts at concentration 0 and index 0, has proper bands separated by concentration gaps and contiguous index ranges, and tops out at 500 for PM2.5, PM10 and O3, 300 for CO and NO2 and 150 for SO2 |
| Breakpoints.CpAscending | Airguard/Airguard-Final-Ruq/project/backend/utils/aqiBreakpoints.js:1-48 | in such a table every earlier band lies wholly below every later band in concentration |
| Breakpoints.IndexAscending | Airguard/Airguard-Final-Ruq/project/backend/utils/aqiBreakpoints.js:1-48 | index ranges grow from band to band and never go below 0 |
| Breakpoints.AtMostOneBand | Airguard/Airguard-Final-Ruq/project/backend/utils/calculateAqi.js:6-7 | bands never overlap, so the first band containing a concentration is the only one |
| Breakpoints.CpRange | Airguard/Airguard-Final-Ruq/project/backend/utils/aqiBreakpoints.js:1-48 | every band lies between 0 and the top of the last band |
| AqiIndex.FirstBand | Airguard/Airguard-Final-Ruq/project/backend/utils/calculateAqi.js:6-7 | the search finds nothing exactly when no band contains the concentration, and otherwise the first band that does |
| AqiIndex.IndexIn | Airguard/Airguard-Final-Ruq/project/backend/utils/calculateAqi.js:3-15 | the loop returns the interpolation inside the first containing band, and -1 when there is none |
| AqiIndex.IndexBounds | Airguard/Airguard-Final-Ruq/project/backend/utils/calculateAqi.js:6-14 | over a well-formed table the result is -1 exactly when no band contains the concentration, and otherwise lies inside the deciding band's index range and below the table's top |
| AqiIndex.CalculateIndex | Airguard/Airguard-Final-Ruq/project/backend/utils/calculateAqi.js:3-15 | the sub-index is -1 or between 0 and the table's top, and it is -1 exactly when no band contains the concentration |
| AqiIndex.CalculateIndexByKey | Airguard/Airguard-Final-Ruq/project/backend/utils/calculateAqi.js:3-6 | a key without a table yields no index (the loop over `undefined` throws); the six keys yield their table's index |
| AqiIndex.IndexOfNum | Airguard/Airguard-Final-Ruq/project/backend/utils/calculateAqi.js:7 | a NaN concentration fails every band test and yields -1 |
| AqiIndex.RoundOfInt | Airguard/Airguard-Final-Ruq/project/backend/utils/calculateAqi.js:10 | rounding leaves an integer unchanged |
| AqiIndex.RoundMonotone | Airguard/Airguard-Final-Ruq/project/backend/utils/calculateAqi.js:10 | rounding preserves order |
| AqiIndex.LinearWithinBand | Airguard/Airguard-Final-Ruq/project/backend/utils/calculateAqi.js:9 | the linear interpolation inside a band stays between the band's low and high index |
| AqiIndex.InterpWithinBand | Airguard/Airguard-Final-Ruq/project/backend/utils/calculateAqi.js:9-10 | so does the rounded interpolation |
| AqiIndex.InterpEndpoints | Airguard/Airguard-Final-Ruq/project/backend/utils/calculateAqi.js:9-10 | a band's concentration endpoints map onto its index endpoints |
| AqiIndex.InterpMonotone | Airguard/Airguard-Final-Ruq/project/backend/utils/calculateAqi.js:9-10 | a higher concentration never gets a lower interpolated index |
| AqiIndex.DecidedByContainingBand | Airguard/Airguard-Final-Ruq/project/backend/utils/calculateAqi.js:6-10 | any band containing the concentration decides the sub-index, which lies in that band's index range |
| AqiIndex.OutOfRangeIsMinusOne | Airguard/Airguard-Final-Ruq/project/backend/utils/calculateAqi.js:14 | a negative concentration, or one above the last band, gives -1 |
| AqiIndex.GapIsMinusOne | Airguard/Airguard-Final-Ruq/project/backend/utils/calculateAqi.js:6-14 | a concentration strictly between two consecutive bands gives -1 |
| AqiIndex.Pm25GapIsMinusOne | Airguard/Airguard-Final-Ruq/project/backend/utils/aqiBreakpoints.js:3-4 | a PM2.5 concentration strictly between 9.0 and 9.1 gives -1 |
| AqiIndex.OzoneGapIsMinusOne | Airguard/Airguard-Final-Ruq/project/backend/utils/aqiBreakpoints.js:22-23 | an ozone concentration strictly between 0.07 and 0.125 gives -1 |
| AqiIndex.ZeroConcentration | Airguard/Airguard-Final-Ruq/project/backend/utils/aqiBreakpoints.js:1-48 | concentration 0 has sub-index 0 for every pollutant |
| AqiIndex.BandEndpoints | Airguard/Airguard-Final-Ruq/project/backend/utils/calculateAqi.js:6-10 | each band's concentration endpoints give exactly its index endpoints |
| AqiIndex.MonotoneWithinBand | Airguard/Airguard-Final-Ruq/project/backend/utils/calculateAqi.js:6-10 | within one band the sub-index never decreases as the concentration grows |
| Readings.OverallAqi | Airguard/Airguard-Final-Ruq/project/backend/routes/airDataRoutes.js:29 | `Math.max` of the six sub-indices is at least each of them and equal to one of them |
| Readings.IndicesOf | Airguard/Airguard-Final-Ruq/project/backend/routes/airDataRoutes.js:23-28 | each pollutant is indexed against its own table |
| Readings.IndicesInRange | Airguard/Airguard-Final-Ruq/project/backend/routes/airDataRoutes.js:23-28 | every sub-index is -1 or a proper index of at most 500 |
| Readings.OverallAqiRange | Airguard/Airguard-Final-Ruq/project/backend/routes/airDataRoutes.js:29 | the overall AQI lies in [-1, 500] and is -1 exactly when every sub-index is |
| Readings.DefaultZero | Airguard/Airguard-Final-Ruq/project/backend/models/AirData.js:6-7 | a number field with default 0 is always present after saving, and changes exactly when it was absent, to 0 |
| Readings.Persist | Airguard/Airguard-Final-Ruq/project/backend/models/AirData.js:2-15 | what the schema saves has its shape (carbon monoxide and ozone present; no nitrogen or sulphur dioxide, zone or location name) and keeps the declared fields as built, a present gas included |
| Readings.PersistFixesConforming | Airguard/Airguard-Final-Ruq/project/backend/models/AirData.js:2-15 | a document is stored unchanged exactly when it already has the schema's shape, and saving twice is saving once |
| Ingestion.ZoneOrUnknown | Airguard/Airguard-Final-Ruq/project/backend/routes/airDataRoutes.js:45 | the route builds a missing or empty zone as 'Unknown' and any other zone as sent |
| Ingestion.PostAirData | Airguard/Airguard-Final-Ruq/project/backend/routes/airDataRoutes.js:15-54 | 400 exactly when a particle field is not a number; otherwise 200 with a built document holding the gases with missing ones as 0, the zone or 'Unknown', the sub-indices of the sent values and an overall AQI that is their maximum, echoed in the response; what is stored is the schema's projection of it, which keeps carbon monoxide and ozone but drops the zone, nitrogen dioxide and sulphur dioxide |
| Ingestion.MissingGasIndexesAsZero | Airguard/Airguard-Final-Ruq/project/backend/routes/airDataRoutes.js:25-37 | missing or zero gases are indexed as 0, and carbon monoxide and ozone are stored as 0 |
| Ingestion.AirDataZoneNotStored | Airguard/Airguard-Final-Ruq/project/backend/routes/airDataRoutes.js:31-48 | the zone the air-data route fills in, 'Unknown' included, is not stored |
| Ingestion.PostSensorReading | Airguard/Airguard-Final-Ruq/project/backend/routes/aqiSensorRoutes.js:6-47 | the same validation and indices, with the gases, zone and location name built exactly as sent and `pm25` built as `pm2_5`; the stored reading has carbon monoxide and ozone with an absent one as 0, and no zone or location name |
| Ingestion.RoutesAgreeOnIndices | Airguard/Airguard-Final-Ruq/project/backend/routes/aqiSensorRoutes.js:10-20 | on the same concentrations both routes reject alike and answer with the same AQI and sub-indices |
| Ingestion.SensorAbsentGasStoredAsZero | Airguard/Airguard-Final-Ruq/project/backend/routes/aqiSensorRoutes.js:16-33 | the sensor route indexes absent ozone and nitrogen dioxide as 0 and builds them absent; ozone is then stored as 0 and nitrogen dioxide not at all |
| Ingestion.SensorZoneNotStored | Airguard/Airguard-Final-Ruq/project/backend/routes/aqiSensorRoutes.js:22-41 | the zone and location name a sensor sends are built into the document but never stored |
| Aggregation.Recent | Airguard/Airguard-Final-Ruq/project/backend/jobs/aggredateJob.js:9-13 | the window holds exactly the stored readings from ten minutes ago up to now |
| Aggregation.MeanBounds | Airguard/Airguard-Final-Ruq/project/backend/jobs/aggredateJob.js:17-22 | an average never leaves the range of the values averaged |
| Aggregation.MeanConstant | Airguard/Airguard-Final-Ruq/project/backend/jobs/aggredateJob.js:17-22 | averaging identical values gives that value |
| Aggregation.ReplaceFirst | Airguard/Airguard-Final-Ruq/project/backend/jobs/aggredateJob.js:35 | a string `replace` rewrites only a leading occurrence of the pattern |
| Aggregation.NamesOfKeys | Airguard/Airguard-Final-Ruq/project/backend/jobs/aggredateJob.js:35 | the six keys name PM25, PM10, O3, CO, SO2 and NO2 once the prefix is dropped and the rest upper-cased |
| Aggregation.PickMainFirst | Airguard/Airguard-Final-Ruq/project/backend/jobs/aggredateJob.js:33-38 | the loop stops at the first key holding the maximum |
| Aggregation.MainPollutant | Airguard/Airguard-Final-Ruq/project/backend/jobs/aggredateJob.js:31-38 | the main pollutant is the first, in key order, whose sub-index equals the overall AQI; the 'PM2.5' default never survives |
| Aggregation.Run | Airguard/Airguard-Final-Ruq/project/backend/jobs/aggredateJob.js:7-57 | no record when the window is empty; otherwise a record spanning the last ten minutes with the averages, their sub-indices, an AQI equal to their maximum, and as main pollutant the first of the six names, in key order, whose sub-index attains that maximum |
| Aggregation.MissingGasAveragesToZero | Airguard/Airguard-Final-Ruq/project/backend/jobs/aggredateJob.js:19 | when every recent reading lacks ozone, ozone averages to 0 and so does its sub-index |
| Aggregation.StoredReadingsIndexNoSo2OrNo2 | Airguard/Airguard-Final-Ruq/project/backend/jobs/aggredateJob.js:20-28 | over readings the schema saved, the sulphur and nitrogen dioxide averages and sub-indices are 0 |
| Sorting.Sort | Airguard/Airguard-Final-Ruq/project/backend/routes/airDataRoutes.js:133 | the sort returns a permutation of its input ordered by key |
| Sorting.SortStable | Airguard/Airguard-Final-Ruq/project/backend/routes/airDataRoutes.js:133 | elements sharing a key keep their relative order |
| Sorting.AllEqualKeysUnchanged | Airguard/Airguard-Final-Ruq/project/backend/routes/airDataRoutes.js:133 | a list whose elements all share one key is returned as it is |
| HistoricalRoute.HourOf | Airguard/Airguard-Final-Ruq/project/backend/routes/airDataRoutes.js:139 | the start of the hour is a multiple of one hour, at most the time and less than an hour before it |
| HistoricalRoute.Open | Airguard/Airguard-Final-Ruq/project/backend/routes/airDataRoutes.js:140-158 | the first reading of an hour opens an entry with count 1 whose averaged fields are that reading's values |
| HistoricalRoute.Absorb | Airguard/Airguard-Final-Ruq/project/backend/routes/airDataRoutes.js:159-171 | a later reading of the hour moves the nine averaged fields to their running means, adds one to the count, and keeps the time, zone and gases |
| HistoricalRoute.RunningMean | Airguard/Airguard-Final-Ruq/project/backend/routes/airDataRoutes.js:161-169 | the running mean of a mean and one more value is the mean of all the values |
| HistoricalRoute.GroupCorrect | Airguard/Airguard-Final-Ruq/project/backend/routes/airDataRoutes.js:138-175 | the grouping yields one entry per distinct hour, each holding its hour's count, the plain mean of each averaged field, and the gases and zone of the hour's first reading |
| HistoricalRoute.Historical | Airguard/Airguard-Final-Ruq/project/backend/routes/airDataRoutes.js:101-181 | 400 when a date is missing or does not parse, otherwise a response whose count is the number of entries |
| HistoricalRoute.HistoricalCount | Airguard/Airguard-Final-Ruq/project/backend/routes/airDataRoutes.js:119-181 | with a valid range the response lists exactly the hours of the selected readings, one entry each |
| HistoricalRoute.AllZonesSelected | Airguard/Airguard-Final-Ruq/project/backend/routes/airDataRoutes.js:127-129 | with no zone, an empty zone or 'all', every reading in the range is selected |
| HistoricalRoute.ZoneQueryOfStoredReadingsIsEmpty | Airguard/Airguard-Final-Ruq/project/backend/routes/airDataRoutes.js:119-135 | over readings the schema saved, a valid range with a zone other than 'all' answers an empty list |
| Reports.Create | Airguard/Airguard-Final-Ruq/project/backend/controllers/reportsController.js:11-53 | saving succeeds exactly when the description, owner, location, pollution type and date are non-empty and neither coordinate parses to NaN; the saved report then carries those fields, the uploaded URLs in file order and the parsed coordinates, has no location name, resolution time or rejection comment, and is always pending and unresolved |
| Reports.CreateWithoutCoordinatesFails | Airguard/Airguard-Final-Ruq/project/backend/controllers/reportsController.js:41-47 | a report sent without a latitude or a longitude is never saved |
| Reports.Strip | Airguard/Airguard-Final-Ruq/project/backend/models/ReportModel.js:3-21 | what strict mode keeps has no location name, resolution time or rejection comment, differs from the report only in those, and is the report itself exactly when it had none |
| Reports.MergeResolved | Airguard/Airguard-Final-Ruq/project/backend/controllers/reportsController.js:101-104 | in the `$set`, resolving stamps the time, un-resolving clears it, and an absent flag leaves both alone |
| Reports.MergeImages | Airguard/Airguard-Final-Ruq/project/backend/controllers/reportsController.js:115-141 | uploads replace the images, otherwise a clear request empties them, otherwise they are kept |
| Reports.MergeWritesOnlyPresentFields | Airguard/Airguard-Final-Ruq/project/backend/controllers/reportsController.js:97-113 | in the `$set`, an absent field keeps its stored value, a present one takes the sent value, and the owner and date are never written |
| Reports.Update | Airguard/Airguard-Final-Ruq/project/backend/controllers/reportsController.js:64-160 | 400 exactly for a non-empty status outside the three valid ones, checked first; 500 exactly when the id is no ObjectId or the `$set` empties a required field or holds a NaN coordinate; then 404 exactly for an unknown id; otherwise the merged report without the fields the schema lacks is stored under its id |
| Reports.RejectionCommentNotStored | Airguard/Airguard-Final-Ruq/project/backend/controllers/reportsController.js:100-105 | a rejection with a comment stores the status but no comment |
| Reports.UpdateLeavesOthers | Airguard/Airguard-Final-Ruq/project/backend/controllers/reportsController.js:145-149 | an update changes no other report |
| Reports.EmptyUpdateIsIdentity | Airguard/Airguard-Final-Ruq/project/backend/controllers/reportsController.js:97-141 | a request naming no field and uploading nothing changes nothing |
| Reports.ResolveThenReopenRestoresCreated | Airguard/Airguard-Final-Ruq/project/backend/controllers/reportsController.js:11-160 | a saved new report that is resolved and then reopened through the update route leaves the store exactly as it was after creation, with no resolution time ever stored |
| Reports.MergeIdempotent | Airguard/Airguard-Final-Ruq/project/backend/controllers/reportsController.js:97-149 | applying the same update twice at the same moment equals applying it once |
| Reports.PublicId | Airguard/Airguard-Final-Ruq/project/backend/controllers/reportsController.js:169 | the derived storage id holds no '/' and no '.' |
| Reports.PublicIdOfUrl | Airguard/Airguard-Final-Ruq/project/backend/controllers/reportsController.js:169 | for a URL ending in `/name.ext` the storage id is `name` |
| Reports.Delete | Airguard/Airguard-Final-Ruq/project/backend/controllers/reportsController.js:161-177 | 500 exactly for an id that is no ObjectId, then 404 exactly for an unknown id; otherwise only that report is removed and each of its images is destroyed, in order |
| Auth.GmailCheckMatchesPattern | Airguard/Airguard-Final-Ruq/project/backend/routes/auth.js:12-15 | the Gmail test accepts exactly a non-empty local part of the allowed characters followed by '@gmail.com' |
| Auth.SchemaImpliesGmail | Airguard/Airguard-Final-Ruq/project/backend/models/User.js:9-16 | every address the schema's pattern accepts passes the route's Gmail test and has no `%` or `+` in its local part |
| Auth.FindFirst | Airguard/Airguard-Final-Ruq/project/backend/routes/auth.js:62 | `findOne` finds nothing exactly when no user qualifies, and otherwise a qualifying user |
| Auth.GmailNormalised | Airguard/Airguard-Final-Ruq/project/backend/models/User.js:9-14 | a Gmail address has no blank to trim, so its normal form is its lower-case form, which is again a Gmail address |
| Auth.GmailNormalIdempotent | Airguard/Airguard-Final-Ruq/project/backend/models/User.js:13-14 | normalising a Gmail address twice is normalising it once |
| Auth.UpperGmailNormalises | Airguard/Airguard-Final-Ruq/project/backend/models/User.js:13-14 | a stored lower-case Gmail address spelt in upper case normalises back to itself |
| Auth.RegisterStatus | Airguard/Airguard-Final-Ruq/project/backend/routes/auth.js:42-87 | a registration answers 201 exactly when it succeeds, 400 exactly when one of the route's checks rejects it, and 500 exactly when the schema refuses the save |
| Auth.StoredProfile | Airguard/Airguard-Final-Ruq/project/backend/models/User.js:22-44 | the schema trims the contact and the city, keeps the birth date, and fills an absent country with "Pakistan", an absent disease list with the empty list and an absent alert flag with false, keeping each given value |
| Auth.NewUser | Airguard/Airguard-Final-Ruq/project/backend/routes/auth.js:76-80 | the new user has the trimmed name, the normalised address, the password's hash, the stored profile and no reset token |
| Auth.Register | Airguard/Airguard-Final-Ruq/project/backend/routes/auth.js:36-88 | the checks run in order (missing field, not Gmail, undeliverable, normalised e-mail taken, trimmed name taken), each rejection holding exactly when the earlier checks pass and its own fails; then the save fails exactly when the schema refuses the user; a success appends the user the schema stores, with the trimmed name, the normalised address, the password's hash and the profile's defaults |
| Auth.PercentOrPlusFailsOnSave | Airguard/Airguard-Final-Ruq/project/backend/models/User.js:15 | an address whose local part holds `%` or `+` passes every check of the route and, when new, the schema refuses it, so registration answers 500 |
| Auth.PercentOrPlusNotSchema | Airguard/Airguard-Final-Ruq/project/backend/models/User.js:15 | lower-casing a Gmail address with `%` or `+` in its local part, which is all normalising it does, gives an address the schema's pattern refuses |
| Auth.RegisterKeepsUnique | Airguard/Airguard-Final-Ruq/project/backend/routes/auth.js:61-80 | registration keeps e-mail addresses and names unique and every stored address a lower-case Gmail address |
| Auth.AppendKeepsUnique | Airguard/Airguard-Final-Ruq/project/backend/routes/auth.js:61-80 | appending a user with a new lower-case Gmail address and a new name keeps addresses and names unique and every address a lower-case Gmail address |
| Auth.WithEmail | Airguard/Airguard-Final-Ruq/project/backend/routes/auth.js:100 | `findOne({email})` normalises the address first; it finds nothing exactly when no user holds the normalised address, and otherwise the first user holding it |
| Auth.Login | Airguard/Airguard-Final-Ruq/project/backend/routes/auth.js:90-128 | 400 for a missing field, 404 exactly for an address whose normal form no user holds; for a known address 200 exactly when the password matches the first holder's hash and 400 otherwise; a token exactly on 200, signed for that first holder, who is returned |
| Auth.LoginOfStoredUser | Airguard/Airguard-Final-Ruq/project/backend/routes/auth.js:90-128 | with distinct addresses a stored user logs in under any spelling of their address that normalises to it, exactly with a password matching their own hash, and is otherwise refused with 400 |
| Auth.RegisterThenLogin | Airguard/Airguard-Final-Ruq/project/backend/routes/auth.js:76-112 | a freshly registered user logs in with their password and gets a token for their id |
| Auth.ResetPassword | Airguard/Airguard-Final-Ruq/project/backend/routes/auth.js:185-219 | 200 exactly when some user holds the token's hash unexpired; that user gets the new hash and loses the token, and nothing else changes |
| Auth.ResetTokenSingleUse | Airguard/Airguard-Final-Ruq/project/backend/routes/auth.js:198-212 | a reset token works once |
| Auth.ForgotPassword | Airguard/Airguard-Final-Ruq/project/backend/routes/auth.js:131-182 | 400 without an address, 404 exactly when no user holds its normal form; otherwise only the first user with the normalised address stores the fresh token's hash, valid for one hour |
| Auth.ForgotThenReset | Airguard/Airguard-Final-Ruq/project/backend/routes/auth.js:146-152 | a token issued by the forgot step resets the password within the hour |
| Auth.ResetPasswordAsWritten | Airguard/Airguard-Final-Ruq/project/backend/routes/auth.js:185-219 | as written, the reset never succeeds and changes no user; it answers 400 exactly for a missing field |
| Auth.ForgotPasswordAsWritten | Airguard/Airguard-Final-Ruq/project/backend/routes/auth.js:131-182 | as written, the forgot step never succeeds and changes no user; it answers 400 exactly without an address and 404 exactly for an address whose normal form no user holds |
| Auth.ResetAsWrittenFailsWhereIntendedSucceeds | Airguard/Airguard-Final-Ruq/project/backend/routes/auth.js:195 | wherever the intended reset succeeds, the written one answers 500 |
| Json.TruthinessDiffersOnEmptyContainers | Airguard/Airguard-Final-Ruq/project/forecast_service/app.py:130 | Python's truth test and JavaScript's disagree exactly on an empty list and an empty object |
| Json.Get | Airguard/Airguard-Final-Ruq/project/forecast_service/app.py:124-126 | `dict.get` finds a value exactly for a present key, and it is that key's value |
| Json.Prop | Airguard/Airguard-Final-Ruq/project/backend/routes/forecastRouter.js:14 | optional chaining yields a value only for a present property of an object |
| Json.JsNumber | Airguard/Airguard-Final-Ruq/project/backend/routes/forecastRouter.js:17 | `Number` gives a finite number or NaN, keeps a JSON number and turns `undefined` into NaN; an empty array is 0, a one-element array converts as its element's string form would, and two or more elements give NaN |
| Json.ElementNumber | Airguard/Airguard-Final-Ruq/project/backend/routes/forecastRouter.js:17 | the only element of an array converts through its string form: `null` is 0, a boolean or object is NaN, a number is kept, a string goes through the string conversion |
| Json.SingletonKeepsNumber | Airguard/Airguard-Final-Ruq/project/backend/routes/forecastRouter.js:17 | wrapping a non-boolean value in any number of one-element arrays leaves its number unchanged |
| Json.NumToJson | Airguard/Airguard-Final-Ruq/project/backend/routes/forecastRouter.js:31 | serialising writes a finite number as itself and NaN as `null` |
| ForecastService.TrainData | Airguard/Airguard-Final-Ruq/project/forecast_service/app.py:86-94 | training data is found exactly for an object with a `data` field, and then is a list of at least two records |
| ForecastService.Records | Airguard/Airguard-Final-Ruq/project/forecast_service/app.py:96-98 | the series is built exactly when every record has a parseable `intervalStart` and an `aqi`, and then holds one time and one value per record, in order |
| ForecastService.Train | Airguard/Airguard-Final-Ruq/project/forecast_service/app.py:75-110 | 200 or 400 only; a 400 leaves the model files as they were; a non-JSON request or a body without usable data is refused; a success stores both fitted models |
| ForecastService.TrainOverwritesBoth | Airguard/Airguard-Final-Ruq/project/forecast_service/app.py:100-103 | a successful training leaves the same files whatever was stored before |
| ForecastService.TrainNeedsObject | Airguard/Airguard-Final-Ruq/project/forecast_service/app.py:86-89 | a body that is not an object is refused and changes nothing |
| ForecastService.Trunc | Airguard/Airguard-Final-Ruq/project/forecast_service/app.py:124 | `int` of a float truncates towards zero |
| ForecastService.Steps | Airguard/Airguard-Final-Ruq/project/forecast_service/app.py:124 | the step count defaults to 6 and is the truncated number when one is sent |
| ForecastService.LastWeek | Airguard/Airguard-Final-Ruq/project/forecast_service/app.py:131-136 | the query returns exactly the stored records of the last seven days, oldest first |
| ForecastService.SourceOf | Airguard/Airguard-Final-Ruq/project/forecast_service/app.py:130 | the request's own history is used exactly when both its timestamps and its values are truthy |
| ForecastService.Values | Airguard/Airguard-Final-Ruq/project/forecast_service/app.py:145-151 | the values position accepts a list as it is or a string as its characters; any other value, an object included, is refused |
| ForecastService.ParseTimes | Airguard/Airguard-Final-Ruq/project/forecast_service/app.py:144 | the times parse exactly when every one is a parseable string, giving one time per string in order |
| ForecastService.ChooseHistory | Airguard/Airguard-Final-Ruq/project/forecast_service/app.py:129-149 | from the database: 404 exactly for an empty week, else the week's times; from the request: 400 exactly for lists of different lengths, never 404, else the request's own times and values |
| ForecastService.EnsureModels | Airguard/Airguard-Final-Ruq/project/forecast_service/app.py:153-162 | both stored models are used as they are; if either file is missing both are refitted and both overwritten |
| ForecastService.ForecastTimes | Airguard/Airguard-Final-Ruq/project/forecast_service/app.py:166-167 | one forecast time per step, the i-th step 10 i minutes after the last history time |
| ForecastService.ReadRequest | Airguard/Airguard-Final-Ruq/project/forecast_service/app.py:119-126 | a falsy body is a 400, a truthy non-object a 500; otherwise the steps and the history object are read |
| ForecastService.Answer | Airguard/Airguard-Final-Ruq/project/forecast_service/app.py:129-180 | a body exactly on 200; 404 exactly for a database history with an empty week; a failed history choice is passed on with the files untouched; a chosen history answers 200 exactly when the models are at hand and both predict; a 200 carries the chosen history, both models' forecasts for the steps and times continuing from the history's last element |
| ForecastService.Respond | Airguard/Airguard-Final-Ruq/project/forecast_service/app.py:160-180 | an error history is answered as it stands; a chosen history gives 200 exactly when the models are at hand and both predict, else 500, and a 200 body carries that history, the two forecasts and the times continuing from its last element |
| ForecastService.Forecast | Airguard/Airguard-Final-Ruq/project/forecast_service/app.py:112-186 | the status is 200, 400, 404 or 500, a body comes exactly with 200, a malformed body leaves the files alone, and a well-formed request is answered from its own steps and history |
| ForecastService.NoFitWhenBothPresent | Airguard/Airguard-Final-Ruq/project/forecast_service/app.py:153-156 | with both files present nothing is fitted and the files stay |
| ForecastService.MissRefitsBoth | Airguard/Airguard-Final-Ruq/project/forecast_service/app.py:157-162 | a missing file refits both models on the history and overwrites both |
| ForecastService.EmptyWeekIsNotFound | Airguard/Airguard-Final-Ruq/project/forecast_service/app.py:130-140 | a request without its own history and an empty last week gets 404 and leaves the files alone |
| ForecastService.ForecastFollowsListOrder | Airguard/Airguard-Final-Ruq/project/forecast_service/app.py:166-167 | for every inline history answered with 200, the forecast times continue from the last element of the list, not the latest time, so a point earlier in the list more than ten minutes after it lies beyond the first forecast time |
| ForecastProxy.NormalizeZ | Airguard/Airguard-Final-Ruq/project/backend/routes/forecastRouter.js:15 | a final 'Z' becomes '+00:00'; any other string is kept |
| ForecastProxy.NormalizeZIdempotent | Airguard/Airguard-Final-Ruq/project/backend/routes/forecastRouter.js:15 | the rewrite leaves no final 'Z', so rewriting twice equals rewriting once |
| ForecastProxy.NormalizeZKeepsPrefix | Airguard/Airguard-Final-Ruq/project/backend/routes/forecastRouter.js:15 | everything before the final character is kept and nothing gets shorter |
| ForecastProxy.StepsOrSix | Airguard/Airguard-Final-Ruq/project/backend/routes/forecastRouter.js:11 | a falsy numeric value (missing, null, 0, NaN) becomes 6, any other number is kept |
| ForecastProxy.ZoneOrDefault | Airguard/Airguard-Final-Ruq/project/backend/routes/forecastRouter.js:12 | a falsy zone becomes 'Zone 1', a truthy one is kept |
| ForecastProxy.Timestamps | Airguard/Airguard-Final-Ruq/project/backend/routes/forecastRouter.js:14-16 | a list of strings is rewritten element by element, a list holding a non-string throws, and anything else gives [] |
| ForecastProxy.AqiValues | Airguard/Airguard-Final-Ruq/project/backend/routes/forecastRouter.js:17 | a list is converted element by element to numbers or `null`, and anything else gives [] |
| ForecastProxy.ForecastPayload | Airguard/Airguard-Final-Ruq/project/backend/routes/forecastRouter.js:10-19 | building fails exactly when a timestamp is not a string; a built payload carries the defaulted non-zero step count, the defaulted zone, the rewritten timestamps and the converted values |
| ForecastProxy.StepsOfSingleton | Airguard/Airguard-Final-Ruq/project/backend/routes/forecastRouter.js:11 | a step count sent as a one-element list (`[7]`, `["7"]`) counts as its element |
| ForecastProxy.Relay | Airguard/Airguard-Final-Ruq/project/backend/routes/forecastRouter.js:40-53 | a 2xx reply is passed on as 200, another reply status is passed on, and no reply is a 500 |
| ForecastProxy.ProxyForecast | Airguard/Airguard-Final-Ruq/project/backend/routes/forecastRouter.js:5-55 | the request is unhandled exactly when building the payload throws; otherwise an empty list is a 400 and anything else is relayed |
| ForecastProxy.ForwardedHistoryIsInline | Airguard/Airguard-Final-Ruq/project/backend/routes/forecastRouter.js:21-31 | everything forwarded carries non-empty lists, so the service never falls back to its database and never answers 404 |
| ForecastProxy.MismatchRejectedDownstream | Airguard/Airguard-Final-Ruq/project/backend/routes/forecastRouter.js:21-25 | the proxy does not compare the lengths; when they differ the service answers 400 and the proxy relays it |
| ForecastProxy.TrainRecords | Airguard/Airguard-Final-Ruq/project/backend/routes/forecastRouter.js:61-70 | a readable `data` list is taken as it is, one with an unreadable record throws, and anything else gives [] |
| ForecastProxy.TrainPayloadAsWritten | Airguard/Airguard-Final-Ruq/project/backend/routes/forecastRouter.js:63-72 | the payload as written carries no `data` field |
| ForecastProxy.TrainModelsAsWritten | Airguard/Airguard-Final-Ruq/project/backend/routes/forecastRouter.js:57-91 | the route composed with the service as written: 500 when reading throws, 400 for no records, otherwise what the service answers |
| ForecastProxy.TrainModelsNeverSucceeds | Airguard/Airguard-Final-Ruq/project/backend/routes/forecastRouter.js:63-89 | as written no request ever trains: the answer is never 200 and the files never change |
| ForecastProxy.TrainPayload | Airguard/Airguard-Final-Ruq/project/backend/routes/forecastRouter.js:63-72 | the corrected payload sends the records under `data`, one per record, with the rewritten start and the numeric AQI |
| ForecastProxy.TrainModels | Airguard/Airguard-Final-Ruq/project/backend/routes/forecastRouter.js:57-91 | with the corrected payload: the same 500 and 400 cases, and a failure changes no file |
| ForecastProxy.TrainModelsTrains | Airguard/Airguard-Final-Ruq/project/backend/routes/forecastRouter.js:57-91 | with the corrected payload, two or more records whose starts parse, and fits that succeed, train both models on exactly those records and answer 200 |
| Categories.Classify | Airguard/Airguard-Final-Ruq/project/frontend/src/constants/aqiColors.jsx:4-18 | the scale puts every number in exactly the category whose range holds it: inclusive upper bounds 50, 100, 150, 200 and 300, Hazardous above |
| Categories.WithinUnique | Airguard/Airguard-Final-Ruq/project/frontend/src/constants/aqiColors.jsx:4-18 | no number lies in two categories |
| Categories.ClassifyMonotone | Airguard/Airguard-Final-Ruq/project/frontend/src/constants/aqiColors.jsx:4-18 | a larger value never gets a less severe category |
| Categories.LabelsDistinct | Airguard/Airguard-Final-Ruq/project/frontend/src/constants/aqiColors.jsx:6-16 | distinct categories have distinct labels and distinct class-name keys |
| Categories.AqiColors | Airguard/Airguard-Final-Ruq/project/frontend/src/constants/aqiColors.jsx:4-18 | the shared classifier gives a number its scale category, a value that does not convert (NaN) Hazardous, with the category's label and `bg-aqi-` class |
| Categories.AqiColorsTotalAndMonotone | Airguard/Airguard-Final-Ruq/project/frontend/src/constants/aqiColors.jsx:4-18 | every number, negatives included (as Good), gets exactly one category, and severity never drops as the value grows |
| Categories.HealthCategory | Airguard/Airguard-Final-Ruq/project/frontend/src/components/HealthRecommendations.jsx:19-27 | agrees with the scale on every number, and calls a missing or NaN value Good where the shared classifier says Hazardous |
| Categories.RecommendationBand | Airguard/Airguard-Final-Ruq/project/frontend/src/components/Home/AqiRecommendations.jsx:4-47 | a band exactly for non-negative numbers outside the gaps between one integer bound and the next, and then the scale's category |
| Categories.RecommendationLevel | Airguard/Airguard-Final-Ruq/project/frontend/src/components/Home/AqiRecommendations.jsx:4-50 | the heading is never empty: the band's label, or 'Unknown' exactly where no band holds |
| Categories.RecommendationOnIntegers | Airguard/Airguard-Final-Ruq/project/frontend/src/components/Home/AqiRecommendations.jsx:4-47 | on non-negative integers the bands are the scale |
| Categories.MapCategory | Airguard/Airguard-Final-Ruq/project/frontend/src/components/HomeMap.jsx:71-79 | 'unknown' exactly for values that are not positive numbers; any positive number gets the scale's category |
| Categories.FullscreenColour | Airguard/Airguard-Final-Ruq/project/frontend/src/components/FullscreenMapPage.jsx:22-28 | gray exactly where the map classifier of lines 12-20 says 'unknown'; otherwise green, yellow, orange for the first three categories and red for the three worst |
| Categories.DashboardCategory | Airguard/Airguard-Final-Ruq/project/frontend/src/pages/Dashboard.jsx:242-250 | numbers follow the scale; any falsy value, NaN included, is Good |
| Categories.HomeCategory | Airguard/Airguard-Final-Ruq/project/frontend/src/pages/Home.jsx:107-114 | the home page's classifier is exactly the shared one |
| Categories.FirstRange | Airguard/Airguard-Final-Ruq/project/frontend/src/pages/UserDashboard.jsx:278-285 | the first range holding the value, and none exactly when no range holds it |
| Categories.RangeCategoryDeviation | Airguard/Airguard-Final-Ruq/project/frontend/src/pages/UserDashboard.jsx:110-117 | the range table agrees with the scale on 0 to 500 outside the gaps; negatives, values above 500, NaN and values in a gap (such as 50.5) are all Hazardous |
| Categories.RangeCategoryAbove500 | Airguard/Airguard-Final-Ruq/project/frontend/src/pages/UserDashboard.jsx:278-285 | above 500 both the table's fallback and the scale say Hazardous |
| Categories.AdviceAsWritten | Airguard/Airguard-Final-Ruq/project/frontend/src/pages/UserDashboard.jsx:935-941 | as written: avoid-outdoors exactly for Very Unhealthy and worse, reduce exactly for the two middle categories, safe exactly for Good and Moderate; the limiting text is never shown |
| Categories.UnhealthyGetsModerateAdvice | Airguard/Airguard-Final-Ruq/project/frontend/src/pages/UserDashboard.jsx:935-941 | an Unhealthy value gets the moderate text |
| Categories.HomeAdvice | Airguard/Airguard-Final-Ruq/project/frontend/src/pages/Home.jsx:720-725 | the home page applies the same chain to the overall AQI with a falsy value read as 0, so it never shows the limiting text either |
| Categories.Advice | Airguard/Airguard-Final-Ruq/project/frontend/src/pages/UserDashboard.jsx:935-941 | corrected: each text covers whole categories, and the limiting text is shown exactly for Unhealthy |
| Categories.AdviceDiffersOnlyOnUnhealthy | Airguard/Airguard-Final-Ruq/project/frontend/src/pages/UserDashboard.jsx:935-941 | the corrected chain and the written one differ exactly on the Unhealthy category |
| Categories.CardColour | Airguard/Airguard-Final-Ruq/project/frontend/src/components/PollutantCard.jsx:5-12 | the card's colour is the palette entry of the shared classifier's category |
| Categories.CardColourMonotone | Airguard/Airguard-Final-Ruq/project/frontend/src/components/PollutantCard.jsx:5-12 | the palette is one-to-one, so the colour determines the category, whose severity grows with the value |
| Categories.BarWidth | Airguard/Airguard-Final-Ruq/project/frontend/src/components/PollutantCard.jsx:34 | the width is a number exactly when the AQI is not NaN, at most 100, equal to 100 exactly from 500 on, and non-negative for non-negative values |
| Categories.PollutantCard | Airguard/Airguard-Final-Ruq/project/frontend/src/components/PollutantCard.jsx:23-37 | the badge and the bar share the category colour, and the bar has the computed width |
| Health.CalculateAge | Airguard/Airguard-Final-Ruq/project/frontend/src/components/HealthRecommendations.jsx:5-16 | a missing, empty or unparseable birth date gives the default age 30; otherwise the result is the number of birthdays passed: the last counted one falls on or before today and the next one after it |
| Health.AgeGroupOf | Airguard/Airguard-Final-Ruq/project/frontend/src/components/HealthRecommendations.jsx:30 | the three groups partition the ages: child below 18, adult from 18 to 64, senior from 65 |
| Health.TableTotal | Airguard/Airguard-Final-Ruq/project/frontend/src/components/HealthRecommendations.jsx:35-123 | the advice lookups are defined for every recognised condition, age group and category the classifier can return, so rendering a section never looks up a missing row |
| Health.Recommend | Airguard/Airguard-Final-Ruq/project/frontend/src/components/HealthRecommendations.jsx:29-210 | without user data the panel is the unavailable message; it throws exactly when the user has a condition the advice table has as its own key and also a condition named like a property every object inherits, and then on such a name; otherwise the condition sections are exactly the user's recognised conditions, the category is the health classifier's for the AQI with a missing value as 0, and the senior note shows exactly when no condition is recognised and the age is non-zero and at least 65 |
| Health.InheritedConditionCrashes | Airguard/Airguard-Final-Ruq/project/frontend/src/components/HealthRecommendations.jsx:125-172 | the conditions "Respiratory conditions" and "constructor" make the panel throw on "constructor" |
| Health.Sections | Airguard/Airguard-Final-Ruq/project/frontend/src/components/HealthRecommendations.jsx:125-164 | no condition gets a section unless one is an own key of the table; then exactly the conditions whose lookup is truthy get one |
| Health.FirstInherited | Airguard/Airguard-Final-Ruq/project/frontend/src/components/HealthRecommendations.jsx:162-172 | finds an inherited name among the sections exactly when there is one, and it is one of the sections |
| Health.UnrecognisedConditionsShowGeneralOnly | Airguard/Airguard-Final-Ruq/project/frontend/src/components/HealthRecommendations.jsx:125-127 | when none of the listed conditions is in the table, only the general advice is shown |
| Maps.LatestIndex | Airguard/Airguard-Final-Ruq/project/frontend/src/components/HomeMap.jsx:92-97 | the latest reading of a non-empty list has the greatest interval end, and no earlier reading has an end as late |
| Maps.LatestNoneIffEmpty | Airguard/Airguard-Final-Ruq/project/frontend/src/components/HomeMap.jsx:92-97 | there is no latest reading exactly when there are no readings |
| Maps.TieKeepsEarlier | Airguard/Airguard-Final-Ruq/project/frontend/src/components/HomeMap.jsx:93 | of two readings with the same interval end, the first is kept |
| Maps.ShowsAsMarkerExactly | Airguard/Airguard-Final-Ruq/project/frontend/src/components/HomeMap.jsx:107-113 | a report is drawn exactly when it is verified, explicitly unresolved and has finite, non-zero latitude and longitude |
| Maps.ReportMarkers | Airguard/Airguard-Final-Ruq/project/frontend/src/components/HomeMap.jsx:107-124 | a marker is among the report markers exactly when it is the marker of some report that passes the filter |
| Maps.FindSensor | Airguard/Airguard-Final-Ruq/project/frontend/src/components/HomeMap.jsx:132-134 | a sensor is found exactly when some sensor shares the marker's location name or zone |
| Maps.Enrich | Airguard/Airguard-Final-Ruq/project/frontend/src/components/HomeMap.jsx:129-145 | a marker with a type or an AQI is passed through, an uninformed one with a matching sensor takes the latest AQI and its status, and any other is passed through |
| Maps.ReportMarkersValid | Airguard/Airguard-Final-Ruq/project/frontend/src/components/HomeMap.jsx:158-164 | every marker made from a report survives the validity filter, enriched or not |
| Maps.NullCoordinatesPass | Airguard/Airguard-Final-Ruq/project/frontend/src/components/HomeMap.jsx:158-164 | a marker with null coordinates is not filtered out, because null is not NaN |
| Maps.Rendered | Airguard/Airguard-Final-Ruq/project/frontend/src/components/HomeMap.jsx:128-164 | a marker is drawn exactly when it is valid and is the enriched form of a given marker or of a report that passes the filter; every such report is drawn, and no more markers are drawn than were offered |
| Maps.EnrichedMembers | Airguard/Airguard-Final-Ruq/project/frontend/src/components/HomeMap.jsx:128-155 | the enriched list holds exactly the enriched given markers and the enriched report markers |
| Maps.IconOf | Airguard/Airguard-Final-Ruq/project/frontend/src/components/HomeMap.jsx:216-219 | a marker gets the sensor icon exactly when it has no non-empty type; a type naming a property every object inherits ("toString", "constructor", "__proto__" and the rest) finds that property, which is no icon; any other type gets its own icon when the map has one and "Other" otherwise |
| Maps.InheritedTypeDrawnWithoutIcon | Airguard/Airguard-Final-Ruq/project/frontend/src/components/HomeMap.jsx:57-64 | a verified, unresolved report typed with an inherited property name is drawn, and its icon lookup finds that property instead of an icon |
| Maps.Rows | Airguard/Airguard-Final-Ruq/project/frontend/src/components/FullscreenMapPage.jsx:38-54 | one row per sensor, all carrying the single latest reading's AQI, in descending AQI order with a missing value as 0 |
| Maps.RowsKeepSensorOrder | Airguard/Airguard-Final-Ruq/project/frontend/src/components/FullscreenMapPage.jsx:44-54 | since every row has the same AQI the stable sort keeps the sensors in their listed order |
| Dashboard.ThresholdChange | Airguard/Airguard-Final-Ruq/project/frontend/src/pages/Dashboard.jsx:82-90 | a value that converts to a number in 0..500 becomes the sensor's threshold; any other value leaves the thresholds unchanged |
| Dashboard.ThresholdChangeIsLocal | Airguard/Airguard-Final-Ruq/project/frontend/src/pages/Dashboard.jsx:82-90 | no other sensor's threshold is added, removed or changed |
| Dashboard.StoredOrDefault | Airguard/Airguard-Final-Ruq/project/frontend/src/pages/Dashboard.jsx:71 | a stored threshold that is missing or 0 gives way to the current default; any other is kept |
| Dashboard.LoadThresholds | Airguard/Airguard-Final-Ruq/project/frontend/src/pages/Dashboard.jsx:62-79 | loading the sensors gives one threshold per loaded id, the last sensor with that id deciding its stored threshold or the current default |
| Dashboard.LoadStep | Airguard/Airguard-Final-Ruq/project/frontend/src/pages/Dashboard.jsx:70-72 | the ids of a list are those of all but its last sensor together with the last one's |
| Dashboard.EditSensor | Airguard/Airguard-Final-Ruq/project/frontend/src/pages/Dashboard.jsx:144-154 | opening a sensor for editing resets its threshold to the stored one or the current default, and no other sensor's entry changes |
| Dashboard.SubmitSensor | Airguard/Airguard-Final-Ruq/project/frontend/src/pages/Dashboard.jsx:92-124 | nothing is sent exactly when one of the four fields is empty; the body carries the form's zone, name and parsed coordinates; an add sends the current default threshold, an edit targets the sensor being edited and sends its own non-zero threshold, falling back to the current default |
| Dashboard.ZeroThresholdNotSent | Airguard/Airguard-Final-Ruq/project/frontend/src/pages/Dashboard.jsx:82-110 | a threshold of 0 is accepted by the change handler yet the edit then sends the current default instead |
| Dashboard.EditThenSubmit | Airguard/Airguard-Final-Ruq/project/frontend/src/pages/Dashboard.jsx:92-154 | opening a sensor and saving it at once sends its stored threshold, or the default in force when it has none |
| Dashboard.VerifyClick | Airguard/Airguard-Final-Ruq/project/frontend/src/pages/Dashboard.jsx:176-192 | choosing rejected opens an empty comment dialog for that report and sends nothing; any other status is sent at once without a comment |
| Dashboard.RejectSubmit | Airguard/Airguard-Final-Ruq/project/frontend/src/pages/Dashboard.jsx:194-215 | a rejection is sent exactly when the comment holds a character other than the white space and line terminators `trim` removes, and then carries that comment and the modal's report id, even a missing one |
| Dashboard.RejectionsCarryComment | Airguard/Airguard-Final-Ruq/project/frontend/src/pages/Dashboard.jsx:176-215 | whichever handler sends it, a rejection always carries a non-blank comment |
| Dashboard.NoBreakSpaceCommentRefused | Airguard/Airguard-Final-Ruq/project/frontend/src/pages/Dashboard.jsx:194-198 | a comment of no-break and ideographic spaces counts as blank, so no rejection is sent |
| Dashboard.Partition | Airguard/Airguard-Final-Ruq/project/frontend/src/pages/Dashboard.jsx:262-263 | every report is in exactly one of the archived and active lists, as a multiset |
| Dashboard.Highest | Airguard/Airguard-Final-Ruq/project/frontend/src/pages/Dashboard.jsx:266 | the highest AQI is at least 0, bounds every sensor's AQI with a missing value as 0, and is one of them unless it is 0 |
| Dashboard.BannerIffAbove200 | Airguard/Airguard-Final-Ruq/project/frontend/src/pages/Dashboard.jsx:266-289 | the emergency banner shows exactly when some sensor reports an AQI above 200 |
| UserDashboard.Entries | Airguard/Airguard-Final-Ruq/project/frontend/src/pages/UserDashboard.jsx:266-273 | one entry per pollutant, in the listed order, each holding the pollutant's AQI with a missing value as 0 |
| UserDashboard.WithKeyHead | Airguard/Airguard-Final-Ruq/project/frontend/src/pages/UserDashboard.jsx:274 | among the entries with one key, the stable sort keeps the first of them first |
| UserDashboard.SortHeadIsFirstMax | Airguard/Airguard-Final-Ruq/project/frontend/src/pages/UserDashboard.jsx:274-275 | the head of the stable descending sort is the first entry with the greatest value |
| UserDashboard.Dominant | Airguard/Airguard-Final-Ruq/project/frontend/src/pages/UserDashboard.jsx:264-276 | no pollutants give no dominant pollutant; otherwise it is the first listed pollutant with the greatest AQI |
| UserDashboard.FirstMaxIndex | Airguard/Airguard-Final-Ruq/project/frontend/src/pages/UserDashboard.jsx:274-275 | the position holds a greatest value and no earlier position holds one as great |
| UserDashboard.DominantTieGoesToPm25 | Airguard/Airguard-Final-Ruq/project/frontend/src/pages/UserDashboard.jsx:264-276 | with all values equal, fine particles are the dominant pollutant |
| UserDashboard.BoxesDisjoint | Airguard/Airguard-Final-Ruq/project/frontend/src/pages/UserDashboard.jsx:287-292 | no point lies in two zone boxes |
| UserDashboard.DetermineZone | Airguard/Airguard-Final-Ruq/project/frontend/src/pages/UserDashboard.jsx:438-451 | a point inside a zone's box selects that zone; a point in no box selects the first zone |
| UserDashboard.FirstBox | Airguard/Airguard-Final-Ruq/project/frontend/src/pages/UserDashboard.jsx:439-448 | scanning from a position finds the box containing the point among the remaining ones, or falls back to the first zone |
| UserDashboard.Search | Airguard/Airguard-Final-Ruq/project/frontend/src/pages/UserDashboard.jsx:333-342 | a zone is found exactly when some zone name equals the trimmed query ignoring case, and the found zone is one of them |
| UserDashboard.SearchIgnoresCase | Airguard/Airguard-Final-Ruq/project/frontend/src/pages/UserDashboard.jsx:333-342 | among names that differ in more than case, a query matching a name up to case and blanks finds that very name |
| UserDashboard.ZoneNamesCaseDistinct | Airguard/Airguard-Final-Ruq/project/frontend/src/pages/UserDashboard.jsx:287-292 | the zone names differ in more than case, so the search is unambiguous |
| UserDashboard.CarouselStaysInRange | Airguard/Airguard-Final-Ruq/project/frontend/src/pages/UserDashboard.jsx:1556-1625 | with at least one report both buttons keep the index on a report, move it by at most one, and stand still only at the ends |
| UserDashboard.TotalAppend | Airguard/Airguard-Final-Ruq/project/frontend/src/pages/UserDashboard.jsx:1663 | the report total over two lists of counts is the sum of their totals |
| UserDashboard.Bump | Airguard/Airguard-Final-Ruq/project/frontend/src/pages/UserDashboard.jsx:1657-1658 | counting one more report raises the total by one, keeps every user in place, and adds a user only at the end with a count of 1 |
| UserDashboard.TallyTotal | Airguard/Airguard-Final-Ruq/project/frontend/src/pages/UserDashboard.jsx:1654-1663 | the leaderboard's total is the number of verified reports that name a user |
| UserDashboard.Leaderboard | Airguard/Airguard-Final-Ruq/project/frontend/src/pages/UserDashboard.jsx:1665 | the board is a permutation of the per-user counts, in non-increasing count order, and users with equal counts keep the order in which the reports first named them |
| UserDashboard.Rank | Airguard/Airguard-Final-Ruq/project/frontend/src/pages/UserDashboard.jsx:1672-1673 | the rank is the first position of the current user on the board, or -1 when they have no name or are not on it |
| UserDashboard.RankRowComplementsTopFive | Airguard/Airguard-Final-Ruq/project/frontend/src/pages/UserDashboard.jsx:1681-1700 | a user on the board appears exactly once: among the first five entries, or in the extra rank row |
| UserDashboard.Initials | Airguard/Airguard-Final-Ruq/project/frontend/src/pages/UserDashboard.jsx:1666 | an empty or missing name gives "?"; otherwise at most two upper-cased letters, never a space |
| UserDashboard.FirstsHaveNoSpace | Airguard/Airguard-Final-Ruq/project/frontend/src/pages/UserDashboard.jsx:1666 | the first letters of words split at spaces contain no space |
| UserDashboard.InitialsOfOneWord | Airguard/Airguard-Final-Ruq/project/frontend/src/pages/UserDashboard.jsx:1666 | a one-word name gives its upper-cased first letter alone |
| UserDashboard.HomeNoBoxDominant | Airguard/Airguard-Final-Ruq/project/frontend/src/pages/Home.jsx:77-698 | the home page's dominant pollutant stays "N/A", so none of the four pollutant boxes is marked dominant |
| HistoricalPages.StartDate | Airguard/Airguard-Final-Ruq/project/frontend/src/pages/HistoricalReport.jsx:19-25 | the window starts one day back for "24h", seven days back for "7d", and has no start for any other choice |
| HistoricalPages.Params | Airguard/Airguard-Final-Ruq/project/frontend/src/pages/HistoricalReport.jsx:28 | the start parameter is sent exactly for the two bounded ranges, and nothing else is |
| HistoricalPages.Transform | Airguard/Airguard-Final-Ruq/project/frontend/src/pages/HistoricalReport.jsx:34-66 | the row's overall AQI is the record's with a missing value as 0 and its category that AQI's; the particle AQIs are 2.5 and 1.5 times the averages rounded to the nearest integer; the gases are 0; the dominant pollutant falls back to fine particles |
| HistoricalPages.TransformAgreesWithDashboard | Airguard/Airguard-Final-Ruq/project/frontend/src/pages/HistoricalReportAdmin.jsx:35-67 | the page's category is the one the admin dashboard gives the same AQI |
| HistoricalPages.Rows | Airguard/Airguard-Final-Ruq/project/frontend/src/pages/HistoricalReport.jsx:34-72 | every shown row is the row of some fetched record |
| HistoricalPages.ZoneFilterKeepsAll | Airguard/Airguard-Final-Ruq/project/frontend/src/pages/HistoricalReport.jsx:45-72 | the zone filter never removes a row: each record gives exactly one row, in record order, whatever zone is chosen |
| HistoricalPages.Settle | Airguard/Airguard-Final-Ruq/project/frontend/src/pages/HistoricalReport.jsx:77-81 | at most the allowed retries are made, only after refused connections, each wait double the one before, and the kept outcome is the first one not retried |
| HistoricalPages.FetchHistorical | Airguard/Airguard-Final-Ruq/project/frontend/src/pages/HistoricalReport.jsx:14-91 | at most three retries, waiting 1, 2, then 4 seconds; success shows the rows of the last attempt, any failure shows none, and the connection error is reported exactly when the last attempt was refused |
| HistoricalPages.AlwaysRefused | Airguard/Airguard-Final-Ruq/project/frontend/src/pages/HistoricalReportAdmin.jsx:79-90 | a server that always refuses is tried four times and the page ends empty with the connection error |
| HistoricalPages.OtherFailureNotRetried | Airguard/Airguard-Final-Ruq/project/frontend/src/pages/HistoricalReport.jsx:77-87 | a failure other than a refused connection is not retried |
| HistoricalPages.CanDownload | Airguard/Airguard-Final-Ruq/project/frontend/src/pages/HistoricalReport.jsx:94-97 | the report is only produced from some data |
| HistoricalPages.DownloadAfterFetch | Airguard/Airguard-Final-Ruq/project/frontend/src/pages/HistoricalReport.jsx:74-97 | after a failed fetch nothing can be downloaded; after a successful one, something can exactly when some record came back |
| ReportForm.SentType | Airguard/Airguard-Final-Ruq/project/frontend/src/pages/ReportPollution.jsx:122-125 | the free text is sent when "other" is chosen, the chosen option otherwise |
| ReportForm.Submit | Airguard/Airguard-Final-Ruq/project/frontend/src/pages/ReportPollution.jsx:94-198 | a submit without a user name, then one without a picked point, is refused; otherwise it carries the sent type, the picked point and the location name with the typed location as fallback; a new report is always multipart with the user and the images; an edit is multipart exactly when new images were chosen, and a JSON edit asks to clear the images exactly when the stored report has some |
| ReportForm.CreatedReportsNamed | Airguard/Airguard-Final-Ruq/project/frontend/src/pages/ReportPollution.jsx:96-99 | a new report is never filed without a user name |
| ReportForm.LoadType | Airguard/Airguard-Final-Ruq/project/frontend/src/pages/ReportPollution.jsx:264-269 | a known option loads as itself with no free text; any other type loads as "other" with the type as its free text |
| ReportForm.HandleEdit | Airguard/Airguard-Final-Ruq/project/frontend/src/pages/ReportPollution.jsx:241-273 | only the owner may edit; editing starts with no new images, a point exactly when both stored coordinates are truthy, and the loaded type fields |
| ReportForm.LoadThenSendType | Airguard/Airguard-Final-Ruq/project/frontend/src/pages/ReportPollution.jsx:122-125 | loading a stored type and sending it again gives the same type back |
| ReportForm.EditWithoutNewImagesClears | Airguard/Airguard-Final-Ruq/project/frontend/src/pages/ReportPollution.jsx:186-198 | opening a report with images and saving it without choosing new ones sends the JSON edit that clears its images |
| ReportForm.FindReport | Airguard/Airguard-Final-Ruq/project/frontend/src/pages/ReportPollution.jsx:276 | the position found holds the id and no earlier report has it; nothing is found exactly when no report has it |
| ReportForm.HandleDelete | Airguard/Airguard-Final-Ruq/project/frontend/src/pages/ReportPollution.jsx:275-285 | an unknown id throws; a report that is not the user's is refused; the owner is asked to confirm that id |
| ReportForm.OnlyOwnerDeletes | Airguard/Airguard-Final-Ruq/project/frontend/src/pages/ReportPollution.jsx:275-285 | the owner of the first report with an id may delete it, and nobody else may |
| ReportForm.OwnReports | Airguard/Airguard-Final-Ruq/project/frontend/src/pages/ReportPollution.jsx:674-686 | the list is a permutation of the user's own reports, rejected ones first and newest first within each group |
| ReportForm.OptionsMissIconKeys | Airguard/Airguard-Final-Ruq/project/frontend/src/pages/ReportPollution.jsx:62-72 | no option value of the form is an icon key of the map, so a report of any option type is drawn with the "Other" icon |
| ReportForm.IconKeyOf | Airguard/Airguard-Final-Ruq/project/frontend/src/components/HomeMap.jsx:57-64 | every option stands for an icon key of the map, and the five options the map has pictures for stand for their own |
| ReportForm.ReportIcon | Airguard/Airguard-Final-Ruq/project/frontend/src/components/HomeMap.jsx:216-219 | a report's type, translated to its icon key first, always gets a pollution icon the map has: the map's own lookup of the translated key, so a type naming an inherited property gets "Other" |
| ReportForm.ReportIconsDistinct | Airguard/Airguard-Final-Ruq/project/frontend/src/pages/ReportPollution.jsx:62-72 | with the translation the five options the map has pictures for get five different icons, none of them "Other" |
| ReportForm.ReportIconKeepsIconKeys | Airguard/Airguard-Final-Ruq/project/frontend/src/components/HomeMap.jsx:216-219 | a type that is already an icon key gets the same icon as before the translation |
| Slices.FindId | Airguard/Airguard-Final-Ruq/project/frontend/src/redux/features/repPollutionSlice.js:136 | the position found holds the id and no earlier element has it; nothing is found exactly when no element has it |
| Slices.ReplaceById | Airguard/Airguard-Final-Ruq/project/frontend/src/redux/features/repPollutionSlice.js:134-140 | the length is kept; the first element with the object's id is replaced and every other one kept; without such an element nothing changes |
| Slices.FetchPayload | Airguard/Airguard-Final-Ruq/project/frontend/src/redux/features/repPollutionSlice.js:14 | a list body becomes the list; any other body an empty list |
| Slices.EditPayload | Airguard/Airguard-Final-Ruq/project/frontend/src/redux/features/repPollutionSlice.js:44 | the payload has the report's fields, and its id unless the report names its own |
| Slices.ReducePollution | Airguard/Airguard-Final-Ruq/project/frontend/src/redux/features/repPollutionSlice.js:116-161 | fetching sets loading, then succeeded with the list and no error, or failed with the reason; a saved edit only touches the list; the other successes change nothing; every other rejection only sets the error |
| Slices.EditReplacesOnlyItsReport | Airguard/Airguard-Final-Ruq/project/frontend/src/redux/features/repPollutionSlice.js:134-140 | a saved edit replaces the first report with the edited id by the edited fields and leaves every other report as it was |
| Slices.EditOfUnknownIdChangesNothing | Airguard/Airguard-Final-Ruq/project/frontend/src/redux/features/repPollutionSlice.js:137 | an edit of an id no report has leaves the store as it was |
| Slices.FetchClearsError | Airguard/Airguard-Final-Ruq/project/frontend/src/redux/features/repPollutionSlice.js:116-140 | a successful fetch clears an earlier error; any other success keeps it |
| Slices.SetStatus | Airguard/Airguard-Final-Ruq/project/frontend/src/redux/features/alertSlice.js:111 | only the status field changes, and it is absent exactly when the new status is undefined |
| Slices.ReduceAlerts | Airguard/Airguard-Final-Ruq/project/frontend/src/redux/features/alertSlice.js:69-113 | fetching sets the status and then the alerts or the error; a created alert is appended; an update replaces by id; a delete keeps exactly the alerts without that id; a toggle keeps the length |
| Slices.DeleteKeepsOthersInOrder | Airguard/Airguard-Final-Ruq/project/frontend/src/redux/features/alertSlice.js:100-103 | deleting distributes over concatenation, so the kept alerts stay in their order |
| Slices.ToggleChangesOnlyStatus | Airguard/Airguard-Final-Ruq/project/frontend/src/redux/features/alertSlice.js:106-113 | toggling changes only the status of the first alert with the id, which becomes the toggled one's |
| Slices.CreateAlertAsWritten | Airguard/Airguard-Final-Ruq/project/frontend/src/redux/features/alertSlice.js:15-23 | the store is left as it was, because the payload creator throws on an unbound name |
| Slices.CreateAlert | Airguard/Airguard-Final-Ruq/project/frontend/src/redux/features/alertSlice.js:82-85 | the created alert is appended and nothing else changes |
| Slices.CreateAlertDiscrepancy | Airguard/Airguard-Final-Ruq/project/frontend/src/redux/features/alertSlice.js:15-23 | as written the created alert does not appear in the list; once fixed it appears exactly once more |
| Forms.InputChange | Airguard/Airguard-Final-Ruq/project/frontend/src/pages/LoginPage.jsx:95-118 | unchecking alerts clears the diseases and checking keeps them; a disease box adds one copy of its value or removes every copy, leaving the other diseases' counts; other boxes store their state and other inputs their value |
| Forms.DiseaseToggleRoundTrip | Airguard/Airguard-Final-Ruq/project/frontend/src/pages/LoginPage.jsx:105-109 | checking an unlisted disease and unchecking it again restores the list |
| Forms.Login | Airguard/Airguard-Final-Ruq/project/frontend/src/pages/LoginPage.jsx:38-93 | an empty email or password changes nothing; otherwise the credentials are remembered exactly when asked; the team credentials go to the admin dashboard with the fixed token; the admin dashboard is reached exactly with the team credentials; the user dashboard is reached exactly for other credentials the server accepts, and then the server's token and user e-mail are stored; a login that goes nowhere leaves the token and e-mail as they were |
| Forms.AdminLoginSkipsServer | Airguard/Airguard-Final-Ruq/project/frontend/src/pages/LoginPage.jsx:56-64 | with the team credentials the server's answer has no effect |
| Forms.Body | Airguard/Airguard-Final-Ruq/project/frontend/src/pages/LoginPage.jsx:161-171 | the registration body carries the diseases exactly when alerts are wanted, and the typed email and password |
| Forms.SignUpSubmit | Airguard/Airguard-Final-Ruq/project/frontend/src/pages/LoginPage.jsx:120-144 | the checks run in order, a password mismatch, then one shorter than 8, then an email without '@', and the first failure stops; a valid form with alerts goes to the alert step; otherwise it registers with no diseases |
| Forms.AlertSubmit | Airguard/Airguard-Final-Ruq/project/frontend/src/pages/LoginPage.jsx:146-150 | the alert step registers without checking again, with the diseases exactly when alerts are on |
| Forms.NextView | Airguard/Airguard-Final-Ruq/project/frontend/src/pages/LoginPage.jsx:138-179 | an invalid step keeps the view, the alert step is reached before registering, and the thank-you view exactly when registration succeeds |
| Forms.AlertsSignUpSendsDiseases | Airguard/Airguard-Final-Ruq/project/frontend/src/pages/LoginPage.jsx:138-171 | with alerts on, a valid sign-up first moves to the alert step, whose submit sends the chosen diseases |
| Forms.AlertsOffDropsDiseases | Airguard/Airguard-Final-Ruq/project/frontend/src/pages/LoginPage.jsx:99-104 | switching alerts off before registering sends no diseases, even if some were ticked |
| Forms.SignUpDiseasesGiveNoAdvice | Airguard/Airguard-Final-Ruq/project/frontend/src/pages/LoginPage.jsx:408 | any diseases chosen at sign-up give no condition section in the advice panel |
| Forms.IntendedSignUpDiseasesGiveAdvice | Airguard/Airguard-Final-Ruq/project/frontend/src/components/EditProfile.jsx:243 | with the edit-profile labels every chosen disease gets its own section, in the chosen order |
| Forms.OrText | Airguard/Airguard-Final-Ruq/project/frontend/src/components/EditProfile.jsx:43-48 | a non-empty value is kept and a missing or empty one becomes the fallback |
| Forms.DatePart | Airguard/Airguard-Final-Ruq/project/frontend/src/components/EditProfile.jsx:46 | the date part has no 'T' and is everything before the first 'T' |
| Forms.LoadProfile | Airguard/Airguard-Final-Ruq/project/frontend/src/components/EditProfile.jsx:42-51 | an invalid birth date leaves the form unloaded; otherwise the text fields default to empty, the country to Pakistan, the diseases to none and alerts to off, and a stored birth date loads as the date part (before the first 'T') of its ISO form |
| Forms.LoadedDobIsDate | Airguard/Airguard-Final-Ruq/project/frontend/src/components/EditProfile.jsx:46 | a birth date whose ISO form is a day, a 'T' and a time loads as exactly that day |
| Forms.LoadedDiseasesShowChecked | Airguard/Airguard-Final-Ruq/project/frontend/src/components/EditProfile.jsx:249 | after loading, a disease box is checked exactly when the profile lists that disease |
| AppShell.AuthInit | Airguard/Airguard-Final-Ruq/project/frontend/src/App.jsx:34-47 | signed in exactly with a non-empty token and a stored user; a role exactly when signed in; admin exactly for the team address |
| AppShell.AdminLoginGivesAdminSession | Airguard/Airguard-Final-Ruq/project/frontend/src/App.jsx:40-42 | after logging in with the team credentials the shell reads an admin session |
| AppShell.Layout | Airguard/Airguard-Final-Ruq/project/frontend/src/App.jsx:59-89 | a signed-out visitor is sent to the login page from any other path; a signed-in one on the login path goes to their dashboard; the user bar shows exactly on user pages and the admin bar exactly on admin pages |
| AppShell.AtMostOneNavbar | Airguard/Airguard-Final-Ruq/project/frontend/src/App.jsx:62-82 | no page gets more than one navigation bar |
| AppShell.FooterIffPublicNavbar | Airguard/Airguard-Final-Ruq/project/frontend/src/App.jsx:80-86 | the footer shows exactly when the public bar does |
| AppShell.PathMatches | Airguard/Airguard-Final-Ruq/project/frontend/src/App.jsx:106-215 | a route pattern matches its own spelling in any ASCII case followed by any number of slashes |
| AppShell.IsManageAlertDetail | Airguard/Airguard-Final-Ruq/project/frontend/src/App.jsx:178-184 | `/manageAlert/:id` matches the prefix in any case, one non-empty segment, then only slashes |
| AppShell.Lookup | Airguard/Airguard-Final-Ruq/project/frontend/src/App.jsx:106-215 | no route is found exactly when no pattern matches the path; otherwise the first matching route, none before it matching |
| AppShell.LookupFollowsMatches | Airguard/Airguard-Final-Ruq/project/frontend/src/App.jsx:106-215 | two paths matched by the same patterns look up the same route |
| AppShell.Route | Airguard/Airguard-Final-Ruq/project/frontend/src/App.jsx:106-215 | the login page is rendered exactly for the login path in any case, with or without trailing slashes |
| AppShell.LoginExcludesEarlier | Airguard/Airguard-Final-Ruq/project/frontend/src/App.jsx:106-124 | a spelling of the login path matches neither route listed before it |
| AppShell.RouteIgnoresCaseAndSlash | Airguard/Airguard-Final-Ruq/project/frontend/src/App.jsx:106-215 | a path spelled in another ASCII case with one trailing slash added is routed like the path |
| AppShell.RouteFollows | Airguard/Airguard-Final-Ruq/project/frontend/src/App.jsx:106-215 | the route depends only on the table lookup and the alert-detail test |
| AppShell.TableIgnoresCaseAndSlash | Airguard/Airguard-Final-Ruq/project/frontend/src/App.jsx:106-215 | for a table of patterns with no trailing slash, a case variant with a trailing slash looks up the same route |
| AppShell.MatchIgnoresCaseAndSlash | Airguard/Airguard-Final-Ruq/project/frontend/src/App.jsx:106-215 | a pattern with no trailing slash matches a path exactly when it matches its case variant with a trailing slash |
| AppShell.DetailIgnoresCaseAndSlash | Airguard/Airguard-Final-Ruq/project/frontend/src/App.jsx:178-184 | the alert-detail test does not depend on case or a trailing slash |
| AppShell.CapitalisedDashboardLinkRoutes | Airguard/Airguard-Final-Ruq/project/frontend/src/pages/LoginPage.jsx:298 | the "/UserDashboard" link reaches the guarded user dashboard route |
| AppShell.Render | Airguard/Airguard-Final-Ruq/project/frontend/src/App.jsx:106-215 | a page inside the layout is the route's page for the path in any case, framed by the layout, which reads the path exactly as written, for the stored session |
| AppShell.LayoutNeverSeesLogin | Airguard/Airguard-Final-Ruq/project/frontend/src/App.jsx:120-124 | the layout never receives any spelling of the login path, so the only redirect it makes is to the login page |
| AppShell.UnauthenticatedRedirected | Airguard/Airguard-Final-Ruq/project/frontend/src/App.jsx:70-72 | without a stored session every page inside the layout redirects to the login page |
| AppShell.AlertDetailUsesPublicFrame | Airguard/Airguard-Final-Ruq/project/frontend/src/App.jsx:63-86 | a signed-in user on one alert's page gets the public bar and the footer, since the user page list names only the bare path |
| AppShell.RoutePathsNoSlashAt12 | Airguard/Airguard-Final-Ruq/project/frontend/src/App.jsx:106-215 | no listed route has a '/' at position 12 |
| AppShell.PageListsNoSlashAt12 | Airguard/Airguard-Final-Ruq/project/frontend/src/App.jsx:62-64 | no path in the page lists has a '/' at position 12 |
| AppShell.SecondSlashUnlisted | Airguard/Airguard-Final-Ruq/project/frontend/src/App.jsx:62-215 | a path with a '/' at position 12 followed by another character matches no route pattern and is in no page list |

The forecast service takes the last element of the request's timestamp
list as the latest time and never sorts the list
(forecast_service/app.py:166-167). `ForecastService.ForecastFollowsListOrder`
states the consequence for every inline history.

## Left out

- Rendering, styling, animations, toasts, alerts, translations and console logging: they decide no state.
- HTTP transport, Express and Flask error middleware, request timeouts and CORS: only the status and body each handler chooses are modelled.
- MongoDB queries: the stored documents are parameters. Each query is modelled by the filter it applies, not by its storage or indexes. What the schemas do on a save is modelled by `Readings.Persist`, `Reports.Strip`, `Reports.Create`, `Reports.Update` and `Auth.Register`, and what the user schema does to a query by `Auth.NormEmail`.
- Mongoose casting is modelled only where it decides an answer: a NaN coordinate, a NaN gas value, a date that does not cast, and an id that is no ObjectId. Casting a string field's non-string value, or `null`, is not modelled.
- The unique index on `email` is not modelled: registration checks for the address first, so the index only matters when two registrations race.
- bcrypt, JWT signing, SHA-256, random reset tokens and the e-mail sender: they are function parameters or fixed inputs. Their cryptographic properties are not modelled.
- The e-mail deliverability API: its answer is a parameter of registration.
- The ARIMA and Holt-Winters fits and forecasts: they are parameters. The only fact used about them is that a forecast of `steps` values returns `steps` values.
- Model files on disk: they are a store of two optional fitted models. Pickling and file errors are not modelled.
- Cloudinary uploads and deletions: upload URLs are parameters, and deletion is modelled only as the public ids it would delete.
- The cron schedule of the aggregation job: only one run of its callback is modelled, given the current time.
- Floating point: concentrations, averages and indices are exact reals. IEEE rounding in the interpolation and the averages is not modelled.
- Infinity is not modelled as a JavaScript number.
- Gas values sent as strings or booleans in the reading bodies are not modelled: a body field holds a number or nothing.
- Time zones: `HistoricalRoute.HourOf` floors a time to the whole hour, which matches the server's local hours only for a zone whose offset is a whole number of hours.
- Date parsing and formatting (`new Date`, `toISOString`, `getFullYear` and the like) are parameters. Invalid dates used as sort keys or in comparisons are not modelled: every stored time is an integer.
- JavaScript's `sort` is modelled by a stable insertion sort on the same key. Both are stable, so they order alike for a consistent comparator. Comparators that return `NaN` are not modelled.
- A property that holds `undefined` is modelled as an absent property.
- `ProtectedRoute.jsx` is not part of this model. Routes wrapped in it are reported as guarded, and their layout is not modelled.
- The session reader's two-second delay and its loading page are not modelled: only the session it settles on is.
- The user dashboard's simulated pollutant trend (`Math.random`) and its chart data are not modelled.
- The leaderboard's per-user pollution types and first-report dates are not modelled: they are only displayed.
- The login page's forgot-password and reset forms are not modelled: they relay their fields to the routes modelled in `Auth`.
- The profile page's submit handler is not modelled: it sends the form unchanged.
- A non-checkbox input named `wantsAlerts` or `diseases` is not modelled: the forms render those only as checkboxes.
- The forecast proxy's `TypeError` on a non-string `intervalStart` is modelled as an unhandled outcome. What Express then answers depends on its version, so it is not modelled.
- UserDashboard.Search: folds only ASCII letters. JavaScript's `toLowerCase` also folds non-ASCII letters, so a query "ZONE É" finds a zone named "zone é" there but not in the model. The trimming follows `trim` in full.
- UserDashboard.SearchIgnoresCase: the case-insensitivity it states is ASCII case only, for the reason given for `UserDashboard.Search`.
- UserDashboard.Initials: upper-cases ASCII letters only, and takes a word's first character where JavaScript's `w[0]` takes its first UTF-16 unit. JavaScript's `toUpperCase` can lengthen a letter ("ß" becomes "SS"), so "ß b" gives "SSB" there, and the at-most-two bound holds only for initials without such letters.
- UserDashboard.InitialsOfOneWord: the upper-casing it states is ASCII upper-casing, for the reason given for `UserDashboard.Initials`.
- Forms.SignUpSubmit: the password length is its number of characters. `password.length` counts UTF-16 units, so a password of four emoji (8 units) passes JavaScript's 8-character check but not the model's.
- UserDashboard.Bump: keeps users in first-seen order in a list. The source keeps them as properties of a plain object, which differs in two ways the model does not reproduce. A user named after a property every object inherits ("constructor", "__proto__") finds that property in the `!userStats[r.user]` test and is miscounted. Integer-like names are listed first by `Object.entries`.
- UserDashboard.TallyTotal: holds for users not named after an inherited object property, for the reason given for `UserDashboard.Bump`.
- UserDashboard.Leaderboard: ties keep first-seen order. JavaScript's `Object.entries` lists integer-like names such as "7" first, in ascending numeric order, so a tie between "bob" (seen first) and "7" is ordered "7" first there and "bob" first in the model.
- AppShell.Route: the path is taken as already percent-decoded, and React Router's decoding of the location is not modelled. The router's ranking is modelled as the first matching listed route, with the one dynamic pattern, `/manageAlert/:id`, tried only after the static ones. The router ranks a static segment above a dynamic one, and two distinct static patterns never match the same path.
- Dashboard.SubmitSensor: the default threshold is an exact real. The number input gives `Number` either a numeric string or "" (which becomes 0), so a NaN default is not modelled.
- ForecastService.Values: refuses an object. Python's `list` and `len` take a dict's keys, so an `aqi` object reaches the fit with its keys as the values. The model's objects are maps without key order, so this is not modelled.
- ForecastService.ChooseHistory: answers 500 for an inline `timestamps` or `aqi` object. The service iterates such a dict by its keys and can answer 200, as with `{"timestamps": ["2025-01-01T00:00:00"], "aqi": {"a": 1}}`. Key order is not modelled, for the reason given for `ForecastService.Values`.
- Health.Recommend: states which conditions get a section and not their order. `Forms.IntendedSignUpDiseasesGiveAdvice` shows the order is kept.
- HistoricalRoute.ZoneQueryOfStoredReadingsIsEmpty: keeps the `zone` filter on the query, as Mongoose 7 and later do for a field the schema does not declare, so no saved reading matches. Mongoose 6 strips such a filter by default and then selects every zone. The repository pins no Mongoose version.
- HistoricalRoute.GroupCorrect: the hour's first reading is the first in the model's stable order, which keeps equal timestamps in their stored order. MongoDB's `.sort({timestamp: 1})` leaves the order of equal timestamps unspecified, so the gases and zone taken from an hour whose first two readings share a timestamp may differ there.
- Reports.Update: whether an id is an ObjectId is a parameter. Mongoose's test accepts any 12-character string in some versions, and that choice is not modelled.
- Auth.WithEmail: lower-cases the queried address in ASCII only. JavaScript's `toLowerCase` also lowers other letters, and the Kelvin sign (U+212A) becomes "k", so a login or forgot-password request for "\u212Aate@gmail.com" finds the user "kate@gmail.com" there and nobody in the model. Registration is unaffected: such an address fails the route's Gmail test before it is normalised.
- Auth.ResetPassword: the save's validation is not modelled. It re-checks fields that registration already validated, and the new hash, whose length the hashing parameter decides.

## Findings

| source | as written | input that shows it | evidently intended | confidence | as-written member | corrected member |
|---|---|---|---|---|---|---|
| Airguard/Airguard-Final-Ruq/project/backend/routes/forecastRouter.js:63-72 | the train-models route sends `{historical: {timestamps, aqi}}`, but the forecast service's `/train` requires a `data` list, answers 400, and the route turns that into 500 | any request whose `data` holds records with string `intervalStart`, e.g. one record with `intervalStart` "2025-01-01T00:00:00Z" and `aqi` 10 | send the records as the `data` list the service reads, so that training can succeed | high; not executed | ForecastProxy.TrainModelsAsWritten with ForecastProxy.TrainModelsNeverSucceeds | ForecastProxy.TrainModels with ForecastProxy.TrainModelsTrains |
| Airguard/Airguard-Final-Ruq/project/frontend/src/redux/features/alertSlice.js:19 | after the POST, `createAlert` logs a name `id` that is bound nowhere in its scope, so the thunk rejects and the store never appends the created alert | any successful alert creation | return the created alert so the store appends it | high; not executed | Slices.CreateAlertAsWritten with Slices.CreateAlertDiscrepancy | Slices.CreateAlert |
| Airguard/Airguard-Final-Ruq/project/frontend/src/pages/LoginPage.jsx:408 | the sign-up step offers "Respiratory Diseases", "Cardiovascular Conditions" and "Chronic Illnesses", none of which is a key of the advice table | a user who ticks "Respiratory Diseases" at sign-up gets only the general advice | offer the labels the profile page offers, which are the advice table's keys | high; not executed | Forms.SignUpDiseasesGiveNoAdvice | Forms.IntendedSignUpDiseasesGiveAdvice |
| Airguard/Airguard-Final-Ruq/project/frontend/src/pages/UserDashboard.jsx:935-941 | the advice chain tests `ALERT_THRESHOLD` (200) before the Unhealthy maximum (also 200), so the Unhealthy advice is never shown and 151 to 200 gets the moderate advice | highest AQI 180 | Unhealthy values get the Unhealthy advice | high; not executed | Categories.AdviceAsWritten with Categories.UnhealthyGetsModerateAdvice | Categories.Advice with Categories.AdviceDiffersOnlyOnUnhealthy |
| Airguard/Airguard-Final-Ruq/project/backend/routes/auth.js:195 | the forgot-password and reset-password routes call `crypto` (and the former `nodemailer`), which the file never requires, so both fail before touching a user | a reset with a valid token and a new password | hash the token and reset the password | high; not executed | Auth.ResetPasswordAsWritten with Auth.ResetAsWrittenFailsWhereIntendedSucceeds | Auth.ResetPassword with Auth.ForgotThenReset |
| Airguard/Airguard-Final-Ruq/project/frontend/src/pages/ReportPollution.jsx:62-72 | the report form stores option values such as "burning_waste", while the map's icons are keyed by labels such as "Burning of Waste", so every such report gets the "Other" icon | a verified, unresolved report of type "burning_waste" | each option is drawn with its own icon | medium; not executed | ReportForm.OptionsMissIconKeys | ReportForm.ReportIcon with ReportForm.ReportIconsDistinct |

=== FILE: aggregation.dfy ===
/** The body of the ten-minute aggregation job: the readings of the last ten
    minutes are averaged, the averages indexed, and one aggregated record
    stored with the overall AQI and the name of the main pollutant. */
module Aggregation {
  import opened Common
  import opened Breakpoints
  import opened AqiIndex
  import opened Readings

  /** Ten minutes in milliseconds. */
  const Window: int := 10 * 60 * 1000

  datatype Aggregate = Aggregate(
    intervalStart: int, intervalEnd: int,
    pm2_5Avg: real, pm10Avg: real,
    aqi: int, sub: SubIndices, pollutant: string)

  predicate InWindow(r: StoredReading, now: int) {
    now - Window <= r.timestamp <= now
  }

  /** The query `timestamp >= now - 10 min && timestamp <= now`. */
  function Recent(all: seq<StoredReading>, now: int): (r: seq<StoredReading>)
    ensures forall x :: x in r <==> x in all && InWindow(x, now)
  {
    Filter(all, x => InWindow(x, now))
  }

  function Mean(xs: seq<real>): real
    requires |xs| > 0
  {
    Sum(xs) / |xs| as real
  }

  /** An average never leaves the range of the values averaged. */
  lemma MeanBounds(xs: seq<real>, lo: real, hi: real)
    requires |xs| > 0
    requires forall i :: 0 <= i < |xs| ==> lo <= xs[i] <= hi
    ensures lo <= Mean(xs) <= hi
  {
    SumBounds(xs, lo, hi);
    var n := |xs| as real;
    assert Sum(xs) / n >= lo by { assert Sum(xs) >= n * lo; }
    assert Sum(xs) / n <= hi by { assert Sum(xs) <= n * hi; }
  }

  /** Averaging identical values gives that value back. */
  lemma MeanConstant(xs: seq<real>, c: real)
    requires |xs| > 0
    requires forall i :: 0 <= i < |xs| ==> xs[i] == c
    ensures Mean(xs) == c
  {
    SumConstant(xs, c);
  }

  // ---------------------------------------------------------------------------
  // Naming the main pollutant.

  /** `s.replace(pat, rep)` with a string pattern: only the first occurrence
      is replaced. */
  function ReplaceFirst(s: string, pat: string, rep: string): (r: string)
    requires |pat| > 0
    ensures pat <= s ==> r == rep + s[|pat|..]
    decreases |s|
  {
    if |s| < |pat| then s
    else if s[..|pat|] == pat then rep + s[|pat|..]
    else [s[0]] + ReplaceFirst(s[1..], pat, rep)
  }

  /** The keys of the object the job iterates over, in insertion order. */
  const Keys: seq<string> := ["aqi_pm25", "aqi_pm10", "aqi_o3", "aqi_co", "aqi_so2", "aqi_no2"]

  /** `key.replace('aqi_', '').toUpperCase()`. */
  function PollutantName(key: string): string {
    ToUpper(ReplaceFirst(key, "aqi_", ""))
  }

  const Names: seq<string> := ["PM25", "PM10", "O3", "CO", "SO2", "NO2"]

  lemma {:induction false} NamesOfKeys()
    ensures forall i :: 0 <= i < 6 ==> PollutantName(Keys[i]) == Names[i]
  {
    forall i | 0 <= i < 6
      ensures PollutantName(Keys[i]) == Names[i]
    {
      KeyNamed(i);
    }
  }

  lemma KeyNamed(i: nat)
    requires i < 6
    ensures PollutantName(Keys[i]) == Names[i]
  {
    if i == 0 { NameOfKeyAs("aqi_pm25", "pm25", "PM25"); }
    else if i == 1 { NameOfKeyAs("aqi_pm10", "pm10", "PM10"); }
    else if i == 2 { NameOfKeyAs("aqi_o3", "o3", "O3"); }
    else if i == 3 { NameOfKeyAs("aqi_co", "co", "CO"); }
    else if i == 4 { NameOfKeyAs("aqi_so2", "so2", "SO2"); }
    else { NameOfKeyAs("aqi_no2", "no2", "NO2"); }
  }

  lemma NameOfKeyAs(key: string, suffix: string, name: string)
    requires |key| == 4 + |suffix| && key[..4] == "aqi_" && key[4..] == suffix
    requires |suffix| == |name| && forall k :: 0 <= k < |suffix| ==> UpperChar(suffix[k]) == name[k]
    ensures PollutantName(key) == name
  {
    assert key == "aqi_" + suffix;
    NameOfKey(suffix);
  }

  /** Stripping the prefix leaves the suffix, which is then upper-cased. */
  lemma NameOfKey(suffix: string)
    ensures PollutantName("aqi_" + suffix) == ToUpper(suffix)
  {
    var key := "aqi_" + suffix;
    assert "aqi_" <= key;
    assert key[4..] == suffix;
  }

  /** The loop over the entries from position `i` on: the first key whose
      value equals the maximum names the pollutant, otherwise `current` stays. */
  function PickMain(values: seq<int>, max: int, i: nat, current: string): (r: string)
    requires |values| == |Keys| && i <= |values|
    decreases |values| - i
  {
    if i == |values| then current
    else if values[i] == max then PollutantName(Keys[i])
    else PickMain(values, max, i + 1, current)
  }

  /** The loop breaks at the first position holding the maximum. */
  lemma {:induction false} PickMainFirst(values: seq<int>, max: int, i: nat, current: string, k: nat)
    requires |values| == |Keys| && i <= k < |values|
    requires values[k] == max && forall j :: i <= j < k ==> values[j] != max
    ensures PickMain(values, max, i, current) == PollutantName(Keys[k])
    decreases k - i
  {
    if i < k {
      PickMainFirst(values, max, i + 1, current, k);
    }
  }

  /** The main pollutant: the first of pm25, pm10, o3, co, so2, no2 whose
      sub-index equals the overall AQI, named in upper case. The default
      'PM2.5' never survives, because the maximum is always attained. */
  function MainPollutant(s: SubIndices): (r: string)
    ensures exists k :: 0 <= k < 6 && Values(s)[k] == OverallAqi(s) && r == Names[k]
                        && forall j :: 0 <= j < k ==> Values(s)[j] < OverallAqi(s)
    ensures r in Names && r != "PM2.5"
  {
    var m := OverallAqi(s);
    var v := Values(s);
    var k := FirstIndexOf(v, m);
    PickMainFirst(v, m, 0, "PM2.5", k);
    NamesOfKeys();
    PickMain(v, m, 0, "PM2.5")
  }

  /** The first position of `x` in `s`. */
  function FirstIndexOf(s: seq<int>, x: int): (k: nat)
    requires x in s
    ensures k < |s| && s[k] == x && forall j :: 0 <= j < k ==> s[j] != x
  {
    if s[0] == x then 0 else 1 + FirstIndexOf(s[1..], x)
  }

  /** The averages of the window's readings, a missing gas counting as 0. */
  function Averages(w: seq<StoredReading>): (r: (real, real, real, real, real, real))
    requires |w| > 0
  {
    (Mean(Map(w, (x: StoredReading) => x.pm2_5)),
     Mean(Map(w, (x: StoredReading) => x.pm10)),
     Mean(Map(w, (x: StoredReading) => OrZero(x.o3))),
     Mean(Map(w, (x: StoredReading) => OrZero(x.co))),
     Mean(Map(w, (x: StoredReading) => OrZero(x.so2))),
     Mean(Map(w, (x: StoredReading) => OrZero(x.no2))))
  }

  /** One run of the job at time `now` over the stored readings: nothing
      when no reading is recent, otherwise the record it saves. */
  function Run(all: seq<StoredReading>, now: int): (r: Option<Aggregate>)
    ensures r.None? <==> forall x :: x in all ==> !InWindow(x, now)
    ensures r.Some? ==>
      var w := Recent(all, now);
      var avg := Averages(w);
      && r.value.intervalEnd == now && r.value.intervalEnd - r.value.intervalStart == Window
      && r.value.pm2_5Avg == avg.0 && r.value.pm10Avg == avg.1
      && r.value.sub == IndicesOf(avg.0, avg.1, avg.2, avg.3, avg.4, avg.5)
      && (forall i :: 0 <= i < 6 ==> Values(r.value.sub)[i] <= r.value.aqi)
      && r.value.aqi in Values(r.value.sub)
      && r.value.pollutant in Names && r.value.pollutant != "PM2.5"
      && r.value.aqi == OverallAqi(r.value.sub)
      && r.value.pollutant == MainPollutant(r.value.sub)
      && exists k :: 0 <= k < 6 && Values(r.value.sub)[k] == r.value.aqi && r.value.pollutant == Names[k]
                     && forall j :: 0 <= j < k ==> Values(r.value.sub)[j] < r.value.aqi
  {
    var w := Recent(all, now);
    if |w| == 0 then
      assert forall x :: x in all ==> !InWindow(x, now);
      None
    else
      assert w[0] in all && InWindow(w[0], now);
      var avg := Averages(w);
      var sub := IndicesOf(avg.0, avg.1, avg.2, avg.3, avg.4, avg.5);
      Some(Aggregate(now - Window, now, avg.0, avg.1, OverallAqi(sub), sub, MainPollutant(sub)))
  }

  /** When every recent reading lacks a gas, its average is 0 and so is its
      sub-index. */
  lemma MissingGasAveragesToZero(all: seq<StoredReading>, now: int)
    requires exists x :: x in all && InWindow(x, now)
    requires forall x :: x in all ==> Falsy(x.o3)
    ensures Run(all, now).Some? && Run(all, now).value.sub.o3 == 0
  {
    var w := Recent(all, now);
    var xs := Map(w, (x: StoredReading) => OrZero(x.o3));
    assert forall i :: 0 <= i < |xs| ==> xs[i] == 0.0 by {
      forall i | 0 <= i < |xs| ensures xs[i] == 0.0 {
        assert w[i] in all;
      }
    }
    var x :| x in all && InWindow(x, now);
    assert x in w;
    MeanConstant(xs, 0.0);
    ZeroConcentration(O3);
  }

  /** The AirData schema keeps no sulphur or nitrogen dioxide, so over the
      readings it saved both average to 0 and so do their sub-indices. */
  lemma StoredReadingsIndexNoSo2OrNo2(all: seq<StoredReading>, now: int)
    requires exists x :: x in all && InWindow(x, now)
    requires forall x :: x in all ==> Conforms(x)
    ensures Run(all, now).Some? && Run(all, now).value.sub.so2 == 0 && Run(all, now).value.sub.no2 == 0
  {
    var w := Recent(all, now);
    var so2 := Map(w, (x: StoredReading) => OrZero(x.so2));
    var no2 := Map(w, (x: StoredReading) => OrZero(x.no2));
    forall i | 0 <= i < |w| ensures so2[i] == 0.0 && no2[i] == 0.0 {
      assert w[i] in all;
    }
    var x :| x in all && InWindow(x, now);
    assert x in w;
    MeanConstant(so2, 0.0);
    MeanConstant(no2, 0.0);
    ZeroConcentration(SO2);
    ZeroConcentration(NO2);
  }
}

=== FILE: app_shell.dfy ===
/** The application shell: reading the stored session, the layout around
    every page (redirects, which navigation bar, whether a footer) and the
    route table. The protected-route wrapper is not part of this model: the
    routes that use it are reported as guarded. */
module AppShell {
  import opened Common
  import Forms

  datatype Role = AdminRole | UserRole

  /** The stored user, as far as the shell reads it. */
  datatype StoredUser = StoredUser(email: Option<string>)

  datatype Session = Session(authenticated: bool, role: Option<Role>)

  /** `AuthInitializer`: authenticated when both a token and a user are
      stored; the role is admin exactly for the team address. */
  function AuthInit(token: Option<string>, user: Option<StoredUser>): (s: Session)
    ensures s.authenticated <==> token.Some? && token.value != "" && user.Some?
    ensures s.authenticated <==> s.role.Some?
    ensures s.role == Some(AdminRole) <==> s.authenticated && user.value.email == Some(Forms.AdminEmail)
  {
    if token.Some? && token.value != "" && user.Some? then
      Session(true, Some(if user.value.email == Some(Forms.AdminEmail) then AdminRole else UserRole))
    else Session(false, None)
  }

  /** Logging in with the team credentials leaves a session that the shell
      reads as the admin's. */
  lemma AdminLoginGivesAdminSession(st: Forms.FormState, storage: Forms.Storage, ok: bool, token: string, email: string)
    requires Forms.Text(st.fields, "email") == Forms.AdminEmail && Forms.Text(st.fields, "password") == Forms.AdminPassword
    ensures var s := Forms.Login(st, storage, ok, token, email).storage;
            AuthInit(s.token, Some(StoredUser(s.userEmail))) == Session(true, Some(AdminRole))
  {
  }

  // ---------------------------------------------------------------------------
  // Layout.

  const NoFooterPages: seq<string> := ["/dashboard"]
  const UserPages: seq<string> := ["/userdashboard", "/historicalReport", "/manageAlert", "/report", "/edit-profile"]
  const AdminPages: seq<string> := ["/dashboard", "/historicalReportAdmin"]

  datatype Navbar = PublicNavbar | UserNavbar | AdminNavbar

  /** What the layout shows: a redirect, or the page with the navigation
      bars rendered and whether the footer is. */
  datatype Screen = Redirect(to: string) | Framed(navbars: seq<Navbar>, footer: bool)

  /** `Layout` for a path, given the `isAuthenticated` it receives (`None`
      when it receives none) and the role. Each bar has its own condition. */
  function Layout(path: string, isAuthenticated: Option<bool>, role: Option<Role>): (r: Screen)
    ensures r == Redirect("/login") <==> isAuthenticated == Some(false) && path != "/login"
    ensures isAuthenticated == Some(true) && path == "/login" ==>
              r == Redirect(if role == Some(AdminRole) then "/dashboard" else "/userdashboard")
    ensures r.Framed? ==> (path in UserPages && path != "/login" <==> UserNavbar in r.navbars)
    ensures r.Framed? ==> (path in AdminPages && path != "/login" <==> AdminNavbar in r.navbars)
  {
    var hidden := path == "/login";
    var isUser := path in UserPages;
    var isAdmin := path in AdminPages;
    if isAuthenticated == Some(false) && path != "/login" then Redirect("/login")
    else if isAuthenticated == Some(true) && path == "/login" then
      Redirect(if role == Some(AdminRole) then "/dashboard" else "/userdashboard")
    else
      Framed((if !hidden && !isUser && !isAdmin then [PublicNavbar] else []) +
             (if !hidden && isUser then [UserNavbar] else []) +
             (if !hidden && isAdmin then [AdminNavbar] else []),
             !hidden && !isUser && !isAdmin && path !in NoFooterPages)
  }

  /** The user and admin page lists share no path, so at most one bar is
      ever rendered. */
  lemma AtMostOneNavbar(path: string, isAuthenticated: Option<bool>, role: Option<Role>)
    ensures Layout(path, isAuthenticated, role).Framed? ==> |Layout(path, isAuthenticated, role).navbars| <= 1
  {
    assert forall p :: p in UserPages ==> p !in AdminPages;
  }

  /** The footer shows exactly when the public bar does: the only page
      without a footer is already an admin page. */
  lemma FooterIffPublicNavbar(path: string, isAuthenticated: Option<bool>, role: Option<Role>)
    ensures Layout(path, isAuthenticated, role).Framed? ==>
              (Layout(path, isAuthenticated, role).footer <==> PublicNavbar in Layout(path, isAuthenticated, role).navbars)
  {
  }

  // ---------------------------------------------------------------------------
  // Routes.

  /** What a route renders: the login page on its own, the not-found text,
      a page inside the session reader and the layout, or a page guarded by
      the protected-route wrapper. */
  datatype Element = LoginPage | NotFound | Wrapped(page: string) | Guarded(page: string)

  const Routes: seq<(string, Element)> := [
    ("/", Wrapped("Home")),
    ("/about-air-quality", Wrapped("AboutAirQuality")),
    ("/login", LoginPage),
    ("/about-us", Wrapped("AboutUs")),
    ("/fullscreenMap", Wrapped("FullscreenMapPage")),
    ("/dashboard", Guarded("Dashboard")),
    ("/userdashboard", Guarded("UserDashboard")),
    ("/historicalReportAdmin", Wrapped("HistoricalReportAdmin")),
    ("/historicalReport", Wrapped("HistoricalReport")),
    ("/manageAlert", Wrapped("ManageAlert")),
    ("/report", Wrapped("ReportPollution")),
    ("/homemap", Wrapped("HomeMap")),
    ("/edit-profile", Guarded("EditProfile")),
    ("/faqs", Wrapped("FAQsPage"))
  ]

  /** Two strings equal up to the case of ASCII letters. The router's
      case-insensitive match folds only ASCII letters when the pattern is
      ASCII, as every pattern here is. */
  predicate SameUpToCase(a: string, b: string) {
    |a| == |b| && forall k :: 0 <= k < |a| ==> LowerChar(a[k]) == LowerChar(b[k])
  }

  /** A route pattern without parameters matches a path that spells the
      pattern in any case and then has any number of trailing slashes (the
      router matches case-insensitively unless a route asks otherwise, and
      lets slashes trail). For "/" this is any path of slashes only. */
  predicate PathMatches(pattern: string, path: string) {
    && |pattern| <= |path|
    && SameUpToCase(pattern, path[..|pattern|])
    && forall k :: |pattern| <= k < |path| ==> path[k] == '/'
  }

  const ManageAlertPrefix: string := "/manageAlert/"

  /** `/manageAlert/:id`: the prefix in any case, one non-empty segment,
      then only slashes. */
  predicate IsManageAlertDetail(path: string) {
    && |path| > |ManageAlertPrefix|
    && SameUpToCase(ManageAlertPrefix, path[..|ManageAlertPrefix|])
    && path[|ManageAlertPrefix|] != '/'
    && forall k :: |ManageAlertPrefix| <= k < |path| - 1 && path[k] == '/' ==> path[k + 1] == '/'
  }

  /** The first route whose pattern matches the path. The patterns of the
      table are pairwise distinct up to case, so at most one matches and the
      router's ranking picks that one. */
  function Lookup(routes: seq<(string, Element)>, path: string): (r: Option<nat>)
    ensures r.None? <==> forall i :: 0 <= i < |routes| ==> !PathMatches(routes[i].0, path)
    ensures r.Some? ==> r.value < |routes| && PathMatches(routes[r.value].0, path)
                        && forall j :: 0 <= j < r.value ==> !PathMatches(routes[j].0, path)
  {
    if |routes| == 0 then None
    else if PathMatches(routes[0].0, path) then Some(0)
    else
      var r := Lookup(routes[1..], path);
      assert forall i :: 1 <= i < |routes| ==> routes[i] == routes[1..][i - 1];
      if r.None? then None else Some(r.value + 1)
  }

  /** Paths that match the same patterns look up the same route. */
  lemma LookupFollowsMatches(routes: seq<(string, Element)>, a: string, b: string)
    requires forall i :: 0 <= i < |routes| ==> (PathMatches(routes[i].0, a) <==> PathMatches(routes[i].0, b))
    ensures Lookup(routes, a) == Lookup(routes, b)
  {
  }

  /** The element the router picks for a path; anything unlisted is not
      found. */
  function Route(path: string): (e: Element)
    ensures e == LoginPage <==> PathMatches("/login", path)
  {
    LoginOnlyAtLogin();
    LoginExcludesEarlier(path);
    match Lookup(Routes, path)
    case Some(k) => Routes[k].1
    case None => if IsManageAlertDetail(path) then Wrapped("ManageAlert") else NotFound
  }

  /** Only the "/login" entry, the third, renders the login page. */
  lemma LoginOnlyAtLogin()
    ensures forall i :: 0 <= i < |Routes| ==> (Routes[i].1 == LoginPage <==> i == 2)
    ensures Routes[2] == ("/login", LoginPage)
  {
  }

  /** A spelling of the login path matches neither route listed before it. */
  lemma LoginExcludesEarlier(path: string)
    ensures PathMatches("/login", path) ==> !PathMatches(Routes[0].0, path) && !PathMatches(Routes[1].0, path)
  {
    if PathMatches("/login", path) {
      assert LowerChar(path[1]) == LowerChar("/login"[1]);
      assert Routes[0].0 == "/" && Routes[1].0[1] == 'a';
    }
  }

  /** `q` spells `path` up to the case of ASCII letters and adds one
      trailing slash. */
  predicate CaseVariantWithSlash(path: string, q: string) {
    && |q| == |path| + 1 && q[|path|] == '/'
    && forall k :: 0 <= k < |path| ==> LowerChar(q[k]) == LowerChar(path[k])
  }

  /** The route does not depend on the case of ASCII letters nor on a
      trailing slash: any such variant of a path is routed like it. */
  lemma RouteIgnoresCaseAndSlash(path: string, q: string)
    requires |path| > 0 && CaseVariantWithSlash(path, q)
    ensures Route(q) == Route(path)
  {
    RoutePatternsShaped();
    TableIgnoresCaseAndSlash(Routes, path, q);
    DetailIgnoresCaseAndSlash(path, q);
    RouteFollows(path, q);
  }

  /** The route depends only on the table lookup and the detail test. */
  lemma RouteFollows(a: string, b: string)
    requires Lookup(Routes, a) == Lookup(Routes, b)
    requires IsManageAlertDetail(a) == IsManageAlertDetail(b)
    ensures Route(a) == Route(b)
  {
  }

  /** A pattern starts with '/' and is "/" or has no trailing slash. */
  predicate PatternShaped(p: string) {
    |p| >= 1 && p[0] == '/' && (|p| == 1 || p[|p| - 1] != '/')
  }

  lemma RoutePatternsShaped()
    ensures forall i :: 0 <= i < |Routes| ==> PatternShaped(Routes[i].0)
  {
  }

  lemma TableIgnoresCaseAndSlash(routes: seq<(string, Element)>, path: string, q: string)
    requires forall i :: 0 <= i < |routes| ==> PatternShaped(routes[i].0)
    requires |path| > 0 && CaseVariantWithSlash(path, q)
    ensures Lookup(routes, path) == Lookup(routes, q)
  {
    forall i | 0 <= i < |routes|
      ensures PathMatches(routes[i].0, path) <==> PathMatches(routes[i].0, q)
    {
      MatchIgnoresCaseAndSlash(routes[i].0, path, q);
    }
    LookupFollowsMatches(routes, path, q);
  }

  lemma MatchIgnoresCaseAndSlash(pattern: string, path: string, q: string)
    requires PatternShaped(pattern)
    requires |path| > 0 && CaseVariantWithSlash(path, q)
    ensures PathMatches(pattern, path) <==> PathMatches(pattern, q)
  {
    SlashesAgree(path, q);
    if PathMatches(pattern, path) {
      assert forall k :: |pattern| <= k < |q| ==> q[k] == '/';
    }
    if PathMatches(pattern, q) {
      LowerCharFacts(pattern[|pattern| - 1]);
      assert |pattern| <= |path|;
    }
  }

  /** Lower-casing a character changes no '/' and is idempotent. */
  lemma LowerCharFacts(c: char)
    ensures LowerChar(LowerChar(c)) == LowerChar(c)
    ensures LowerChar(c) == '/' <==> c == '/'
  {
  }

  /** A case variant has its slashes where the path has them. */
  lemma SlashesAgree(path: string, q: string)
    requires CaseVariantWithSlash(path, q)
    ensures forall k :: 0 <= k < |path| ==> (path[k] == '/' <==> q[k] == '/')
  {
    forall k | 0 <= k < |path|
      ensures path[k] == '/' <==> q[k] == '/'
    {
      LowerCharFacts(path[k]);
      LowerCharFacts(q[k]);
    }
  }

  lemma DetailIgnoresCaseAndSlash(path: string, q: string)
    requires |path| > 0 && CaseVariantWithSlash(path, q)
    ensures IsManageAlertDetail(path) <==> IsManageAlertDetail(q)
  {
    SlashesAgree(path, q);
    if |path| > |ManageAlertPrefix| {
      DetailPrefix(path, q);
      DetailTail(path, q);
    }
  }

  lemma DetailPrefix(path: string, q: string)
    requires |ManageAlertPrefix| < |path| < |q|
    requires forall k :: 0 <= k < |path| ==> LowerChar(q[k]) == LowerChar(path[k])
    ensures SameUpToCase(ManageAlertPrefix, path[..|ManageAlertPrefix|]) <==>
            SameUpToCase(ManageAlertPrefix, q[..|ManageAlertPrefix|])
  {
  }

  lemma DetailTail(path: string, q: string)
    requires |ManageAlertPrefix| < |path| && |q| == |path| + 1 && q[|path|] == '/'
    requires forall k :: 0 <= k < |path| ==> (path[k] == '/' <==> q[k] == '/')
    ensures (forall k :: |ManageAlertPrefix| <= k < |path| - 1 && path[k] == '/' ==> path[k + 1] == '/') <==>
            (forall k :: |ManageAlertPrefix| <= k < |q| - 1 && q[k] == '/' ==> q[k + 1] == '/')
  {
  }

  /** The link behind the sign-up confirmation's "Go to Dashboard" button,
      spelled "/UserDashboard", reaches the user dashboard's route. */
  lemma CapitalisedDashboardLinkRoutes()
    ensures Route("/UserDashboard") == Guarded("UserDashboard")
  {
    var path := "/UserDashboard";
    assert PathMatches(Routes[6].0, path) by {
      assert Routes[6].0 == "/userdashboard";
      assert path[..14] == path;
    }
    forall j | 0 <= j < 6
      ensures !PathMatches(Routes[j].0, path)
    {
      assert path[1] == 'U';
    }
  }

  /** What the browser shows for a path with the given stored session. */
  datatype View = ShowLogin | ShowNotFound | ShowGuarded(page: string) | Show(page: string, screen: Screen)

  function Render(path: string, token: Option<string>, user: Option<StoredUser>): (v: View)
    ensures v.Show? ==> Route(path) == Wrapped(v.page)
    ensures v.Show? ==> var s := AuthInit(token, user); v.screen == Layout(path, Some(s.authenticated), s.role)
  {
    match Route(path)
    case LoginPage => ShowLogin
    case NotFound => ShowNotFound
    case Guarded(p) => ShowGuarded(p)
    case Wrapped(p) =>
      var s := AuthInit(token, user);
      Show(p, Layout(path, Some(s.authenticated), s.role))
  }

  /** The login route renders the login page without the layout, so the
      layout never sees "/login" (nor any other spelling of it): its
      hide-everything and already-logged-in branches are unreachable through
      the routes. */
  lemma LayoutNeverSeesLogin(path: string, token: Option<string>, user: Option<StoredUser>)
    ensures Render(path, token, user).Show? ==> !PathMatches("/login", path) && path != "/login"
    ensures Render(path, token, user).Show? && Render(path, token, user).screen.Redirect? ==>
              Render(path, token, user).screen == Redirect("/login")
  {
    LoginMatchesItself();
  }

  lemma LoginMatchesItself()
    ensures PathMatches("/login", "/login")
  {
    assert "/login"[..6] == "/login";
  }

  /** Without a stored session every page inside the layout redirects to
      the login page. */
  lemma UnauthenticatedRedirected(path: string, token: Option<string>, user: Option<StoredUser>)
    requires token.None? || token == Some("") || user.None?
    requires Route(path).Wrapped?
    ensures Render(path, token, user).Show? && Render(path, token, user).screen == Redirect("/login")
  {
    LoginMatchesItself();
  }

  /** A signed-in user on an alert's own page gets the public bar and the
      footer: the user page list names only the bare path. */
  lemma AlertDetailUsesPublicFrame(id: string, token: string, email: string)
    requires |id| > 0 && '/' !in id && token != ""
    ensures var path := ManageAlertPrefix + id;
            Render(path, Some(token), Some(StoredUser(Some(email)))) ==
              Show("ManageAlert", Framed([PublicNavbar], true))
  {
    var path := ManageAlertPrefix + id;
    assert path[..|ManageAlertPrefix|] == ManageAlertPrefix;
    assert forall k :: |ManageAlertPrefix| <= k < |path| ==> path[k] == id[k - |ManageAlertPrefix|];
    assert path[13] == id[0];
    assert IsManageAlertDetail(path);
    assert path[12] == '/';
    SecondSlashUnlisted(path);
  }

  /** No listed path has a second '/' at position 12, where the alert
      detail paths have theirs. */
  predicate NoSlashAt12(q: string) {
    |q| <= 12 || q[12] != '/'
  }

  lemma RoutePathsNoSlashAt12()
    ensures forall i :: 0 <= i < |Routes| ==> NoSlashAt12(Routes[i].0)
  {
  }

  lemma PageListsNoSlashAt12()
    ensures forall q :: q in UserPages ==> NoSlashAt12(q)
    ensures forall q :: q in AdminPages ==> NoSlashAt12(q)
  {
  }

  /** A path with a '/' at position 12 followed by something else is
      routed by no listed pattern and named in no page list. */
  lemma SecondSlashUnlisted(path: string)
    requires |path| > 13 && path[12] == '/' && path[13] != '/'
    ensures Lookup(Routes, path).None?
    ensures path != "/login" && path !in UserPages && path !in AdminPages && path !in NoFooterPages
  {
    NotRoutedWithSlashAt12(path);
    SecondSlashNotListed(path);
  }

  lemma SecondSlashNotListed(path: string)
    requires |path| > 12 && path[12] == '/'
    ensures path != "/login" && path !in UserPages && path !in AdminPages && path !in NoFooterPages
  {
    PageListsNoSlashAt12();
    assert NoFooterPages[0] in AdminPages;
    assert NoSlashAt12("/login");
  }

  lemma NotRoutedWithSlashAt12(path: string)
    requires |path| > 13 && path[12] == '/' && path[13] != '/'
    ensures Lookup(Routes, path).None?
  {
    RoutePathsNoSlashAt12();
    forall i | 0 <= i < |Routes|
      ensures !PathMatches(Routes[i].0, path)
    {
      SlashAt12Differs(Routes[i].0, path);
    }
  }

  lemma SlashAt12Differs(q: string, path: string)
    requires NoSlashAt12(q) && |path| > 13 && path[12] == '/' && path[13] != '/'
    ensures !PathMatches(q, path) && q != path
  {
  }
}

=== FILE: aqi_index.dfy ===
/** `calculateIndex`: the sub-index of one pollutant concentration, by linear
    interpolation inside the first breakpoint band that contains it
    (Equation 1 of section 12 of Appendix G to 40 CFR Part 58), rounded the
    way `Math.round` rounds, or -1 when no band contains it. */
module AqiIndex {
  import opened Common
  import opened Breakpoints

  /** The straight line through the band's two corners, before rounding. */
  function Linear(b: Band, cp: real): real
    requires BandOk(b)
  {
    (b.iHigh - b.iLow) as real / (b.cpHigh - b.cpLow) * (cp - b.cpLow) + b.iLow as real
  }

  /** The interpolated index inside a band, before the band test. */
  function Interp(b: Band, cp: real): int
    requires BandOk(b)
  {
    Round(Linear(b, cp))
  }

  /** `k` is the first band of `t` that contains `cp`. */
  predicate FirstIn(t: seq<Band>, cp: real, k: nat) {
    k < |t| && InBand(t[k], cp) && forall j :: 0 <= j < k ==> !InBand(t[j], cp)
  }

  /** The position of the first band containing `cp`, found by search. */
  function FirstBand(t: seq<Band>, cp: real): (r: Option<nat>)
    ensures r.None? <==> forall k :: 0 <= k < |t| ==> !InBand(t[k], cp)
    ensures r.Some? ==> FirstIn(t, cp, r.value)
  {
    if |t| == 0 then None
    else if InBand(t[0], cp) then Some(0)
    else
      match FirstBand(t[1..], cp)
      case None =>
        assert forall k :: 1 <= k < |t| ==> t[k] == t[1..][k - 1];
        None
      case Some(k) =>
        assert forall j :: 1 <= j <= k ==> t[j] == t[1..][j - 1];
        Some(k + 1)
  }

  /** The loop over the bands, returning from inside the first band that
      contains `cp`: that band alone decides, and the result is -1 exactly
      when no band contains `cp`. */
  function IndexIn(t: seq<Band>, cp: real): (r: int)
    requires forall k :: 0 <= k < |t| ==> BandOk(t[k])
    ensures FirstBand(t, cp).None? ==> r == -1
    ensures FirstBand(t, cp).Some? ==> r == Interp(t[FirstBand(t, cp).value], cp)
  {
    if |t| == 0 then -1
    else if InBand(t[0], cp) then Interp(t[0], cp)
    else
      assert FirstBand(t, cp).Some? ==>
        FirstBand(t[1..], cp).Some? && t[FirstBand(t, cp).value] == t[1..][FirstBand(t[1..], cp).value];
      IndexIn(t[1..], cp)
  }

  /** Over a well-formed table the lookup yields -1 exactly when no band
      contains the concentration, and otherwise an index inside the deciding
      band, between 0 and the last band's top. */
  lemma IndexBounds(t: seq<Band>, cp: real)
    requires WellFormed(t)
    ensures var r := IndexIn(t, cp);
            (r == -1 <==> FirstBand(t, cp).None?)
            && (r != -1 ==> 0 <= t[FirstBand(t, cp).value].iLow <= r <= t[FirstBand(t, cp).value].iHigh <= t[|t| - 1].iHigh)
  {
    var r := IndexIn(t, cp);
    var f := FirstBand(t, cp);
    if f.Some? {
      var k := f.value;
      assert BandOk(t[k]);
      assert r == Interp(t[k], cp);
      InterpWithinBand(t[k], cp);
      IndexAscending(t, k, |t| - 1);
    }
  }

  /** `calculateIndex(Cp, key)` for one of the six tables. */
  function CalculateIndex(cp: real, p: Pollutant): (r: int)
    ensures r == -1 || 0 <= r <= TopIndex(p)
    ensures r == -1 <==> forall k :: 0 <= k < |Table(p)| ==> !InBand(Table(p)[k], cp)
  {
    TablesWellFormed(p);
    IndexBounds(Table(p), cp);
    IndexIn(Table(p), cp)
  }

  /** `calculateIndex(Cp, key)` for an arbitrary key: a key without a table
      makes the loop over `undefined` throw, modelled as no result. */
  function CalculateIndexByKey(cp: real, key: string): (r: Option<int>)
    ensures r.None? <==> PollutantOfKey(key).None?
    ensures r.Some? ==> r.value == CalculateIndex(cp, PollutantOfKey(key).value)
  {
    match PollutantOfKey(key)
    case None => None
    case Some(p) => Some(CalculateIndex(cp, p))
  }

  /** A concentration that is NaN fails every comparison and falls through to -1. */
  function IndexOfNum(cp: Num, p: Pollutant): (r: int)
    ensures ToNumber(cp).NaN? ==> r == -1
    ensures ToNumber(cp).Finite? ==> r == CalculateIndex(ToNumber(cp).v, p)
  {
    match ToNumber(cp)
    case Finite(v) => CalculateIndex(v, p)
    case _ => -1
  }

  // ---------------------------------------------------------------------------
  // Properties of the interpolation inside one band.

  lemma RoundOfInt(n: int)
    ensures Round(n as real) == n
  {
  }

  lemma RoundMonotone(x: real, y: real)
    requires x <= y
    ensures Round(x) <= Round(y)
  {
  }

  /** The interpolated value, before rounding, stays in [iLow, iHigh]. */
  lemma LinearWithinBand(b: Band, cp: real)
    requires BandOk(b) && InBand(b, cp)
    ensures b.iLow as real <= Linear(b, cp) <= b.iHigh as real
  {
    var w := b.cpHigh - b.cpLow;
    var slope := (b.iHigh - b.iLow) as real / w;
    assert slope >= 0.0;
    assert slope * (cp - b.cpLow) >= 0.0;
    assert slope * (cp - b.cpLow) <= slope * w;
    assert slope * w == (b.iHigh - b.iLow) as real;
    assert Linear(b, cp) == slope * (cp - b.cpLow) + b.iLow as real;
  }

  /** Any result of a band lies within that band's index range. */
  lemma InterpWithinBand(b: Band, cp: real)
    requires BandOk(b) && InBand(b, cp)
    ensures b.iLow <= Interp(b, cp) <= b.iHigh
  {
    LinearWithinBand(b, cp);
    RoundMonotone(b.iLow as real, Linear(b, cp));
    RoundMonotone(Linear(b, cp), b.iHigh as real);
    RoundOfInt(b.iLow);
    RoundOfInt(b.iHigh);
  }

  /** The band's end points map onto its index end points. */
  lemma InterpEndpoints(b: Band)
    requires BandOk(b)
    ensures Interp(b, b.cpLow) == b.iLow
    ensures Interp(b, b.cpHigh) == b.iHigh
  {
    var w := b.cpHigh - b.cpLow;
    assert (b.iHigh - b.iLow) as real / w * w == (b.iHigh - b.iLow) as real;
    assert Linear(b, b.cpLow) == b.iLow as real;
    assert Linear(b, b.cpHigh) == b.iHigh as real;
    RoundOfInt(b.iLow);
    RoundOfInt(b.iHigh);
  }

  /** Within one band the index never decreases as the concentration grows. */
  lemma InterpMonotone(b: Band, cp1: real, cp2: real)
    requires BandOk(b) && cp1 <= cp2
    ensures Interp(b, cp1) <= Interp(b, cp2)
  {
    var slope := (b.iHigh - b.iLow) as real / (b.cpHigh - b.cpLow);
    assert slope >= 0.0;
    assert slope * (cp1 - b.cpLow) <= slope * (cp2 - b.cpLow);
    assert Linear(b, cp1) == slope * (cp1 - b.cpLow) + b.iLow as real;
    assert Linear(b, cp2) == slope * (cp2 - b.cpLow) + b.iLow as real;
    RoundMonotone(Linear(b, cp1), Linear(b, cp2));
  }

  // ---------------------------------------------------------------------------
  // Properties of the lookup over a whole table.

  /** Because bands never overlap, the band that decides is the only band
      that contains the concentration. */
  lemma {:induction false} DecidedByContainingBand(p: Pollutant, cp: real, k: nat)
    requires k < |Table(p)| && InBand(Table(p)[k], cp)
    ensures CalculateIndex(cp, p) == Interp(Table(p)[k], cp)
    ensures Table(p)[k].iLow <= CalculateIndex(cp, p) <= Table(p)[k].iHigh
  {
    TablesWellFormed(p);
    ContainingBandDecides(Table(p), cp, k);
  }

  lemma ContainingBandDecides(t: seq<Band>, cp: real, k: nat)
    requires WellFormed(t) && k < |t| && InBand(t[k], cp)
    ensures IndexIn(t, cp) == Interp(t[k], cp)
    ensures t[k].iLow <= Interp(t[k], cp) <= t[k].iHigh
  {
    ContainingBandIsFirst(t, cp, k);
    InterpWithinBand(t[k], cp);
  }

  lemma ContainingBandIsFirst(t: seq<Band>, cp: real, k: nat)
    requires WellFormed(t) && k < |t| && InBand(t[k], cp)
    ensures FirstIn(t, cp, k)
  {
    forall j | 0 <= j < k
      ensures !InBand(t[j], cp)
    {
      if InBand(t[j], cp) {
        AtMostOneBand(t, cp, j, k);
      }
    }
  }

  /** Below 0 or above the last band there is no index. */
  lemma {:induction false} OutOfRangeIsMinusOne(p: Pollutant, cp: real)
    requires cp < 0.0 || cp > Table(p)[|Table(p)| - 1].cpHigh
    ensures CalculateIndex(cp, p) == -1
  {
    var t := Table(p);
    TablesWellFormed(p);
    forall k | 0 <= k < |t|
      ensures !InBand(t[k], cp)
    {
      CpRange(t, k);
    }
  }

  /** A concentration strictly between two consecutive bands has no index. */
  lemma {:induction false} GapIsMinusOne(p: Pollutant, cp: real, k: nat)
    requires 0 < k < |Table(p)|
    requires Table(p)[k - 1].cpHigh < cp < Table(p)[k].cpLow
    ensures CalculateIndex(cp, p) == -1
  {
    TablesWellFormed(p);
    NoBandInGap(Table(p), cp, k);
  }

  lemma NoBandInGap(t: seq<Band>, cp: real, k: nat)
    requires WellFormed(t) && 0 < k < |t|
    requires t[k - 1].cpHigh < cp < t[k].cpLow
    ensures forall j :: 0 <= j < |t| ==> !InBand(t[j], cp)
  {
    forall j | 0 <= j < |t|
      ensures !InBand(t[j], cp)
    {
      if j < k - 1 {
        CpAscending(t, j, k - 1);
      } else if j > k {
        CpAscending(t, k, j);
      }
    }
  }

  /** The PM2.5 table leaves (9.0, 9.1) uncovered. */
  lemma Pm25GapIsMinusOne(cp: real)
    requires 9.0 < cp < 9.1
    ensures CalculateIndex(cp, PM25) == -1
  {
    GapIsMinusOne(PM25, cp, 1);
  }

  /** The ozone table jumps from the 8-hour rows to the 1-hour rows, leaving
      (0.07, 0.125) uncovered. */
  lemma OzoneGapIsMinusOne(cp: real)
    requires 0.07 < cp < 0.125
    ensures CalculateIndex(cp, O3) == -1
  {
    GapIsMinusOne(O3, cp, 2);
  }

  /** Every table starts at concentration 0 with index 0. */
  lemma ZeroConcentration(p: Pollutant)
    ensures CalculateIndex(0.0, p) == 0
  {
    TablesWellFormed(p);
    DecidedByContainingBand(p, 0.0, 0);
    InterpEndpoints(Table(p)[0]);
  }

  /** A concentration on a band boundary gets that band's end index. */
  lemma BandEndpoints(p: Pollutant, k: nat)
    requires k < |Table(p)|
    ensures CalculateIndex(Table(p)[k].cpLow, p) == Table(p)[k].iLow
    ensures CalculateIndex(Table(p)[k].cpHigh, p) == Table(p)[k].iHigh
  {
    TablesWellFormed(p);
    DecidedByContainingBand(p, Table(p)[k].cpLow, k);
    DecidedByContainingBand(p, Table(p)[k].cpHigh, k);
    InterpEndpoints(Table(p)[k]);
  }

  /** Within one band the sub-index is monotone in the concentration. */
  lemma MonotoneWithinBand(p: Pollutant, k: nat, cp1: real, cp2: real)
    requires k < |Table(p)|
    requires InBand(Table(p)[k], cp1) && InBand(Table(p)[k], cp2) && cp1 <= cp2
    ensures CalculateIndex(cp1, p) <= CalculateIndex(cp2, p)
  {
    TablesWellFormed(p);
    DecidedByContainingBand(p, cp1, k);
    DecidedByContainingBand(p, cp2, k);
    InterpMonotone(Table(p)[k], cp1, cp2);
  }
}

=== FILE: auth.dfy ===
/** The authentication routes: registration with its ordered checks, login,
    and the two password-reset steps. Users are a list searched first match
    first, as `findOne` does. The user schema trims names and trims and
    lower-cases addresses, both when a user is saved and when a query
    names them, and validates a user before saving it. Password hashing and
    comparison, token signing, SHA-256, date casting and the
    mailbox-deliverability lookup are parameters. */
module Auth {
  import opened Common

  // ---------------------------------------------------------------------------
  // The Gmail address check.

  /** The characters the local part may use: `[a-zA-Z0-9._%+-]`. */
  predicate LocalChar(c: char) {
    ('a' <= c <= 'z') || ('A' <= c <= 'Z') || ('0' <= c <= '9')
    || c == '.' || c == '_' || c == '%' || c == '+' || c == '-'
  }

  const GmailSuffix: string := "@gmail.com"

  /** `/^[a-zA-Z0-9._%+-]+@gmail\.com$/.test(email)`, read from the right:
      the string ends in the suffix and everything before it is a non-empty
      run of local characters. */
  predicate IsValidGmail(email: string) {
    |email| > |GmailSuffix|
    && email[|email| - |GmailSuffix|..] == GmailSuffix
    && forall i :: 0 <= i < |email| - |GmailSuffix| ==> LocalChar(email[i])
  }

  /** The pattern read from the left: a local part, then the suffix. */
  ghost predicate MatchesPattern(email: string) {
    exists local: string :: |local| > 0 && (forall i :: 0 <= i < |local| ==> LocalChar(local[i]))
                            && email == local + GmailSuffix
  }

  /** The check accepts exactly the strings the pattern describes. */
  lemma {:induction false} GmailCheckMatchesPattern(email: string)
    ensures IsValidGmail(email) <==> MatchesPattern(email)
  {
    if IsValidGmail(email) {
      var local := email[..|email| - |GmailSuffix|];
      assert email == local + GmailSuffix;
      assert forall i :: 0 <= i < |local| ==> LocalChar(local[i]) by {
        forall i | 0 <= i < |local| ensures LocalChar(local[i]) {
          assert local[i] == email[i];
        }
      }
    }
    if MatchesPattern(email) {
      var local: string :| |local| > 0 && (forall i :: 0 <= i < |local| ==> LocalChar(local[i]))
                           && email == local + GmailSuffix;
      assert email[|email| - |GmailSuffix|..] == GmailSuffix;
      forall i | 0 <= i < |email| - |GmailSuffix| ensures LocalChar(email[i]) {
        assert email[i] == local[i];
      }
    }
  }

  // ---------------------------------------------------------------------------
  // The schema's address pattern.

  /** `\w`: an ASCII letter, a digit or the underscore. */
  predicate WordChar(c: char) {
    ('a' <= c <= 'z') || ('A' <= c <= 'Z') || ('0' <= c <= '9') || c == '_'
  }

  predicate Separator(c: char) {
    c == '.' || c == '-'
  }

  /** `\w+([.-]?\w+)*`: runs of word characters joined by single dots or
      hyphens, starting and ending with a word character. */
  predicate DottedWords(s: string) {
    && |s| > 0 && WordChar(s[0]) && WordChar(s[|s| - 1])
    && (forall i :: 0 <= i < |s| ==> WordChar(s[i]) || Separator(s[i]))
    && (forall i, j :: 0 <= i < |s| - 1 && j == i + 1 && Separator(s[i]) ==> WordChar(s[j]))
  }

  /** The schema's pattern `^\w+([.-]?\w+)*@\w+([.-]?\w+)*(\.\w{2,3})+$` on
      a Gmail address: the domain `gmail.com` fits the part after the `@`,
      and the local part holds no `@`, so the address fits exactly when its
      local part is dotted words. */
  predicate SchemaGmail(email: string) {
    IsValidGmail(email) && DottedWords(email[..|email| - |GmailSuffix|])
  }

  /** Every address the schema accepts passes the route's Gmail test. */
  lemma SchemaImpliesGmail(email: string)
    requires SchemaGmail(email)
    ensures IsValidGmail(email)
    ensures forall i :: 0 <= i < |email| - |GmailSuffix| ==> email[i] != '%' && email[i] != '+'
  {
    var local := email[..|email| - |GmailSuffix|];
    forall i | 0 <= i < |email| - |GmailSuffix| ensures email[i] != '%' && email[i] != '+' {
      assert email[i] == local[i];
    }
  }

  // ---------------------------------------------------------------------------
  // Users.

  datatype Profile = Profile(
    contact: Option<string>, dob: Option<string>, country: Option<string>, city: Option<string>,
    diseases: Option<seq<string>>, wantsAlerts: Option<bool>)

  datatype User = User(
    id: string, name: string, email: string, password: string, profile: Profile,
    resetToken: Option<string>, tokenExpiry: Option<int>)

  /** A string field is present when it is truthy: given and non-empty. */
  predicate Given(s: Option<string>) {
    s.Some? && s.value != ""
  }

  /** The address setters, `trim` then `lowercase`, which run on a saved
      user and on the value a query names alike. */
  function NormEmail(email: string): (r: string)
    ensures |r| <= |email|
  {
    ToLower(Trim(email))
  }

  /** A Gmail address starts with a local character and ends in `m`. */
  lemma GmailEndsNotBlank(email: string)
    requires IsValidGmail(email)
    ensures !IsSpace(email[0]) && !IsSpace(email[|email| - 1])
  {
    assert LocalChar(email[0]);
    assert email[|email| - 1] == email[|email| - |GmailSuffix|..][|GmailSuffix| - 1];
  }

  /** Lower-casing a Gmail address gives a Gmail address. */
  lemma GmailLowered(email: string)
    requires IsValidGmail(email)
    ensures IsValidGmail(ToLower(email))
  {
    var n := |email| - |GmailSuffix|;
    var low := ToLower(email);
    LowerSuffixOfGmail(email);
    forall i | 0 <= i < n ensures LocalChar(low[i]) {
      LowerLocalChar(email[i]);
    }
  }

  lemma LowerLocalChar(c: char)
    requires LocalChar(c)
    ensures LocalChar(LowerChar(c))
  {
  }

  /** The suffix holds no upper-case letter, so lower-casing keeps it. */
  lemma LowerSuffixOfGmail(email: string)
    requires IsValidGmail(email)
    ensures ToLower(email)[|email| - |GmailSuffix|..] == GmailSuffix
  {
    var n := |email| - |GmailSuffix|;
    var low := ToLower(email);
    forall i | 0 <= i < |GmailSuffix| ensures low[n..][i] == GmailSuffix[i] {
      assert email[n + i] == email[n..][i];
      SuffixCharNotUpper(i);
    }
  }

  lemma SuffixCharNotUpper(i: nat)
    requires i < |GmailSuffix|
    ensures LowerChar(GmailSuffix[i]) == GmailSuffix[i]
  {
  }

  /** Normalising a Gmail address only lower-cases it. */
  lemma NormOfGmail(email: string)
    requires IsValidGmail(email)
    ensures Trim(email) == email && NormEmail(email) == ToLower(email)
  {
    GmailEndsNotBlank(email);
    TrimUnchanged(email);
  }

  /** A Gmail address has no blank to trim, so normalising it only
      lower-cases it, and the result is again a Gmail address. */
  lemma GmailNormalised(email: string)
    requires IsValidGmail(email)
    ensures Trim(email) == email && NormEmail(email) == ToLower(email)
    ensures IsValidGmail(NormEmail(email))
  {
    GmailEndsNotBlank(email);
    TrimUnchanged(email);
    GmailLowered(email);
  }

  /** Normalising a Gmail address twice changes nothing more. */
  lemma GmailNormalIdempotent(email: string)
    requires IsValidGmail(email)
    ensures NormEmail(NormEmail(email)) == NormEmail(email)
  {
    GmailNormalised(email);
    var low := ToLower(email);
    GmailEndsNotBlank(low);
    TrimUnchanged(low);
    ToLowerIdempotent(email);
  }

  /** `findOne` on a predicate: the first user that satisfies it. */
  function FindFirst(users: seq<User>, p: User -> bool): (r: Option<nat>)
    ensures r.None? <==> forall i :: 0 <= i < |users| ==> !p(users[i])
    ensures r.Some? ==> r.value < |users| && p(users[r.value])
                        && forall j :: 0 <= j < r.value ==> !p(users[j])
  {
    if |users| == 0 then None
    else if p(users[0]) then Some(0)
    else match FindFirst(users[1..], p)
      case None => None
      case Some(k) => Some(k + 1)
  }

  predicate EmailTaken(users: seq<User>, email: string) {
    exists i :: 0 <= i < |users| && users[i].email == email
  }

  /** `findOne({email})`: the query's address is normalised first, and the
      first user holding the normalised address is found. */
  function WithEmail(users: seq<User>, email: string): (r: Option<nat>)
    ensures r.None? <==> !EmailTaken(users, NormEmail(email))
    ensures r.Some? ==> r.value < |users| && users[r.value].email == NormEmail(email)
                        && forall j :: 0 <= j < r.value ==> users[j].email != NormEmail(email)
  {
    FindFirst(users, (u: User) => u.email == NormEmail(email))
  }

  predicate NameTaken(users: seq<User>, name: string) {
    exists i :: 0 <= i < |users| && users[i].name == name
  }

  // ---------------------------------------------------------------------------
  // Registration.

  datatype RegisterError = MissingField | NotGmail | Undeliverable | DuplicateEmail | DuplicateName

  /** A check's 400, the 500 of a save the schema refuses, or the new user
      list. */
  datatype RegisterResult = Rejected(error: RegisterError) | SaveFailed | Registered(users: seq<User>)

  datatype RegisterRequest = RegisterRequest(
    name: Option<string>, email: Option<string>, password: Option<string>, profile: Profile)

  /** The HTTP status of a registration. */
  function RegisterStatus(r: RegisterResult): (s: int)
    ensures s == 201 <==> r.Registered?
    ensures s == 400 <==> r.Rejected?
    ensures s == 500 <==> r.SaveFailed?
  {
    if r.Registered? then 201 else if r.Rejected? then 400 else 500
  }

  const DefaultCountry: string := "Pakistan"

  /** The profile fields as the schema saves them: contact and city
      trimmed, and an absent country, disease list or alert flag replaced
      by its default. */
  function StoredProfile(p: Profile): (r: Profile)
    ensures r.dob == p.dob
    ensures r.country.Some? && r.diseases.Some? && r.wantsAlerts.Some?
    ensures p.country.Some? ==> r.country == p.country
    ensures p.country.None? ==> r.country == Some(DefaultCountry)
    ensures p.diseases.Some? ==> r.diseases == p.diseases
    ensures p.diseases.None? ==> r.diseases == Some([])
    ensures p.wantsAlerts.Some? ==> r.wantsAlerts == p.wantsAlerts
    ensures p.wantsAlerts.None? ==> r.wantsAlerts == Some(false)
    ensures p.contact.None? <==> r.contact.None?
    ensures p.contact.Some? ==> r.contact == Some(Trim(p.contact.value))
    ensures p.city.None? <==> r.city.None?
    ensures p.city.Some? ==> r.city == Some(Trim(p.city.value))
  {
    Profile(
      if p.contact.Some? then Some(Trim(p.contact.value)) else None,
      p.dob,
      if p.country.Some? then p.country else Some(DefaultCountry),
      if p.city.Some? then Some(Trim(p.city.value)) else None,
      if p.diseases.Some? then p.diseases else Some([]),
      if p.wantsAlerts.Some? then p.wantsAlerts else Some(false))
  }

  const MinPasswordLength: nat := 6

  /** What saving the new user refuses: a name that trims to nothing, an
      address the schema's pattern rejects, a stored password (the hash)
      shorter than six characters, or a birth date that does not cast to a
      date (an empty one casts to none). */
  predicate SaveRefused(req: RegisterRequest, hash: string -> string, isDate: string -> bool)
    requires Given(req.name) && Given(req.email) && Given(req.password)
  {
    || Trim(req.name.value) == ""
    || !SchemaGmail(NormEmail(req.email.value))
    || |hash(req.password.value)| < MinPasswordLength
    || (req.profile.dob.Some? && req.profile.dob.value != "" && !isDate(req.profile.dob.value))
  }

  /** The user the schema saves for a request. */
  function NewUser(req: RegisterRequest, newId: string, hash: string -> string): (u: User)
    requires Given(req.name) && Given(req.email) && Given(req.password)
    ensures u.id == newId && u.password == hash(req.password.value)
    ensures u.name == Trim(req.name.value) && u.email == NormEmail(req.email.value)
    ensures u.profile == StoredProfile(req.profile)
    ensures u.resetToken.None? && u.tokenExpiry.None?
  {
    User(newId, Trim(req.name.value), NormEmail(req.email.value), hash(req.password.value),
         StoredProfile(req.profile), None, None)
  }

  /** The checks that precede the duplicate lookups all pass. */
  predicate Admissible(req: RegisterRequest, deliverable: string -> bool) {
    Given(req.name) && Given(req.email) && Given(req.password)
    && IsValidGmail(req.email.value) && deliverable(req.email.value)
  }

  /** POST /register: the checks run in a fixed order and the first one that
      fails decides the answer. The duplicate lookups compare the trimmed
      name and the normalised address; the schema then validates the new
      user, which stores only the hash of the password. */
  function Register(users: seq<User>, req: RegisterRequest, newId: string,
                    deliverable: string -> bool, hash: string -> string, isDate: string -> bool): (r: RegisterResult)
    ensures r == Rejected(MissingField) <==> !Given(req.name) || !Given(req.email) || !Given(req.password)
    ensures r == Rejected(NotGmail) <==>
      Given(req.name) && Given(req.email) && Given(req.password) && !IsValidGmail(req.email.value)
    ensures r == Rejected(Undeliverable) <==>
      Given(req.name) && Given(req.email) && Given(req.password) && IsValidGmail(req.email.value)
      && !deliverable(req.email.value)
    ensures r == Rejected(DuplicateEmail) <==>
      Admissible(req, deliverable) && EmailTaken(users, NormEmail(req.email.value))
    ensures r == Rejected(DuplicateName) <==>
      Admissible(req, deliverable) && !EmailTaken(users, NormEmail(req.email.value))
      && NameTaken(users, Trim(req.name.value))
    ensures r.SaveFailed? <==>
      Admissible(req, deliverable) && !EmailTaken(users, NormEmail(req.email.value))
      && !NameTaken(users, Trim(req.name.value)) && SaveRefused(req, hash, isDate)
    ensures r.Registered? ==>
      Admissible(req, deliverable) && r.users == users + [NewUser(req, newId, hash)]
  {
    if !Given(req.name) || !Given(req.email) || !Given(req.password) then Rejected(MissingField)
    else if !IsValidGmail(req.email.value) then Rejected(NotGmail)
    else if !deliverable(req.email.value) then Rejected(Undeliverable)
    else if WithEmail(users, req.email.value).Some? then Rejected(DuplicateEmail)
    else if FindFirst(users, (u: User) => u.name == Trim(req.name.value)).Some? then Rejected(DuplicateName)
    else if SaveRefused(req, hash, isDate) then SaveFailed
    else Registered(users + [NewUser(req, newId, hash)])
  }

  /** An address whose local part holds a `%` or a `+` passes every check
      of the route, and when it is new the schema refuses it: the route
      answers 500 rather than 400. */
  lemma PercentOrPlusFailsOnSave(users: seq<User>, req: RegisterRequest, newId: string, k: nat,
                                 deliverable: string -> bool, hash: string -> string, isDate: string -> bool)
    requires Admissible(req, deliverable)
    requires k < |req.email.value| - |GmailSuffix| && req.email.value[k] in {'%', '+'}
    requires !EmailTaken(users, NormEmail(req.email.value)) && !NameTaken(users, Trim(req.name.value))
    ensures Register(users, req, newId, deliverable, hash, isDate).SaveFailed?
  {
    NormOfGmail(req.email.value);
    PercentOrPlusNotSchema(req.email.value, k);
    assert SaveRefused(req, hash, isDate);
  }

  lemma PercentOrPlusNotSchema(e: string, k: nat)
    requires IsValidGmail(e)
    requires k < |e| - |GmailSuffix| && e[k] in {'%', '+'}
    ensures !SchemaGmail(ToLower(e))
  {
    var n := ToLower(e);
    assert n[k] == LowerChar(e[k]) == e[k];
    NotSchemaAt(n, k);
  }

  /** A character of the local part that is neither a word character nor a
      separator breaks the schema's pattern. */
  lemma NotSchemaAt(n: string, k: nat)
    requires k < |n| - |GmailSuffix| && !WordChar(n[k]) && !Separator(n[k])
    ensures !SchemaGmail(n)
  {
    var local := n[..|n| - |GmailSuffix|];
    assert local[k] == n[k];
    NotDottedAt(local, k);
  }

  /** A character that is neither a word character nor a separator breaks
      the dotted words. */
  lemma NotDottedAt(s: string, k: nat)
    requires k < |s| && !WordChar(s[k]) && !Separator(s[k])
    ensures !DottedWords(s)
  {
  }

  predicate DistinctEmails(users: seq<User>) {
    forall i, j :: 0 <= i < j < |users| ==> users[i].email != users[j].email
  }

  predicate DistinctNames(users: seq<User>) {
    forall i, j :: 0 <= i < j < |users| ==> users[i].name != users[j].name
  }

  /** Every stored address is a Gmail address in lower case, which is its
      normal form (`GmailNormalised`). */
  predicate NormalGmails(users: seq<User>) {
    forall i :: 0 <= i < |users| ==> IsValidGmail(users[i].email) && ToLower(users[i].email) == users[i].email
  }

  /** Appending a user whose address and name are new, and whose address
      is a lower-case Gmail address, keeps the three invariants. */
  lemma AppendKeepsUnique(users: seq<User>, u: User)
    requires DistinctEmails(users) && DistinctNames(users) && NormalGmails(users)
    requires !EmailTaken(users, u.email) && !NameTaken(users, u.name)
    requires IsValidGmail(u.email) && ToLower(u.email) == u.email
    ensures DistinctEmails(users + [u]) && DistinctNames(users + [u]) && NormalGmails(users + [u])
  {
    var r := users + [u];
    assert forall i :: 0 <= i < |users| ==> r[i] == users[i];
  }

  /** Registration keeps e-mail addresses and names unique, and every stored
      address a Gmail address in normal form. */
  lemma RegisterKeepsUnique(users: seq<User>, req: RegisterRequest, newId: string,
                            deliverable: string -> bool, hash: string -> string, isDate: string -> bool)
    requires DistinctEmails(users) && DistinctNames(users) && NormalGmails(users)
    ensures var r := Register(users, req, newId, deliverable, hash, isDate);
            r.Registered? ==> DistinctEmails(r.users) && DistinctNames(r.users) && NormalGmails(r.users)
  {
    var r := Register(users, req, newId, deliverable, hash, isDate);
    if r.Registered? {
      var u := NewUser(req, newId, hash);
      GmailNormalised(req.email.value);
      ToLowerIdempotent(req.email.value);
      AppendKeepsUnique(users, u);
    }
  }

  // ---------------------------------------------------------------------------
  // Login.

  datatype LoginResult = LoginResult(status: int, token: Option<string>, user: Option<User>)

  /** POST /login: 400 for a missing field, 404 for an unknown address, 400
      for a wrong password, and otherwise 200 with a token signed for the
      first user holding the normalised address. */
  function Login(users: seq<User>, email: Option<string>, password: Option<string>,
                 matches: (string, string) -> bool, sign: string -> string): (r: LoginResult)
    ensures r.status in {200, 400, 404}
    ensures !Given(email) || !Given(password) ==> r.status == 400 && r.token.None?
    ensures Given(email) && Given(password) && !EmailTaken(users, NormEmail(email.value)) ==> r.status == 404
    ensures r.status == 200 ==>
      && Given(email) && Given(password)
      && r.user.Some? && r.user.value in users && r.user.value.email == NormEmail(email.value)
      && matches(password.value, r.user.value.password)
      && r.token == Some(sign(r.user.value.id))
    ensures r.token.Some? <==> r.status == 200
    ensures Given(email) && Given(password) && EmailTaken(users, NormEmail(email.value)) ==>
      var k := WithEmail(users, email.value).value;
      && r.status in {200, 400}
      && (r.status == 200 <==> matches(password.value, users[k].password))
      && (r.status == 200 ==> r.user == Some(users[k]) && r.token == Some(sign(users[k].id)))
  {
    if !Given(email) || !Given(password) then LoginResult(400, None, None)
    else match WithEmail(users, email.value)
      case None => LoginResult(404, None, None)
      case Some(k) =>
        if !matches(password.value, users[k].password) then LoginResult(400, None, None)
        else LoginResult(200, Some(sign(users[k].id)), Some(users[k]))
  }

  /** Among users with distinct addresses, which the register route keeps,
      a stored user logs in with any spelling of their address that
      normalises to it, exactly with a password that matches their own
      hash, and the token is signed for them. */
  lemma LoginOfStoredUser(users: seq<User>, i: nat, email: string, password: string,
                          matches: (string, string) -> bool, sign: string -> string)
    requires DistinctEmails(users)
    requires i < |users| && email != "" && NormEmail(email) == users[i].email && password != ""
    ensures var l := Login(users, Some(email), Some(password), matches, sign);
            && (l.status == 200 <==> matches(password, users[i].password))
            && (l.status == 200 ==> l.token == Some(sign(users[i].id)))
            && (l.status != 200 ==> l.status == 400)
  {
    var k := WithEmail(users, email).value;
    assert k == i;
  }

  /** Upper-casing a Gmail address keeps its local characters and its
      length, and ends it in `M`. */
  lemma UpperGmail(e: string)
    requires IsValidGmail(e)
    ensures |ToUpper(e)| == |e| && LocalChar(ToUpper(e)[0]) && ToUpper(e)[|e| - 1] == 'M'
  {
    assert LocalChar(e[0]);
    assert e[|e| - 1] == e[|e| - |GmailSuffix|..][|GmailSuffix| - 1];
  }

  lemma EndsNotBlank(s: string)
    requires |s| > 0 && LocalChar(s[0]) && s[|s| - 1] == 'M'
    ensures !IsSpace(s[0]) && !IsSpace(s[|s| - 1])
  {
  }

  /** A stored address spelt in upper case normalises back to itself, so
      `LoginOfStoredUser` finds its user under that spelling too. */
  lemma UpperGmailNormalises(e: string)
    requires IsValidGmail(e) && ToLower(e) == e
    ensures NormEmail(ToUpper(e)) == e
  {
    var up := ToUpper(e);
    UpperGmail(e);
    EndsNotBlank(up);
    TrimUnchanged(up);
    LowerOfUpper(e);
  }

  /** A user registered with a password can log in with it, as long as the
      hash comparison recognises its own hashes. */
  lemma RegisterThenLogin(users: seq<User>, req: RegisterRequest, newId: string,
                          deliverable: string -> bool, hash: string -> string, isDate: string -> bool,
                          matches: (string, string) -> bool, sign: string -> string)
    requires Register(users, req, newId, deliverable, hash, isDate).Registered?
    requires forall p :: matches(p, hash(p))
    ensures var r := Register(users, req, newId, deliverable, hash, isDate);
            var l := Login(r.users, req.email, req.password, matches, sign);
            l.status == 200 && l.token == Some(sign(newId))
  {
    var r := Register(users, req, newId, deliverable, hash, isDate);
    var n := |users|;
    assert r.users[n].email == NormEmail(req.email.value);
    var k := WithEmail(r.users, req.email.value);
    assert k.Some?;
    assert forall j :: 0 <= j < n ==> r.users[j] == users[j];
    assert k.value == n;
    assert matches(req.password.value, hash(req.password.value));
  }

  // ---------------------------------------------------------------------------
  // Password reset.

  const HourMs: int := 3600000

  /** A reset token is live when its hash is stored and its expiry is still
      ahead. */
  predicate HoldsLiveToken(u: User, hashed: string, now: int) {
    u.resetToken == Some(hashed) && u.tokenExpiry.Some? && u.tokenExpiry.value > now
  }

  datatype ResetResult = ResetResult(status: int, users: seq<User>)

  /** POST /reset-password as intended: 400 for a missing field or when no
      user holds the hashed token unexpired; otherwise the first such user
      gets the new password's hash and loses the token. */
  function ResetPassword(users: seq<User>, token: Option<string>, newPassword: Option<string>, now: int,
                         sha256: string -> string, hash: string -> string): (r: ResetResult)
    ensures r.status in {200, 400}
    ensures r.status == 400 ==> r.users == users
    ensures !Given(token) || !Given(newPassword) ==> r.status == 400
    ensures Given(token) && Given(newPassword) ==>
      (r.status == 200 <==> exists i :: 0 <= i < |users| && HoldsLiveToken(users[i], sha256(token.value), now))
    ensures r.status == 200 ==> |r.users| == |users|
    ensures r.status == 200 ==>
      exists k :: 0 <= k < |users| && HoldsLiveToken(users[k], sha256(token.value), now)
        && r.users == users[k := users[k].(password := hash(newPassword.value), resetToken := None, tokenExpiry := None)]
  {
    if !Given(token) || !Given(newPassword) then ResetResult(400, users)
    else
      var hashed := sha256(token.value);
      match FindFirst(users, (u: User) => HoldsLiveToken(u, hashed, now))
      case None => ResetResult(400, users)
      case Some(k) =>
        ResetResult(200, users[k := users[k].(password := hash(newPassword.value), resetToken := None, tokenExpiry := None)])
  }

  /** A token works once: after a reset nobody holds it any more, provided
      no two users held it. */
  lemma ResetTokenSingleUse(users: seq<User>, token: Option<string>, p1: Option<string>, p2: Option<string>,
                            now: int, sha256: string -> string, hash: string -> string)
    requires Given(token) && Given(p2)
    requires forall i, j :: 0 <= i < j < |users| && users[i].resetToken.Some?
               ==> users[i].resetToken != users[j].resetToken
    requires ResetPassword(users, token, p1, now, sha256, hash).status == 200
    ensures ResetPassword(ResetPassword(users, token, p1, now, sha256, hash).users, token, p2, now, sha256, hash).status == 400
  {
    var r := ResetPassword(users, token, p1, now, sha256, hash);
    var hashed := sha256(token.value);
    var k :| 0 <= k < |users| && HoldsLiveToken(users[k], hashed, now)
        && r.users == users[k := users[k].(password := hash(p1.value), resetToken := None, tokenExpiry := None)];
    forall i | 0 <= i < |r.users| ensures !HoldsLiveToken(r.users[i], hashed, now) {
      if i != k {
        assert r.users[i] == users[i];
        if i < k {
          assert users[i].resetToken != users[k].resetToken;
        } else {
          assert users[k].resetToken != users[i].resetToken;
        }
      }
    }
  }

  /** POST /forgot-password as intended: 400 without an address, 404 for an
      unknown one, otherwise the first user with the address stores the hash
      of the fresh token, valid for one hour. */
  function ForgotPassword(users: seq<User>, email: Option<string>, freshToken: string, now: int,
                          sha256: string -> string): (r: ResetResult)
    ensures r.status in {200, 400, 404}
    ensures r.status != 200 ==> r.users == users
    ensures !Given(email) ==> r.status == 400
    ensures Given(email) ==> (r.status == 404 <==> !EmailTaken(users, NormEmail(email.value)))
    ensures r.status == 200 ==> |r.users| == |users|
    ensures r.status == 200 ==>
      exists k :: 0 <= k < |users| && users[k].email == NormEmail(email.value)
        && r.users[k] == users[k].(resetToken := Some(sha256(freshToken)), tokenExpiry := Some(now + HourMs))
        && forall j :: 0 <= j < |users| && j != k ==> r.users[j] == users[j]
  {
    if !Given(email) then ResetResult(400, users)
    else match WithEmail(users, email.value)
      case None => ResetResult(404, users)
      case Some(k) =>
        ResetResult(200, users[k := users[k].(resetToken := Some(sha256(freshToken)), tokenExpiry := Some(now + HourMs))])
  }

  /** A token issued by the forgot step resets the password within the hour. */
  lemma ForgotThenReset(users: seq<User>, email: Option<string>, freshToken: string, now: int, later: int,
                        newPassword: string, sha256: string -> string, hash: string -> string)
    requires ForgotPassword(users, email, freshToken, now, sha256).status == 200
    requires freshToken != "" && newPassword != "" && now <= later < now + HourMs
    ensures ResetPassword(ForgotPassword(users, email, freshToken, now, sha256).users,
                          Some(freshToken), Some(newPassword), later, sha256, hash).status == 200
  {
    var f := ForgotPassword(users, email, freshToken, now, sha256);
    var k :| 0 <= k < |users| && users[k].email == NormEmail(email.value)
      && f.users[k] == users[k].(resetToken := Some(sha256(freshToken)), tokenExpiry := Some(now + HourMs));
    assert HoldsLiveToken(f.users[k], sha256(freshToken), later);
  }

  /** Both reset steps, as written, call `crypto` without importing it, so
      every request that passes the field checks fails with a 500 before
      anything is saved. */
  function ResetPasswordAsWritten(users: seq<User>, token: Option<string>, newPassword: Option<string>): (r: ResetResult)
    ensures r.users == users
    ensures r.status == 400 <==> !Given(token) || !Given(newPassword)
    ensures r.status != 200
  {
    if !Given(token) || !Given(newPassword) then ResetResult(400, users) else ResetResult(500, users)
  }

  function ForgotPasswordAsWritten(users: seq<User>, email: Option<string>): (r: ResetResult)
    ensures r.users == users
    ensures r.status == 400 <==> !Given(email)
    ensures Given(email) ==> (r.status == 404 <==> !EmailTaken(users, NormEmail(email.value)))
    ensures r.status != 200
  {
    if !Given(email) then ResetResult(400, users)
    else if WithEmail(users, email.value).None? then ResetResult(404, users)
    else ResetResult(500, users)
  }

  /** Where the intended reset succeeds, the written one fails. */
  lemma ResetAsWrittenFailsWhereIntendedSucceeds(users: seq<User>, token: Option<string>, newPassword: Option<string>,
                                                 now: int, sha256: string -> string, hash: string -> string)
    requires ResetPassword(users, token, newPassword, now, sha256, hash).status == 200
    ensures ResetPasswordAsWritten(users, token, newPassword).status == 500
  {
  }
}

=== FILE: breakpoints.dfy ===
/** The per-pollutant AQI breakpoint tables of the backend: for each of six
    pollutants an ordered list of bands, each mapping a concentration range
    [cpLow, cpHigh] onto an index range [iLow, iHigh] (the EPA AQI tables,
    with the 2024 PM2.5 rows). */
module Breakpoints {
  import opened Common

  datatype Pollutant = PM25 | PM10 | O3 | CO | SO2 | NO2

  datatype Band = Band(cpLow: real, cpHigh: real, iLow: int, iHigh: int)

  /** The key under which the table is exported. */
  function Key(p: Pollutant): string {
    match p
    case PM25 => "pm25"
    case PM10 => "pm10"
    case O3 => "O3"
    case CO => "CO"
    case SO2 => "SO2"
    case NO2 => "NO2"
  }

  const AllPollutants: seq<Pollutant> := [PM25, PM10, O3, CO, SO2, NO2]

  /** Looking a table up by key: only the six keys have one. */
  function PollutantOfKey(k: string): (r: Option<Pollutant>)
    ensures r.Some? ==> Key(r.value) == k
    ensures r.None? ==> forall p: Pollutant :: Key(p) != k
  {
    if k == "pm25" then Some(PM25)
    else if k == "pm10" then Some(PM10)
    else if k == "O3" then Some(O3)
    else if k == "CO" then Some(CO)
    else if k == "SO2" then Some(SO2)
    else if k == "NO2" then Some(NO2)
    else None
  }

  lemma KeysDistinct(p: Pollutant, q: Pollutant)
    ensures Key(p) == Key(q) ==> p == q
  {
  }

  function Table(p: Pollutant): seq<Band> {
    match p
    case PM25 => [
      Band(0.0, 9.0, 0, 50),
      Band(9.1, 35.4, 51, 100),
      Band(35.5, 55.4, 101, 150),
      Band(55.5, 125.4, 151, 200),
      Band(125.5, 225.4, 201, 300),
      Band(225.5, 350.4, 301, 400),
      Band(350.5, 500.4, 401, 500)]
    case PM10 => [
      Band(0.0, 54.0, 0, 50),
      Band(55.0, 154.0, 51, 100),
      Band(155.0, 254.0, 101, 150),
      Band(255.0, 354.0, 151, 200),
      Band(355.0, 424.0, 201, 300),
      Band(425.0, 504.0, 301, 400),
      Band(505.0, 604.0, 401, 500)]
    case O3 => [
      Band(0.0, 0.054, 0, 50),
      Band(0.055, 0.07, 51, 100),
      Band(0.125, 0.164, 101, 150),
      Band(0.165, 0.204, 151, 200),
      Band(0.205, 0.404, 201, 300),
      Band(0.405, 0.504, 301, 400),
      Band(0.505, 0.604, 401, 500)]
    case CO => [
      Band(0.0, 4.4, 0, 50),
      Band(4.5, 9.4, 51, 100),
      Band(9.5, 12.4, 101, 150),
      Band(12.5, 15.4, 151, 200),
      Band(15.5, 30.4, 201, 300)]
    case SO2 => [
      Band(0.0, 35.0, 0, 50),
      Band(36.0, 75.0, 51, 100),
      Band(76.0, 185.0, 101, 150)]
    case NO2 => [
      Band(0.0, 53.0, 0, 50),
      Band(54.0, 100.0, 51, 100),
      Band(101.0, 360.0, 101, 150),
      Band(361.0, 649.0, 151, 200),
      Band(650.0, 1249.0, 201, 300)]
  }

  /** A band is a proper interval on both axes, with a non-negative index. */
  predicate BandOk(b: Band) {
    b.cpLow < b.cpHigh && 0 <= b.iLow < b.iHigh
  }

  predicate InBand(b: Band, cp: real) {
    b.cpLow <= cp <= b.cpHigh
  }

  /** The shape every table has: non-empty, proper bands, the first band
      starting at concentration 0 and index 0, consecutive bands separated
      by a concentration gap, and index ranges that continue one after the
      other. */
  predicate WellFormed(t: seq<Band>) {
    && |t| > 0
    && (forall k :: 0 <= k < |t| ==> BandOk(t[k]))
    && t[0].cpLow == 0.0 && t[0].iLow == 0
    && (forall k :: 0 < k < |t| ==> t[k - 1].cpHigh < t[k].cpLow)
    && (forall k :: 0 < k < |t| ==> t[k].iLow == t[k - 1].iHigh + 1)
  }

  /** The largest index a table can produce. */
  function TopIndex(p: Pollutant): int {
    match p
    case PM25 => 500
    case PM10 => 500
    case O3 => 500
    case CO => 300
    case SO2 => 150
    case NO2 => 300
  }

  lemma TablesWellFormed(p: Pollutant)
    ensures WellFormed(Table(p))
    ensures Table(p)[|Table(p)| - 1].iHigh == TopIndex(p)
  {
    match p
    case PM25 => Pm25TableWellFormed();
    case PM10 => Pm10TableWellFormed();
    case O3 => O3TableWellFormed();
    case CO => CoTableWellFormed();
    case SO2 => So2TableWellFormed();
    case NO2 => No2TableWellFormed();
  }

  // Each table checked on its own.

  lemma Pm25TableWellFormed()
    ensures WellFormed(Table(PM25)) && Table(PM25)[|Table(PM25)| - 1].iHigh == TopIndex(PM25)
  {
  }

  lemma Pm10TableWellFormed()
    ensures WellFormed(Table(PM10)) && Table(PM10)[|Table(PM10)| - 1].iHigh == TopIndex(PM10)
  {
  }

  lemma O3TableWellFormed()
    ensures WellFormed(Table(O3)) && Table(O3)[|Table(O3)| - 1].iHigh == TopIndex(O3)
  {
  }

  lemma CoTableWellFormed()
    ensures WellFormed(Table(CO)) && Table(CO)[|Table(CO)| - 1].iHigh == TopIndex(CO)
  {
  }

  lemma So2TableWellFormed()
    ensures WellFormed(Table(SO2)) && Table(SO2)[|Table(SO2)| - 1].iHigh == TopIndex(SO2)
  {
  }

  lemma No2TableWellFormed()
    ensures WellFormed(Table(NO2)) && Table(NO2)[|Table(NO2)| - 1].iHigh == TopIndex(NO2)
  {
  }

  /** Bands are ordered: an earlier band lies wholly below a later one in
      concentration. */
  lemma {:induction false} CpAscending(t: seq<Band>, i: nat, j: nat)
    requires WellFormed(t) && i < j < |t|
    ensures t[i].cpHigh < t[j].cpLow
    decreases j - i
  {
    if i + 1 < j {
      CpAscending(t, i, j - 1);
      assert BandOk(t[j - 1]);
    }
  }

  /** Index ranges continue one another, so every index lies between 0 and
      the last band's top. */
  lemma {:induction false} IndexAscending(t: seq<Band>, i: nat, j: nat)
    requires WellFormed(t) && i <= j < |t|
    ensures t[i].iHigh <= t[j].iHigh
    ensures 0 <= t[i].iLow
    decreases j - i
  {
    if i < j {
      IndexAscending(t, i, j - 1);
      assert BandOk(t[j]);
    }
    assert BandOk(t[i]);
  }

  /** Bands never overlap: at most one contains a given concentration. */
  lemma AtMostOneBand(t: seq<Band>, cp: real, i: nat, j: nat)
    requires WellFormed(t) && i < |t| && j < |t|
    requires InBand(t[i], cp) && InBand(t[j], cp)
    ensures i == j
  {
    if i < j {
      CpAscending(t, i, j);
    } else if j < i {
      CpAscending(t, j, i);
    }
  }

  /** Every band lies within [0, cpHigh of the last band]. */
  lemma CpRange(t: seq<Band>, k: nat)
    requires WellFormed(t) && k < |t|
    ensures 0.0 <= t[k].cpLow && t[k].cpHigh <= t[|t| - 1].cpHigh
  {
    if k > 0 {
      CpAscending(t, 0, k);
      assert BandOk(t[0]);
    }
    if k < |t| - 1 {
      CpAscending(t, k, |t| - 1);
      assert BandOk(t[|t| - 1]);
    }
  }
}

=== FILE: categories.dfy ===
/** The six-step AQI category scale and the classifiers the front end applies
    to it. The reference is `getAqiCategory` of the shared colour constants:
    inclusive upper bounds 50, 100, 150, 200 and 300, everything above is
    Hazardous. The copies in the pages differ from it only at the edges
    (falsy input, NaN, negatives, non-integers between two bands, values
    above 500); each copy's contract states how. */
module Categories {
  import opened Common

  datatype Category = Good | Moderate | UnhealthySensitive | Unhealthy | VeryUnhealthy | Hazardous

  /** Severity, from 0 (Good) to 5 (Hazardous). */
  function Rank(c: Category): nat {
    match c
    case Good => 0
    case Moderate => 1
    case UnhealthySensitive => 2
    case Unhealthy => 3
    case VeryUnhealthy => 4
    case Hazardous => 5
  }

  /** The inclusive upper bound of the category of rank `i`. */
  function Bound(i: nat): real
    requires i < 5
  {
    [50.0, 100.0, 150.0, 200.0, 300.0][i]
  }

  /** `x` lies in category `c` of the scale: above the bound of the category
      below (if there is one) and at most its own bound (if it has one). */
  predicate Within(c: Category, x: real) {
    (Rank(c) == 0 || x > Bound(Rank(c) - 1)) && (Rank(c) == 5 || x <= Bound(Rank(c)))
  }

  /** The scale read on a number. */
  function Classify(x: real): (c: Category)
    ensures Within(c, x)
  {
    if x <= 50.0 then Good
    else if x <= 100.0 then Moderate
    else if x <= 150.0 then UnhealthySensitive
    else if x <= 200.0 then Unhealthy
    else if x <= 300.0 then VeryUnhealthy
    else Hazardous
  }

  /** The categories partition the numbers: no value lies in two of them. */
  lemma WithinUnique(c: Category, d: Category, x: real)
    requires Within(c, x) && Within(d, x)
    ensures c == d
  {
  }

  lemma ClassifyMonotone(x: real, y: real)
    requires x <= y
    ensures Rank(Classify(x)) <= Rank(Classify(y))
  {
  }

  /** The key used in class names and translation keys. */
  function Key(c: Category): string {
    match c
    case Good => "good"
    case Moderate => "moderate"
    case UnhealthySensitive => "unhealthySensitive"
    case Unhealthy => "unhealthy"
    case VeryUnhealthy => "veryUnhealthy"
    case Hazardous => "hazardous"
  }

  /** The label shown to the user. */
  function Label(c: Category): string {
    match c
    case Good => "Good"
    case Moderate => "Moderate"
    case UnhealthySensitive => "Unhealthy for Sensitive Groups"
    case Unhealthy => "Unhealthy"
    case VeryUnhealthy => "Very Unhealthy"
    case Hazardous => "Hazardous"
  }

  lemma LabelsDistinct(c: Category, d: Category)
    requires c != d
    ensures Label(c) != Label(d) && Key(c) != Key(d)
  {
  }

  datatype Style = Style(category: Category, caption: string, className: string)

  /** The shared `getAqiCategory`. A comparison with NaN is false, so a value
      that does not convert to a number falls through to Hazardous; `null`
      converts to 0 and is Good. */
  function AqiColors(aqi: Num): (r: Style)
    ensures ToNumber(aqi).Finite? ==> r.category == Classify(ToNumber(aqi).v)
    ensures ToNumber(aqi).NaN? ==> r.category == Hazardous
    ensures r.caption == Label(r.category)
    ensures r.className == "bg-aqi-" + Key(r.category)
  {
    ClassNamesFollowKeys();
    if AtMost(aqi, 50.0) then Style(Good, "Good", "bg-aqi-good")
    else if AtMost(aqi, 100.0) then Style(Moderate, "Moderate", "bg-aqi-moderate")
    else if AtMost(aqi, 150.0) then
      Style(UnhealthySensitive, "Unhealthy for Sensitive Groups", "bg-aqi-unhealthySensitive")
    else if AtMost(aqi, 200.0) then Style(Unhealthy, "Unhealthy", "bg-aqi-unhealthy")
    else if AtMost(aqi, 300.0) then Style(VeryUnhealthy, "Very Unhealthy", "bg-aqi-veryUnhealthy")
    else Style(Hazardous, "Hazardous", "bg-aqi-hazardous")
  }

  /** Each class name is the prefix followed by the category's key. */
  lemma ClassNamesFollowKeys()
    ensures "bg-aqi-good" == "bg-aqi-" + Key(Good)
    ensures "bg-aqi-moderate" == "bg-aqi-" + Key(Moderate)
    ensures "bg-aqi-unhealthySensitive" == "bg-aqi-" + Key(UnhealthySensitive)
    ensures "bg-aqi-unhealthy" == "bg-aqi-" + Key(Unhealthy)
    ensures "bg-aqi-veryUnhealthy" == "bg-aqi-" + Key(VeryUnhealthy)
    ensures "bg-aqi-hazardous" == "bg-aqi-" + Key(Hazardous)
  {
  }

  /** Every number, negative ones included, gets exactly one of the six
      categories, and severity never drops as the value grows. */
  lemma {:induction false} AqiColorsTotalAndMonotone(x: real, y: real)
    requires x <= y
    ensures Within(AqiColors(Finite(x)).category, x)
    ensures x < 0.0 ==> AqiColors(Finite(x)).category == Good
    ensures Rank(AqiColors(Finite(x)).category) <= Rank(AqiColors(Finite(y)).category)
  {
    ClassifyMonotone(x, y);
  }

  // ---------------------------------------------------------------------------
  // The page-local copies.

  /** The health-advice classifier: a falsy or negative value is Good before
      the thresholds are consulted. It agrees with the scale on every number
      and calls a missing or NaN value Good where the reference says
      Hazardous. */
  function HealthCategory(aqi: Num): (r: Category)
    ensures ToNumber(aqi).Finite? ==> r == Classify(ToNumber(aqi).v)
    ensures ToNumber(aqi).NaN? ==> r == Good && AqiColors(aqi).category == Hazardous
  {
    if Falsy(aqi) || Below(aqi, 0.0) then Good
    else if AtMost(aqi, 50.0) then Good
    else if AtMost(aqi, 100.0) then Moderate
    else if AtMost(aqi, 150.0) then UnhealthySensitive
    else if AtMost(aqi, 200.0) then Unhealthy
    else if AtMost(aqi, 300.0) then VeryUnhealthy
    else Hazardous
  }

  /** A non-integer strictly between the bound of one category and the
      integer lower bound of the next (for example 50.5 or 300.5). */
  predicate InGap(x: real) {
    (Bound(0) < x < Bound(0) + 1.0) || (Bound(1) < x < Bound(1) + 1.0) ||
    (Bound(2) < x < Bound(2) + 1.0) || (Bound(3) < x < Bound(3) + 1.0) ||
    (Bound(4) < x < Bound(4) + 1.0)
  }

  /** The home-page recommendation band, with integer lower bounds 0, 51,
      101, 151, 201 and 301; `None` is the "Unknown" level. */
  function RecommendationBand(aqi: Num): (r: Option<Category>)
    ensures r.Some? ==> ToNumber(aqi).Finite? && r.value == Classify(ToNumber(aqi).v)
    ensures r.None? <==> ToNumber(aqi).NaN? || ToNumber(aqi).v < 0.0 || InGap(ToNumber(aqi).v)
  {
    if AtLeast(aqi, 0.0) && AtMost(aqi, 50.0) then Some(Good)
    else if AtLeast(aqi, 51.0) && AtMost(aqi, 100.0) then Some(Moderate)
    else if AtLeast(aqi, 101.0) && AtMost(aqi, 150.0) then Some(UnhealthySensitive)
    else if AtLeast(aqi, 151.0) && AtMost(aqi, 200.0) then Some(Unhealthy)
    else if AtLeast(aqi, 201.0) && AtMost(aqi, 300.0) then Some(VeryUnhealthy)
    else if AtLeast(aqi, 301.0) then Some(Hazardous)
    else None
  }

  /** The level heading shown for a value: never empty. */
  function RecommendationLevel(aqi: Num): (r: string)
    ensures |r| > 0
    ensures RecommendationBand(aqi).Some? ==> r == Label(RecommendationBand(aqi).value)
    ensures RecommendationBand(aqi).None? ==> r == "Unknown"
  {
    match RecommendationBand(aqi)
    case Some(c) => Label(c)
    case None => "Unknown"
  }

  /** On non-negative integers the band is the scale's category. */
  lemma RecommendationOnIntegers(n: int)
    requires n >= 0
    ensures RecommendationBand(Finite(n as real)) == Some(Classify(n as real))
  {
  }

  /** The map classifier: 0, a missing value, NaN and negatives are
      "unknown" (`None`); every positive number gets the scale's category. */
  function MapCategory(aqi: Num): (r: Option<Category>)
    ensures r.None? <==> !(aqi.Finite? && aqi.v > 0.0)
    ensures r.Some? ==> r.value == Classify(aqi.v)
  {
    if Falsy(aqi) || IsNaN(aqi) || Below(aqi, 0.0) then None
    else if AtMost(aqi, 50.0) then Some(Good)
    else if AtMost(aqi, 100.0) then Some(Moderate)
    else if AtMost(aqi, 150.0) then Some(UnhealthySensitive)
    else if AtMost(aqi, 200.0) then Some(Unhealthy)
    else if AtMost(aqi, 300.0) then Some(VeryUnhealthy)
    else Some(Hazardous)
  }

  /** The string the map pages store as a zone's status. */
  function StatusKey(c: Option<Category>): string {
    match c
    case Some(c) => Key(c)
    case None => "unknown"
  }

  datatype Swatch = Gray | Green | Yellow | Orange | Red

  /** The swatch the full-screen list shows for a map category: the three
      worst categories share red. */
  function SwatchOf(c: Option<Category>): Swatch {
    match c
    case None => Gray
    case Some(Good) => Green
    case Some(Moderate) => Yellow
    case Some(UnhealthySensitive) => Orange
    case Some(_) => Red
  }

  /** The full-screen page's colour: gray exactly where the map classifier
      says "unknown", otherwise the swatch of the map category. */
  function FullscreenColour(aqi: Num): (r: Swatch)
    ensures r == SwatchOf(MapCategory(aqi))
    ensures r == Gray <==> !(aqi.Finite? && aqi.v > 0.0)
  {
    if Falsy(aqi) || IsNaN(aqi) || Below(aqi, 0.0) then Gray
    else if AtMost(aqi, 50.0) then Green
    else if AtMost(aqi, 100.0) then Yellow
    else if AtMost(aqi, 150.0) then Orange
    else Red
  }

  /** The admin dashboard's classifier: any falsy value, 0 and NaN included,
      is Good; numbers follow the scale. */
  function DashboardCategory(aqi: Num): (r: Category)
    ensures ToNumber(aqi).Finite? ==> r == Classify(ToNumber(aqi).v)
    ensures !aqi.Finite? ==> r == Good
  {
    if Falsy(aqi) then Good
    else if AtMost(aqi, 50.0) then Good
    else if AtMost(aqi, 100.0) then Moderate
    else if AtMost(aqi, 150.0) then UnhealthySensitive
    else if AtMost(aqi, 200.0) then Unhealthy
    else if AtMost(aqi, 300.0) then VeryUnhealthy
    else Hazardous
  }

  /** The home page's classifier is the reference chain itself. */
  function HomeCategory(aqi: Num): (r: Category)
    ensures r == AqiColors(aqi).category
  {
    if AtMost(aqi, 50.0) then Good
    else if AtMost(aqi, 100.0) then Moderate
    else if AtMost(aqi, 150.0) then UnhealthySensitive
    else if AtMost(aqi, 200.0) then Unhealthy
    else if AtMost(aqi, 300.0) then VeryUnhealthy
    else Hazardous
  }

  // ---------------------------------------------------------------------------
  // The user dashboard's range table.

  datatype Range = Range(category: Category, min: real, max: real)

  /** The user dashboard's table of inclusive ranges, in declaration order. */
  const Ranges: seq<Range> := [
    Range(Good, 0.0, 50.0),
    Range(Moderate, 51.0, 100.0),
    Range(UnhealthySensitive, 101.0, 150.0),
    Range(Unhealthy, 151.0, 200.0),
    Range(VeryUnhealthy, 201.0, 300.0),
    Range(Hazardous, 301.0, 500.0)
  ]

  /** The first range of `ranges` holding the value. */
  function FirstRange(ranges: seq<Range>, aqi: Num): (r: Option<Category>)
    ensures r.Some? ==> exists i :: 0 <= i < |ranges| && ranges[i].category == r.value &&
                                    AtLeast(aqi, ranges[i].min) && AtMost(aqi, ranges[i].max)
    ensures r.None? ==> forall i :: 0 <= i < |ranges| ==>
                          !(AtLeast(aqi, ranges[i].min) && AtMost(aqi, ranges[i].max))
  {
    if |ranges| == 0 then None
    else if AtLeast(aqi, ranges[0].min) && AtMost(aqi, ranges[0].max) then Some(ranges[0].category)
    else
      var r := FirstRange(ranges[1..], aqi);
      assert r.Some? ==> exists i :: 0 <= i < |ranges[1..]| && ranges[1..][i].category == r.value &&
                                     AtLeast(aqi, ranges[1..][i].min) && AtMost(aqi, ranges[1..][i].max);
      r
  }

  /** The user dashboard's classifier: the first range holding the value,
      Hazardous when none does. */
  function RangeCategory(aqi: Num): Category {
    match FirstRange(Ranges, aqi)
    case Some(c) => c
    case None => Hazardous
  }

  /** The values some range holds: 0 to 500 outside the gaps. */
  predicate Covered(x: real) {
    0.0 <= x <= 500.0 && !InGap(x)
  }

  /** The range table agrees with the scale on every covered value; negatives,
      values above 500 and values in a gap are all Hazardous. */
  lemma RangeCategoryDeviation(aqi: Num)
    ensures ToNumber(aqi).Finite? && Covered(ToNumber(aqi).v) ==>
              RangeCategory(aqi) == Classify(ToNumber(aqi).v)
    ensures !(ToNumber(aqi).Finite? && Covered(ToNumber(aqi).v)) ==> RangeCategory(aqi) == Hazardous
  {
    var r := FirstRange(Ranges, aqi);
    var n := ToNumber(aqi);
    if n.Finite? && Covered(n.v) {
      var x := n.v;
      var i := if x <= 50.0 then 0 else if x <= 100.0 then 1 else if x <= 150.0 then 2
               else if x <= 200.0 then 3 else if x <= 300.0 then 4 else 5;
      assert AtLeast(aqi, Ranges[i].min) && AtMost(aqi, Ranges[i].max);
      assert r.Some?;
      var j :| 0 <= j < |Ranges| && Ranges[j].category == r.value &&
               AtLeast(aqi, Ranges[j].min) && AtMost(aqi, Ranges[j].max);
      assert Ranges[j].category == Classify(x);
    }
  }

  /** A value above the table's last maximum is called Hazardous by both the
      table (by default) and the reference. */
  lemma RangeCategoryAbove500(x: real)
    requires x > 500.0
    ensures RangeCategory(Finite(x)) == Hazardous == Classify(x)
  {
    RangeCategoryDeviation(Finite(x));
  }

  // ---------------------------------------------------------------------------
  // The advice shown on the user dashboard (`UserDashboard.jsx`, line 935)
  // and on the home page (`Home.jsx`, line 720).

  datatype AdviceText = AvoidOutdoors | LimitOutdoors | ReduceOutdoors | SafeOutdoors

  /** `ALERT_THRESHOLD` of the user dashboard and of the home page. */
  const AlertThreshold: real := 200.0

  /** The advice chain the user dashboard and the home page share: above
      the alert threshold, above the `unhealthy` range's maximum, above the
      `moderate` range's maximum.
      The alert threshold equals the `unhealthy` maximum, so the second test
      can never be the first to hold. */
  function AdviceAsWritten(x: real): (r: AdviceText)
    ensures r != LimitOutdoors
    ensures r == AvoidOutdoors <==> Rank(Classify(x)) >= 4
    ensures r == ReduceOutdoors <==> Classify(x) == UnhealthySensitive || Classify(x) == Unhealthy
    ensures r == SafeOutdoors <==> Rank(Classify(x)) <= 1
  {
    if x > AlertThreshold then AvoidOutdoors
    else if x > Ranges[3].max then LimitOutdoors
    else if x > Ranges[1].max then ReduceOutdoors
    else SafeOutdoors
  }

  /** A value in the Unhealthy category gets the moderate text. */
  lemma UnhealthyGetsModerateAdvice(x: real)
    requires Classify(x) == Unhealthy
    ensures AdviceAsWritten(x) == ReduceOutdoors
  {
  }

  /** The home page applies the same chain to `overallAQI || 0`. */
  function HomeAdvice(overall: Num): (r: AdviceText)
    ensures r != LimitOutdoors
    ensures Falsy(overall) ==> r == SafeOutdoors
    ensures !Falsy(overall) ==> r == AdviceAsWritten(overall.v)
  {
    var x := OrZero(overall);
    if x > AlertThreshold then AvoidOutdoors
    else if x > Ranges[3].max then LimitOutdoors
    else if x > Ranges[1].max then ReduceOutdoors
    else SafeOutdoors
  }

  /** The chain with the second test against the `unhealthySensitive`
      maximum, so that each advice text covers whole categories and the
      limiting advice is given exactly for the Unhealthy category. */
  function Advice(x: real): (r: AdviceText)
    ensures r == AvoidOutdoors <==> Rank(Classify(x)) >= 4
    ensures r == LimitOutdoors <==> Classify(x) == Unhealthy
    ensures r == ReduceOutdoors <==> Classify(x) == UnhealthySensitive
    ensures r == SafeOutdoors <==> Rank(Classify(x)) <= 1
  {
    if x > AlertThreshold then AvoidOutdoors
    else if x > Ranges[2].max then LimitOutdoors
    else if x > Ranges[1].max then ReduceOutdoors
    else SafeOutdoors
  }

  /** The corrected chain differs from the written one only on Unhealthy. */
  lemma AdviceDiffersOnlyOnUnhealthy(x: real)
    ensures Advice(x) != AdviceAsWritten(x) <==> Classify(x) == Unhealthy
  {
  }

  // ---------------------------------------------------------------------------
  // The pollutant card.

  /** The card's colour for each category. */
  function Palette(c: Category): string {
    match c
    case Good => "#55A84F"
    case Moderate => "#A3C853"
    case UnhealthySensitive => "#FFF833"
    case Unhealthy => "#F29C33"
    case VeryUnhealthy => "#E93F33"
    case Hazardous => "#AF2D24"
  }

  /** The card's `getAQIColor`: the reference thresholds, so its colour is
      the palette entry of the reference category (Hazardous for NaN). */
  function CardColour(aqi: Num): (r: string)
    ensures r == Palette(AqiColors(aqi).category)
  {
    if AtMost(aqi, 50.0) then "#55A84F"
    else if AtMost(aqi, 100.0) then "#A3C853"
    else if AtMost(aqi, 150.0) then "#FFF833"
    else if AtMost(aqi, 200.0) then "#F29C33"
    else if AtMost(aqi, 300.0) then "#E93F33"
    else "#AF2D24"
  }

  /** Distinct categories get distinct colours, so the colour determines the
      category and its rank, which is monotone in the value. */
  lemma CardColourMonotone(x: real, y: real)
    requires x <= y
    ensures CardColour(Finite(x)) == Palette(Classify(x))
    ensures Rank(Classify(x)) <= Rank(Classify(y))
    ensures forall c, d :: Palette(c) == Palette(d) ==> c == d
  {
    ClassifyMonotone(x, y);
  }

  /** The bar width in percent, `Math.min(100, aqi / 500 * 100)`; NaN stays
      NaN. */
  function BarWidth(aqi: Num): (r: Num)
    ensures r.Finite? <==> !IsNaN(aqi)
    ensures r.Finite? ==> r.v <= 100.0
    ensures r == Finite(100.0) <==> AtLeast(aqi, 500.0)
    ensures AtLeast(aqi, 0.0) ==> r.Finite? && r.v >= 0.0
  {
    match ToNumber(aqi)
    case Finite(v) =>
      var w := v / 500.0 * 100.0;
      Finite(if 100.0 <= w then 100.0 else w)
    case _ => NaN
  }

  datatype Card = Card(badge: string, bar: string, width: Num)

  /** The card's badge and bar take their colour from the same function. */
  function PollutantCard(aqi: Num): (r: Card)
    ensures r.badge == r.bar == Palette(AqiColors(aqi).category)
    ensures r.width == BarWidth(aqi)
  {
    Card(CardColour(aqi), CardColour(aqi), BarWidth(aqi))
  }
}

=== FILE: common.dfy ===
/** Shared vocabulary for the Airguard model: an optional value, the part of
    JavaScript's number semantics the front end and the Express routes rely on
    (truthiness, `|| 0`, `isNaN`, comparisons, `Math.round`), and a few string
    helpers (ASCII case mapping, trimming, splitting). */
module Common {

  datatype Option<T> = None | Some(value: T)

  /** A JavaScript value in a position where the source expects a number:
      `undefined`, `null`, `NaN` or a finite number. */
  datatype Num = Undefined | Null | NaN | Finite(v: real)

  /** The abstract operation ToNumber: `undefined` becomes NaN and `null` becomes 0. */
  function ToNumber(n: Num): (r: Num)
    ensures r.NaN? || r.Finite?
    ensures n.Finite? ==> r == n
  {
    match n
    case Undefined => NaN
    case Null => Finite(0.0)
    case NaN => NaN
    case Finite(_) => n
  }

  /** `!n` in JavaScript. */
  predicate Falsy(n: Num) {
    n.Undefined? || n.Null? || n.NaN? || (n.Finite? && n.v == 0.0)
  }

  /** `n || 0`, read as a number. */
  function OrZero(n: Num): (r: real)
    ensures Falsy(n) ==> r == 0.0
    ensures !Falsy(n) ==> n.Finite? && r == n.v
  {
    if Falsy(n) then 0.0 else n.v
  }

  /** The global `isNaN`, which converts its argument first. */
  predicate IsNaN(n: Num) {
    ToNumber(n).NaN?
  }

  /** `n <= c`, `n < c`, `n >= c` and `n > c` for a numeric constant `c`:
      false whenever the converted value is NaN. */
  predicate AtMost(n: Num, c: real) {
    ToNumber(n).Finite? && ToNumber(n).v <= c
  }

  predicate Below(n: Num, c: real) {
    ToNumber(n).Finite? && ToNumber(n).v < c
  }

  predicate AtLeast(n: Num, c: real) {
    ToNumber(n).Finite? && ToNumber(n).v >= c
  }

  predicate Above(n: Num, c: real) {
    ToNumber(n).Finite? && ToNumber(n).v > c
  }

  /** `Math.round`: halves round towards positive infinity. */
  function Round(x: real): (r: int)
    ensures x - 1.0 / 2.0 < r as real <= x + 1.0 / 2.0
  {
    (x + 1.0 / 2.0).Floor
  }

  function Max(a: int, b: int): int {
    if a >= b then a else b
  }

  function MaxReal(a: real, b: real): real {
    if a >= b then a else b
  }

  // ---------------------------------------------------------------------------
  // Objects used as lookup tables.

  /** The property names every plain object inherits from
      `Object.prototype`. Each holds a truthy value (a function, or the
      prototype itself for `__proto__`). */
  const InheritedNames: set<string> :=
    {"constructor", "__proto__", "hasOwnProperty", "isPrototypeOf", "propertyIsEnumerable",
     "toLocaleString", "toString", "valueOf", "__defineGetter__", "__defineSetter__",
     "__lookupGetter__", "__lookupSetter__"}

  // ---------------------------------------------------------------------------
  // Strings. Case mapping covers ASCII letters only.

  function LowerChar(c: char): char {
    if 'A' <= c <= 'Z' then (c as int + 32) as char else c
  }

  function UpperChar(c: char): char {
    if 'a' <= c <= 'z' then (c as int - 32) as char else c
  }

  /** `String.prototype.toLowerCase`, restricted to ASCII. */
  function ToLower(s: string): (r: string)
    ensures |r| == |s|
    ensures forall i :: 0 <= i < |s| ==> r[i] == LowerChar(s[i])
  {
    if |s| == 0 then "" else [LowerChar(s[0])] + ToLower(s[1..])
  }

  /** `String.prototype.toUpperCase`, restricted to ASCII. */
  function ToUpper(s: string): (r: string)
    ensures |r| == |s|
    ensures forall i :: 0 <= i < |s| ==> r[i] == UpperChar(s[i])
  {
    if |s| == 0 then "" else [UpperChar(s[0])] + ToUpper(s[1..])
  }

  /** Lower-casing undoes upper-casing on a string already in lower case. */
  lemma LowerOfUpper(s: string)
    requires ToLower(s) == s
    ensures ToLower(ToUpper(s)) == s
  {
    forall j | 0 <= j < |s| ensures ToLower(ToUpper(s))[j] == s[j] {
      assert ToLower(s)[j] == s[j];
    }
  }

  lemma ToLowerIdempotent(s: string)
    ensures ToLower(ToLower(s)) == ToLower(s)
  {
  }

  /** The characters `String.prototype.trim` removes: the white space and
      line terminators of ECMAScript (sections 12.2 and 12.3 of ECMA-262),
      that is tab, line tabulation, form feed, the byte order mark, the
      space separators of Unicode, line feed, carriage return and the line
      and paragraph separators. */
  predicate IsSpace(c: char) {
    c == '\t' || c == 11 as char || c == 12 as char || c == 0xFEFF as char
    || c == ' ' || c == 0xA0 as char || c == 0x1680 as char || 0x2000 as char <= c <= 0x200A as char
    || c == 0x202F as char || c == 0x205F as char || c == 0x3000 as char
    || c == '\n' || c == '\r' || c == 0x2028 as char || c == 0x2029 as char
  }

  function TrimStart(s: string): (r: string)
    ensures |r| <= |s| && r == s[|s| - |r|..]
    ensures |r| > 0 ==> !IsSpace(r[0])
  {
    if |s| > 0 && IsSpace(s[0]) then TrimStart(s[1..]) else s
  }

  function TrimEnd(s: string): (r: string)
    ensures |r| <= |s| && r == s[..|r|]
    ensures |r| > 0 ==> !IsSpace(r[|r| - 1])
  {
    if |s| > 0 && IsSpace(s[|s| - 1]) then TrimEnd(s[..|s| - 1]) else s
  }

  /** `String.prototype.trim`. */
  function Trim(s: string): (r: string)
    ensures |r| > 0 ==> !IsSpace(r[0]) && !IsSpace(r[|r| - 1])
  {
    TrimEnd(TrimStart(s))
  }

  /** A string that neither starts nor ends with white space is its own
      trim. */
  lemma TrimUnchanged(s: string)
    requires |s| > 0 ==> !IsSpace(s[0]) && !IsSpace(s[|s| - 1])
    ensures Trim(s) == s
  {
  }

  /** Every character is white space. */
  predicate Blank(s: string) {
    forall i :: 0 <= i < |s| ==> IsSpace(s[i])
  }

  /** Trimming leaves nothing exactly when the string is blank. */
  lemma {:induction false} TrimEmptyIffBlank(s: string)
    ensures Trim(s) == "" <==> Blank(s)
  {
    TrimStartBlank(s);
    if TrimStart(s) != "" {
      assert TrimEnd(TrimStart(s)) != "" by {
        var t := TrimStart(s);
        assert !IsSpace(t[0]);
        TrimEndKeepsNonBlank(t);
      }
    }
  }

  lemma {:induction false} TrimStartBlank(s: string)
    ensures TrimStart(s) == "" <==> Blank(s)
  {
    if |s| > 0 {
      BlankCons(s);
      if IsSpace(s[0]) {
        TrimStartBlank(s[1..]);
      }
    }
  }

  lemma BlankCons(s: string)
    requires |s| > 0
    ensures Blank(s) <==> IsSpace(s[0]) && Blank(s[1..])
  {
    assert forall i :: 0 < i < |s| ==> s[i] == s[1..][i - 1];
  }

  /** A string that starts with a non-blank character keeps it when trimmed
      at the end. */
  lemma {:induction false} TrimEndKeepsNonBlank(s: string)
    requires |s| > 0 && !IsSpace(s[0])
    ensures TrimEnd(s) != ""
  {
    if IsSpace(s[|s| - 1]) {
      TrimEndKeepsNonBlank(s[..|s| - 1]);
    }
  }

  function EndsWith(s: string, suffix: string): bool {
    |suffix| <= |s| && s[|s| - |suffix|..] == suffix
  }

  /** Index of the first occurrence of `c` in `s`. */
  function IndexOf(s: string, c: char): (i: nat)
    requires c in s
    ensures i < |s| && s[i] == c && forall j :: 0 <= j < i ==> s[j] != c
  {
    if s[0] == c then 0 else 1 + IndexOf(s[1..], c)
  }

  /** `s.split(c)` for a one-character separator: the pieces between the
      separators, keeping empty pieces, never an empty list. */
  function Split(s: string, c: char): (r: seq<string>)
    ensures |r| >= 1
    ensures c !in s ==> r == [s]
    decreases |s|
  {
    if c !in s then [s]
    else
      var i := IndexOf(s, c);
      [s[..i]] + Split(s[i + 1..], c)
  }

  /** One step of a split: the piece before the first separator, then the
      split of the rest. */
  lemma SplitStep(s: string, c: char)
    requires c in s
    ensures Split(s, c) == [s[..IndexOf(s, c)]] + Split(s[IndexOf(s, c) + 1..], c)
  {
  }

  /** The last element of a non-empty list. */
  function Last<T>(r: seq<T>): T
    requires |r| > 0
  {
    r[|r| - 1]
  }

  lemma LastOfCons<T>(a: seq<T>, x: T, r: seq<T>)
    requires a == [x] + r && |r| > 0
    ensures Last(a) == Last(r)
  {
  }

  /** No piece of a split holds the separator. */
  lemma {:induction false} SplitPiecesFree(s: string, c: char)
    ensures forall k :: 0 <= k < |Split(s, c)| ==> c !in Split(s, c)[k]
    decreases |s|
  {
    if c in s {
      SplitStep(s, c);
      SplitPiecesFree(s[IndexOf(s, c) + 1..], c);
    }
  }

  lemma {:induction false} SplitFirst(s: string, c: char)
    ensures Split(s, c)[0] == (if c in s then s[..IndexOf(s, c)] else s)
  {
  }

  /** The last piece of a split is everything after the last separator. */
  lemma {:induction false} SplitLastAfterSeparator(a: string, c: char, b: string)
    requires c !in b
    ensures var r := Split(a + [c] + b, c); r[|r| - 1] == b
    decreases |a|
  {
    if c in a {
      var i := LastPieceAfterFirst(a, c, b);
      SplitLastAfterSeparator(a[i + 1..], c, b);
    } else {
      LastPieceAfterOnly(a, c, b);
    }
  }

  /** With a separator in `a`, the last piece is that of what follows it. */
  lemma LastPieceAfterFirst(a: string, c: char, b: string) returns (i: nat)
    requires c in a
    ensures i < |a|
    ensures Last(Split(a + [c] + b, c)) == Last(Split(a[i + 1..] + [c] + b, c))
  {
    i := SeparatorInPrefix(a, c, b);
    var s := a + [c] + b;
    SplitLastStep(s, c);
    var t := a[i + 1..] + [c] + b;
    assert s[IndexOf(s, c) + 1..] == t;
    assert Split(s[IndexOf(s, c) + 1..], c) == Split(t, c);
  }

  /** With no separator in `a` and none in `b`, the last piece is `b`. */
  lemma LastPieceAfterOnly(a: string, c: char, b: string)
    requires c !in a && c !in b
    ensures Last(Split(a + [c] + b, c)) == b
  {
    SeparatorAfterPrefix(a, c, b);
    var s := a + [c] + b;
    SplitLastStep(s, c);
    assert s[IndexOf(s, c) + 1..] == b;
    assert Split(s[IndexOf(s, c) + 1..], c) == [b];
  }

  /** The last piece of a split is the last piece of what follows the first
      separator. */
  lemma SplitLastStep(s: string, c: char)
    requires c in s
    ensures Last(Split(s, c)) == Last(Split(s[IndexOf(s, c) + 1..], c))
  {
    SplitStep(s, c);
    LastOfCons(Split(s, c), s[..IndexOf(s, c)], Split(s[IndexOf(s, c) + 1..], c));
  }

  lemma SeparatorInPrefix(a: string, c: char, b: string) returns (i: nat)
    requires c in a
    ensures i < |a| && c in a + [c] + b && IndexOf(a + [c] + b, c) == i
    ensures (a + [c] + b)[i + 1..] == a[i + 1..] + [c] + b
  {
    i := IndexOf(a, c);
    IndexOfPrefix(a, [c] + b, c);
    assert a + [c] + b == a + ([c] + b);
  }

  lemma SeparatorAfterPrefix(a: string, c: char, b: string)
    requires c !in a
    ensures c in a + [c] + b && IndexOf(a + [c] + b, c) == |a|
    ensures (a + [c] + b)[|a| + 1..] == b
  {
    var s := a + [c] + b;
    assert s[|a|] == c;
    assert forall j :: 0 <= j < |a| ==> s[j] == a[j];
    IndexOfUnique(s, c, |a|);
  }

  lemma IndexOfPrefix(a: string, b: string, c: char)
    requires c in a
    ensures c in a + b && IndexOf(a + b, c) == IndexOf(a, c)
  {
    var i := IndexOf(a, c);
    assert (a + b)[i] == c;
    assert forall j :: 0 <= j < i ==> (a + b)[j] == a[j];
    IndexOfUnique(a + b, c, i);
  }

  lemma IndexOfUnique(s: string, c: char, i: nat)
    requires i < |s| && s[i] == c && forall j :: 0 <= j < i ==> s[j] != c
    ensures IndexOf(s, c) == i
  {
  }

  // ---------------------------------------------------------------------------
  // Sequences.

  /** `Array.prototype.filter`: the elements that pass, in their order. */
  function Filter<T(!new)>(s: seq<T>, p: T -> bool): (r: seq<T>)
    ensures |r| <= |s|
    ensures forall x :: x in r <==> x in s && p(x)
    ensures forall x :: multiset(r)[x] == if p(x) then multiset(s)[x] else 0
  {
    if |s| == 0 then []
    else
      assert s == [s[0]] + s[1..];
      (if p(s[0]) then [s[0]] else []) + Filter(s[1..], p)
  }

  lemma {:induction false} FilterAppend<T(!new)>(a: seq<T>, b: seq<T>, p: T -> bool)
    ensures Filter(a + b, p) == Filter(a, p) + Filter(b, p)
    decreases |a|
  {
    if |a| > 0 {
      var h := if p(a[0]) then [a[0]] else [];
      assert (a + b)[0] == a[0] && (a + b)[1..] == a[1..] + b;
      assert Filter(a + b, p) == h + Filter(a[1..] + b, p);
      FilterAppend(a[1..], b, p);
      AppendAssoc(h, Filter(a[1..], p), Filter(b, p));
    } else {
      assert a + b == b;
    }
  }

  lemma AppendAssoc<T>(a: seq<T>, b: seq<T>, c: seq<T>)
    ensures a + (b + c) == (a + b) + c
  {
  }

  /** Filtering a sequence whose every element is kept changes nothing. */
  lemma {:induction false} FilterAll<T(!new)>(s: seq<T>, keep: T -> bool)
    requires forall i :: 0 <= i < |s| ==> keep(s[i])
    ensures Filter(s, keep) == s
    decreases |s|
  {
    if |s| > 0 {
      var t := s[1..];
      forall i | 0 <= i < |t| ensures keep(t[i]) {
        assert t[i] == s[i + 1];
      }
      FilterAll(t, keep);
      FilterKeepsHead(s, keep);
      assert [s[0]] + t == s;
    }
  }

  lemma FilterKeepsHead<T(!new)>(s: seq<T>, keep: T -> bool)
    requires |s| > 0 && keep(s[0])
    ensures Filter(s, keep) == [s[0]] + Filter(s[1..], keep)
  {
  }

  /** `Array.prototype.map`. */
  function Map<T, U>(s: seq<T>, f: T -> U): (r: seq<U>)
    ensures |r| == |s|
    ensures forall i :: 0 <= i < |s| ==> r[i] == f(s[i])
  {
    seq(|s|, i requires 0 <= i < |s| => f(s[i]))
  }

  /** `xs.reduce((sum, x) => sum + x, 0)`, adding from the left. */
  function Sum(xs: seq<real>): real {
    if |xs| == 0 then 0.0 else Sum(xs[..|xs| - 1]) + xs[|xs| - 1]
  }

  lemma {:induction false} SumBounds(xs: seq<real>, lo: real, hi: real)
    requires forall i :: 0 <= i < |xs| ==> lo <= xs[i] <= hi
    ensures |xs| as real * lo <= Sum(xs) <= |xs| as real * hi
  {
    if |xs| > 0 {
      SumBounds(xs[..|xs| - 1], lo, hi);
    }
  }

  lemma {:induction false} SumConstant(xs: seq<real>, c: real)
    requires forall i :: 0 <= i < |xs| ==> xs[i] == c
    ensures Sum(xs) == |xs| as real * c
  {
    if |xs| > 0 {
      SumConstant(xs[..|xs| - 1], c);
    }
  }
}

=== FILE: dashboard.dfy ===
/** The admin dashboard's state updates: per-sensor alert thresholds, the
    sensor form, report verification with the rejection modal, the
    archived/active split and the emergency banner. */
module Dashboard {
  import opened Common
  import opened Categories

  /** The default alert threshold the page starts with; the admin can
      change it, so every operation below takes the current default as a
      parameter `alertThreshold`. */
  const InitialThreshold: real := 200.0

  /** `sensor.threshold || alertThreshold`: a stored threshold that is
      missing or 0 falls back to the current default. */
  function StoredOrDefault(stored: Num, alertThreshold: real): (r: real)
    ensures Falsy(stored) ==> r == alertThreshold
    ensures !Falsy(stored) ==> stored.Finite? && r == stored.v
  {
    if Falsy(stored) then alertThreshold else stored.v
  }

  /** A sensor as loaded from the server. */
  datatype Sensor = Sensor(id: string, threshold: Num)

  /** `fetchSensorLocations` rebuilds the thresholds from the loaded list,
      one entry per sensor id; for a repeated id the later sensor wins. */
  function LoadThresholds(sensors: seq<Sensor>, alertThreshold: real): (r: map<string, real>)
    ensures forall id :: id in r <==> HasId(sensors, id)
    ensures forall i :: 0 <= i < |sensors| ==> sensors[i].id in r
    ensures forall i :: 0 <= i < |sensors| && LastWithId(sensors, i) ==>
              r[sensors[i].id] == StoredOrDefault(sensors[i].threshold, alertThreshold)
  {
    if |sensors| == 0 then map[]
    else
      var init := sensors[..|sensors| - 1];
      var last := sensors[|sensors| - 1];
      var prev := LoadThresholds(init, alertThreshold);
      LoadStep(sensors);
      prev[last.id := StoredOrDefault(last.threshold, alertThreshold)]
  }

  /** The ids of a list are those of all but its last sensor plus the last
      one's, and a position that is last with its id stays so once the last
      sensor is dropped. */
  lemma LoadStep(sensors: seq<Sensor>)
    requires |sensors| > 0
    ensures var init := sensors[..|sensors| - 1];
      && (forall id :: HasId(sensors, id) <==> id == sensors[|sensors| - 1].id || HasId(init, id))
      && (forall i :: 0 <= i < |init| && LastWithId(sensors, i) ==> LastWithId(init, i))
  {
    var init := sensors[..|sensors| - 1];
    assert forall i :: 0 <= i < |init| ==> init[i] == sensors[i];
    forall id | HasId(sensors, id)
      ensures id == sensors[|sensors| - 1].id || HasId(init, id)
    {
      var i :| 0 <= i < |sensors| && sensors[i].id == id;
      if i < |init| {
        assert init[i].id == id;
      }
    }
  }

  predicate HasId(sensors: seq<Sensor>, id: string) {
    exists i :: 0 <= i < |sensors| && sensors[i].id == id
  }

  /** No later sensor in the list has the same id as position `i`. */
  predicate LastWithId(sensors: seq<Sensor>, i: int)
    requires 0 <= i < |sensors|
  {
    forall j :: i < j < |sensors| ==> sensors[j].id != sensors[i].id
  }

  /** `handleEditSensor`: the edited sensor's threshold is reset to its
      stored one, or the default; no other sensor's entry changes. */
  function EditSensor(thresholds: map<string, real>, sensor: Sensor, alertThreshold: real): (r: map<string, real>)
    ensures sensor.id in r && r[sensor.id] == StoredOrDefault(sensor.threshold, alertThreshold)
    ensures forall id :: id != sensor.id ==> (id in r <==> id in thresholds)
    ensures forall id :: id != sensor.id && id in thresholds ==> r[id] == thresholds[id]
  {
    thresholds[sensor.id := StoredOrDefault(sensor.threshold, alertThreshold)]
  }

  /** `handleThresholdChange(sensorId, value)`, where `n` is `Number(value)`:
      a value that is a number in [0, 500] becomes that sensor's threshold;
      any other value leaves every threshold as it was. */
  function ThresholdChange(thresholds: map<string, real>, sensorId: string, n: Num): (r: map<string, real>)
    ensures ToNumber(n).Finite? && 0.0 <= ToNumber(n).v <= 500.0 ==>
              r == thresholds[sensorId := ToNumber(n).v]
    ensures !(ToNumber(n).Finite? && 0.0 <= ToNumber(n).v <= 500.0) ==> r == thresholds
  {
    var v := ToNumber(n);
    if IsNaN(n) || v.v < 0.0 || v.v > 500.0 then thresholds
    else thresholds[sensorId := v.v]
  }

  /** Only the changed sensor's entry can differ. */
  lemma ThresholdChangeIsLocal(thresholds: map<string, real>, sensorId: string, n: Num, other: string)
    requires other != sensorId
    ensures other in ThresholdChange(thresholds, sensorId, n) <==> other in thresholds
    ensures other in thresholds ==> ThresholdChange(thresholds, sensorId, n)[other] == thresholds[other]
  {
  }

  /** The sensor form's text fields. */
  datatype SensorForm = SensorForm(lat: string, lon: string, zone: string, locationName: string)

  datatype Target = Add | Update(id: string)

  /** The body sent for an added or edited sensor; the coordinates are
      `parseFloat` of the text fields. */
  datatype SensorBody = SensorBody(
    target: Target, zone: string, locationName: string, lat: Num, lon: Num, threshold: real)

  /** `handleAddSensorLocation`: nothing is sent when a field is empty. An
      edit sends the sensor's own threshold, falling back to the current
      default when it is missing or 0; an addition always sends the
      current default. */
  function SubmitSensor(form: SensorForm, editing: Option<string>, thresholds: map<string, real>,
                        alertThreshold: real, parseFloat: string -> Num): (r: Option<SensorBody>)
    ensures r.None? <==> form.lat == "" || form.lon == "" || form.zone == "" || form.locationName == ""
    ensures r.Some? ==> r.value.zone == form.zone && r.value.locationName == form.locationName
    ensures r.Some? ==> r.value.lat == parseFloat(form.lat) && r.value.lon == parseFloat(form.lon)
    ensures r.Some? && editing.None? ==> r.value.target == Add && r.value.threshold == alertThreshold
    ensures r.Some? && editing.Some? ==> r.value.target == Update(editing.value)
    ensures r.Some? && editing.Some? && editing.value in thresholds && thresholds[editing.value] != 0.0 ==>
              r.value.threshold == thresholds[editing.value]
    ensures r.Some? && editing.Some? && (editing.value !in thresholds || thresholds[editing.value] == 0.0) ==>
              r.value.threshold == alertThreshold
  {
    if form.lat == "" || form.lon == "" || form.zone == "" || form.locationName == "" then None
    else
      var threshold :=
        if editing.Some? then
          (if editing.value in thresholds && thresholds[editing.value] != 0.0
           then thresholds[editing.value] else alertThreshold)
        else alertThreshold;
      Some(SensorBody(if editing.Some? then Update(editing.value) else Add,
                      form.zone, form.locationName, parseFloat(form.lat), parseFloat(form.lon), threshold))
  }

  /** A threshold of 0 is accepted by the change handler, but the edit then
      sends the current default instead. */
  lemma {:induction false} ZeroThresholdNotSent(thresholds: map<string, real>, id: string, alertThreshold: real,
                                                form: SensorForm, parseFloat: string -> Num)
    requires form.lat != "" && form.lon != "" && form.zone != "" && form.locationName != ""
    ensures ThresholdChange(thresholds, id, Finite(0.0)) == thresholds[id := 0.0]
    ensures SubmitSensor(form, Some(id), thresholds[id := 0.0], alertThreshold, parseFloat).value.threshold
              == alertThreshold
  {
  }

  /** Opening a sensor for editing and saving it at once sends its stored
      threshold, or the default in force when it has none. */
  lemma EditThenSubmit(thresholds: map<string, real>, sensor: Sensor, alertThreshold: real,
                       form: SensorForm, parseFloat: string -> Num)
    requires form.lat != "" && form.lon != "" && form.zone != "" && form.locationName != ""
    ensures var sent := SubmitSensor(form, Some(sensor.id), EditSensor(thresholds, sensor, alertThreshold),
                                     alertThreshold, parseFloat);
            sent.Some? && sent.value.threshold == StoredOrDefault(sensor.threshold, alertThreshold)
  {
  }

  // ---------------------------------------------------------------------------
  // Verification and rejection.

  datatype Modal = Modal(show: bool, reportId: Option<string>, comment: string)

  /** The `verifyReport` request: the report, the new status and, for a
      rejection, the comment. A missing report id is sent as well, and
      names the path `/api/reports/null`. */
  datatype VerifyRequest = VerifyRequest(id: Option<string>, status: string, comment: Option<string>)

  datatype ClickResult = ClickResult(modal: Modal, request: Option<VerifyRequest>)

  /** `handleVerifyReport`: choosing "rejected" opens an empty modal for that
      report and sends nothing; any other status is sent at once. */
  function VerifyClick(modal: Modal, reportId: string, status: string): (r: ClickResult)
    ensures status == "rejected" ==> r.request.None? && r.modal == Modal(true, Some(reportId), "")
    ensures status != "rejected" ==> r.request == Some(VerifyRequest(Some(reportId), status, None)) && r.modal == modal
  {
    if status == "rejected" then ClickResult(Modal(true, Some(reportId), ""), None)
    else ClickResult(modal, Some(VerifyRequest(Some(reportId), status, None)))
  }

  /** `handleRejectWithComment`: a comment that trims to nothing sends
      nothing; any other comment is sent for the modal's report, whatever
      that is. */
  function RejectSubmit(modal: Modal): (r: Option<VerifyRequest>)
    ensures r.Some? <==> !Blank(modal.comment)
    ensures r.Some? ==> r.value == VerifyRequest(modal.reportId, "rejected", Some(modal.comment))
  {
    TrimEmptyIffBlank(modal.comment);
    if Trim(modal.comment) == "" then None
    else Some(VerifyRequest(modal.reportId, "rejected", Some(modal.comment)))
  }

  /** Whichever way it is reached, a rejection is only ever sent with a
      non-blank comment. */
  lemma RejectionsCarryComment(modal: Modal, reportId: string, status: string)
    ensures VerifyClick(modal, reportId, status).request.Some? ==>
              VerifyClick(modal, reportId, status).request.value.status != "rejected"
    ensures RejectSubmit(modal).Some? ==>
              RejectSubmit(modal).value.comment.Some? && !Blank(RejectSubmit(modal).value.comment.value)
  {
  }

  /** A comment of no-break spaces, which `trim` removes, is blank: the
      rejection is not sent. */
  lemma NoBreakSpaceCommentRefused(id: string)
    ensures RejectSubmit(Modal(true, Some(id), [0xA0 as char, 0x3000 as char])).None?
  {
    assert IsSpace(0xA0 as char) && IsSpace(0x3000 as char);
  }

  // ---------------------------------------------------------------------------
  // Lists and the banner.

  datatype AdminReport = AdminReport(id: string, archived: bool)

  /** The archived and active lists split the reports: together they hold
      every report exactly as often as the list does. */
  function Partition(reports: seq<AdminReport>): (r: (seq<AdminReport>, seq<AdminReport>))
    ensures forall x :: x in r.0 ==> x.archived
    ensures forall x :: x in r.1 ==> !x.archived
    ensures multiset(r.0) + multiset(r.1) == multiset(reports)
    ensures |r.0| + |r.1| == |reports|
  {
    var isArchived := (x: AdminReport) => x.archived;
    var isActive := (x: AdminReport) => !x.archived;
    var archived := Filter(reports, isArchived);
    var active := Filter(reports, isActive);
    assert multiset(archived) + multiset(active) == multiset(reports) by {
      forall x ensures (multiset(archived) + multiset(active))[x] == multiset(reports)[x] {
        assert multiset(archived)[x] == if x.archived then multiset(reports)[x] else 0;
        assert multiset(active)[x] == if x.archived then 0 else multiset(reports)[x];
      }
    }
    assert |multiset(archived) + multiset(active)| == |multiset(reports)|;
    (archived, active)
  }

  /** `sensorLocations.reduce((max, loc) => Math.max(max, loc.aqi || 0), 0)`. */
  function Highest(aqis: seq<Num>): (r: real)
    ensures r >= 0.0
    ensures forall i :: 0 <= i < |aqis| ==> OrZero(aqis[i]) <= r
    ensures r == 0.0 || exists i :: 0 <= i < |aqis| && r == OrZero(aqis[i])
  {
    if |aqis| == 0 then 0.0
    else
      var prefix := Highest(aqis[..|aqis| - 1]);
      assert forall i :: 0 <= i < |aqis| - 1 ==> aqis[..|aqis| - 1][i] == aqis[i];
      MaxReal(prefix, OrZero(aqis[|aqis| - 1]))
  }

  /** The emergency banner shows when the highest AQI is Very Unhealthy or
      Hazardous. */
  predicate Banner(aqis: seq<Num>) {
    var c := DashboardCategory(Finite(Highest(aqis)));
    c == VeryUnhealthy || c == Hazardous
  }

  /** The banner shows exactly when some sensor reports an AQI above 200. */
  lemma BannerIffAbove200(aqis: seq<Num>)
    ensures Banner(aqis) <==> exists i :: 0 <= i < |aqis| && OrZero(aqis[i]) > 200.0
  {
  }
}

=== FILE: forecast_proxy.dfy ===
/** The Express proxy in front of the forecast service. `/` cleans the
    request (default steps and zone, timestamps with a trailing `Z` written
    as `+00:00`, values passed through `Number`) and forwards it;
    `/train-models` builds a training payload from aggregated records. The
    service's reply is a parameter for `/`, and for `/train-models` the proxy
    is composed with the service's own `/train`. */
module ForecastProxy {
  import opened Common
  import opened Json
  import ForecastService

  /** `ts.replace(/Z$/, '+00:00')`. */
  function NormalizeZ(s: string): (r: string)
    ensures |s| > 0 && s[|s| - 1] == 'Z' ==> r == s[..|s| - 1] + "+00:00"
    ensures !(|s| > 0 && s[|s| - 1] == 'Z') ==> r == s
  {
    if |s| > 0 && s[|s| - 1] == 'Z' then s[..|s| - 1] + "+00:00" else s
  }

  /** After the rewrite no string ends in `Z`, so a second rewrite changes
      nothing. */
  lemma NormalizeZIdempotent(s: string)
    ensures NormalizeZ(NormalizeZ(s)) == NormalizeZ(s)
    ensures |NormalizeZ(s)| > 0 ==> NormalizeZ(s)[|NormalizeZ(s)| - 1] != 'Z'
  {
  }

  /** Only the final `Z` is touched: everything before it is kept, and a
      `Z` elsewhere is left alone. */
  lemma NormalizeZKeepsPrefix(s: string)
    ensures |s| > 0 ==> NormalizeZ(s)[..|s| - 1] == s[..|s| - 1]
    ensures |NormalizeZ(s)| >= |s|
  {
  }

  /** `Number(req.body.steps) || 6`. */
  function StepsOrSix(v: Option<JValue>, numberOfString: string -> Num): (r: real)
    ensures Falsy(JsNumber(v, numberOfString)) ==> r == 6.0
    ensures !Falsy(JsNumber(v, numberOfString)) ==> r == JsNumber(v, numberOfString).v && r != 0.0
    ensures v.None? || v == Some(JNull) || v == Some(JNum(0.0)) ==> r == 6.0
  {
    OrZero(JsNumber(v, numberOfString)) + (if Falsy(JsNumber(v, numberOfString)) then 6.0 else 0.0)
  }

  /** A step count sent inside a one-element list counts as that number:
      `[7]` and `["7"]` both ask for seven steps, `[0]` and `[null]` for the
      default six. */
  lemma StepsOfSingleton(e: JValue, numberOfString: string -> Num)
    requires !e.JBool?
    ensures StepsOrSix(Some(JArr([e])), numberOfString) == StepsOrSix(Some(e), numberOfString)
  {
    SingletonKeepsNumber(e, 1, numberOfString);
  }

  /** `req.body.zone || 'Zone 1'`. */
  function ZoneOrDefault(v: Option<JValue>): (r: JValue)
    ensures JsTruthy(v) ==> r == v.value
    ensures !JsTruthy(v) ==> r == JStr("Zone 1")
  {
    if JsTruthy(v) then v.value else JStr("Zone 1")
  }

  predicate AllStrings(items: seq<JValue>) {
    forall i :: 0 <= i < |items| ==> items[i].JStr?
  }

  /** The timestamps: a list of strings, each rewritten; not a list gives []. */
  function Timestamps(v: Option<JValue>): (r: Option<seq<JValue>>)
    ensures r.None? <==> v.Some? && v.value.JArr? && !AllStrings(v.value.items)
    ensures r.Some? && v.Some? && v.value.JArr? ==>
      |r.value| == |v.value.items| &&
      forall i :: 0 <= i < |r.value| ==> r.value[i] == JStr(NormalizeZ(v.value.items[i].s))
    ensures r.Some? && !(v.Some? && v.value.JArr?) ==> r.value == []
  {
    if v.Some? && v.value.JArr? then
      var items := v.value.items;
      if AllStrings(items) then Some(seq(|items|, i requires 0 <= i < |items| => JStr(NormalizeZ(items[i].s))))
      else None
    else Some([])
  }

  /** `aqi.map(Number)`, written back as JSON (NaN becomes `null`); not a
      list gives []. */
  function AqiValues(v: Option<JValue>, numberOfString: string -> Num): (r: seq<JValue>)
    ensures v.Some? && v.value.JArr? ==>
      |r| == |v.value.items| &&
      forall i :: 0 <= i < |r| ==> r[i] == NumToJson(JsNumber(Some(v.value.items[i]), numberOfString))
    ensures !(v.Some? && v.value.JArr?) ==> r == []
    ensures forall i :: 0 <= i < |r| ==> r[i].JNum? || r[i].JNull?
  {
    if v.Some? && v.value.JArr? then
      var items := v.value.items;
      seq(|items|, i requires 0 <= i < |items| => NumToJson(JsNumber(Some(items[i]), numberOfString)))
    else []
  }

  /** What a POST to `/` does: a `TypeError` before the `try` (a timestamp
      that is not a string) escapes the handler; otherwise it answers. */
  datatype ProxyResult = Unhandled | Answered(status: int, forwarded: Option<JValue>)

  /** The payload forwarded to the service, or None when building it throws. */
  function ForecastPayload(body: map<string, JValue>, numberOfString: string -> Num): (r: Option<JValue>)
    ensures r.Some? ==> r.value.JObj? && "historical" in r.value.fields && r.value.fields["historical"].JObj?
    ensures r.Some? ==> "steps" in r.value.fields && r.value.fields["steps"].JNum? && r.value.fields["steps"].n != 0.0
    ensures r.None? <==> Timestamps(Prop(Get(body, "historical"), "timestamps")).None?
    ensures r.Some? ==>
      && r.value.fields["steps"] == JNum(StepsOrSix(Get(body, "steps"), numberOfString))
      && "zone" in r.value.fields && r.value.fields["zone"] == ZoneOrDefault(Get(body, "zone"))
      && PayloadTimes(r.value) == Timestamps(Prop(Get(body, "historical"), "timestamps")).value
      && PayloadAqi(r.value) == AqiValues(Prop(Get(body, "historical"), "aqi"), numberOfString)
  {
    var historical := Get(body, "historical");
    match Timestamps(Prop(historical, "timestamps"))
    case None => None
    case Some(ts) =>
      var aqi := AqiValues(Prop(historical, "aqi"), numberOfString);
      Some(JObj(map[
        "steps" := JNum(StepsOrSix(Get(body, "steps"), numberOfString)),
        "zone" := ZoneOrDefault(Get(body, "zone")),
        "historical" := JObj(map["timestamps" := JArr(ts), "aqi" := JArr(aqi)])]))
  }

  /** The two lists of a payload. */
  function PayloadTimes(p: JValue): seq<JValue>
    requires p.JObj? && "historical" in p.fields && p.fields["historical"].JObj?
  {
    var h := p.fields["historical"].fields;
    if "timestamps" in h && h["timestamps"].JArr? then h["timestamps"].items else []
  }

  function PayloadAqi(p: JValue): seq<JValue>
    requires p.JObj? && "historical" in p.fields && p.fields["historical"].JObj?
  {
    var h := p.fields["historical"].fields;
    if "aqi" in h && h["aqi"].JArr? then h["aqi"].items else []
  }

  /** The status sent back for the service's reply: a 2xx passes the body on
      as 200, an error status is passed on, and no reply at all is a 500. */
  function Relay(reply: Option<int>): (r: int)
    ensures reply.None? ==> r == 500
    ensures reply.Some? && 200 <= reply.value < 300 ==> r == 200
    ensures reply.Some? && !(200 <= reply.value < 300) && reply.value != 0 ==> r == reply.value
  {
    match reply
    case None => 500
    case Some(s) => if 200 <= s < 300 then 200 else if s == 0 then 500 else s
  }

  /** POST `/`, with `reply` standing for the call to the service (None when
      it cannot be reached or times out). The two lengths are not compared
      here. */
  function ProxyForecast(body: map<string, JValue>, numberOfString: string -> Num,
                         reply: JValue -> Option<int>): (r: ProxyResult)
    ensures r.Unhandled? <==> ForecastPayload(body, numberOfString).None?
    ensures r.Answered? ==>
      var p := ForecastPayload(body, numberOfString).value;
      && (|PayloadTimes(p)| == 0 || |PayloadAqi(p)| == 0 ==> r.status == 400 && r.forwarded.None?)
      && (|PayloadTimes(p)| > 0 && |PayloadAqi(p)| > 0 ==> r.forwarded == Some(p) && r.status == Relay(reply(p)))
  {
    match ForecastPayload(body, numberOfString)
    case None => Unhandled
    case Some(p) =>
      if |PayloadTimes(p)| == 0 || |PayloadAqi(p)| == 0 then Answered(400, None)
      else Answered(Relay(reply(p)), Some(p))
  }

  /** Everything the proxy forwards carries a history of its own, so the
      service never falls back to its database and never answers 404. */
  lemma ForwardedHistoryIsInline(body: map<string, JValue>, numberOfString: string -> Num,
                                 store: ForecastService.Store, db: seq<ForecastService.Stored>, now: int,
                                 o: ForecastService.Oracles)
    requires ForecastPayload(body, numberOfString).Some?
    requires var p := ForecastPayload(body, numberOfString).value;
             |PayloadTimes(p)| > 0 && |PayloadAqi(p)| > 0
    ensures var p := ForecastPayload(body, numberOfString).value;
            ForecastService.Forecast(p, store, db, now, o).status != 404
  {
    var p := ForecastPayload(body, numberOfString).value;
    var h := p.fields["historical"].fields;
    assert ForecastService.SourceOf(h) == ForecastService.Inline;
    assert PyTruthy(p);
    var req := ForecastService.ReadRequest(p, o.pyInt);
    if req.Request? {
      assert req.historical == h;
    }
  }

  /** The proxy does not compare the lengths, but the service does: when the
      rewritten timestamps all parse and the lengths differ, the 400 comes
      back from the service and is passed on. */
  lemma MismatchRejectedDownstream(body: map<string, JValue>, numberOfString: string -> Num,
                                   store: ForecastService.Store, db: seq<ForecastService.Stored>, now: int,
                                   o: ForecastService.Oracles)
    requires ForecastPayload(body, numberOfString).Some?
    requires var p := ForecastPayload(body, numberOfString).value;
             && |PayloadTimes(p)| > 0 && |PayloadAqi(p)| > 0
             && |PayloadTimes(p)| != |PayloadAqi(p)|
             && ForecastService.ParseTimes(PayloadTimes(p), o.fromIso).Some?
    requires ForecastService.ReadRequest(ForecastPayload(body, numberOfString).value, o.pyInt).Request?
    ensures ProxyForecast(body, numberOfString,
                          p => Some(ForecastService.Forecast(p, store, db, now, o).status)).status == 400
  {
    var p := ForecastPayload(body, numberOfString).value;
    var h := p.fields["historical"].fields;
    assert ForecastService.SourceOf(h) == ForecastService.Inline;
    var req := ForecastService.ReadRequest(p, o.pyInt);
    assert req.historical == h;
    assert ForecastService.ChooseHistory(h, db, now, o.fromIso) == ForecastService.HistoryError(400);
    assert ForecastService.Forecast(p, store, db, now, o).status == 400;
  }

  // ---------------------------------------------------------------------------
  // /train-models

  /** One record's fields as the proxy reads them: it must be an object with
      a string `intervalStart`, or `.replace` throws. */
  predicate RecordReadable(d: JValue) {
    d.JObj? && "intervalStart" in d.fields && d.fields["intervalStart"].JStr?
  }

  /** The `data` list, when it is a list whose records can all be read;
      a list with an unreadable record is None, anything else is []. */
  function TrainRecords(body: map<string, JValue>): (r: Option<seq<JValue>>)
    ensures r.Some? ==> forall i :: 0 <= i < |r.value| ==> RecordReadable(r.value[i])
    ensures r.None? <==> "data" in body && body["data"].JArr? &&
                         exists i :: 0 <= i < |body["data"].items| && !RecordReadable(body["data"].items[i])
    ensures r.Some? && "data" in body && body["data"].JArr? ==> r.value == body["data"].items
    ensures r.Some? && !("data" in body && body["data"].JArr?) ==> r.value == []
  {
    if "data" in body && body["data"].JArr? then
      var items := body["data"].items;
      if forall i :: 0 <= i < |items| ==> RecordReadable(items[i]) then Some(items) else None
    else Some([])
  }

  /** The proxy's reading of a record: the rewritten start and `Number(aqi)`. */
  function RecordStart(d: JValue): string
    requires RecordReadable(d)
  {
    NormalizeZ(d.fields["intervalStart"].s)
  }

  function RecordAqi(d: JValue, numberOfString: string -> Num): JValue
    requires RecordReadable(d)
  {
    NumToJson(JsNumber(Get(d.fields, "aqi"), numberOfString))
  }

  /** The payload as written: `{historical: {timestamps, aqi}}`. */
  function TrainPayloadAsWritten(records: seq<JValue>, numberOfString: string -> Num): (r: JValue)
    requires forall i :: 0 <= i < |records| ==> RecordReadable(records[i])
    ensures r.JObj? && "data" !in r.fields
  {
    var ts := seq(|records|, i requires 0 <= i < |records| => JStr(RecordStart(records[i])));
    var aqi := seq(|records|, i requires 0 <= i < |records| => RecordAqi(records[i], numberOfString));
    JObj(map["historical" := JObj(map["timestamps" := JArr(ts), "aqi" := JArr(aqi)])])
  }

  datatype TrainModelsResult = TrainModelsResult(status: int, store: ForecastService.Store)

  /** POST `/train-models` composed with the service's `/train`, as written:
      an unreadable record is a 500, no records a 400, and otherwise the
      service's answer decides between success and 500. */
  function TrainModelsAsWritten(body: map<string, JValue>, numberOfString: string -> Num,
                                store: ForecastService.Store, o: ForecastService.Oracles): (r: TrainModelsResult)
    ensures r.status in {200, 400, 500}
    ensures TrainRecords(body).None? ==> r == TrainModelsResult(500, store)
    ensures TrainRecords(body) == Some([]) ==> r == TrainModelsResult(400, store)
  {
    match TrainRecords(body)
    case None => TrainModelsResult(500, store)
    case Some(records) =>
      if |records| == 0 then TrainModelsResult(400, store)
      else
        var t := ForecastService.Train(true, Some(TrainPayloadAsWritten(records, numberOfString)), store, o);
        TrainModelsResult(if t.status == 200 then 200 else 500, t.store)
  }

  /** The payload has no `data` field, so the service refuses every one:
      the route never succeeds and never changes the stored models. */
  lemma TrainModelsNeverSucceeds(body: map<string, JValue>, numberOfString: string -> Num,
                                 store: ForecastService.Store, o: ForecastService.Oracles)
    ensures TrainModelsAsWritten(body, numberOfString, store, o).status != 200
    ensures TrainModelsAsWritten(body, numberOfString, store, o).store == store
  {
    var recs := TrainRecords(body);
    if recs.Some? && |recs.value| > 0 {
      var p := TrainPayloadAsWritten(recs.value, numberOfString);
      assert ForecastService.TrainData(Some(p)).None?;
    }
  }

  /** The corrected payload: the records themselves under `data`, each with
      the rewritten start and the converted value. */
  function TrainPayload(records: seq<JValue>, numberOfString: string -> Num): (r: JValue)
    requires forall i :: 0 <= i < |records| ==> RecordReadable(records[i])
    ensures r.JObj? && "data" in r.fields && r.fields["data"].JArr?
    ensures |r.fields["data"].items| == |records|
    ensures forall i :: 0 <= i < |records| ==>
      r.fields["data"].items[i] == JObj(map["intervalStart" := JStr(RecordStart(records[i])),
                                            "aqi" := RecordAqi(records[i], numberOfString)])
  {
    var items := seq(|records|, i requires 0 <= i < |records| =>
      JObj(map["intervalStart" := JStr(RecordStart(records[i])), "aqi" := RecordAqi(records[i], numberOfString)]));
    JObj(map["data" := JArr(items)])
  }

  /** POST `/train-models` with the corrected payload, composed with `/train`. */
  function TrainModels(body: map<string, JValue>, numberOfString: string -> Num,
                       store: ForecastService.Store, o: ForecastService.Oracles): (r: TrainModelsResult)
    ensures r.status in {200, 400, 500}
    ensures TrainRecords(body).None? ==> r == TrainModelsResult(500, store)
    ensures TrainRecords(body) == Some([]) ==> r == TrainModelsResult(400, store)
    ensures r.status != 200 ==> r.store == store
  {
    match TrainRecords(body)
    case None => TrainModelsResult(500, store)
    case Some(records) =>
      if |records| == 0 then TrainModelsResult(400, store)
      else
        var t := ForecastService.Train(true, Some(TrainPayload(records, numberOfString)), store, o);
        TrainModelsResult(if t.status == 200 then 200 else 500, t.store)
  }

  /** With the corrected payload, two or more records whose rewritten starts
      parse, and fits that succeed, the route trains both models on exactly
      those records. */
  lemma TrainModelsTrains(body: map<string, JValue>, numberOfString: string -> Num,
                          store: ForecastService.Store, o: ForecastService.Oracles)
    requires TrainRecords(body).Some?
    requires var records := TrainRecords(body).value;
      && |records| >= 2
      && forall i :: 0 <= i < |records| ==> o.fromIso(RecordStart(records[i])).Some?
    requires var records := TrainRecords(body).value;
      var s := ForecastService.Series(
        seq(|records|, i requires 0 <= i < |records| => o.fromIso(RecordStart(records[i])).value),
        seq(|records|, i requires 0 <= i < |records| => RecordAqi(records[i], numberOfString)));
      o.fitArima(s).Some? && o.fitHoltWinters(s).Some?
    ensures var records := TrainRecords(body).value;
      var s := ForecastService.Series(
        seq(|records|, i requires 0 <= i < |records| => o.fromIso(RecordStart(records[i])).value),
        seq(|records|, i requires 0 <= i < |records| => RecordAqi(records[i], numberOfString)));
      TrainModels(body, numberOfString, store, o)
        == TrainModelsResult(200, ForecastService.Store(o.fitArima(s), o.fitHoltWinters(s)))
  {
    var records := TrainRecords(body).value;
    var s := ForecastService.Series(
      seq(|records|, i requires 0 <= i < |records| => o.fromIso(RecordStart(records[i])).value),
      seq(|records|, i requires 0 <= i < |records| => RecordAqi(records[i], numberOfString)));
    var p := TrainPayload(records, numberOfString);
    var data := p.fields["data"].items;
    assert ForecastService.TrainData(Some(p)) == Some(data);
    forall i | 0 <= i < |data|
      ensures ForecastService.RecordOk(data[i], o.fromIso)
      ensures ForecastService.RecordTime(data[i], o.fromIso) == Some(s.times[i])
      ensures data[i].fields["aqi"] == s.values[i]
    {
      assert data[i].fields["intervalStart"] == JStr(RecordStart(records[i]));
    }
    var got := ForecastService.Records(data, o.fromIso);
    assert got.Some?;
    assert got.value.times == s.times;
    assert got.value.values == s.values;
  }
}

=== FILE: forecast_service.dfy ===
/** The Flask forecast service: `/train` fits both models on a posted series
    and stores them; `/forecast` picks a history (the request's own, or the
    last seven days of aggregated records), makes sure both stored models
    exist, refitting both on a miss, and extends the history by `steps`
    ten-minute slots. Times are whole minutes. Date parsing, Python's `int`
    of a string, the two model fits and the forecasts are parameters. */
module ForecastService {
  import opened Common
  import opened Json
  import opened Sorting

  /** A fitted model, known only by what the fit returned. */
  datatype Model = Model(handle: int)

  /** The two model files: `arima_model.pkl` and `hw_model.pkl`. */
  datatype Store = Store(arima: Option<Model>, hw: Option<Model>)

  /** The series handed to a fit: observation times and values. */
  datatype Series = Series(times: seq<int>, values: seq<JValue>)

  datatype Oracles = Oracles(
    fromIso: string -> Option<int>,
    pyInt: string -> Option<int>,
    fitArima: Series -> Option<Model>,
    fitHoltWinters: Series -> Option<Model>,
    predict: (Model, int) -> Option<seq<real>>)

  // ---------------------------------------------------------------------------
  // /train

  datatype TrainResult = TrainResult(status: int, store: Store)

  /** `json_data['data']` when the body is an object holding a list of at
      least two items; every other shape ends in a 400. */
  function TrainData(body: Option<JValue>): (r: Option<seq<JValue>>)
    ensures r.Some? ==> |r.value| >= 2
    ensures r.Some? <==> body.Some? && body.value.JObj? && "data" in body.value.fields
                         && body.value.fields["data"].JArr? && |body.value.fields["data"].items| >= 2
  {
    if body.Some? && body.value.JObj? && "data" in body.value.fields
       && body.value.fields["data"].JArr? && |body.value.fields["data"].items| >= 2
    then Some(body.value.fields["data"].items)
    else None
  }

  /** The time of one training record: an object whose `intervalStart` is a
      string `fromisoformat` accepts. */
  function RecordTime(d: JValue, fromIso: string -> Option<int>): Option<int> {
    if d.JObj? && "intervalStart" in d.fields && d.fields["intervalStart"].JStr?
    then fromIso(d.fields["intervalStart"].s)
    else None
  }

  predicate RecordOk(d: JValue, fromIso: string -> Option<int>) {
    RecordTime(d, fromIso).Some? && "aqi" in d.fields
  }

  /** The series of the training records, or None when any record raises. */
  function Records(data: seq<JValue>, fromIso: string -> Option<int>): (r: Option<Series>)
    ensures r.Some? <==> forall i :: 0 <= i < |data| ==> RecordOk(data[i], fromIso)
    ensures r.Some? ==> |r.value.times| == |data| == |r.value.values|
    ensures r.Some? ==> forall i :: 0 <= i < |data| ==>
      Some(r.value.times[i]) == RecordTime(data[i], fromIso) && r.value.values[i] == data[i].fields["aqi"]
  {
    if forall i :: 0 <= i < |data| ==> RecordOk(data[i], fromIso) then
      Some(Series(seq(|data|, i requires 0 <= i < |data| => RecordTime(data[i], fromIso).value),
                  seq(|data|, i requires 0 <= i < |data| => data[i].fields["aqi"])))
    else None
  }

  /** POST /train. Every failure, including an exception, answers 400 and
      leaves both files as they were; success fits both models on the same
      series and overwrites both files. */
  function Train(isJson: bool, body: Option<JValue>, store: Store, o: Oracles): (r: TrainResult)
    ensures r.status == 200 || r.status == 400
    ensures r.status == 400 ==> r.store == store
    ensures !isJson || TrainData(body).None? ==> r.status == 400
    ensures r.status == 200 ==>
      && TrainData(body).Some? && Records(TrainData(body).value, o.fromIso).Some?
      && var s := Records(TrainData(body).value, o.fromIso).value;
         |s.times| >= 2 && r.store == Store(o.fitArima(s), o.fitHoltWinters(s))
         && r.store.arima.Some? && r.store.hw.Some?
    ensures isJson && TrainData(body).Some? && Records(TrainData(body).value, o.fromIso).Some? ==>
      var s := Records(TrainData(body).value, o.fromIso).value;
      o.fitArima(s).Some? && o.fitHoltWinters(s).Some? ==> r.status == 200
  {
    if !isJson then TrainResult(400, store)
    else match TrainData(body)
      case None => TrainResult(400, store)
      case Some(data) =>
        match Records(data, o.fromIso)
        case None => TrainResult(400, store)
        case Some(s) =>
          var a := o.fitArima(s);
          var h := o.fitHoltWinters(s);
          if a.None? || h.None? then TrainResult(400, store)
          else TrainResult(200, Store(a, h))
  }

  /** What a successful training leaves behind does not depend on what was
      stored before. */
  lemma TrainOverwritesBoth(isJson: bool, body: Option<JValue>, s1: Store, s2: Store, o: Oracles)
    requires Train(isJson, body, s1, o).status == 200
    ensures Train(isJson, body, s2, o) == Train(isJson, body, s1, o)
  {
  }

  /** A body that is not an object (a list, a string, a number) is refused. */
  lemma TrainNeedsObject(body: JValue, store: Store, o: Oracles)
    requires !body.JObj?
    ensures Train(true, Some(body), store, o) == TrainResult(400, store)
  {
  }

  // ---------------------------------------------------------------------------
  // /forecast

  /** Python's `int(x)` for a float: truncation towards zero. */
  function Trunc(x: real): (r: int)
    ensures x >= 0.0 ==> r as real <= x < r as real + 1.0
    ensures x < 0.0 ==> r as real - 1.0 < x <= r as real
  {
    if x >= 0.0 then x.Floor else -((-x).Floor)
  }

  /** `int(data.get('steps', 6))`; None where `int` raises. */
  function Steps(fields: map<string, JValue>, pyInt: string -> Option<int>): (r: Option<int>)
    ensures "steps" !in fields ==> r == Some(6)
    ensures "steps" in fields && fields["steps"].JNum? ==> r == Some(Trunc(fields["steps"].n))
  {
    if "steps" !in fields then Some(6)
    else match fields["steps"]
      case JNum(n) => Some(Trunc(n))
      case JBool(b) => Some(if b then 1 else 0)
      case JStr(s) => pyInt(s)
      case _ => None
  }

  /** One aggregated record in the database. */
  datatype Stored = Stored(intervalStart: int, aqi: real)

  const Week: int := 7 * 24 * 60

  /** The query of the last seven days, oldest first. */
  function LastWeek(db: seq<Stored>, now: int): (r: seq<Stored>)
    ensures |r| <= |db|
    ensures forall x :: x in r <==> x in db && x.intervalStart >= now - Week
    ensures Sorted(r, (x: Stored) => SortKey(x.intervalStart as real, 0.0))
  {
    Sort(Filter(db, (x: Stored) => x.intervalStart >= now - Week),
         (x: Stored) => SortKey(x.intervalStart as real, 0.0))
  }

  /** Where the history comes from. */
  datatype Source = Inline | Database

  /** The history is the request's own only when both its timestamps and its
      values are truthy. */
  function SourceOf(historical: map<string, JValue>): (r: Source)
    ensures r == Inline <==> PyTruthyOpt(Get(historical, "timestamps")) && PyTruthyOpt(Get(historical, "aqi"))
  {
    if PyTruthyOpt(Get(historical, "timestamps")) && PyTruthyOpt(Get(historical, "aqi")) then Inline
    else Database
  }

  /** `list(v)` for the values position: a list, or a string as its
      characters. An object, iterated by its keys in Python, is refused. */
  function Values(v: JValue): (r: Option<seq<JValue>>)
    ensures v.JArr? ==> r == Some(v.items)
    ensures v.JStr? ==> r.Some? && |r.value| == |v.s|
    ensures r.Some? ==> v.JArr? || v.JStr?
  {
    match v
    case JArr(items) => Some(items)
    case JStr(s) => Some(seq(|s|, i requires 0 <= i < |s| => JStr([s[i]])))
    case _ => None
  }

  /** `[fromisoformat(t) for t in ts]`; None where it raises. */
  function ParseTimes(ts: seq<JValue>, fromIso: string -> Option<int>): (r: Option<seq<int>>)
    ensures r.Some? <==> forall i :: 0 <= i < |ts| ==> ts[i].JStr? && fromIso(ts[i].s).Some?
    ensures r.Some? ==> |r.value| == |ts|
    ensures r.Some? ==> forall i :: 0 <= i < |ts| ==> Some(r.value[i]) == fromIso(ts[i].s)
  {
    if forall i :: 0 <= i < |ts| ==> ts[i].JStr? && fromIso(ts[i].s).Some? then
      Some(seq(|ts|, i requires 0 <= i < |ts| => fromIso(ts[i].s).value))
    else None
  }

  /** How choosing the history ends: a status, or the history. */
  datatype History = HistoryError(status: int) | History(times: seq<int>, values: seq<JValue>)

  /** Choose the history and check it: the request's own lists when both
      are truthy, otherwise the database's last week (404 when empty); then
      400 unless the times and values are non-empty and equally long. */
  function ChooseHistory(historical: map<string, JValue>, db: seq<Stored>, now: int,
                         fromIso: string -> Option<int>): (r: History)
    ensures r.HistoryError? ==> r.status in {400, 404, 500}
    ensures r.History? ==> |r.times| == |r.values| > 0
    ensures SourceOf(historical) == Database ==>
      (r.HistoryError? <==> |LastWeek(db, now)| == 0) &&
      (r.HistoryError? ==> r.status == 404) &&
      (r.History? ==> r.times == Map(LastWeek(db, now), (x: Stored) => x.intervalStart))
    ensures SourceOf(historical) == Inline && r.HistoryError? ==> r.status != 404
    ensures (SourceOf(historical) == Inline && historical["timestamps"].JArr?
             && ParseTimes(historical["timestamps"].items, fromIso).Some?
             && Values(historical["aqi"]).Some?
             && |historical["timestamps"].items| != |Values(historical["aqi"]).value|)
            ==> r == HistoryError(400)
    ensures SourceOf(historical) == Inline && r.HistoryError? && r.status == 400 ==>
      var ts := historical["timestamps"];
      var vs := Values(historical["aqi"]);
      ts.JArr? && vs.Some? && |ts.items| != |vs.value|
    ensures SourceOf(historical) == Inline && r.History? ==>
      historical["timestamps"].JArr? && Values(historical["aqi"]) == Some(r.values) &&
      ParseTimes(historical["timestamps"].items, fromIso) == Some(r.times)
  {
    if SourceOf(historical) == Database then
      var rows := LastWeek(db, now);
      if |rows| == 0 then HistoryError(404)
      else History(Map(rows, (x: Stored) => x.intervalStart), Map(rows, (x: Stored) => JNum(x.aqi)))
    else
      var ts := historical["timestamps"];
      if !ts.JArr? then HistoryError(500)
      else match ParseTimes(ts.items, fromIso)
        case None => HistoryError(500)
        case Some(times) =>
          match Values(historical["aqi"])
          case None => HistoryError(500)
          case Some(values) =>
            if |times| == 0 || |values| == 0 || |times| != |values| then HistoryError(400)
            else History(times, values)
  }

  /** Both stored models, refitting and overwriting both when either file
      is missing. */
  function EnsureModels(store: Store, s: Series, o: Oracles): (r: Option<Store>)
    ensures r.Some? ==> r.value.arima.Some? && r.value.hw.Some?
    ensures store.arima.Some? && store.hw.Some? ==> r == Some(store)
    ensures store.arima.None? || store.hw.None? ==>
      (r.Some? <==> o.fitArima(s).Some? && o.fitHoltWinters(s).Some?) &&
      (r.Some? ==> r.value == Store(o.fitArima(s), o.fitHoltWinters(s)))
  {
    if store.arima.Some? && store.hw.Some? then Some(store)
    else
      var a := o.fitArima(s);
      var h := o.fitHoltWinters(s);
      if a.None? || h.None? then None else Some(Store(a, h))
  }

  /** `last + timedelta(minutes=10 * i)` for `i` in `range(1, steps + 1)`. */
  function ForecastTimes(last: int, steps: int): (r: seq<int>)
    ensures |r| == Max(steps, 0)
    ensures forall i :: 0 <= i < |r| ==> r[i] == last + 10 * (i + 1)
  {
    seq(Max(steps, 0), i => last + 10 * (i + 1))
  }

  datatype ForecastBody = ForecastBody(
    times: seq<int>, arima: seq<real>, holtWinters: seq<real>,
    historyTimes: seq<int>, historyValues: seq<JValue>)

  datatype ForecastResult = ForecastResult(status: int, store: Store, body: Option<ForecastBody>)

  /** The request as read from the body: the steps, and the `historical`
      object; a falsy body is refused with 400 and a non-object fails
      with 500. */
  datatype Request = RequestError(status: int) | Request(steps: int, historical: map<string, JValue>)

  function ReadRequest(body: JValue, pyInt: string -> Option<int>): (r: Request)
    ensures !PyTruthy(body) ==> r == RequestError(400)
    ensures PyTruthy(body) && !body.JObj? ==> r == RequestError(500)
    ensures r.RequestError? ==> r.status in {400, 500}
    ensures r.Request? ==> body.JObj? && Steps(body.fields, pyInt) == Some(r.steps)
    ensures r.Request? && "historical" !in body.fields ==> r.historical == map[]
    ensures r.Request? && "historical" in body.fields ==> body.fields["historical"] == JObj(r.historical)
  {
    if !PyTruthy(body) then RequestError(400)
    else if !body.JObj? then RequestError(500)
    else
      match Steps(body.fields, pyInt)
      case None => RequestError(500)
      case Some(steps) =>
        var historical := if "historical" in body.fields then body.fields["historical"] else JObj(map[]);
        if !historical.JObj? then RequestError(500) else Request(steps, historical.fields)
  }

  /** The answer to a well-formed request: choose and check the history,
      ensure the models, forecast with both and time the forecast from the
      history's last element. */
  function Answer(steps: int, historical: map<string, JValue>, store: Store, db: seq<Stored>, now: int,
                  o: Oracles): (r: ForecastResult)
    ensures r.status in {200, 400, 404, 500}
    ensures r.body.Some? <==> r.status == 200
    ensures r.status == 404 <==> SourceOf(historical) == Database && |LastWeek(db, now)| == 0
    ensures ChooseHistory(historical, db, now, o.fromIso) == HistoryError(400) ==> r == ForecastResult(400, store, None)
    ensures r.status == 200 ==>
      var b := r.body.value;
      && |b.historyTimes| == |b.historyValues| > 0
      && b.times == ForecastTimes(b.historyTimes[|b.historyTimes| - 1], steps)
      && r.store.arima.Some? && r.store.hw.Some?
      && Some(b.arima) == o.predict(r.store.arima.value, steps)
      && Some(b.holtWinters) == o.predict(r.store.hw.value, steps)
      && EnsureModels(store, Series(b.historyTimes, b.historyValues), o) == Some(r.store)
      && ChooseHistory(historical, db, now, o.fromIso) == History(b.historyTimes, b.historyValues)
    ensures ChooseHistory(historical, db, now, o.fromIso).HistoryError? ==>
      r == ForecastResult(ChooseHistory(historical, db, now, o.fromIso).status, store, None)
    ensures var h := ChooseHistory(historical, db, now, o.fromIso);
      h.History? ==>
        (r.status == 200 <==> BothPredict(EnsureModels(store, Series(h.times, h.values), o), steps, o))
  {
    var h := ChooseHistory(historical, db, now, o.fromIso);
    var r := Respond(h, steps, store, o);
    assert r.status == 404 <==> h == HistoryError(404);
    assert r.status == 200 ==> h.History? && |h.times| > 0;
    r
  }

  /** The answer for a chosen history: its error as it stands, or the
      forecast from the ensured models, 500 when fitting or forecasting
      fails. */
  function Respond(h: History, steps: int, store: Store, o: Oracles): (r: ForecastResult)
    ensures h.HistoryError? ==> r == ForecastResult(h.status, store, None)
    ensures h.History? ==> r.status in {200, 500} && (r.body.Some? <==> r.status == 200)
    ensures h.History? ==>
      (r.status == 200 <==> BothPredict(EnsureModels(store, Series(h.times, h.values), o), steps, o))
    ensures h.History? && r.status == 200 ==>
      && r.body.value.historyTimes == h.times && r.body.value.historyValues == h.values
      && (|h.times| > 0 ==> r.body.value.times == ForecastTimes(h.times[|h.times| - 1], steps))
    ensures h.History? && r.status == 200 ==>
      var b := r.body.value;
      && r.store.arima.Some? && r.store.hw.Some?
      && Some(b.arima) == o.predict(r.store.arima.value, steps)
      && Some(b.holtWinters) == o.predict(r.store.hw.value, steps)
      && EnsureModels(store, Series(h.times, h.values), o) == Some(r.store)
  {
    match h
    case HistoryError(status) => ForecastResult(status, store, None)
    case History(times, values) =>
      match EnsureModels(store, Series(times, values), o)
      case None => ForecastResult(500, store, None)
      case Some(models) =>
        var a := o.predict(models.arima.value, steps);
        var p := o.predict(models.hw.value, steps);
        if a.None? || p.None? then ForecastResult(500, models, None)
        else
          ForecastResult(200, models,
            Some(ForecastBody(if |times| > 0 then ForecastTimes(times[|times| - 1], steps) else [],
                              a.value, p.value, times, values)))
  }

  /** Both models are available and both forecast `steps` values. */
  predicate BothPredict(m: Option<Store>, steps: int, o: Oracles) {
    && m.Some? && m.value.arima.Some? && m.value.hw.Some?
    && o.predict(m.value.arima.value, steps).Some?
    && o.predict(m.value.hw.value, steps).Some?
  }

  /** POST /forecast at time `now` with the database's aggregated records. */
  function Forecast(body: JValue, store: Store, db: seq<Stored>, now: int, o: Oracles): (r: ForecastResult)
    ensures r.status in {200, 400, 404, 500}
    ensures r.body.Some? <==> r.status == 200
    ensures !PyTruthy(body) ==> r.status == 400 && r.store == store
    ensures PyTruthy(body) && !body.JObj? ==> r.status == 500 && r.store == store
    ensures var req := ReadRequest(body, o.pyInt);
      && (req.Request? ==> r == Answer(req.steps, req.historical, store, db, now, o))
      && (req.RequestError? ==> r == ForecastResult(req.status, store, None))
  {
    match ReadRequest(body, o.pyInt)
    case RequestError(status) => ForecastResult(status, store, None)
    case Request(steps, historical) => Answer(steps, historical, store, db, now, o)
  }

  /** With both model files present, the request's series is never fitted:
      the answer does not depend on the fit functions at all. */
  lemma NoFitWhenBothPresent(body: JValue, store: Store, db: seq<Stored>, now: int, o1: Oracles, o2: Oracles)
    requires store.arima.Some? && store.hw.Some?
    requires o1.fromIso == o2.fromIso && o1.pyInt == o2.pyInt && o1.predict == o2.predict
    ensures Forecast(body, store, db, now, o1) == Forecast(body, store, db, now, o2)
    ensures Forecast(body, store, db, now, o1).store == store
  {
  }

  /** A missing file for either model refits both on the history and
      overwrites both, even the one that was present. */
  lemma MissRefitsBoth(body: JValue, store: Store, db: seq<Stored>, now: int, o: Oracles)
    requires store.arima.None? || store.hw.None?
    requires Forecast(body, store, db, now, o).status == 200
    ensures var r := Forecast(body, store, db, now, o);
            var s := Series(r.body.value.historyTimes, r.body.value.historyValues);
            r.store == Store(o.fitArima(s), o.fitHoltWinters(s))
  {
    var req := ReadRequest(body, o.pyInt);
    assert req.Request?;
    var r := Answer(req.steps, req.historical, store, db, now, o);
    assert Forecast(body, store, db, now, o) == r;
  }

  /** A request without a history of its own reads the last week of the
      database, and an empty week is a 404 that leaves the files alone. */
  lemma EmptyWeekIsNotFound(fields: map<string, JValue>, store: Store, db: seq<Stored>, now: int, o: Oracles)
    requires |fields| > 0 && "historical" !in fields && "steps" !in fields
    requires forall x :: x in db ==> x.intervalStart < now - Week
    ensures Forecast(JObj(fields), store, db, now, o) == ForecastResult(404, store, None)
  {
  }

  /** The forecast continues from the LAST timestamp of the request's list,
      whatever the order of the list: the list is never sorted, so every
      forecast time is the last element's time plus ten minutes per step,
      and a history sent newest first is extended from its oldest point,
      before times the history already holds. */
  lemma ForecastFollowsListOrder(steps: int, historical: map<string, JValue>, store: Store,
                                 db: seq<Stored>, now: int, o: Oracles)
    requires SourceOf(historical) == Inline
    requires Answer(steps, historical, store, db, now, o).status == 200
    ensures var ts := historical["timestamps"];
      var r := Answer(steps, historical, store, db, now, o).body.value;
      && ts.JArr? && |ts.items| > 0
      && ts.items[|ts.items| - 1].JStr? && o.fromIso(ts.items[|ts.items| - 1].s).Some?
      && var last := o.fromIso(ts.items[|ts.items| - 1].s).value;
         && r.times == ForecastTimes(last, steps)
         && forall j :: 0 <= j < |ts.items| && steps >= 1 && o.fromIso(ts.items[j].s).value > last + 10 ==>
              r.times[0] < o.fromIso(ts.items[j].s).value
  {
    var r := Answer(steps, historical, store, db, now, o).body.value;
    var ts := historical["timestamps"].items;
    assert ParseTimes(ts, o.fromIso) == Some(r.historyTimes);
    assert Some(r.historyTimes[|ts| - 1]) == o.fromIso(ts[|ts| - 1].s);
  }
}

=== FILE: forms.dfy ===
/** The account forms: the login page (log in, sign up, the alert
    preferences step, registration) and the edit-profile page (loading the
    profile and editing it). Both pages share one input handler. */
module Forms {
  import opened Common
  import Health

  /** A form's state: its text fields, its plain checkboxes, the chosen
      diseases and the alerts switch. */
  datatype FormState = FormState(
    fields: map<string, string>, checks: map<string, bool>, diseases: seq<string>, wantsAlerts: bool)

  /** The changed input: its name, value, whether it is a checkbox and, if
      so, whether it is now checked. */
  datatype InputEvent = InputEvent(name: string, value: string, isCheckbox: bool, checked: bool)

  /** `handleInputChange` (the same on both pages). Unchecking the alerts
      switch clears the diseases; a disease box appends its value or
      removes every copy of it; any other checkbox stores its state and
      any other input its value. */
  function InputChange(st: FormState, e: InputEvent): (r: FormState)
    ensures e.isCheckbox && e.name == "wantsAlerts" ==>
              r.wantsAlerts == e.checked && r.fields == st.fields && r.checks == st.checks &&
              r.diseases == (if e.checked then st.diseases else [])
    ensures e.isCheckbox && e.name == "diseases" ==>
              r.fields == st.fields && r.checks == st.checks && r.wantsAlerts == st.wantsAlerts &&
              (forall d :: d != e.value ==> multiset(r.diseases)[d] == multiset(st.diseases)[d]) &&
              multiset(r.diseases)[e.value] == (if e.checked then multiset(st.diseases)[e.value] + 1 else 0)
    ensures e.isCheckbox && e.name != "wantsAlerts" && e.name != "diseases" ==>
              r == st.(checks := st.checks[e.name := e.checked])
    ensures !e.isCheckbox ==> r == st.(fields := st.fields[e.name := e.value])
  {
    if e.isCheckbox then
      if e.name == "wantsAlerts" then
        st.(wantsAlerts := e.checked, diseases := if e.checked then st.diseases else [])
      else if e.name == "diseases" then
        st.(diseases := if e.checked then st.diseases + [e.value]
                        else Filter(st.diseases, (d: string) => d != e.value))
      else st.(checks := st.checks[e.name := e.checked])
    else st.(fields := st.fields[e.name := e.value])
  }

  /** A disease box is shown checked exactly when the disease is listed. */
  predicate ShownChecked(st: FormState, disease: string) {
    disease in st.diseases
  }

  /** Checking an unlisted disease and unchecking it again restores the list;
      after a check the box shows checked and after an uncheck it does not. */
  lemma {:induction false} DiseaseToggleRoundTrip(st: FormState, d: string)
    requires d !in st.diseases
    ensures var on := InputChange(st, InputEvent("diseases", d, true, true));
            var off := InputChange(on, InputEvent("diseases", d, true, false));
            ShownChecked(on, d) && !ShownChecked(off, d) && off == st
  {
    var on := InputChange(st, InputEvent("diseases", d, true, true));
    var keep := (x: string) => x != d;
    FilterAppend(st.diseases, [d], keep);
    FilterAll(st.diseases, keep);
    assert Filter([d], keep) == [];
    assert d in on.diseases by {
      assert on.diseases[|st.diseases|] == d;
    }
  }

  /** A text field's value, "" when the form has no such field. */
  function Text(fields: map<string, string>, k: string): string {
    if k in fields then fields[k] else ""
  }

  /** A plain checkbox's state, unchecked when the form has no such box. */
  function Checked(checks: map<string, bool>, k: string): bool {
    k in checks && checks[k]
  }

  // ---------------------------------------------------------------------------
  // Logging in.

  const AdminEmail: string := "airguardteam@gmail.com"
  const AdminPassword: string := "airguardteam"
  const AdminToken: string := "dummy-token-for-airguardteam"

  /** What the browser keeps: the remembered credentials, the token and the
      stored user's email. */
  datatype Storage = Storage(remembered: Option<(string, string)>, token: Option<string>, userEmail: Option<string>)

  datatype LoginResult = LoginResult(navigate: Option<string>, storage: Storage)

  /** `handleLogin`. `serverOk`, `serverToken` and `serverEmail` stand for
      the login endpoint's answer. */
  function Login(st: FormState, storage: Storage, serverOk: bool, serverToken: string, serverEmail: string): (r: LoginResult)
    ensures (Text(st.fields, "email") == "" || Text(st.fields, "password") == "") ==>
              r == LoginResult(None, storage)
    ensures Text(st.fields, "email") != "" && Text(st.fields, "password") != "" ==>
              r.storage.remembered ==
                (if Checked(st.checks, "rememberMe") then Some((Text(st.fields, "email"), Text(st.fields, "password"))) else None)
    ensures Text(st.fields, "email") == AdminEmail && Text(st.fields, "password") == AdminPassword ==>
              r.navigate == Some("/dashboard") && r.storage.token == Some(AdminToken) &&
              r.storage.userEmail == Some(AdminEmail)
    ensures r.navigate == Some("/userdashboard") <==>
              Text(st.fields, "email") != "" && Text(st.fields, "password") != "" &&
              !(Text(st.fields, "email") == AdminEmail && Text(st.fields, "password") == AdminPassword) && serverOk
    ensures r.navigate == Some("/dashboard") <==>
              Text(st.fields, "email") == AdminEmail && Text(st.fields, "password") == AdminPassword
    ensures r.navigate == Some("/userdashboard") ==>
              r.storage.token == Some(serverToken) && r.storage.userEmail == Some(serverEmail)
    ensures r.navigate.None? ==>
              r.storage.token == storage.token && r.storage.userEmail == storage.userEmail
  {
    var email := Text(st.fields, "email");
    var password := Text(st.fields, "password");
    if email == "" || password == "" then LoginResult(None, storage)
    else
      var s := storage.(remembered := if Checked(st.checks, "rememberMe") then Some((email, password)) else None);
      if email == AdminEmail && password == AdminPassword then
        LoginResult(Some("/dashboard"), s.(token := Some(AdminToken), userEmail := Some(AdminEmail)))
      else if serverOk then
        LoginResult(Some("/userdashboard"), s.(token := Some(serverToken), userEmail := Some(serverEmail)))
      else LoginResult(None, s)
  }

  /** Only the hard-coded credentials reach the admin dashboard, and they
      never reach the server. */
  lemma AdminLoginSkipsServer(st: FormState, storage: Storage, ok: bool, token: string, email: string)
    requires Text(st.fields, "email") == AdminEmail && Text(st.fields, "password") == AdminPassword
    ensures Login(st, storage, ok, token, email) == Login(st, storage, !ok, token + "x", email + "x")
  {
  }

  // ---------------------------------------------------------------------------
  // Signing up.

  datatype View = LoginView | SignUpView | AlertView | ThankYouView | ForgotPasswordView

  /** The registration body. `diseases` is present only with alerts on. */
  datatype RegisterBody = RegisterBody(
    name: string, email: string, password: string, contact: string, dob: string,
    country: string, city: string, wantsAlerts: bool, diseases: Option<seq<string>>)

  function Body(st: FormState): (b: RegisterBody)
    ensures b.diseases.Some? <==> st.wantsAlerts
    ensures b.diseases.Some? ==> b.diseases.value == st.diseases
    ensures b.email == Text(st.fields, "email") && b.password == Text(st.fields, "password")
  {
    RegisterBody(Text(st.fields, "name"), Text(st.fields, "email"), Text(st.fields, "password"),
                 Text(st.fields, "contact"), Text(st.fields, "dob"), Text(st.fields, "country"),
                 Text(st.fields, "city"), st.wantsAlerts, if st.wantsAlerts then Some(st.diseases) else None)
  }

  datatype SignUpError = Mismatch | TooShort | BadEmail

  /** The outcome of a submit on the sign-up or alert step: an error, a
      move to the alert step, or a registration request. */
  datatype SignUpStep = Invalid(error: SignUpError) | ToAlerts | Register(body: RegisterBody)

  /** `handleSignUpSubmit`: the checks run in order and the first failure
      stops; a valid form with alerts on goes to the alert step without
      registering. */
  function SignUpSubmit(st: FormState): (r: SignUpStep)
    ensures r == Invalid(Mismatch) <==> Text(st.fields, "password") != Text(st.fields, "confirmPassword")
    ensures r == Invalid(TooShort) <==>
              Text(st.fields, "password") == Text(st.fields, "confirmPassword") && |Text(st.fields, "password")| < 8
    ensures r == Invalid(BadEmail) <==>
              Text(st.fields, "password") == Text(st.fields, "confirmPassword") && |Text(st.fields, "password")| >= 8 &&
              '@' !in Text(st.fields, "email")
    ensures r == ToAlerts <==> !r.Invalid? && st.wantsAlerts
    ensures r.Register? ==> r.body == Body(st) && r.body.diseases.None?
  {
    var password := Text(st.fields, "password");
    if password != Text(st.fields, "confirmPassword") then Invalid(Mismatch)
    else if |password| < 8 then Invalid(TooShort)
    else if '@' !in Text(st.fields, "email") then Invalid(BadEmail)
    else if st.wantsAlerts then ToAlerts
    else Register(Body(st))
  }

  /** `handleAlertSubmit`: registers without checking again. */
  function AlertSubmit(st: FormState): (r: SignUpStep)
    ensures r.Register? && r.body.diseases == (if st.wantsAlerts then Some(st.diseases) else None)
  {
    Register(Body(st))
  }

  /** The view after a step; `registered` is whether the server accepted the
      registration. */
  function NextView(v: View, step: SignUpStep, registered: bool): (r: View)
    ensures step.Invalid? ==> r == v
    ensures step == ToAlerts ==> r == AlertView
    ensures step.Register? && registered ==> r == ThankYouView
    ensures step.Register? && !registered ==> r == v
  {
    match step
    case Invalid(_) => v
    case ToAlerts => AlertView
    case Register(_) => if registered then ThankYouView else v
  }

  /** With alerts on, a valid sign-up is a two-step affair: the first submit
      sends nothing, the alert step sends the chosen diseases. */
  lemma AlertsSignUpSendsDiseases(st: FormState)
    requires st.wantsAlerts && SignUpSubmit(st) == ToAlerts
    ensures NextView(SignUpView, SignUpSubmit(st), true) == AlertView
    ensures AlertSubmit(st).body.diseases == Some(st.diseases)
  {
  }

  /** Turning alerts off before registering sends no diseases at all, even
      ones chosen earlier. */
  lemma AlertsOffDropsDiseases(st: FormState)
    ensures var off := InputChange(st, InputEvent("wantsAlerts", "", true, false));
            off.diseases == [] && AlertSubmit(off).body.diseases.None?
  {
  }

  // ---------------------------------------------------------------------------
  // Disease labels.

  /** The disease boxes of the sign-up alert step. */
  const SignUpDiseases: seq<string> := ["Respiratory Diseases", "Cardiovascular Conditions", "Chronic Illnesses"]

  /** The disease boxes of the edit-profile page, which are the advice
      table's condition keys. */
  const ProfileDiseases: seq<string> := [Health.Respiratory, Health.Cardiovascular, Health.Chronic]

  /** None of the sign-up labels is a condition the advice table knows, so
      a user who chose diseases only at sign-up sees no condition advice at
      all. */
  lemma {:induction false} SignUpDiseasesGiveNoAdvice(
    dob: Option<string>, chosen: seq<string>, aqi: Num, parse: string -> Option<Health.Date>, today: Health.Date)
    requires forall i :: 0 <= i < |chosen| ==> chosen[i] in SignUpDiseases
    ensures Health.Recommend(Some(Health.Profile(dob, Some(chosen))), aqi, parse, today).Panel?
    ensures Health.Recommend(Some(Health.Profile(dob, Some(chosen))), aqi, parse, today).sections == []
  {
    Health.UnrecognisedConditionsShowGeneralOnly(Health.Profile(dob, Some(chosen)), aqi, parse, today);
  }

  /** The labels the sign-up step evidently means: the edit-profile ones. */
  const IntendedSignUpDiseases: seq<string> := ProfileDiseases

  /** With those labels every disease chosen at sign-up gets its section, in
      the order chosen. */
  lemma {:induction false} IntendedSignUpDiseasesGiveAdvice(
    dob: Option<string>, chosen: seq<string>, aqi: Num, parse: string -> Option<Health.Date>, today: Health.Date)
    requires |chosen| > 0
    requires forall i :: 0 <= i < |chosen| ==> chosen[i] in IntendedSignUpDiseases
    ensures Health.Recommend(Some(Health.Profile(dob, Some(chosen))), aqi, parse, today).Panel?
    ensures Health.Recommend(Some(Health.Profile(dob, Some(chosen))), aqi, parse, today).sections == chosen
  {
    forall x | x in chosen ensures Health.Recognised(x) && !Health.Inherited(x) {
      Health.TableKeysNotInherited(x);
    }
    assert Health.HasValid(chosen) by { assert chosen[0] in chosen; }
    FilterAll(chosen, Health.Listed);
  }

  // ---------------------------------------------------------------------------
  // Editing the profile.

  /** The stored profile as the endpoint returns it; absent fields are
      `None`. */
  datatype StoredProfile = StoredProfile(
    name: Option<string>, email: Option<string>, contact: Option<string>, dob: Option<string>,
    country: Option<string>, city: Option<string>, diseases: Option<seq<string>>, wantsAlerts: Option<bool>)

  /** `x || fallback` for an optional string. */
  function OrText(x: Option<string>, fallback: string): (r: string)
    ensures x.Some? && x.value != "" ==> r == x.value
    ensures x.None? || x == Some("") ==> r == fallback
  {
    if x.Some? && x.value != "" then x.value else fallback
  }

  /** The date part of an ISO timestamp: everything before the first 'T'. */
  function DatePart(iso: string): (r: string)
    ensures 'T' !in r
    ensures forall d, rest :: iso == d + "T" + rest && 'T' !in d ==> r == d
  {
    var r := Split(iso, 'T')[0];
    SplitPiecesFree(iso, 'T');
    forall d, rest | iso == d + "T" + rest && 'T' !in d
      ensures r == d
    {
      SplitFirst(iso, 'T');
      assert iso[|d|] == 'T';
      assert forall j :: 0 <= j < |d| ==> iso[j] == d[j];
      var i := IndexOf(iso, 'T');
      assert iso[..|d|] == d;
    }
    r
  }

  /** The form the edit page loads from a stored profile. `iso` stands for
      `new Date(dob).toISOString()`, `None` when the date is invalid, in
      which case the load fails and the form keeps its initial state. */
  function LoadProfile(initial: FormState, data: StoredProfile, iso: string -> Option<string>): (r: FormState)
    ensures data.dob.Some? && data.dob.value != "" && iso(data.dob.value).None? ==> r == initial
    ensures !(data.dob.Some? && data.dob.value != "" && iso(data.dob.value).None?) ==>
              Text(r.fields, "name") == OrText(data.name, "") &&
              Text(r.fields, "email") == OrText(data.email, "") &&
              Text(r.fields, "contact") == OrText(data.contact, "") &&
              Text(r.fields, "city") == OrText(data.city, "") &&
              Text(r.fields, "country") == OrText(data.country, "Pakistan") &&
              (data.dob.None? || data.dob == Some("") ==> Text(r.fields, "dob") == "") &&
              'T' !in Text(r.fields, "dob") &&
              (data.dob.Some? && data.dob.value != "" ==>
                 Text(r.fields, "dob") == DatePart(iso(data.dob.value).value)) &&
              r.diseases == (if data.diseases.Some? then data.diseases.value else []) &&
              r.wantsAlerts == (data.wantsAlerts == Some(true))
  {
    var dob :=
      if data.dob.Some? && data.dob.value != "" then
        (match iso(data.dob.value) case Some(t) => Some(DatePart(t)) case None => None)
      else Some("");
    match dob
    case None => initial
    case Some(d) =>
      FormState(
        map["name" := OrText(data.name, ""), "email" := OrText(data.email, ""),
            "contact" := OrText(data.contact, ""), "dob" := d,
            "country" := OrText(data.country, "Pakistan"), "city" := OrText(data.city, "")],
        map[],
        if data.diseases.Some? then data.diseases.value else [],
        data.wantsAlerts == Some(true))
  }

  /** A stored birth date whose ISO form is a date, a 'T' and a time loads
      as that date. */
  lemma LoadedDobIsDate(initial: FormState, data: StoredProfile, iso: string -> Option<string>,
                        day: string, time: string)
    requires data.dob.Some? && data.dob.value != ""
    requires iso(data.dob.value) == Some(day + "T" + time) && 'T' !in day
    ensures Text(LoadProfile(initial, data, iso).fields, "dob") == day
  {
  }

  /** A loaded profile shows each of its diseases, and only those, as a
      checked box. */
  lemma LoadedDiseasesShowChecked(initial: FormState, data: StoredProfile, iso: string -> Option<string>, d: string)
    requires data.diseases.Some? && !(data.dob.Some? && data.dob.value != "" && iso(data.dob.value).None?)
    ensures ShownChecked(LoadProfile(initial, data, iso), d) <==> d in data.diseases.value
  {
  }
}

=== FILE: health.dfy ===
/** The personalised health-advice panel: the user's age from their date of
    birth, the age group, the AQI category, and which sections of the advice
    table are shown. The advice sentences themselves are not modelled; the
    table is modelled by its shape (which condition, age group and category
    keys it has). */
module Health {
  import opened Common
  import opened Categories

  /** A calendar date as `getFullYear`, `getMonth` and `getDate` report it. */
  datatype Date = Date(year: int, month: int, day: int)

  predicate OnOrBefore(a: Date, b: Date) {
    a.year < b.year || (a.year == b.year && (a.month < b.month || (a.month == b.month && a.day <= b.day)))
  }

  /** The `n`-th birthday of someone born on `birth`. */
  function Anniversary(birth: Date, n: int): Date {
    Date(birth.year + n, birth.month, birth.day)
  }

  /** The age assumed when no usable date of birth is known. */
  const DefaultAge: int := 30

  /** `calculateAge`: `parse` stands for `new Date(dob)` (None when the date
      is invalid). The result is the number of birthdays that have passed:
      the last one is on or before today and the next one is after it. */
  function CalculateAge(dob: Option<string>, parse: string -> Option<Date>, today: Date): (age: int)
    ensures dob.None? || dob == Some("") ==> age == DefaultAge
    ensures dob.Some? && dob.value != "" && parse(dob.value).None? ==> age == DefaultAge
    ensures dob.Some? && dob.value != "" && parse(dob.value).Some? ==>
              OnOrBefore(Anniversary(parse(dob.value).value, age), today) &&
              !OnOrBefore(Anniversary(parse(dob.value).value, age + 1), today)
  {
    if dob.None? || dob.value == "" then DefaultAge
    else
      match parse(dob.value)
      case None => DefaultAge
      case Some(birth) =>
        var years := today.year - birth.year;
        var monthDiff := today.month - birth.month;
        if monthDiff < 0 || (monthDiff == 0 && today.day < birth.day) then years - 1 else years
  }

  datatype AgeGroup = Child | Adult | Senior

  /** The age groups cut the ages at 18 and 65 into three intervals, and
      the group never moves back as the age grows. */
  function AgeGroupOf(age: int): (g: AgeGroup)
    ensures g == Child <==> age < 18
    ensures g == Adult <==> 18 <= age < 65
    ensures g == Senior <==> 65 <= age
  {
    if age < 18 then Child else if age >= 65 then Senior else Adult
  }

  // ---------------------------------------------------------------------------
  // The advice table.

  /** The condition keys of the advice table. */
  const Respiratory: string := "Respiratory conditions"
  const Cardiovascular: string := "Cardiovascular disease"
  const Chronic: string := "Chronic Diseases & Other Conditions"

  /** The category keys each row of the tables lists. */
  const RowKeys: set<string> :=
    {"Good", "Moderate", "Unhealthy for Sensitive Groups", "Unhealthy", "Very Unhealthy", "Hazardous"}

  /** The per-condition table: for each condition and age group, the
      category keys it has advice for. */
  const Table: map<string, map<AgeGroup, set<string>>> :=
    map[Respiratory := map[Child := RowKeys, Adult := RowKeys, Senior := RowKeys],
        Cardiovascular := map[Child := RowKeys, Adult := RowKeys, Senior := RowKeys],
        Chronic := map[Child := RowKeys, Adult := RowKeys, Senior := RowKeys]]

  /** The general table's category keys. */
  const GeneralKeys: set<string> := RowKeys

  /** The lookups `recommendations[condition][ageGroup][aqiCategory]` and
      `generalRecommendations[aqiCategory]` are defined for every recognised
      condition, every age group and every category the classifier returns. */
  lemma TableTotal(condition: string, g: AgeGroup, c: Category)
    requires condition in Table
    ensures g in Table[condition] && Label(c) in Table[condition][g]
    ensures Label(c) in GeneralKeys
  {
  }

  predicate Recognised(condition: string) {
    condition in Table
  }

  // ---------------------------------------------------------------------------
  // The panel.

  /** The parts of the user record the panel reads. */
  datatype Profile = Profile(dob: Option<string>, diseases: Option<seq<string>>)

  datatype Panel =
    | Unavailable
      /** Rendering threw a TypeError: the advice lookup under `condition`
          found an inherited value with no age-group rows. */
    | Crashed(condition: string)
    | Panel(age: int, group: AgeGroup, category: Category,
            sections: seq<string>, seniorNote: bool)

  /** `userData?.diseases || []`. */
  function Conditions(user: Profile): seq<string> {
    if user.diseases.Some? then user.diseases.value else []
  }

  predicate Inherited(condition: string) {
    condition in InheritedNames
  }

  /** No condition key of the table is an inherited name. */
  lemma TableKeysNotInherited(condition: string)
    requires Recognised(condition)
    ensures !Inherited(condition)
  {
  }

  /** `recommendations[condition]` is truthy: the table has the condition,
      or it is a name every object inherits. */
  predicate Listed(condition: string) {
    Recognised(condition) || Inherited(condition)
  }

  predicate HasValid(conditions: seq<string>) {
    exists x :: x in conditions && Recognised(x)
  }

  /** The conditions given a section: none unless some condition is an own
      key of the table, and then every entry whose lookup is truthy, in the
      user's order. */
  function Sections(conditions: seq<string>): (r: seq<string>)
    ensures forall x :: x in r <==> HasValid(conditions) && x in conditions && Listed(x)
  {
    if HasValid(conditions) then Filter(conditions, Listed) else []
  }

  /** The first inherited name in `s`, whose lookup is the first to throw. */
  function FirstInherited(s: seq<string>): (r: Option<string>)
    ensures r.None? <==> forall x :: x in s ==> !Inherited(x)
    ensures r.Some? ==> r.value in s && Inherited(r.value)
  {
    if |s| == 0 then None
    else if Inherited(s[0]) then Some(s[0])
    else
      var r := FirstInherited(s[1..]);
      assert forall x :: x in s ==> x == s[0] || x in s[1..];
      r
  }

  /** The panel for `user` and `aqi` (the value of `aqiData?.aqi`). The
      test for condition sections asks for an own key of the table, but the
      sections are then chosen by the truthiness of the lookup, which also
      keeps inherited names; looking up an age group's advice under one of
      those throws. Otherwise there is one section per recognised entry in
      the user's order; the general advice is shown in both branches, so
      only the senior note depends on the branch taken. */
  function Recommend(user: Option<Profile>, aqi: Num, parse: string -> Option<Date>, today: Date): (r: Panel)
    ensures r.Unavailable? <==> user.None?
    ensures r.Crashed? <==>
      user.Some? && HasValid(Conditions(user.value)) && exists x :: x in Conditions(user.value) && Inherited(x)
    ensures r.Crashed? ==> r.condition in InheritedNames && r.condition in Conditions(user.value)
    ensures r.Panel? ==> forall x :: x in r.sections <==> x in Conditions(user.value) && Recognised(x)
    ensures r.Panel? ==> forall i :: 0 <= i < |r.sections| ==> r.sections[i] in Table
    ensures r.Panel? ==> r.category == Classify(OrZero(aqi))
    ensures r.Panel? ==> (r.seniorNote <==> |r.sections| == 0 && r.age != 0 && r.age >= 65)
  {
    if user.None? then Unavailable
    else
      var conditions := Conditions(user.value);
      var sections := Sections(conditions);
      match FirstInherited(sections)
      case Some(x) => Crashed(x)
      case None =>
        var age := CalculateAge(user.value.dob, parse, today);
        var group := AgeGroupOf(age);
        var category := HealthCategory(Finite(OrZero(aqi)));
        assert forall i :: 0 <= i < |sections| ==> sections[i] in sections;
        Panel(age, group, category, sections, !HasValid(conditions) && age != 0 && group == Senior)
  }

  /** A recognised condition next to an inherited name: the inherited name
      is kept for a section, and drawing it throws. */
  lemma InheritedConditionCrashes(dob: Option<string>, aqi: Num, parse: string -> Option<Date>, today: Date)
    ensures Recommend(Some(Profile(dob, Some([Respiratory, "constructor"]))), aqi, parse, today)
            == Crashed("constructor")
  {
    var c := [Respiratory, "constructor"];
    assert Recognised(c[0]) && Inherited(c[1]);
    TableKeysNotInherited(c[0]);
    assert HasValid(c) by { assert c[0] in c; }
    FilterAll(c, Listed);
    assert FirstInherited(c[1..]) == Some(c[1]);
  }

  /** No recognised condition means no condition section at all. */
  lemma {:induction false} UnrecognisedConditionsShowGeneralOnly(
    user: Profile, aqi: Num, parse: string -> Option<Date>, today: Date)
    requires forall i :: 0 <= i < |Conditions(user)| ==> !Recognised(Conditions(user)[i])
    ensures Recommend(Some(user), aqi, parse, today).Panel?
    ensures Recommend(Some(user), aqi, parse, today).sections == []
  {
  }
}

=== FILE: historical_pages.dfy ===
/** The historical report pages (the user's and the admin's): the start of
    the requested window, the rows built from the aggregated records, the
    zone filter, the retry policy of the fetch and the PDF guard. The two
    pages share their logic and differ only in the names they show. */
module HistoricalPages {
  import opened Common
  import opened Categories

  /** One hour in milliseconds. */
  const HourMs: int := 60 * 60 * 1000

  /** The start of the window for the chosen range: one day or seven days
      back, and no start (all data) for any other choice. */
  function StartDate(range: string, now: int): (r: Option<int>)
    ensures range == "24h" ==> r == Some(now - 86400000)
    ensures range == "7d" ==> r == Some(now - 604800000)
    ensures r.None? <==> range != "24h" && range != "7d"
  {
    if range == "24h" then Some(now - 24 * HourMs)
    else if range == "7d" then Some(now - 7 * 24 * HourMs)
    else None
  }

  /** The query parameters: `startDate` only when there is a start. */
  function Params(range: string, now: int): (r: map<string, int>)
    ensures "startDate" in r <==> range == "24h" || range == "7d"
    ensures |r| <= 1
  {
    match StartDate(range, now)
    case Some(t) => map["startDate" := t]
    case None => map[]
  }

  // ---------------------------------------------------------------------------
  // Rows.

  datatype Page = UserPage | AdminPage

  /** The zone value meaning "every zone", and the single zone's value. */
  function AllZones(p: Page): string {
    match p
    case UserPage => "all"
    case AdminPage => "All Zones"
  }

  function SingleZone(p: Page): string {
    match p
    case UserPage => "1"
    case AdminPage => "Zone 1"
  }

  /** The user page stores the category's key, the admin page its label. */
  function CategoryName(p: Page, c: Category): string {
    match p
    case UserPage => Key(c)
    case AdminPage => Label(c)
  }

  /** An aggregated record as the pages read it. */
  datatype AggItem = AggItem(aqi: Num, pm25Avg: Num, pm10Avg: Num, pollutant: Option<string>, intervalStart: int)

  datatype HistoryRow = HistoryRow(
    zone: string, timestamp: int, overall: real, category: string,
    pm25Aqi: int, pm10Aqi: int, otherAqi: int, dominant: string)

  /** The row built from one record: the overall AQI is the record's (0 when
      missing), its category is that of the AQI scale, the fine and coarse
      particle AQIs are 2.5 and 1.5 times the averages rounded half up, the
      gases are 0 and the dominant pollutant falls back to "pm2_5". */
  function Transform(p: Page, selectedZone: string, item: AggItem): (r: HistoryRow)
    ensures r.overall == OrZero(item.aqi)
    ensures r.category == CategoryName(p, Classify(r.overall))
    ensures r.zone == (if selectedZone == AllZones(p) then AllZones(p) else SingleZone(p))
    ensures OrZero(item.pm25Avg) * 2.5 - 0.5 < r.pm25Aqi as real <= OrZero(item.pm25Avg) * 2.5 + 0.5
    ensures OrZero(item.pm10Avg) * 1.5 - 0.5 < r.pm10Aqi as real <= OrZero(item.pm10Avg) * 1.5 + 0.5
    ensures r.otherAqi == 0
    ensures item.pollutant.Some? && item.pollutant.value != "" ==> r.dominant == item.pollutant.value
    ensures item.pollutant.None? || item.pollutant == Some("") ==> r.dominant == "pm2_5"
  {
    var aqi := OrZero(item.aqi);
    HistoryRow(
      if selectedZone == AllZones(p) then AllZones(p) else SingleZone(p),
      item.intervalStart, aqi, CategoryName(p, Classify(aqi)),
      Round(OrZero(item.pm25Avg) * 2.5), Round(OrZero(item.pm10Avg) * 1.5), 0,
      if item.pollutant.Some? && item.pollutant.value != "" then item.pollutant.value else "pm2_5")
  }

  /** The page's category is the one the dashboard gives the same AQI. */
  lemma TransformAgreesWithDashboard(p: Page, selectedZone: string, item: AggItem)
    ensures Transform(p, selectedZone, item).category == CategoryName(p, DashboardCategory(Finite(OrZero(item.aqi))))
  {
  }

  /** The rows for the selected zone: all of them, or those whose zone is
      the single zone. */
  function Rows(p: Page, selectedZone: string, items: seq<AggItem>): (r: seq<HistoryRow>)
    ensures forall x :: x in r ==> exists item :: item in items && x == Transform(p, selectedZone, item)
  {
    var rows := Map(items, (item: AggItem) => Transform(p, selectedZone, item));
    var r := if selectedZone == AllZones(p) then rows
             else Filter(rows, (x: HistoryRow) => x.zone == SingleZone(p));
    forall x | x in r
      ensures exists item :: item in items && x == Transform(p, selectedZone, item)
    {
      var i :| 0 <= i < |rows| && rows[i] == x;
      assert items[i] in items;
    }
    r
  }

  /** Every row carries the single zone whenever a zone is selected, so the
      zone filter never removes anything: each record gives exactly one row,
      in record order, whatever zone is chosen. */
  lemma {:induction false} ZoneFilterKeepsAll(p: Page, selectedZone: string, items: seq<AggItem>)
    ensures Rows(p, selectedZone, items) == Map(items, (item: AggItem) => Transform(p, selectedZone, item))
  {
    var rows := Map(items, (item: AggItem) => Transform(p, selectedZone, item));
    if selectedZone != AllZones(p) {
      FilterAll(rows, (x: HistoryRow) => x.zone == SingleZone(p));
    }
  }

  // ---------------------------------------------------------------------------
  // Fetching with retries.

  /** What one request to the aggregated-data endpoint gives: the records,
      a refused connection, or any other failure. */
  datatype Outcome = Ok(items: seq<AggItem>) | Refused | Failed

  datatype FetchError = CannotConnect | LoadFailed

  /** The page state after a fetch: the rows, the error and the waits made
      between attempts. */
  datatype Fetched = Fetched(rows: seq<HistoryRow>, error: Option<FetchError>, waits: seq<nat>)

  /** The retries of `fetchHistoricalData(retries, delay)` from attempt `n`
      on, where `attempt(k)` is the outcome of the `k`-th request: only a
      refused connection is retried, after waiting `delay`, with the delay
      doubled each time. The result is the waits made and the outcome kept. */
  function Settle(attempt: nat -> Outcome, n: nat, retries: nat, delay: nat): (r: (seq<nat>, Outcome))
    ensures |r.0| <= retries
    ensures |r.0| > 0 ==> r.0[0] == delay
    ensures forall i :: 0 < i < |r.0| ==> r.0[i] == 2 * r.0[i - 1]
    ensures forall k :: n <= k < n + |r.0| ==> attempt(k).Refused?
    ensures r.1 == attempt(n + |r.0|)
    ensures r.1.Refused? ==> |r.0| == retries
    decreases retries
  {
    if attempt(n).Refused? && retries > 0 then
      var rest := Settle(attempt, n + 1, retries - 1, delay * 2);
      assert n + 1 + |rest.0| == n + |[delay] + rest.0|;
      ([delay] + rest.0, rest.1)
    else ([], attempt(n))
  }

  /** The page's fetch: three retries, the first after one second. A
      refused connection that outlasts them, or any other failure, leaves
      no rows and an error. */
  function FetchHistorical(p: Page, selectedZone: string, attempt: nat -> Outcome): (r: Fetched)
    ensures |r.waits| <= 3
    ensures |r.waits| > 0 ==> r.waits[0] == 1000
    ensures forall i :: 0 < i < |r.waits| ==> r.waits[i] == 2 * r.waits[i - 1]
    ensures forall k :: 0 <= k < |r.waits| ==> attempt(k).Refused?
    ensures r.error.None? <==> attempt(|r.waits|).Ok?
    ensures r.error.None? ==> r.rows == Rows(p, selectedZone, attempt(|r.waits|).items)
    ensures r.error.Some? ==> r.rows == []
    ensures r.error == Some(CannotConnect) <==> attempt(|r.waits|).Refused?
    ensures r.error == Some(CannotConnect) ==> |r.waits| == 3
  {
    var (waits, last) := Settle(attempt, 0, 3, 1000);
    match last
    case Ok(items) => Fetched(Rows(p, selectedZone, items), None, waits)
    case Refused => Fetched([], Some(CannotConnect), waits)
    case Failed => Fetched([], Some(LoadFailed), waits)
  }

  /** A server that always refuses is tried four times, with waits of one,
      two and four seconds, and the page ends with no rows and the
      connection error. */
  lemma AlwaysRefused(p: Page, selectedZone: string, attempt: nat -> Outcome)
    requires forall k :: attempt(k) == Refused
    ensures FetchHistorical(p, selectedZone, attempt) == Fetched([], Some(CannotConnect), [1000, 2000, 4000])
  {
    var r := Settle(attempt, 0, 3, 1000);
    assert |r.0| == 3;
  }

  /** Any other failure is not retried. */
  lemma OtherFailureNotRetried(p: Page, selectedZone: string, attempt: nat -> Outcome)
    requires attempt(0) == Failed
    ensures FetchHistorical(p, selectedZone, attempt) == Fetched([], Some(LoadFailed), [])
  {
  }

  /** `downloadPDF` refuses when there is no data or the data is empty. */
  function CanDownload(data: Option<seq<HistoryRow>>): (r: bool)
    ensures r ==> data.Some? && |data.value| > 0
  {
    data.Some? && |data.value| > 0
  }

  /** After a failed fetch there is nothing to download; after a successful
      one there is exactly when some record came back. */
  lemma DownloadAfterFetch(p: Page, selectedZone: string, attempt: nat -> Outcome)
    ensures var f := FetchHistorical(p, selectedZone, attempt);
            (f.error.Some? ==> !CanDownload(Some(f.rows))) &&
            (f.error.None? ==> (CanDownload(Some(f.rows)) <==> |attempt(|f.waits|).items| > 0))
  {
    var f := FetchHistorical(p, selectedZone, attempt);
    if f.error.None? {
      ZoneFilterKeepsAll(p, selectedZone, attempt(|f.waits|).items);
    }
  }
}

=== FILE: historical_route.dfy ===
/** GET `/api/air-data/historical`: validate the date range, select the
    readings in it (optionally of one zone) oldest first, and group them by
    hour, keeping a running mean of the indices and particulate values and
    the first reading's gases and zone. */
module HistoricalRoute {
  import opened Common
  import opened Readings
  import opened Sorting

  const HourMs: int := 60 * 60 * 1000

  /** `moment(ts).startOf('hour')`, for a time zone whose offset is a whole
      number of hours. */
  function HourOf(ts: int): (h: int)
    ensures h <= ts < h + HourMs && h % HourMs == 0
  {
    ts - ts % HourMs
  }

  /** The nine fields the grouping averages. */
  datatype Field = Aqi | AqiPm25 | AqiPm10 | AqiO3 | AqiCo | AqiSo2 | AqiNo2 | Pm25 | Pm10

  function Get(r: StoredReading, f: Field): real {
    match f
    case Aqi => r.aqi as real
    case AqiPm25 => r.sub.pm25 as real
    case AqiPm10 => r.sub.pm10 as real
    case AqiO3 => r.sub.o3 as real
    case AqiCo => r.sub.co as real
    case AqiSo2 => r.sub.so2 as real
    case AqiNo2 => r.sub.no2 as real
    case Pm25 => r.pm2_5
    case Pm10 => r.pm10
  }

  /** One hour's entry of the response. */
  datatype Bucket = Bucket(
    timestamp: int,
    aqi: real, aqiPm25: real, aqiPm10: real, aqiO3: real, aqiCo: real, aqiSo2: real, aqiNo2: real,
    pm2_5: real, pm10: real,
    co: Num, o3: Num, no2: Num, so2: Num, zone: Option<string>,
    count: nat)

  function Avg(b: Bucket, f: Field): real {
    match f
    case Aqi => b.aqi
    case AqiPm25 => b.aqiPm25
    case AqiPm10 => b.aqiPm10
    case AqiO3 => b.aqiO3
    case AqiCo => b.aqiCo
    case AqiSo2 => b.aqiSo2
    case AqiNo2 => b.aqiNo2
    case Pm25 => b.pm2_5
    case Pm10 => b.pm10
  }

  /** The entry created by the first reading of an hour. */
  function Open(r: StoredReading): (b: Bucket)
    ensures b.count == 1 && b.timestamp == HourOf(r.timestamp)
    ensures forall f :: Avg(b, f) == Get(r, f)
  {
    Bucket(HourOf(r.timestamp),
      r.aqi as real, r.sub.pm25 as real, r.sub.pm10 as real, r.sub.o3 as real,
      r.sub.co as real, r.sub.so2 as real, r.sub.no2 as real,
      r.pm2_5, r.pm10, r.co, r.o3, r.no2, r.so2, r.zone, 1)
  }

  function Running(avg: real, count: nat, x: real): real {
    (avg * count as real + x) / (count as real + 1.0)
  }

  /** A later reading of the same hour: the nine averaged fields move to the
      running mean, the count grows by one, everything else stays. */
  function Absorb(b: Bucket, r: StoredReading): (b': Bucket)
    ensures b'.count == b.count + 1
    ensures b'.timestamp == b.timestamp && b'.zone == b.zone
    ensures b'.co == b.co && b'.o3 == b.o3 && b'.no2 == b.no2 && b'.so2 == b.so2
    ensures forall f :: Avg(b', f) == Running(Avg(b, f), b.count, Get(r, f))
  {
    b.(aqi := Running(b.aqi, b.count, r.aqi as real),
       aqiPm25 := Running(b.aqiPm25, b.count, r.sub.pm25 as real),
       aqiPm10 := Running(b.aqiPm10, b.count, r.sub.pm10 as real),
       aqiO3 := Running(b.aqiO3, b.count, r.sub.o3 as real),
       aqiCo := Running(b.aqiCo, b.count, r.sub.co as real),
       aqiSo2 := Running(b.aqiSo2, b.count, r.sub.so2 as real),
       aqiNo2 := Running(b.aqiNo2, b.count, r.sub.no2 as real),
       pm2_5 := Running(b.pm2_5, b.count, r.pm2_5),
       pm10 := Running(b.pm10, b.count, r.pm10),
       count := b.count + 1)
  }

  /** The entry for hour `h`, if there is one. */
  function Find(acc: seq<Bucket>, h: int): (r: Option<nat>)
    ensures r.Some? ==> r.value < |acc| && acc[r.value].timestamp == h
    ensures r.None? ==> forall i :: 0 <= i < |acc| ==> acc[i].timestamp != h
  {
    if |acc| == 0 then None
    else if acc[0].timestamp == h then Some(0)
    else match Find(acc[1..], h)
      case None => None
      case Some(i) => Some(i + 1)
  }

  /** One step of the reduce. */
  function Step(acc: seq<Bucket>, r: StoredReading): seq<Bucket> {
    match Find(acc, HourOf(r.timestamp))
    case None => acc + [Open(r)]
    case Some(i) => acc[i := Absorb(acc[i], r)]
  }

  /** The reduce over the readings, from the left; the object's values come
      out in the order their hours were first seen. */
  function Group(rs: seq<StoredReading>): seq<Bucket> {
    if |rs| == 0 then [] else Step(Group(rs[..|rs| - 1]), rs[|rs| - 1])
  }

  // ---------------------------------------------------------------------------
  // The reference the grouping is measured against: the readings of an hour
  // and the plain mean of a field over them.

  function InHour(rs: seq<StoredReading>, h: int): seq<StoredReading> {
    if |rs| == 0 then []
    else InHour(rs[..|rs| - 1], h) + (if HourOf(rs[|rs| - 1].timestamp) == h then [rs[|rs| - 1]] else [])
  }

  function Column(rs: seq<StoredReading>, f: Field): seq<real> {
    if |rs| == 0 then [] else Column(rs[..|rs| - 1], f) + [Get(rs[|rs| - 1], f)]
  }

  function Hours(rs: seq<StoredReading>): set<int> {
    set r | r in rs :: HourOf(r.timestamp)
  }

  /** What the grouping keeps true after every reading: one entry per hour
      seen, and each entry matching its hour's readings. */
  predicate Invariant(rs: seq<StoredReading>, g: seq<Bucket>) {
    Shape(rs, g) && AllMatch(rs, g)
  }

  predicate Shape(rs: seq<StoredReading>, g: seq<Bucket>) {
    && Distinct(g)
    && (forall i :: 0 <= i < |g| ==> g[i].timestamp in Hours(rs))
    && (forall h :: h in Hours(rs) ==> exists i :: 0 <= i < |g| && g[i].timestamp == h)
    && |g| == |Hours(rs)|
  }

  predicate AllMatch(rs: seq<StoredReading>, g: seq<Bucket>) {
    forall i :: 0 <= i < |g| ==> BucketMatches(rs, g[i])
  }

  /** An entry holds the count of its hour's readings, the plain mean of each
      averaged field, and the first reading's gases and zone. */
  predicate BucketMatches(rs: seq<StoredReading>, b: Bucket) {
    var xs := InHour(rs, b.timestamp);
    && |xs| > 0
    && b.count == |xs|
    && (forall f :: Avg(b, f) == Sum(Column(xs, f)) / |xs| as real)
    && b.co == xs[0].co && b.o3 == xs[0].o3 && b.no2 == xs[0].no2 && b.so2 == xs[0].so2
    && b.zone == xs[0].zone
  }

  lemma InHourSnoc(rs: seq<StoredReading>, x: StoredReading, h: int)
    ensures InHour(rs + [x], h) == InHour(rs, h) + (if HourOf(x.timestamp) == h then [x] else [])
  {
    assert (rs + [x])[..|rs|] == rs;
  }

  lemma ColumnSnoc(xs: seq<StoredReading>, x: StoredReading, f: Field)
    ensures Column(xs + [x], f) == Column(xs, f) + [Get(x, f)]
    ensures |Column(xs, f)| == |xs|
  {
    assert (xs + [x])[..|xs|] == xs;
    ColumnLength(xs, f);
  }

  lemma {:induction false} ColumnLength(xs: seq<StoredReading>, f: Field)
    ensures |Column(xs, f)| == |xs|
  {
    if |xs| > 0 {
      ColumnLength(xs[..|xs| - 1], f);
    }
  }

  lemma SumSnoc(xs: seq<real>, x: real)
    ensures Sum(xs + [x]) == Sum(xs) + x
  {
    assert (xs + [x])[..|xs|] == xs;
  }

  lemma {:induction false} InHourEmpty(rs: seq<StoredReading>, h: int)
    requires h !in Hours(rs)
    ensures InHour(rs, h) == []
  {
    if |rs| > 0 {
      assert Hours(rs[..|rs| - 1]) <= Hours(rs) by {
        forall r | r in rs[..|rs| - 1] ensures r in rs { }
      }
      assert rs[|rs| - 1] in rs;
      InHourEmpty(rs[..|rs| - 1], h);
    }
  }

  lemma HoursSnoc(rs: seq<StoredReading>, x: StoredReading)
    ensures Hours(rs + [x]) == Hours(rs) + {HourOf(x.timestamp)}
  {
    assert forall r :: r in rs + [x] <==> r in rs || r == x;
  }

  /** The running mean of a mean and one more value is the mean of all. */
  lemma RunningMean(xs: seq<real>, x: real)
    requires |xs| > 0
    ensures Running(Sum(xs) / |xs| as real, |xs|, x) == Sum(xs + [x]) / |xs + [x]| as real
  {
    SumSnoc(xs, x);
    var n := |xs| as real;
    assert Sum(xs) / n * n == Sum(xs);
  }

  /** An entry not touched by a reading of another hour still matches. */
  lemma MatchesOtherHour(rs: seq<StoredReading>, x: StoredReading, b: Bucket)
    requires BucketMatches(rs, b) && HourOf(x.timestamp) != b.timestamp
    ensures BucketMatches(rs + [x], b)
  {
    InHourSnoc(rs, x, b.timestamp);
    assert InHour(rs + [x], b.timestamp) == InHour(rs, b.timestamp);
  }

  /** An entry absorbing a reading of its own hour still matches. */
  lemma MatchesAbsorb(rs: seq<StoredReading>, x: StoredReading, b: Bucket)
    requires BucketMatches(rs, b) && HourOf(x.timestamp) == b.timestamp
    ensures BucketMatches(rs + [x], Absorb(b, x))
  {
    var xs := InHour(rs, b.timestamp);
    InHourSnoc(rs, x, b.timestamp);
    assert InHour(rs + [x], b.timestamp) == xs + [x];
    assert (xs + [x])[0] == xs[0];
    forall f
      ensures Avg(Absorb(b, x), f) == Sum(Column(xs + [x], f)) / |xs + [x]| as real
    {
      ColumnSnoc(xs, x, f);
      RunningMean(Column(xs, f), Get(x, f));
    }
  }

  /** The entry opened by the first reading of an hour matches. */
  lemma MatchesOpen(rs: seq<StoredReading>, x: StoredReading)
    requires HourOf(x.timestamp) !in Hours(rs)
    ensures BucketMatches(rs + [x], Open(x))
  {
    var h := HourOf(x.timestamp);
    InHourEmpty(rs, h);
    InHourSnoc(rs, x, h);
    assert InHour(rs + [x], h) == [x];
    forall f
      ensures Sum(Column([x], f)) == Get(x, f)
    {
      ColumnSnoc([], x, f);
      SumSnoc([], Get(x, f));
    }
  }

  lemma {:induction false} GroupInvariant(rs: seq<StoredReading>)
    ensures Invariant(rs, Group(rs))
  {
    if |rs| > 0 {
      var init := rs[..|rs| - 1];
      var x := rs[|rs| - 1];
      var g := Group(init);
      GroupInvariant(init);
      assert rs == init + [x];
      assert Group(rs) == Step(g, x);
      if Find(g, HourOf(x.timestamp)).None? {
        StepNewHourShape(init, g, x);
        StepNewHourMatch(init, g, x);
      } else {
        StepSameHourShape(init, g, x);
        StepSameHourMatch(init, g, x);
      }
    }
  }

  /** A reading of an hour not seen before appends a fresh entry. */
  lemma StepNewHourShape(rs: seq<StoredReading>, g: seq<Bucket>, x: StoredReading)
    requires Shape(rs, g) && Find(g, HourOf(x.timestamp)).None?
    ensures Step(g, x) == g + [Open(x)]
    ensures Shape(rs + [x], Step(g, x))
  {
    var h := HourOf(x.timestamp);
    var b := Open(x);
    HoursSnoc(rs, x);
    assert h !in Hours(rs);
    assert Step(g, x) == g + [b];
    DistinctAppend(g, b);
    CoverAppend(Hours(rs), g, b);
  }

  predicate Distinct(g: seq<Bucket>) {
    forall i, j :: 0 <= i < j < |g| ==> g[i].timestamp != g[j].timestamp
  }

  lemma DistinctAppend(g: seq<Bucket>, b: Bucket)
    requires Distinct(g) && forall i :: 0 <= i < |g| ==> g[i].timestamp != b.timestamp
    ensures Distinct(g + [b])
  {
  }

  lemma CoverAppend(hs: set<int>, g: seq<Bucket>, b: Bucket)
    requires forall i :: 0 <= i < |g| ==> g[i].timestamp in hs
    requires forall h :: h in hs ==> exists i :: 0 <= i < |g| && g[i].timestamp == h
    requires |g| == |hs| && b.timestamp !in hs
    ensures forall i :: 0 <= i < |g| + 1 ==> (g + [b])[i].timestamp in hs + {b.timestamp}
    ensures forall h :: h in hs + {b.timestamp} ==> exists i :: 0 <= i < |g| + 1 && (g + [b])[i].timestamp == h
    ensures |g + [b]| == |hs + {b.timestamp}|
  {
    var g' := g + [b];
    forall h | h in hs + {b.timestamp}
      ensures exists i :: 0 <= i < |g'| && g'[i].timestamp == h
    {
      if h == b.timestamp {
        assert g'[|g|].timestamp == h;
      } else {
        var i :| 0 <= i < |g| && g[i].timestamp == h;
        assert g'[i].timestamp == h;
      }
    }
  }

  lemma StepNewHourMatch(rs: seq<StoredReading>, g: seq<Bucket>, x: StoredReading)
    requires Shape(rs, g) && AllMatch(rs, g) && Find(g, HourOf(x.timestamp)).None?
    ensures AllMatch(rs + [x], Step(g, x))
  {
    var h := HourOf(x.timestamp);
    assert h !in Hours(rs);
    var g' := g + [Open(x)];
    assert Step(g, x) == g';
    forall i | 0 <= i < |g'|
      ensures BucketMatches(rs + [x], g'[i])
    {
      if i < |g| {
        MatchesOtherHour(rs, x, g[i]);
      } else {
        MatchesOpen(rs, x);
      }
    }
  }

  /** A reading of a known hour updates that hour's entry only. */
  lemma StepSameHourShape(rs: seq<StoredReading>, g: seq<Bucket>, x: StoredReading)
    requires Shape(rs, g) && Find(g, HourOf(x.timestamp)).Some?
    ensures Shape(rs + [x], Step(g, x))
  {
    var h := HourOf(x.timestamp);
    var k := Find(g, h).value;
    HoursSnoc(rs, x);
    assert h in Hours(rs);
    assert Hours(rs + [x]) == Hours(rs);
    var g' := g[k := Absorb(g[k], x)];
    assert Step(g, x) == g';
    assert forall i :: 0 <= i < |g| ==> g'[i].timestamp == g[i].timestamp;
  }

  lemma StepSameHourMatch(rs: seq<StoredReading>, g: seq<Bucket>, x: StoredReading)
    requires Shape(rs, g) && AllMatch(rs, g) && Find(g, HourOf(x.timestamp)).Some?
    ensures AllMatch(rs + [x], Step(g, x))
  {
    var h := HourOf(x.timestamp);
    var k := Find(g, h).value;
    var g' := g[k := Absorb(g[k], x)];
    assert Step(g, x) == g';
    forall i | 0 <= i < |g'|
      ensures BucketMatches(rs + [x], g'[i])
    {
      if i == k {
        MatchesAbsorb(rs, x, g[k]);
      } else {
        MatchesOtherHour(rs, x, g[i]);
      }
    }
  }

  /** The grouping's promise: one entry per distinct hour, each holding the
      count and the plain means of its hour's readings and that hour's first
      gases and zone. */
  lemma GroupCorrect(rs: seq<StoredReading>)
    ensures var g := Group(rs);
      && |g| == |Hours(rs)|
      && (forall i, j :: 0 <= i < j < |g| ==> g[i].timestamp != g[j].timestamp)
      && (forall h :: h in Hours(rs) <==> exists i :: 0 <= i < |g| && g[i].timestamp == h)
      && (forall i :: 0 <= i < |g| ==>
            var xs := InHour(rs, g[i].timestamp);
            |xs| > 0 && g[i].count == |xs|
            && (forall f :: Avg(g[i], f) == Sum(Column(xs, f)) / |xs| as real)
            && g[i].co == xs[0].co && g[i].o3 == xs[0].o3 && g[i].no2 == xs[0].no2
            && g[i].so2 == xs[0].so2 && g[i].zone == xs[0].zone)
  {
    GroupInvariant(rs);
  }

  // ---------------------------------------------------------------------------
  // The handler.

  datatype Query = Query(zone: Option<string>, startDate: Option<string>, endDate: Option<string>)

  datatype Response = BadRequest | Ok(count: nat, data: seq<Bucket>)

  predicate Truthy(s: Option<string>) {
    s.Some? && s.value != ""
  }

  /** Whether a stored reading answers the database query. */
  predicate Selected(r: StoredReading, start: int, end: int, zone: Option<string>) {
    && start <= r.timestamp <= end
    && (Truthy(zone) && zone.value != "all" ==> r.zone == zone)
  }

  function ByTimestamp(r: StoredReading): SortKey {
    SortKey(r.timestamp as real, 0.0)
  }

  /** The route over the stored readings; `parse` is `new Date(text)`,
      giving no time for an invalid date. */
  function Historical(q: Query, all: seq<StoredReading>, parse: string -> Option<int>): (r: Response)
    ensures !Truthy(q.startDate) || !Truthy(q.endDate) ==> r.BadRequest?
    ensures Truthy(q.startDate) && Truthy(q.endDate) ==>
      (r.BadRequest? <==> parse(q.startDate.value).None? || parse(q.endDate.value).None?)
    ensures r.Ok? ==> r.count == |r.data|
  {
    if !Truthy(q.startDate) || !Truthy(q.endDate) then BadRequest
    else
      match (parse(q.startDate.value), parse(q.endDate.value))
      case (Some(start), Some(end)) =>
        var found := Sort(Filter(all, (x: StoredReading) => Selected(x, start, end, q.zone)), ByTimestamp);
        var data := Group(found);
        Ok(|data|, data)
      case _ => BadRequest
  }

  /** With a valid range the response lists exactly the hours of the
      selected readings, one entry each; no zone or zone 'all' selects every
      zone. */
  lemma HistoricalCount(q: Query, all: seq<StoredReading>, parse: string -> Option<int>, start: int, end: int)
    requires Truthy(q.startDate) && Truthy(q.endDate)
    requires parse(q.startDate.value) == Some(start) && parse(q.endDate.value) == Some(end)
    ensures var r := Historical(q, all, parse);
            var sel := Filter(all, (x: StoredReading) => Selected(x, start, end, q.zone));
            r.Ok? && r.count == |Hours(sel)|
            && forall h :: h in Hours(sel) <==> exists i :: 0 <= i < |r.data| && r.data[i].timestamp == h
  {
    var sel := Filter(all, (x: StoredReading) => Selected(x, start, end, q.zone));
    var found := Sort(sel, ByTimestamp);
    GroupCorrect(found);
    HoursOfPermutation(found, sel);
  }

  lemma HoursOfPermutation(a: seq<StoredReading>, b: seq<StoredReading>)
    requires multiset(a) == multiset(b)
    ensures Hours(a) == Hours(b)
  {
    assert forall x :: x in a <==> x in multiset(a);
    assert forall x :: x in b <==> x in multiset(b);
  }

  /** The AirData schema keeps no zone, so among readings it saved a zone
      filter other than 'all' matches nothing and the answer is empty. */
  lemma ZoneQueryOfStoredReadingsIsEmpty(q: Query, all: seq<StoredReading>, parse: string -> Option<int>)
    requires Truthy(q.startDate) && Truthy(q.endDate)
    requires parse(q.startDate.value).Some? && parse(q.endDate.value).Some?
    requires Truthy(q.zone) && q.zone.value != "all"
    requires forall x :: x in all ==> Conforms(x)
    ensures Historical(q, all, parse) == Ok(0, [])
  {
    var start, end := parse(q.startDate.value).value, parse(q.endDate.value).value;
    var sel := Filter(all, (x: StoredReading) => Selected(x, start, end, q.zone));
    assert forall x :: x !in sel;
  }

  lemma AllZonesSelected(r: StoredReading, start: int, end: int, zone: Option<string>)
    requires start <= r.timestamp <= end
    requires zone.None? || zone == Some("") || zone == Some("all")
    ensures Selected(r, start, end, zone)
  {
  }
}

=== FILE: ingestion.dfy ===
/** The two POST routes that accept a reading: `/api/air-data` (field
    `pm2_5`, missing gases built as 0, missing zone built as 'Unknown') and
    the sensor route (field `pm25`, gases built as sent). Both insist that
    the two particulate fields are numbers, compute the six sub-indices and
    build a document with their maximum as the overall AQI, which the
    AirData schema then saves: it keeps only the fields it declares. */
module Ingestion {
  import opened Common
  import opened Breakpoints
  import opened AqiIndex
  import opened Readings

  /** `typeof x === 'number'` for a parsed JSON field: JSON cannot carry NaN,
      so a number is always finite. */
  predicate IsNumber(n: Num) {
    n.Finite?
  }

  datatype Response = Response(status: int, aqi: int, sub: SubIndices)

  /** What a POST does: either a 400 and nothing stored, or the document
      the route builds, the reading the schema stores from it, and the 200
      response that echoes its indices. */
  datatype Outcome = BadRequest | Saved(built: StoredReading, reading: StoredReading, response: Response)

  datatype AirDataBody = AirDataBody(
    pm2_5: Num, pm10: Num, co: Num, o3: Num, no2: Num, so2: Num, zone: Option<string>)

  /** `zone || 'Unknown'`. */
  function ZoneOrUnknown(zone: Option<string>): (r: string)
    ensures zone.Some? && zone.value != "" ==> r == zone.value
    ensures zone.None? || zone.value == "" ==> r == "Unknown"
  {
    if zone.Some? && zone.value != "" then zone.value else "Unknown"
  }

  /** POST to the air-data route at a given clock reading. */
  function PostAirData(body: AirDataBody, now: int): (r: Outcome)
    ensures r.BadRequest? <==> !IsNumber(body.pm2_5) || !IsNumber(body.pm10)
    ensures r.Saved? ==>
      && r.response.status == 200
      && r.built.pm2_5 == body.pm2_5.v && r.built.pm10 == body.pm10.v
      && r.built.sub == IndicesOf(body.pm2_5.v, body.pm10.v, OrZero(body.o3), OrZero(body.co),
                                  OrZero(body.so2), OrZero(body.no2))
      && r.built.co == Finite(OrZero(body.co)) && r.built.o3 == Finite(OrZero(body.o3))
      && r.built.no2 == Finite(OrZero(body.no2)) && r.built.so2 == Finite(OrZero(body.so2))
      && r.built.zone == Some(ZoneOrUnknown(body.zone))
      && (forall i :: 0 <= i < 6 ==> Values(r.built.sub)[i] <= r.built.aqi)
      && r.built.aqi in Values(r.built.sub)
      && r.response.aqi == r.built.aqi && r.response.sub == r.built.sub
    ensures r.Saved? ==>
      && r.reading == Persist(r.built) && Conforms(r.reading)
      && r.reading.co == r.built.co && r.reading.o3 == r.built.o3
      && r.reading.zone.None? && r.reading.no2.Undefined? && r.reading.so2.Undefined?
  {
    if !IsNumber(body.pm2_5) || !IsNumber(body.pm10) then BadRequest
    else
      var sub := IndicesOf(body.pm2_5.v, body.pm10.v, OrZero(body.o3), OrZero(body.co),
                           OrZero(body.so2), OrZero(body.no2));
      var aqi := OverallAqi(sub);
      var built := StoredReading(now, body.pm2_5.v, body.pm10.v,
        Finite(OrZero(body.co)), Finite(OrZero(body.o3)), Finite(OrZero(body.no2)), Finite(OrZero(body.so2)),
        aqi, sub, Some(ZoneOrUnknown(body.zone)), None);
      Saved(built, Persist(built), Response(200, aqi, sub))
  }

  /** A missing or zero gas is indexed as concentration 0, which every table
      maps to index 0, and the stored carbon monoxide and ozone are 0. */
  lemma MissingGasIndexesAsZero(body: AirDataBody, now: int)
    requires IsNumber(body.pm2_5) && IsNumber(body.pm10)
    requires Falsy(body.o3) && Falsy(body.co) && Falsy(body.so2) && Falsy(body.no2)
    ensures var r := PostAirData(body, now);
            r.Saved? && r.reading.sub.o3 == 0 && r.reading.sub.co == 0
            && r.reading.sub.so2 == 0 && r.reading.sub.no2 == 0
            && r.reading.co == Finite(0.0) && r.reading.o3 == Finite(0.0)
  {
    ZeroConcentration(O3);
    ZeroConcentration(CO);
    ZeroConcentration(SO2);
    ZeroConcentration(NO2);
  }

  /** The zone the air-data route fills in, 'Unknown' included, is not kept:
      the schema has no zone. */
  lemma AirDataZoneNotStored(body: AirDataBody, now: int)
    requires IsNumber(body.pm2_5) && IsNumber(body.pm10)
    ensures var r := PostAirData(body, now);
            r.Saved? && r.built.zone.Some? && r.reading.zone.None?
  {
  }

  datatype SensorBody = SensorBody(
    pm25: Num, pm10: Num, co: Num, o3: Num, so2: Num, no2: Num,
    zone: Option<string>, locationName: Option<string>)

  /** POST to the sensor route: the same validation and indices, but the
      gases are built exactly as sent and `pm25` is built as `pm2_5`. */
  function PostSensorReading(body: SensorBody, now: int): (r: Outcome)
    ensures r.BadRequest? <==> !IsNumber(body.pm25) || !IsNumber(body.pm10)
    ensures r.Saved? ==>
      && r.response.status == 200
      && r.built.pm2_5 == body.pm25.v && r.built.pm10 == body.pm10.v
      && r.built.sub == IndicesOf(body.pm25.v, body.pm10.v, OrZero(body.o3), OrZero(body.co),
                                  OrZero(body.so2), OrZero(body.no2))
      && r.built.co == body.co && r.built.o3 == body.o3
      && r.built.so2 == body.so2 && r.built.no2 == body.no2
      && r.built.zone == body.zone && r.built.locationName == body.locationName
      && (forall i :: 0 <= i < 6 ==> Values(r.built.sub)[i] <= r.built.aqi)
      && r.built.aqi in Values(r.built.sub)
      && r.response.aqi == r.built.aqi && r.response.sub == r.built.sub
    ensures r.Saved? ==>
      && r.reading == Persist(r.built) && Conforms(r.reading)
      && r.reading.co == DefaultZero(body.co) && r.reading.o3 == DefaultZero(body.o3)
      && r.reading.zone.None? && r.reading.locationName.None?
  {
    if !IsNumber(body.pm25) || !IsNumber(body.pm10) then BadRequest
    else
      var sub := IndicesOf(body.pm25.v, body.pm10.v, OrZero(body.o3), OrZero(body.co),
                           OrZero(body.so2), OrZero(body.no2));
      var aqi := OverallAqi(sub);
      var built := StoredReading(now, body.pm25.v, body.pm10.v,
        body.co, body.o3, body.no2, body.so2, aqi, sub, body.zone, body.locationName);
      Saved(built, Persist(built), Response(200, aqi, sub))
  }

  /** The two routes agree on every index; they differ only in what they
      build for the gases, the zone and the location name. */
  lemma RoutesAgreeOnIndices(a: AirDataBody, s: SensorBody, now: int)
    requires a.pm2_5 == s.pm25 && a.pm10 == s.pm10
    requires a.co == s.co && a.o3 == s.o3 && a.so2 == s.so2 && a.no2 == s.no2
    ensures PostAirData(a, now).BadRequest? == PostSensorReading(s, now).BadRequest?
    ensures PostAirData(a, now).Saved? ==>
      PostAirData(a, now).response == PostSensorReading(s, now).response
  {
  }

  /** An absent gas is indexed as 0 by the sensor route and built as
      absent; the schema then stores ozone as 0 and drops nitrogen
      dioxide. */
  lemma SensorAbsentGasStoredAsZero(body: SensorBody, now: int)
    requires IsNumber(body.pm25) && IsNumber(body.pm10) && body.o3.Undefined? && body.no2.Undefined?
    ensures var r := PostSensorReading(body, now);
            && r.Saved? && r.built.o3.Undefined? && r.reading.o3 == Finite(0.0) && r.reading.sub.o3 == 0
            && r.reading.no2.Undefined? && r.reading.sub.no2 == 0
  {
    ZeroConcentration(O3);
    ZeroConcentration(NO2);
  }

  /** Whatever a sensor sends as zone and location name, neither is
      stored. */
  lemma SensorZoneNotStored(body: SensorBody, now: int)
    requires IsNumber(body.pm25) && IsNumber(body.pm10)
    ensures var r := PostSensorReading(body, now);
            r.Saved? && r.built.zone == body.zone && r.reading.zone.None? && r.reading.locationName.None?
  {
  }
}

=== FILE: json.dfy ===
/** Parsed JSON values as the Flask service and the Express proxy receive
    them, with the two languages' notions of truthiness and the conversions
    each applies to a field. */
module Json {
  import opened Common

  datatype JValue =
    | JNull
    | JBool(b: bool)
    | JNum(n: real)
    | JStr(s: string)
    | JArr(items: seq<JValue>)
    | JObj(fields: map<string, JValue>)

  /** Python's `bool(v)`: empty containers, empty strings, zero, `False`
      and `None` are false. */
  predicate PyTruthy(v: JValue) {
    match v
    case JNull => false
    case JBool(b) => b
    case JNum(n) => n != 0.0
    case JStr(s) => s != ""
    case JArr(items) => |items| > 0
    case JObj(fields) => |fields| > 0
  }

  /** `bool(d.get(k))` for a key that may be absent. */
  predicate PyTruthyOpt(v: Option<JValue>) {
    v.Some? && PyTruthy(v.value)
  }

  /** JavaScript truthiness of a parsed value (absent is `undefined`):
      unlike Python, an empty array or object is truthy. */
  predicate JsTruthy(v: Option<JValue>) {
    match v
    case None => false
    case Some(JNull) => false
    case Some(JBool(b)) => b
    case Some(JNum(n)) => n != 0.0
    case Some(JStr(s)) => s != ""
    case Some(JArr(_)) => true
    case Some(JObj(_)) => true
  }

  /** Python and JavaScript disagree exactly on empty containers. */
  lemma TruthinessDiffersOnEmptyContainers(v: JValue)
    ensures PyTruthy(v) != JsTruthy(Some(v)) <==> v == JArr([]) || v == JObj(map[])
  {
    if v.JObj? && |v.fields| == 0 {
      assert v.fields == map[];
    }
  }

  /** `obj.get(k)` / `obj[k]` on an object. */
  function Get(fields: map<string, JValue>, k: string): (r: Option<JValue>)
    ensures r.Some? <==> k in fields
    ensures r.Some? ==> r.value == fields[k]
  {
    if k in fields then Some(fields[k]) else None
  }

  /** `v?.k` in JavaScript: a property of an object, otherwise `undefined`. */
  function Prop(v: Option<JValue>, k: string): (r: Option<JValue>)
    ensures r.Some? ==> v.Some? && v.value.JObj? && k in v.value.fields
  {
    if v.Some? && v.value.JObj? then Get(v.value.fields, k) else None
  }

  /** `Number(v)` for a parsed value; strings go through `numberOfString`.
      An array converts through its string form, the elements joined by
      commas: an empty array is 0, a one-element array converts as its
      element's string would (`null` writes as the empty string, `true` and
      `false` as words that are no number), and two or more elements always
      leave a comma in the string, which is NaN. An object is NaN. */
  function JsNumber(v: Option<JValue>, numberOfString: string -> Num): (r: Num)
    ensures r.Finite? || r.NaN?
    ensures v.Some? && v.value.JNum? ==> r == Finite(v.value.n)
    ensures v.None? ==> r.NaN?
    ensures v.Some? && v.value.JArr? && |v.value.items| == 0 ==> r == Finite(0.0)
    ensures v.Some? && v.value.JArr? && |v.value.items| >= 2 ==> r.NaN?
    ensures v.Some? && v.value.JArr? && |v.value.items| == 1 ==>
      r == ElementNumber(v.value.items[0], numberOfString)
  {
    if v.None? then NaN else ValueNumber(v.value, numberOfString)
  }

  /** `Number(v)` for a present value. */
  function ValueNumber(v: JValue, numberOfString: string -> Num): (r: Num)
    ensures r.Finite? || r.NaN?
    decreases v, 0
  {
    match v
    case JNull => Finite(0.0)
    case JBool(b) => Finite(if b then 1.0 else 0.0)
    case JNum(n) => Finite(n)
    case JStr(s) => ToNumber(numberOfString(s))
    case JArr(items) =>
      if |items| == 0 then Finite(0.0)
      else if |items| == 1 then ElementNumber(items[0], numberOfString)
      else NaN
    case JObj(_) => NaN
  }

  /** `Number(String(e))` for the only element `e` of an array. */
  function ElementNumber(e: JValue, numberOfString: string -> Num): (r: Num)
    ensures r.Finite? || r.NaN?
    ensures e.JNull? ==> r == Finite(0.0)
    ensures e.JBool? || e.JObj? ==> r.NaN?
    ensures e.JNum? ==> r == Finite(e.n)
    ensures e.JStr? ==> r == ToNumber(numberOfString(e.s))
    decreases e, 1
  {
    match e
    case JNull => Finite(0.0)
    case JBool(_) => NaN
    case JObj(_) => NaN
    case _ => ValueNumber(e, numberOfString)
  }

  /** Wrapping a value other than a boolean in a one-element array leaves
      its number unchanged, however deep the nesting. */
  lemma {:induction false} SingletonKeepsNumber(e: JValue, depth: nat, numberOfString: string -> Num)
    requires !e.JBool?
    ensures JsNumber(Some(Wrap(e, depth)), numberOfString) == JsNumber(Some(e), numberOfString)
  {
    if depth > 0 {
      var inner := Wrap(e, depth - 1);
      assert Wrap(e, depth) == JArr([inner]);
      assert !inner.JBool?;
      OneLayer(inner, numberOfString);
      SingletonKeepsNumber(e, depth - 1, numberOfString);
    }
  }

  /** One layer of wrapping around a value other than a boolean. */
  lemma OneLayer(e: JValue, numberOfString: string -> Num)
    requires !e.JBool?
    ensures JsNumber(Some(JArr([e])), numberOfString) == JsNumber(Some(e), numberOfString)
  {
    assert JArr([e]).items[0] == e;
  }

  /** `e` inside `depth` one-element arrays. */
  function Wrap(e: JValue, depth: nat): JValue {
    if depth == 0 then e else JArr([Wrap(e, depth - 1)])
  }

  /** `JSON.stringify` of a number: NaN is written as `null`. */
  function NumToJson(n: Num): (r: JValue)
    ensures n.Finite? ==> r == JNum(n.v)
    ensures !n.Finite? ==> r == JNull
  {
    if n.Finite? then JNum(n.v) else JNull
  }
}

=== FILE: maps.dfy ===
/** The two map views: the embedded map (zone circles, report markers, sensor
    enrichment, marker validity, icons) and the full-screen page (one row per
    sensor zone, sorted by AQI). Both pick the latest aggregated reading with
    the same `reduce`. */
module Maps {
  import opened Common
  import opened Categories
  import opened Sorting

  /** An aggregated record as the maps read it: the end of its interval (ms)
      and its overall AQI. */
  datatype Reading = Reading(intervalEnd: int, aqi: Num)

  /** One step of the `reduce`: a reading replaces the kept one only when its
      interval ends strictly later. */
  function LatestStep(acc: Option<Reading>, r: Reading): Option<Reading> {
    if acc.None? || r.intervalEnd > acc.value.intervalEnd then Some(r) else acc
  }

  /** The `reduce` over the records, from the left. */
  function Latest(rs: seq<Reading>): Option<Reading> {
    if |rs| == 0 then None else LatestStep(Latest(rs[..|rs| - 1]), rs[|rs| - 1])
  }

  /** Position `i` holds the first record with the greatest interval end. */
  predicate FirstLatest(rs: seq<Reading>, i: int) {
    0 <= i < |rs| &&
    (forall j :: 0 <= j < |rs| ==> rs[j].intervalEnd <= rs[i].intervalEnd) &&
    (forall j :: 0 <= j < i ==> rs[j].intervalEnd < rs[i].intervalEnd)
  }

  /** Where the `reduce` stops: the first record with the greatest interval
      end, so the latest record wins and the earliest of them on a tie. */
  function LatestIndex(rs: seq<Reading>): (i: nat)
    requires |rs| > 0
    ensures FirstLatest(rs, i) && Latest(rs) == Some(rs[i])
    decreases |rs|
  {
    if |rs| == 1 then 0
    else
      var n := |rs| - 1;
      var init := rs[..n];
      var k := LatestIndex(init);
      assert forall j :: 0 <= j < n ==> init[j] == rs[j];
      if rs[n].intervalEnd > rs[k].intervalEnd then n else k
  }

  /** The `reduce` yields nothing exactly for no records. */
  lemma LatestNoneIffEmpty(rs: seq<Reading>)
    ensures Latest(rs).None? <==> |rs| == 0
  {
    if |rs| > 0 {
      var _ := LatestIndex(rs);
    }
  }

  /** Two records ending at the same time: the earlier one in the list wins. */
  lemma TieKeepsEarlier(a: Reading, b: Reading)
    requires a.intervalEnd == b.intervalEnd
    ensures Latest([a, b]) == Some(a)
  {
    var i := LatestIndex([a, b]);
    assert i == 0;
  }

  /** The AQI and status a zone shows: the latest record's, or null and
      "unknown" without records. */
  function ZoneAqi(latest: Option<Reading>): Num {
    if latest.Some? then latest.value.aqi else Null
  }

  function ZoneStatus(latest: Option<Reading>): string {
    if latest.Some? then StatusKey(MapCategory(latest.value.aqi)) else "unknown"
  }

  // ---------------------------------------------------------------------------
  // Report markers.

  /** A pollution report as the map reads it. `resolved` is absent when the
      stored report has no such field. */
  datatype Report = Report(
    verificationStatus: string, lat: Num, lon: Num, resolved: Option<bool>,
    pollutionType: Option<string>, location: Option<string>)

  /** A map marker. `aqi` is `Undefined` when the marker carries none. */
  datatype Marker = Marker(
    geocode: seq<Num>, pollutionType: Option<string>, locationName: Option<string>,
    zone: Option<string>, aqi: Num, status: string)

  /** A report becomes a marker when it is verified, has non-zero numeric
      coordinates and is explicitly unresolved; a report at latitude or
      longitude 0 is never shown. */
  predicate ShowsAsMarker(r: Report) {
    r.verificationStatus == "verified" &&
    !Falsy(r.lat) && !Falsy(r.lon) && !IsNaN(r.lat) && !IsNaN(r.lon) &&
    r.resolved == Some(false)
  }

  lemma ShowsAsMarkerExactly(r: Report)
    ensures ShowsAsMarker(r) <==>
              r.verificationStatus == "verified" && r.resolved == Some(false) &&
              r.lat.Finite? && r.lat.v != 0.0 && r.lon.Finite? && r.lon.v != 0.0
  {
  }

  function ReportMarker(r: Report): Marker {
    Marker([r.lat, r.lon], r.pollutionType, r.location, None, Undefined, "pollution")
  }

  /** The report markers, in report order. */
  function ReportMarkers(reports: seq<Report>): (ms: seq<Marker>)
    ensures forall m :: m in ms <==> exists r :: r in reports && ShowsAsMarker(r) && m == ReportMarker(r)
  {
    var shown := Filter(reports, ShowsAsMarker);
    var ms := Map(shown, ReportMarker);
    assert forall r :: r in shown ==> ReportMarker(r) in ms by {
      forall r | r in shown ensures ReportMarker(r) in ms {
        var i :| 0 <= i < |shown| && shown[i] == r;
        assert ms[i] == ReportMarker(r);
      }
    }
    ms
  }

  // ---------------------------------------------------------------------------
  // Enrichment.

  datatype Sensor = Sensor(zone: Option<string>, locationName: Option<string>, lat: Num, lon: Num)

  /** `s.locationName === marker.locationName || s.zone === marker.zone`;
      two absent names are equal. */
  predicate SensorMatches(s: Sensor, m: Marker) {
    s.locationName == m.locationName || s.zone == m.zone
  }

  /** A marker that has a pollution type or an AQI already. */
  predicate Informed(m: Marker) {
    (m.pollutionType.Some? && m.pollutionType.value != "") || !m.aqi.Undefined?
  }

  /** The first sensor matching the marker. */
  function FindSensor(sensors: seq<Sensor>, m: Marker): (r: Option<Sensor>)
    ensures r.Some? <==> exists s :: s in sensors && SensorMatches(s, m)
  {
    if |sensors| == 0 then None
    else if SensorMatches(sensors[0], m) then Some(sensors[0])
    else
      var r := FindSensor(sensors[1..], m);
      assert forall s :: s in sensors[1..] ==> s in sensors;
      assert forall s :: s in sensors && s != sensors[0] ==> s in sensors[1..];
      r
  }

  /** An informed marker is passed through; an uninformed one takes the
      zone AQI and status when some sensor matches it, and is otherwise
      passed through. Which sensor matches does not matter. */
  function Enrich(m: Marker, sensors: seq<Sensor>, latest: Option<Reading>): (r: Marker)
    ensures Informed(m) ==> r == m
    ensures !Informed(m) && (forall s :: s in sensors ==> !SensorMatches(s, m)) ==> r == m
    ensures !Informed(m) && (exists s :: s in sensors && SensorMatches(s, m)) ==>
              r == m.(aqi := ZoneAqi(latest), status := ZoneStatus(latest))
  {
    if Informed(m) then m
    else
      match FindSensor(sensors, m)
      case Some(_) => m.(aqi := ZoneAqi(latest), status := ZoneStatus(latest))
      case None => m
  }

  // ---------------------------------------------------------------------------
  // Validity and icons.

  /** `Array.isArray(g) && g.length === 2 && !isNaN(g[0]) && !isNaN(g[1])`;
      `isNaN(null)` is false, so null coordinates pass. */
  predicate ValidMarker(m: Marker) {
    |m.geocode| == 2 && !IsNaN(m.geocode[0]) && !IsNaN(m.geocode[1])
  }

  /** Every report marker is valid, before or after enrichment. */
  lemma ReportMarkersValid(r: Report, sensors: seq<Sensor>, latest: Option<Reading>)
    requires ShowsAsMarker(r)
    ensures ValidMarker(Enrich(ReportMarker(r), sensors, latest))
  {
  }

  /** A sensor marker with null coordinates is rendered (at 0, 0). */
  lemma NullCoordinatesPass(m: Marker)
    requires m.geocode == [Null, Null]
    ensures ValidMarker(m)
  {
  }

  /** A marker the map can draw: a given marker or a shown report's
      marker, enriched. */
  predicate Drawable(x: Marker, markers: seq<Marker>, reports: seq<Report>, sensors: seq<Sensor>,
                     latest: Option<Reading>) {
    || (exists m :: m in markers && x == Enrich(m, sensors, latest))
    || (exists rep :: rep in reports && ShowsAsMarker(rep) && x == Enrich(ReportMarker(rep), sensors, latest))
  }

  /** The markers the map draws: the given markers then the report markers,
      enriched, keeping the valid ones. A marker is drawn exactly when it is
      valid and drawable, every shown report's marker among them. */
  function Rendered(markers: seq<Marker>, reports: seq<Report>, sensors: seq<Sensor>,
                    latest: Option<Reading>): (r: seq<Marker>)
    ensures forall x :: x in r <==> ValidMarker(x) && Drawable(x, markers, reports, sensors, latest)
    ensures forall rep :: rep in reports && ShowsAsMarker(rep) ==>
              Enrich(ReportMarker(rep), sensors, latest) in r
    ensures |r| <= |markers| + |ReportMarkers(reports)|
  {
    var all := markers + ReportMarkers(reports);
    var enriched := Map(all, (m: Marker) => Enrich(m, sensors, latest));
    EnrichedMembers(all, markers, reports, sensors, latest, enriched);
    forall rep | rep in reports && ShowsAsMarker(rep)
      ensures ValidMarker(Enrich(ReportMarker(rep), sensors, latest))
    {
      ReportMarkersValid(rep, sensors, latest);
    }
    Filter(enriched, ValidMarker)
  }

  /** The enriched list holds exactly the drawable markers. */
  lemma EnrichedMembers(all: seq<Marker>, markers: seq<Marker>, reports: seq<Report>, sensors: seq<Sensor>,
                        latest: Option<Reading>, enriched: seq<Marker>)
    requires all == markers + ReportMarkers(reports)
    requires |enriched| == |all| && forall i :: 0 <= i < |all| ==> enriched[i] == Enrich(all[i], sensors, latest)
    ensures forall x :: x in enriched <==> Drawable(x, markers, reports, sensors, latest)
  {
    forall x | x in enriched
      ensures Drawable(x, markers, reports, sensors, latest)
    {
      var i :| 0 <= i < |enriched| && enriched[i] == x;
      assert all[i] in markers || all[i] in ReportMarkers(reports);
    }
    forall x | Drawable(x, markers, reports, sensors, latest)
      ensures x in enriched
    {
      DrawableEnriched(x, all, markers, reports, sensors, latest, enriched);
    }
  }

  /** A drawable marker has a position in the enriched list. */
  lemma DrawableEnriched(x: Marker, all: seq<Marker>, markers: seq<Marker>, reports: seq<Report>,
                         sensors: seq<Sensor>, latest: Option<Reading>, enriched: seq<Marker>)
    requires all == markers + ReportMarkers(reports)
    requires |enriched| == |all| && forall i :: 0 <= i < |all| ==> enriched[i] == Enrich(all[i], sensors, latest)
    requires Drawable(x, markers, reports, sensors, latest)
    ensures x in enriched
  {
    if m :| m in markers && x == Enrich(m, sensors, latest) {
      var i :| 0 <= i < |markers| && markers[i] == m;
      assert all[i] == m;
      assert enriched[i] == x;
    } else {
      var rep :| rep in reports && ShowsAsMarker(rep) && x == Enrich(ReportMarker(rep), sensors, latest);
      ReportEnriched(rep, all, markers, reports, sensors, latest, enriched);
    }
  }

  /** A shown report's enriched marker has a position in the enriched list,
      after the given markers. */
  lemma ReportEnriched(rep: Report, all: seq<Marker>, markers: seq<Marker>, reports: seq<Report>,
                       sensors: seq<Sensor>, latest: Option<Reading>, enriched: seq<Marker>)
    requires all == markers + ReportMarkers(reports)
    requires |enriched| == |all| && forall i :: 0 <= i < |all| ==> enriched[i] == Enrich(all[i], sensors, latest)
    requires rep in reports && ShowsAsMarker(rep)
    ensures Enrich(ReportMarker(rep), sensors, latest) in enriched
  {
    var ms := ReportMarkers(reports);
    assert ReportMarker(rep) in ms;
    var i :| 0 <= i < |ms| && ms[i] == ReportMarker(rep);
    assert all[|markers| + i] == ReportMarker(rep);
    assert enriched[|markers| + i] == Enrich(ReportMarker(rep), sensors, latest);
  }

  /** The icon keys the map has images for. */
  const IconKeys: set<string> :=
    {"Burning of Waste", "Industrial Emissions", "Vehicle Emissions", "Construction Dust",
     "Indoor Air Quality Issues", "Other"}

  /** What the marker is drawn with: one of the map's pollution icons, the
      inherited value found under the type's name (which is no icon, so
      drawing the marker fails), or the sensor icon. */
  datatype Icon = PollutionIcon(key: string) | InheritedValue(name: string) | SensorIcon

  /** A marker with a pollution type looks the type up in the icon table:
      its own icon if the table has one, the inherited value if the name is
      one every object has, and the "Other" icon otherwise; every other
      marker gets the sensor icon. */
  function IconOf(m: Marker): (r: Icon)
    ensures r.SensorIcon? <==> m.pollutionType.None? || m.pollutionType.value == ""
    ensures r.InheritedValue? <==>
              m.pollutionType.Some? && m.pollutionType.value in InheritedNames
    ensures r.InheritedValue? ==> r.name == m.pollutionType.value
    ensures r.PollutionIcon? ==> r.key in IconKeys
    ensures r.PollutionIcon? && m.pollutionType.value in IconKeys ==> r.key == m.pollutionType.value
    ensures r.PollutionIcon? && m.pollutionType.value !in IconKeys ==> r.key == "Other"
  {
    if m.pollutionType.Some? && m.pollutionType.value != "" then
      var t := m.pollutionType.value;
      if t in IconKeys then PollutionIcon(t)
      else if t in InheritedNames then InheritedValue(t)
      else PollutionIcon("Other")
    else SensorIcon
  }

  /** A verified, unresolved report whose free-text type names an inherited
      property is drawn, and its icon lookup finds that property instead of
      an icon. */
  lemma InheritedTypeDrawnWithoutIcon(rep: Report, sensors: seq<Sensor>, latest: Option<Reading>)
    requires ShowsAsMarker(rep) && rep.pollutionType.Some? && rep.pollutionType.value in InheritedNames
    ensures var m := Enrich(ReportMarker(rep), sensors, latest);
            m in Rendered([], [rep], sensors, latest) && IconOf(m) == InheritedValue(rep.pollutionType.value)
  {
    assert rep in [rep];
  }

  // ---------------------------------------------------------------------------
  // The full-screen list.

  datatype Row = Row(name: Option<string>, locationName: Option<string>, aqi: Num, status: string)

  /** A sensor's row: its name falls back to the zone. */
  function RowOf(s: Sensor, latest: Option<Reading>): Row {
    Row(s.zone, if s.locationName.Some? && s.locationName.value != "" then s.locationName else s.zone,
        ZoneAqi(latest), ZoneStatus(latest))
  }

  /** `(b.aqi || 0) - (a.aqi || 0)`: descending AQI, missing as 0. */
  function RowKey(r: Row): SortKey {
    SortKey(-OrZero(r.aqi), 0.0)
  }

  /** The full-screen rows: one per sensor, all carrying the AQI of the single
      latest record, sorted by AQI descending. */
  function Rows(sensors: seq<Sensor>, readings: seq<Reading>): (r: seq<Row>)
    ensures |r| == |sensors|
    ensures forall i :: 0 <= i < |r| ==> r[i].aqi == ZoneAqi(Latest(readings))
    ensures forall i, j :: 0 <= i < j < |r| ==> OrZero(r[i].aqi) >= OrZero(r[j].aqi)
  {
    var latest := Latest(readings);
    var rows := Map(sensors, (s: Sensor) => RowOf(s, latest));
    var sorted := Sort(rows, RowKey);
    forall i | 0 <= i < |sorted|
      ensures sorted[i].aqi == ZoneAqi(latest)
    {
      assert sorted[i] in multiset(rows);
    }
    sorted
  }

  /** Since every row carries the same AQI, the sort keeps the sensors' order. */
  lemma {:induction false} RowsKeepSensorOrder(sensors: seq<Sensor>, readings: seq<Reading>)
    ensures Rows(sensors, readings) == Map(sensors, (s: Sensor) => RowOf(s, Latest(readings)))
  {
    var latest := Latest(readings);
    var rows := Map(sensors, (s: Sensor) => RowOf(s, latest));
    AllEqualKeysUnchanged(rows, RowKey, SortKey(-OrZero(ZoneAqi(latest)), 0.0));
  }
}

=== FILE: readings.dfy ===
/** The six sub-indices of one reading and the overall AQI, their maximum,
    shared by the two ingestion routes and the aggregation job. */
module Readings {
  import opened Common
  import opened Breakpoints
  import opened AqiIndex

  datatype SubIndices = SubIndices(pm25: int, pm10: int, o3: int, co: int, so2: int, no2: int)

  /** The sub-indices in the order the backend lists them. */
  function Values(s: SubIndices): (r: seq<int>)
    ensures |r| == 6
  {
    [s.pm25, s.pm10, s.o3, s.co, s.so2, s.no2]
  }

  /** `Math.max` of the six sub-indices: at least each of them and equal to
      one of them. */
  function OverallAqi(s: SubIndices): (r: int)
    ensures forall i :: 0 <= i < 6 ==> Values(s)[i] <= r
    ensures r in Values(s)
  {
    Max(Max(Max(Max(Max(s.pm25, s.pm10), s.o3), s.co), s.so2), s.no2)
  }

  /** The sub-indices of six concentrations, each against its own table. */
  function IndicesOf(pm25: real, pm10: real, o3: real, co: real, so2: real, no2: real): (r: SubIndices)
    ensures r.pm25 == CalculateIndex(pm25, PM25) && r.pm10 == CalculateIndex(pm10, PM10)
    ensures r.o3 == CalculateIndex(o3, O3) && r.co == CalculateIndex(co, CO)
    ensures r.so2 == CalculateIndex(so2, SO2) && r.no2 == CalculateIndex(no2, NO2)
  {
    SubIndices(CalculateIndex(pm25, PM25), CalculateIndex(pm10, PM10), CalculateIndex(o3, O3),
               CalculateIndex(co, CO), CalculateIndex(so2, SO2), CalculateIndex(no2, NO2))
  }

  /** Every sub-index is -1 or a proper index of at most 500. */
  lemma IndicesInRange(pm25: real, pm10: real, o3: real, co: real, so2: real, no2: real)
    ensures forall i :: 0 <= i < 6 ==> -1 <= Values(IndicesOf(pm25, pm10, o3, co, so2, no2))[i] <= 500
  {
    var s := IndicesOf(pm25, pm10, o3, co, so2, no2);
    IndexAtMost500(pm25, PM25);
    IndexAtMost500(pm10, PM10);
    IndexAtMost500(o3, O3);
    IndexAtMost500(co, CO);
    IndexAtMost500(so2, SO2);
    IndexAtMost500(no2, NO2);
    FieldsInRange(s);
  }

  lemma FieldsInRange(s: SubIndices)
    requires -1 <= s.pm25 <= 500 && -1 <= s.pm10 <= 500 && -1 <= s.o3 <= 500
    requires -1 <= s.co <= 500 && -1 <= s.so2 <= 500 && -1 <= s.no2 <= 500
    ensures forall i :: 0 <= i < 6 ==> -1 <= Values(s)[i] <= 500
  {
  }

  /** No table's top index exceeds 500. */
  lemma IndexAtMost500(cp: real, p: Pollutant)
    ensures -1 <= CalculateIndex(cp, p) <= 500
  {
    assert TopIndex(p) <= 500;
  }

  /** So the overall AQI lies in [-1, 500], and it is -1 only when every
      concentration fell outside its table. */
  lemma OverallAqiRange(s: SubIndices)
    requires forall i :: 0 <= i < 6 ==> -1 <= Values(s)[i] <= 500
    ensures -1 <= OverallAqi(s) <= 500
    ensures OverallAqi(s) == -1 <==> forall i :: 0 <= i < 6 ==> Values(s)[i] == -1
  {
  }

  /** A reading document: the one an ingestion route builds, and the one
      the collection holds. A field the document lacks reads as absent:
      `Undefined` for a gas, `None` for the zone and the location name. */
  datatype StoredReading = StoredReading(
    timestamp: int,
    pm2_5: real, pm10: real,
    co: Num, o3: Num, no2: Num, so2: Num,
    aqi: int, sub: SubIndices,
    zone: Option<string>, locationName: Option<string>)

  /** The shape of every document the AirData schema saves: carbon monoxide
      and ozone are present (the schema defaults them to 0), and there is no
      nitrogen dioxide, sulphur dioxide, zone or location name, which the
      schema does not declare. */
  predicate Conforms(r: StoredReading) {
    && !r.co.Undefined? && !r.o3.Undefined?
    && r.no2.Undefined? && r.so2.Undefined?
    && r.zone.None? && r.locationName.None?
  }

  /** A number field with `default: 0`: absent is stored as 0. */
  function DefaultZero(n: Num): (r: Num)
    ensures !r.Undefined?
    ensures n.Undefined? <==> r != n
    ensures n.Undefined? ==> r == Finite(0.0)
  {
    if n.Undefined? then Finite(0.0) else n
  }

  /** What saving a built document through the AirData schema stores: the
      declared fields as built, absent gases with a default as 0, and no
      field the schema does not declare (strict mode drops them). */
  function Persist(doc: StoredReading): (r: StoredReading)
    ensures Conforms(r)
    ensures r.timestamp == doc.timestamp && r.pm2_5 == doc.pm2_5 && r.pm10 == doc.pm10
    ensures r.aqi == doc.aqi && r.sub == doc.sub
    ensures !doc.co.Undefined? ==> r.co == doc.co
    ensures !doc.o3.Undefined? ==> r.o3 == doc.o3
  {
    doc.(co := DefaultZero(doc.co), o3 := DefaultZero(doc.o3), no2 := Undefined, so2 := Undefined,
         zone := None, locationName := None)
  }

  /** A document of the schema's shape is stored unchanged, and saving a
      stored document again changes nothing. */
  lemma PersistFixesConforming(doc: StoredReading)
    ensures Conforms(doc) <==> Persist(doc) == doc
    ensures Persist(Persist(doc)) == Persist(doc)
  {
  }
}

=== FILE: report_form.dfy ===
/** The pollution-report page: submitting a new or edited report, loading a
    report into the form for editing, the ownership checks for editing and
    deleting, and the order of the user's own reports. The map icon a
    submitted type receives is modelled at the end. */
module ReportForm {
  import opened Common
  import opened Sorting
  import Maps

  /** The values of the type selector. */
  const PollutionOptions: seq<string> := [
    "air", "water", "soil", "industrial_emissions", "vehicle_emissions",
    "construction_dust", "burning_waste", "indoor_air_quality", "other"
  ]

  /** The form fields the page sends. */
  datatype Form = Form(description: string, location: string, pollutionType: string, customType: string)

  /** The point picked on the map. */
  datatype Point = Point(lat: real, lng: real)

  /** The type that is sent: the free text when "other" is chosen, else the
      chosen option. */
  function SentType(f: Form): (t: string)
    ensures f.pollutionType != "other" ==> t == f.pollutionType
    ensures f.pollutionType == "other" ==> t == f.customType
  {
    if f.pollutionType == "other" then f.customType else f.pollutionType
  }

  /** The fields every submission carries; the location name falls back to
      the location text. */
  datatype Fields = Fields(
    description: string, location: string, locationName: string, pollutionType: string, lat: real, lon: real)

  /** A stored report, as the page reads it. `stamp` is the time of
      `createdAt || date`. */
  datatype StoredReport = StoredReport(
    id: string, user: Option<string>, description: string, location: string, locationName: string,
    pollutionType: string, lat: Num, lon: Num, images: seq<string>, verificationStatus: string, stamp: int)

  datatype Refusal = NotLoggedIn | NoLocation

  /** What `onSubmit` does: refuse, create a report (always multipart), or
      save an edit either as multipart with the new images or as JSON,
      flagged to clear the stored images. */
  datatype Submission =
    | Refused(reason: Refusal)
    | Create(fields: Fields, user: string, images: seq<string>)
    | EditMultipart(id: string, fields: Fields, images: seq<string>)
    | EditJson(id: string, fields: Fields, clearImages: bool)

  /** `onSubmit`. `user` is the logged-in user's name, `images` the newly
      chosen files and `editing` the report being edited, if any. */
  function Submit(user: Option<string>, selected: Option<Point>, f: Form, locationName: string,
                  images: seq<string>, editing: Option<StoredReport>): (r: Submission)
    ensures r == Refused(NotLoggedIn) <==> user.None? || user.value == ""
    ensures r == Refused(NoLocation) <==> user.Some? && user.value != "" && selected.None?
    ensures !r.Refused? ==> r.fields.pollutionType == SentType(f)
    ensures !r.Refused? ==> r.fields.lat == selected.value.lat && r.fields.lon == selected.value.lng
    ensures !r.Refused? ==> r.fields.locationName == (if locationName != "" then locationName else f.location)
    ensures r.Create? ==> editing.None? && r.user == user.value && r.images == images
    ensures !r.Refused? && editing.None? ==> r.Create?
    ensures !r.Refused? && editing.Some? ==> (r.EditMultipart? <==> |images| > 0)
    ensures r.EditMultipart? ==> r.id == editing.value.id && r.images == images
    ensures r.EditJson? ==> r.id == editing.value.id &&
                            (r.clearImages <==> |editing.value.images| > 0)
  {
    if user.None? || user.value == "" then Refused(NotLoggedIn)
    else if selected.None? then Refused(NoLocation)
    else
      var fields := Fields(f.description, f.location, if locationName != "" then locationName else f.location,
                           SentType(f), selected.value.lat, selected.value.lng);
      match editing
      case None => Create(fields, user.value, images)
      case Some(report) =>
        if |images| > 0 then EditMultipart(report.id, fields, images)
        else EditJson(report.id, fields, |report.images| > 0 && |images| == 0)
  }

  /** Since submitting needs a user name, a new report is never filed as
      "Anonymous" unless that is the user's name. */
  lemma CreatedReportsNamed(user: Option<string>, selected: Option<Point>, f: Form, locationName: string,
                            images: seq<string>)
    ensures Submit(user, selected, f, locationName, images, None).Create? ==>
              user.Some? && Submit(user, selected, f, locationName, images, None).user == user.value
  {
  }

  // ---------------------------------------------------------------------------
  // Editing and deleting.

  /** The type fields a stored type loads into: a known option loads as
      itself with no free text, anything else as "other" with the stored
      type as free text. */
  function LoadType(t: string): (r: (string, string))
    ensures t in PollutionOptions ==> r == (t, "")
    ensures t !in PollutionOptions ==> r == ("other", t)
  {
    if t in PollutionOptions then (t, "") else ("other", t)
  }

  /** The form state `handleEdit` sets up. */
  datatype EditState = EditState(
    editing: StoredReport, selected: Option<Point>, images: seq<string>, form: Form, locationName: string)

  /** `handleEdit`: only the report's owner may edit it. The chosen images
      are emptied, and the point is kept only when both coordinates are
      truthy. */
  function HandleEdit(report: StoredReport, user: Option<string>): (r: Option<EditState>)
    ensures r.Some? <==> report.user == user
    ensures r.Some? ==> r.value.editing == report && r.value.images == []
    ensures r.Some? ==> (r.value.selected.Some? <==> !Falsy(report.lat) && !Falsy(report.lon))
    ensures r.Some? ==> (r.value.form.pollutionType, r.value.form.customType) == LoadType(report.pollutionType)
  {
    if report.user != user then None
    else
      var selected := if !Falsy(report.lat) && !Falsy(report.lon) then Some(Point(report.lat.v, report.lon.v)) else None;
      var name := if report.locationName != "" then report.locationName else report.location;
      var (t, custom) := LoadType(report.pollutionType);
      Some(EditState(report, selected, [], Form(report.description, name, t, custom), name))
  }

  /** Loading a type and sending it again gives the same type, except for a
      stored type of exactly "other", which comes back as the empty free
      text. */
  lemma LoadThenSendType(t: string, description: string, location: string)
    ensures var (p, c) := LoadType(t);
            SentType(Form(description, location, p, c)) == t <==> t != "other"
  {
    assert "other" in PollutionOptions;
  }

  /** Opening a report that has images for editing and saving it without
      choosing new ones always asks the server to clear its images. */
  lemma EditWithoutNewImagesClears(report: StoredReport, user: Option<string>)
    requires report.user == user && user.Some? && user.value != ""
    requires |report.images| > 0
    requires !Falsy(report.lat) && !Falsy(report.lon)
    ensures var s := HandleEdit(report, user).value;
            var r := Submit(user, s.selected, s.form, s.locationName, s.images, Some(s.editing));
            r.EditJson? && r.clearImages
  {
  }

  /** `handleDelete`: the report with that id is looked up first; when there
      is none, reading its user fails; otherwise only its owner may delete
      it (after confirming). */
  datatype DeleteOutcome = Crash | Denied | Confirm(id: string)

  /** `pollutions.find((r) => r._id === id)`, as a position. */
  function FindReport(reports: seq<StoredReport>, id: string): (r: Option<nat>)
    ensures r.None? <==> forall i :: 0 <= i < |reports| ==> reports[i].id != id
    ensures r.Some? ==> r.value < |reports| && reports[r.value].id == id &&
                        forall i :: 0 <= i < r.value ==> reports[i].id != id
  {
    if |reports| == 0 then None
    else if reports[0].id == id then Some(0)
    else
      var r := FindReport(reports[1..], id);
      assert forall i :: 1 <= i < |reports| ==> reports[i] == reports[1..][i - 1];
      if r.None? then None else Some(r.value + 1)
  }

  function HandleDelete(reports: seq<StoredReport>, id: string, user: Option<string>): (r: DeleteOutcome)
    ensures r == Crash <==> forall i :: 0 <= i < |reports| ==> reports[i].id != id
    ensures r == Denied ==> exists i :: 0 <= i < |reports| && reports[i].id == id && reports[i].user != user
    ensures r.Confirm? ==> r.id == id && exists i :: 0 <= i < |reports| && reports[i].id == id && reports[i].user == user
  {
    match FindReport(reports, id)
    case None => Crash
    case Some(i) => if reports[i].user == user then Confirm(id) else Denied
  }

  /** The owner of the first report with an id may delete it, and nobody
      else may. */
  lemma OnlyOwnerDeletes(reports: seq<StoredReport>, id: string, user: Option<string>, k: nat)
    requires k < |reports| && reports[k].id == id
    requires forall i :: 0 <= i < k ==> reports[i].id != id
    ensures HandleDelete(reports, id, user) == (if reports[k].user == user then Confirm(id) else Denied)
  {
    var i := FindReport(reports, id).value;
    assert !(k < i);
  }

  // ---------------------------------------------------------------------------
  // The list of own reports.

  /** Rejected reports first, then the newest first. */
  function ListKey(r: StoredReport): SortKey {
    SortKey(if r.verificationStatus == "rejected" then 0.0 else 1.0, -(r.stamp as real))
  }

  /** The user's own reports, rejected ones first and each group newest
      first. */
  function OwnReports(reports: seq<StoredReport>, user: Option<string>): (r: seq<StoredReport>)
    ensures multiset(r) == multiset(Filter(reports, (x: StoredReport) => x.user == user))
    ensures forall x :: x in r <==> x in reports && x.user == user
    ensures forall i, j :: 0 <= i < j < |r| && r[j].verificationStatus == "rejected" ==>
              r[i].verificationStatus == "rejected"
    ensures forall i, j :: 0 <= i < j < |r| && (r[i].verificationStatus == "rejected" <==> r[j].verificationStatus == "rejected") ==>
              r[i].stamp >= r[j].stamp
  {
    var own := Filter(reports, (x: StoredReport) => x.user == user);
    var r := Sort(own, ListKey);
    SameElements(r, own);
    ListOrder(r);
    r
  }

  lemma SameElements(r: seq<StoredReport>, own: seq<StoredReport>)
    requires multiset(r) == multiset(own)
    ensures forall x :: x in r <==> x in own
  {
    forall x ensures x in r <==> x in own {
      assert x in r <==> x in multiset(r);
      assert x in own <==> x in multiset(own);
    }
  }

  /** What ordering by the list key means for the shown list. */
  lemma ListOrder(r: seq<StoredReport>)
    requires Sorted(r, ListKey)
    ensures forall i, j :: 0 <= i < j < |r| && r[j].verificationStatus == "rejected" ==>
              r[i].verificationStatus == "rejected"
    ensures forall i, j :: 0 <= i < j < |r| && (r[i].verificationStatus == "rejected" <==> r[j].verificationStatus == "rejected") ==>
              r[i].stamp >= r[j].stamp
  {
    forall i, j | 0 <= i < j < |r| && r[j].verificationStatus == "rejected"
      ensures r[i].verificationStatus == "rejected"
    {
      assert KeyLe(ListKey(r[i]), ListKey(r[j]));
    }
    forall i, j | 0 <= i < j < |r| && (r[i].verificationStatus == "rejected" <==> r[j].verificationStatus == "rejected")
      ensures r[i].stamp >= r[j].stamp
    {
      assert KeyLe(ListKey(r[i]), ListKey(r[j]));
    }
  }

  // ---------------------------------------------------------------------------
  // Map icons for submitted types.

  /** The map looks the stored type up among its icon keys directly. The
      selector's values are lower-case identifiers that are not icon keys,
      so every report filed through a named option shows the "Other" icon. */
  lemma OptionsMissIconKeys(t: string)
    requires t in PollutionOptions
    ensures t !in Maps.IconKeys
    ensures var m := Maps.Marker([], Some(t), None, None, Undefined, "pollution");
            Maps.IconOf(m) == Maps.PollutionIcon("Other")
  {
  }

  /** The icon key each option stands for: five options have icons of their
      own, the rest share "Other". */
  function IconKeyOf(t: string): (k: string)
    ensures k in Maps.IconKeys
    ensures t == "burning_waste" ==> k == "Burning of Waste"
    ensures t == "industrial_emissions" ==> k == "Industrial Emissions"
    ensures t == "vehicle_emissions" ==> k == "Vehicle Emissions"
    ensures t == "construction_dust" ==> k == "Construction Dust"
    ensures t == "indoor_air_quality" ==> k == "Indoor Air Quality Issues"
  {
    if t == "burning_waste" then "Burning of Waste"
    else if t == "industrial_emissions" then "Industrial Emissions"
    else if t == "vehicle_emissions" then "Vehicle Emissions"
    else if t == "construction_dust" then "Construction Dust"
    else if t == "indoor_air_quality" then "Indoor Air Quality Issues"
    else if t in Maps.IconKeys then t
    else "Other"
  }

  /** The icon a report's type gets when the option is translated first. */
  function ReportIcon(t: string): (r: Maps.Icon)
    ensures r.PollutionIcon? && r.key in Maps.IconKeys
    ensures r == Maps.IconOf(Maps.Marker([], Some(IconKeyOf(t)), None, None, Undefined, "pollution"))
    ensures t in InheritedNames ==> r == Maps.PollutionIcon("Other")
  {
    Maps.PollutionIcon(IconKeyOf(t))
  }

  /** With the translation, the five options that have icons get five
      different icons, none of them "Other", and a type that already is an
      icon key keeps its icon. */
  lemma ReportIconsDistinct(s: string, t: string)
    requires s in PollutionOptions && t in PollutionOptions && s != t
    requires s in {"burning_waste", "industrial_emissions", "vehicle_emissions", "construction_dust", "indoor_air_quality"}
    ensures ReportIcon(s) != Maps.PollutionIcon("Other")
    ensures ReportIcon(s) != ReportIcon(t)
  {
  }

  lemma ReportIconKeepsIconKeys(t: string)
    requires t in Maps.IconKeys
    ensures ReportIcon(t) == Maps.IconOf(Maps.Marker([], Some(t), None, None, Undefined, "pollution"))
  {
  }
}

=== FILE: reports.dfy ===
/** The pollution-report controller: creating a report, the partial update
    an owner or an administrator sends, and deletion with the derivation of
    each image's storage id. Reports are kept in a map from id to report;
    image uploads are represented by the URLs the image host returned, one
    per uploaded file. `parseFloat` and the test whether an id casts to an
    ObjectId are parameters. What is stored goes through the report schema:
    its required fields, its number casts, and strict mode, which drops the
    fields it does not declare. */
module Reports {
  import opened Common

  datatype Report = Report(
    description: Option<string>, location: Option<string>, pollutionType: Option<string>,
    user: Option<string>, date: Option<string>,
    images: seq<string>,
    lat: Num, lon: Num, locationName: Option<string>,
    verificationStatus: string, resolved: bool, resolvedAt: Option<int>,
    rejectionComment: Option<string>)

  /** The report schema declares no location name, resolution time or
      rejection comment, so a saved report has none of them. */
  predicate Conforms(r: Report) {
    r.locationName.None? && r.resolvedAt.None? && r.rejectionComment.None?
  }

  /** What strict mode keeps of a report: every declared field, and none of
      the three undeclared ones. */
  function Strip(r: Report): (s: Report)
    ensures Conforms(s)
    ensures Conforms(r) <==> s == r
    ensures s.(locationName := r.locationName, resolvedAt := r.resolvedAt, rejectionComment := r.rejectionComment) == r
  {
    r.(locationName := None, resolvedAt := None, rejectionComment := None)
  }

  datatype CreateRequest = CreateRequest(
    description: Option<string>, location: Option<string>, pollutionType: Option<string>,
    user: Option<string>, date: Option<string>, lat: Option<string>, lon: Option<string>)

  /** `parseFloat(x)`, where `parseFloat(undefined)` is NaN. */
  function ParseOpt(parseFloat: string -> Num, x: Option<string>): Num {
    if x.Some? then parseFloat(x.value) else NaN
  }

  /** A required string field passes validation: present and non-empty. */
  predicate Filled(s: Option<string>) {
    s.Some? && s.value != ""
  }

  /** What saving a new report checks: the five required strings are
      filled, and neither coordinate is NaN, which the number cast
      refuses. */
  predicate SavesCleanly(req: CreateRequest, parseFloat: string -> Num) {
    && Filled(req.description) && Filled(req.user) && Filled(req.location)
    && Filled(req.pollutionType) && Filled(req.date)
    && !ParseOpt(parseFloat, req.lat).NaN? && !ParseOpt(parseFloat, req.lon).NaN?
  }

  /** 201 with the saved report, or 500 when saving throws. */
  datatype CreateOutcome = CreateFailed | Created(report: Report)

  /** A new report: the request's fields, the uploaded URLs in file order,
      and always 'pending' and unresolved; saving fails on a missing or
      empty required field or an unparseable coordinate. */
  function Create(req: CreateRequest, uploaded: seq<string>, parseFloat: string -> Num): (o: CreateOutcome)
    ensures o.Created? <==> SavesCleanly(req, parseFloat)
    ensures o.Created? ==>
      var r := o.report;
      && r.verificationStatus == "pending" && !r.resolved
      && r.images == uploaded
      && r.description == req.description && r.user == req.user
      && r.lat == ParseOpt(parseFloat, req.lat) && r.lon == ParseOpt(parseFloat, req.lon)
      && r.location == req.location && r.pollutionType == req.pollutionType && r.date == req.date
      && Conforms(r)
  {
    if !SavesCleanly(req, parseFloat) then CreateFailed
    else
      Created(Report(req.description, req.location, req.pollutionType, req.user, req.date, uploaded,
        ParseOpt(parseFloat, req.lat), ParseOpt(parseFloat, req.lon), None,
        "pending", false, None, None))
  }

  /** A report sent without coordinates is never saved: `parseFloat` of a
      missing field is NaN. */
  lemma CreateWithoutCoordinatesFails(req: CreateRequest, uploaded: seq<string>, parseFloat: string -> Num)
    requires req.lat.None? || req.lon.None?
    ensures Create(req, uploaded, parseFloat).CreateFailed?
  {
  }

  /** `clearImages` as sent: a JSON boolean or a multipart string. */
  datatype Flag = Bool(b: bool) | Text(s: string)

  datatype UpdateRequest = UpdateRequest(
    verificationStatus: Option<string>, resolved: Option<bool>, rejectionComment: Option<string>,
    description: Option<string>, location: Option<string>, pollutionType: Option<string>,
    lat: Option<string>, lon: Option<string>, locationName: Option<string>,
    clearImages: Option<Flag>)

  const ValidStatuses: seq<string> := ["pending", "verified", "rejected"]

  /** A status is set only when it is a non-empty string. */
  predicate StatusGiven(req: UpdateRequest) {
    req.verificationStatus.Some? && req.verificationStatus.value != ""
  }

  /** `clearImages === true || clearImages === 'true'`. */
  predicate ClearRequested(req: UpdateRequest) {
    req.clearImages == Some(Bool(true)) || req.clearImages == Some(Text("true"))
  }

  /** The `$set` of an update applied to a stored report at time `now`,
      before the schema filters it: `resolvedAt` follows `resolved` whenever
      `resolved` is sent, and the images are replaced by new uploads, else
      emptied on request, else kept. */
  function Merge(r: Report, req: UpdateRequest, uploaded: seq<string>, now: int,
                 parseFloat: string -> Num): Report
  {
    r.(
      description := if req.description.Some? then req.description else r.description,
      location := if req.location.Some? then req.location else r.location,
      pollutionType := if req.pollutionType.Some? then req.pollutionType else r.pollutionType,
      images := if |uploaded| > 0 then uploaded else if ClearRequested(req) then [] else r.images,
      lat := if req.lat.Some? then parseFloat(req.lat.value) else r.lat,
      lon := if req.lon.Some? then parseFloat(req.lon.value) else r.lon,
      locationName := if req.locationName.Some? then req.locationName else r.locationName,
      verificationStatus := if StatusGiven(req) then req.verificationStatus.value else r.verificationStatus,
      resolved := if req.resolved.Some? then req.resolved.value else r.resolved,
      resolvedAt := if req.resolved.Some? then (if req.resolved.value then Some(now) else None) else r.resolvedAt,
      rejectionComment := if req.rejectionComment.Some? then req.rejectionComment else r.rejectionComment)
  }

  /** The resolution time the `$set` asks for; the schema then drops it. */
  lemma MergeResolved(r: Report, req: UpdateRequest, uploaded: seq<string>, now: int,
                      parseFloat: string -> Num)
    ensures var r' := Merge(r, req, uploaded, now, parseFloat);
      && (req.resolved.None? ==> r'.resolved == r.resolved && r'.resolvedAt == r.resolvedAt)
      && (req.resolved == Some(true) ==> r'.resolved && r'.resolvedAt == Some(now))
      && (req.resolved == Some(false) ==> !r'.resolved && r'.resolvedAt.None?)
  {
  }

  lemma MergeImages(r: Report, req: UpdateRequest, uploaded: seq<string>, now: int,
                    parseFloat: string -> Num)
    ensures var r' := Merge(r, req, uploaded, now, parseFloat);
      && (|uploaded| > 0 ==> r'.images == uploaded)
      && (|uploaded| == 0 && ClearRequested(req) ==> r'.images == [])
      && (|uploaded| == 0 && !ClearRequested(req) ==> r'.images == r.images)
  {
  }

  /** Only fields present in the request are written: an absent field keeps
      its stored value, a present one takes the sent value, and the owner and
      the date are never touched. */
  lemma MergeWritesOnlyPresentFields(r: Report, req: UpdateRequest, uploaded: seq<string>, now: int,
                                     parseFloat: string -> Num)
    ensures var r' := Merge(r, req, uploaded, now, parseFloat);
      && r'.user == r.user && r'.date == r.date
      && (req.description.None? ==> r'.description == r.description)
      && (req.description.Some? ==> r'.description == req.description)
      && (req.location.None? ==> r'.location == r.location)
      && (req.location.Some? ==> r'.location == req.location)
      && (req.pollutionType.None? ==> r'.pollutionType == r.pollutionType)
      && (req.pollutionType.Some? ==> r'.pollutionType == req.pollutionType)
      && (req.locationName.None? ==> r'.locationName == r.locationName)
      && (req.locationName.Some? ==> r'.locationName == req.locationName)
      && (req.rejectionComment.None? ==> r'.rejectionComment == r.rejectionComment)
      && (req.rejectionComment.Some? ==> r'.rejectionComment == req.rejectionComment)
      && (req.lat.None? ==> r'.lat == r.lat)
      && (req.lat.Some? ==> r'.lat == parseFloat(req.lat.value))
      && (req.lon.None? ==> r'.lon == r.lon)
      && (req.lon.Some? ==> r'.lon == parseFloat(req.lon.value))
      && (!StatusGiven(req) ==> r'.verificationStatus == r.verificationStatus)
      && (StatusGiven(req) ==> r'.verificationStatus == req.verificationStatus.value)
  {
  }

  /** An update that sends only `resolved`. */
  function ResolvedOnly(b: bool): UpdateRequest {
    UpdateRequest(None, Some(b), None, None, None, None, None, None, None, None)
  }

  datatype UpdateOutcome = InvalidStatus | UpdateFailed | NotFound | Updated(store: map<string, Report>, report: Report)

  /** What the update's casts and validators refuse, before the lookup: a
      required field set to the empty string, or a coordinate that parses
      to NaN. */
  predicate UpdateRefused(req: UpdateRequest, parseFloat: string -> Num) {
    || req.description == Some("") || req.location == Some("") || req.pollutionType == Some("")
    || (req.lat.Some? && parseFloat(req.lat.value).NaN?)
    || (req.lon.Some? && parseFloat(req.lon.value).NaN?)
  }

  /** `updatePollutionReport`: the status is validated first (400); an id
      that is no ObjectId or a `$set` the schema refuses throws (500); an
      unknown id is 404; otherwise the filtered `$set` is stored. */
  function Update(store: map<string, Report>, id: string, req: UpdateRequest, uploaded: seq<string>,
                  now: int, parseFloat: string -> Num, isObjectId: string -> bool): (o: UpdateOutcome)
    ensures o.InvalidStatus? <==> StatusGiven(req) && req.verificationStatus.value !in ValidStatuses
    ensures o.UpdateFailed? <==> !o.InvalidStatus? && (!isObjectId(id) || UpdateRefused(req, parseFloat))
    ensures o.NotFound? <==> !o.InvalidStatus? && !o.UpdateFailed? && id !in store
    ensures o.Updated? ==>
      && id in store && isObjectId(id)
      && o.report == Strip(Merge(store[id], req, uploaded, now, parseFloat))
      && Conforms(o.report)
      && o.store == store[id := o.report]
      && o.report.verificationStatus in ValidStatuses + [store[id].verificationStatus]
  {
    if StatusGiven(req) && req.verificationStatus.value !in ValidStatuses then InvalidStatus
    else if !isObjectId(id) || UpdateRefused(req, parseFloat) then UpdateFailed
    else if id !in store then NotFound
    else
      var r' := Strip(Merge(store[id], req, uploaded, now, parseFloat));
      Updated(store[id := r'], r')
  }

  /** A rejection with a comment sets the status, but the comment is not
      stored: the schema has no such field. */
  lemma RejectionCommentNotStored(store: map<string, Report>, id: string, comment: string,
                                  now: int, parseFloat: string -> Num, isObjectId: string -> bool)
    requires id in store && isObjectId(id)
    ensures var o := Update(store, id, UpdateRequest(Some("rejected"), None, Some(comment), None, None, None, None, None, None, None),
                            [], now, parseFloat, isObjectId);
            o.Updated? && o.report.verificationStatus == "rejected" && o.report.rejectionComment.None?
  {
    assert "rejected" == ValidStatuses[2];
  }

  /** A new report that is resolved and then reopened is stored exactly as
      created: the resolution flag is set and cleared again, the resolution
      time the `$set` carries is never stored, and nothing else changes. */
  lemma ResolveThenReopenRestoresCreated(req: CreateRequest, uploaded: seq<string>, store: map<string, Report>,
                                         id: string, t1: int, t2: int,
                                         parseFloat: string -> Num, isObjectId: string -> bool)
    requires isObjectId(id)
    ensures Create(req, uploaded, parseFloat).Created? ==>
      var s0 := store[id := Create(req, uploaded, parseFloat).report];
      var u1 := Update(s0, id, ResolvedOnly(true), [], t1, parseFloat, isObjectId);
      && u1.Updated? && u1.report.resolved && u1.report.resolvedAt.None?
      && var u2 := Update(u1.store, id, ResolvedOnly(false), [], t2, parseFloat, isObjectId);
         u2.Updated? && u2.store == s0
  {
  }

  /** Only the addressed report changes. */
  lemma UpdateLeavesOthers(store: map<string, Report>, id: string, req: UpdateRequest,
                           uploaded: seq<string>, now: int, parseFloat: string -> Num,
                           isObjectId: string -> bool, other: string)
    requires other in store && other != id
    requires Update(store, id, req, uploaded, now, parseFloat, isObjectId).Updated?
    ensures var o := Update(store, id, req, uploaded, now, parseFloat, isObjectId);
            other in o.store && o.store[other] == store[other] && o.store.Keys == store.Keys
  {
  }

  /** A request that names no field and uploads nothing changes nothing. */
  lemma EmptyUpdateIsIdentity(r: Report, now: int, parseFloat: string -> Num)
    ensures Merge(r, UpdateRequest(None, None, None, None, None, None, None, None, None, None), [], now, parseFloat) == r
  {
  }

  /** Sending the same update twice at the same moment is the same as
      sending it once. */
  lemma MergeIdempotent(r: Report, req: UpdateRequest, uploaded: seq<string>, now: int, parseFloat: string -> Num)
    ensures var once := Merge(r, req, uploaded, now, parseFloat);
            Merge(once, req, uploaded, now, parseFloat) == once
  {
  }

  // ---------------------------------------------------------------------------
  // Deletion.

  /** `url.split("/").pop().split(".")[0]`. */
  function PublicId(url: string): (id: string)
    ensures '/' !in id && '.' !in id
  {
    var segments := Split(url, '/');
    var last := segments[|segments| - 1];
    SplitPiecesFree(url, '/');
    SplitPiecesFree(last, '.');
    SplitFirst(last, '.');
    Split(last, '.')[0]
  }

  /** The identifier handed to the image host's destroy call. */
  function DestroyTarget(url: string): string {
    "pollution_reports/" + PublicId(url)
  }

  /** For a URL whose last segment is `name.ext`, the public id is `name`:
      the inverse of how the host builds delivery URLs. */
  lemma {:induction false} PublicIdOfUrl(prefix: string, name: string, ext: string)
    requires '/' !in name && '.' !in name && '/' !in ext
    ensures PublicId(prefix + "/" + name + "." + ext) == name
  {
    var file := name + "." + ext;
    assert '/' !in file by {
      assert forall i :: 0 <= i < |file| ==> file[i] != '/' by {
        forall i | 0 <= i < |file| ensures file[i] != '/' {
          if i < |name| { assert file[i] == name[i]; }
          else if i > |name| { assert file[i] == ext[i - |name| - 1]; }
        }
      }
    }
    assert prefix + "/" + name + "." + ext == prefix + ['/'] + file;
    SplitLastAfterSeparator(prefix, '/', file);
    assert file[|name|] == '.';
    assert forall j :: 0 <= j < |name| ==> file[j] == name[j];
    IndexOfUnique(file, '.', |name|);
    SplitFirst(file, '.');
  }

  datatype DeleteOutcome = DeleteFailed | DeleteNotFound | Deleted(store: map<string, Report>, destroyed: seq<string>)

  /** `deletePollutionReport`: an id that is no ObjectId throws (500), an
      unknown id is 404; otherwise the report is removed and every image
      destroyed, in order. */
  function Delete(store: map<string, Report>, id: string, isObjectId: string -> bool): (o: DeleteOutcome)
    ensures o.DeleteFailed? <==> !isObjectId(id)
    ensures o.DeleteNotFound? <==> isObjectId(id) && id !in store
    ensures o.Deleted? ==>
      && o.store.Keys == store.Keys - {id}
      && (forall k :: k in o.store ==> o.store[k] == store[k])
      && |o.destroyed| == |store[id].images|
      && forall i :: 0 <= i < |o.destroyed| ==> o.destroyed[i] == DestroyTarget(store[id].images[i])
  {
    if !isObjectId(id) then DeleteFailed
    else if id !in store then DeleteNotFound
    else Deleted(store - {id}, Map(store[id].images, DestroyTarget))
  }
}

=== FILE: slices.dfy ===
/** The two client-side stores: the pollution reports and the alerts. Each
    is a state record and a reducer over the settled requests. Documents are
    string-keyed objects; a property holding `undefined` is modelled as an
    absent one. */
module Slices {
  import opened Common

  type Obj = map<string, string>

  /** `o._id`, `None` when the object has none. */
  function IdOf(o: Obj): Option<string> {
    if "_id" in o then Some(o["_id"]) else None
  }

  /** `findIndex((x) => x._id === id)`. */
  function FindId(s: seq<Obj>, id: Option<string>): (r: Option<nat>)
    ensures r.None? <==> forall i :: 0 <= i < |s| ==> IdOf(s[i]) != id
    ensures r.Some? ==> r.value < |s| && IdOf(s[r.value]) == id &&
                        forall i :: 0 <= i < r.value ==> IdOf(s[i]) != id
  {
    if |s| == 0 then None
    else if IdOf(s[0]) == id then Some(0)
    else
      var r := FindId(s[1..], id);
      assert forall i :: 1 <= i < |s| ==> s[i] == s[1..][i - 1];
      if r.None? then None else Some(r.value + 1)
  }

  /** Replace the first element with the same id as `o` by `o`; without
      such an element nothing changes. */
  function ReplaceById(s: seq<Obj>, o: Obj): (r: seq<Obj>)
    ensures |r| == |s|
    ensures (forall i :: 0 <= i < |s| ==> IdOf(s[i]) != IdOf(o)) ==> r == s
    ensures forall i :: 0 <= i < |s| && IdOf(s[i]) == IdOf(o) && (forall j :: 0 <= j < i ==> IdOf(s[j]) != IdOf(o)) ==>
              r[i] == o && forall j :: 0 <= j < |s| && j != i ==> r[j] == s[j]
  {
    match FindId(s, IdOf(o))
    case None => s
    case Some(i) =>
      s[i := o]
  }

  // ---------------------------------------------------------------------------
  // Pollution reports.

  datatype Status = Idle | Loading | Succeeded | Failed

  datatype PollutionState = PollutionState(pollutions: seq<Obj>, status: Status, error: Option<string>)

  /** The body of the reports endpoint: a list, or anything else. */
  datatype Body = ListBody(items: seq<Obj>) | OtherBody

  /** `fetchReports`' payload: the body when it is a list, else []. */
  function FetchPayload(b: Body): (r: seq<Obj>)
    ensures b.ListBody? ==> r == b.items
    ensures b.OtherBody? ==> r == []
  {
    match b
    case ListBody(items) => items
    case OtherBody => []
  }

  /** `editReport`'s payload `{_id: id, ...report}`: the fields of `report`,
      with `_id` set to `id` unless `report` has its own. */
  function EditPayload(id: string, report: Obj): (r: Obj)
    ensures IdOf(r) == (if "_id" in report then Some(report["_id"]) else Some(id))
    ensures forall k :: k != "_id" ==> (k in r <==> k in report)
    ensures forall k :: k != "_id" && k in report ==> r[k] == report[k]
  {
    map["_id" := id] + report
  }

  /** The requests whose outcome the reports store handles. */
  datatype ReportThunk = Add | Edit | Delete | Verify | Resolve

  datatype PollutionAction =
    | FetchPending
    | FetchFulfilled(body: Body)
    | FetchRejected(reason: string)
    | Fulfilled(thunk: ReportThunk, payload: Obj)
    | Rejected(thunk: ReportThunk, reason: string)

  /** The reports reducer. */
  function ReducePollution(st: PollutionState, a: PollutionAction): (r: PollutionState)
    ensures a == FetchPending ==> r == st.(status := Loading)
    ensures a.FetchFulfilled? ==> r == PollutionState(FetchPayload(a.body), Succeeded, None)
    ensures a.FetchRejected? ==> r == st.(status := Failed, error := Some(a.reason))
    ensures a.Fulfilled? && a.thunk != Edit ==> r == st
    ensures a.Fulfilled? && a.thunk == Edit ==>
              r.status == st.status && r.error == st.error && |r.pollutions| == |st.pollutions|
    ensures a.Rejected? ==> r == st.(error := Some(a.reason))
  {
    match a
    case FetchPending => st.(status := Loading)
    case FetchFulfilled(body) => PollutionState(FetchPayload(body), Succeeded, None)
    case FetchRejected(reason) => st.(status := Failed, error := Some(reason))
    case Fulfilled(thunk, payload) =>
      if thunk == Edit then st.(pollutions := ReplaceById(st.pollutions, payload)) else st
    case Rejected(_, reason) => st.(error := Some(reason))
  }

  /** A saved edit replaces only the report with the edited id, and leaves
      the list alone when no report has it. */
  lemma EditReplacesOnlyItsReport(st: PollutionState, id: string, report: Obj, k: nat)
    requires "_id" !in report
    requires k < |st.pollutions| && IdOf(st.pollutions[k]) == Some(id)
    requires forall j :: 0 <= j < k ==> IdOf(st.pollutions[j]) != Some(id)
    ensures var r := ReducePollution(st, Fulfilled(Edit, EditPayload(id, report))).pollutions;
            IdOf(r[k]) == Some(id) &&
            (forall f :: f != "_id" ==> (f in r[k] <==> f in report)) &&
            (forall j :: 0 <= j < |r| && j != k ==> r[j] == st.pollutions[j])
  {
  }

  lemma EditOfUnknownIdChangesNothing(st: PollutionState, id: string, report: Obj)
    requires "_id" !in report
    requires forall j :: 0 <= j < |st.pollutions| ==> IdOf(st.pollutions[j]) != Some(id)
    ensures ReducePollution(st, Fulfilled(Edit, EditPayload(id, report))) == st
  {
  }

  /** A successful fetch clears any earlier error; every other successful
      request keeps it. */
  lemma FetchClearsError(st: PollutionState, a: PollutionAction)
    ensures a.FetchFulfilled? ==> ReducePollution(st, a).error.None?
    ensures a.Fulfilled? ==> ReducePollution(st, a).error == st.error
  {
  }

  // ---------------------------------------------------------------------------
  // Alerts.

  datatype AlertState = AlertState(alerts: seq<Obj>, status: Status, error: Option<string>)

  datatype AlertAction =
    | AlertsPending
    | AlertsFulfilled(alerts: seq<Obj>)
    | AlertsRejected(message: string)
    | CreateFulfilled(created: Obj)
    | UpdateFulfilled(updated: Obj)
    | DeleteFulfilled(id: string)
    | ToggleFulfilled(toggled: Obj)

  /** Set `o.status` to `value`, where `None` stands for `undefined`. */
  function SetStatus(o: Obj, value: Option<string>): (r: Obj)
    ensures forall k :: k != "status" ==> (k in r <==> k in o)
    ensures forall k :: k != "status" && k in o ==> r[k] == o[k]
    ensures ("status" in r) <==> value.Some?
    ensures value.Some? ==> r["status"] == value.value
  {
    match value
    case Some(v) => o["status" := v]
    case None => o - {"status"}
  }

  function Field(o: Obj, k: string): Option<string> {
    if k in o then Some(o[k]) else None
  }

  /** The alerts reducer. A successful fetch does not clear an earlier
      error. */
  function ReduceAlerts(st: AlertState, a: AlertAction): (r: AlertState)
    ensures a == AlertsPending ==> r == st.(status := Loading)
    ensures a.AlertsFulfilled? ==> r == st.(status := Succeeded, alerts := a.alerts)
    ensures a.AlertsRejected? ==> r == st.(status := Failed, error := Some(a.message))
    ensures a.CreateFulfilled? ==> r == st.(alerts := st.alerts + [a.created])
    ensures a.UpdateFulfilled? ==> r == st.(alerts := ReplaceById(st.alerts, a.updated))
    ensures a.DeleteFulfilled? ==>
              r.status == st.status && r.error == st.error &&
              (forall x :: x in r.alerts <==> x in st.alerts && IdOf(x) != Some(a.id))
    ensures a.ToggleFulfilled? ==> r.status == st.status && r.error == st.error && |r.alerts| == |st.alerts|
  {
    match a
    case AlertsPending => st.(status := Loading)
    case AlertsFulfilled(alerts) => st.(status := Succeeded, alerts := alerts)
    case AlertsRejected(message) => st.(status := Failed, error := Some(message))
    case CreateFulfilled(created) => st.(alerts := st.alerts + [created])
    case UpdateFulfilled(updated) => st.(alerts := ReplaceById(st.alerts, updated))
    case DeleteFulfilled(id) => st.(alerts := Filter(st.alerts, (x: Obj) => IdOf(x) != Some(id)))
    case ToggleFulfilled(toggled) =>
      match FindId(st.alerts, IdOf(toggled))
      case None => st
      case Some(i) => st.(alerts := st.alerts[i := SetStatus(st.alerts[i], Field(toggled, "status"))])
  }

  /** Deleting keeps the other alerts in their order: it is exactly the
      order-preserving removal of every alert with that id. */
  lemma {:induction false} DeleteKeepsOthersInOrder(st: AlertState, id: string, a: seq<Obj>, b: seq<Obj>)
    ensures ReduceAlerts(AlertState(a + b, st.status, st.error), DeleteFulfilled(id)).alerts ==
            ReduceAlerts(AlertState(a, st.status, st.error), DeleteFulfilled(id)).alerts +
            ReduceAlerts(AlertState(b, st.status, st.error), DeleteFulfilled(id)).alerts
  {
    FilterAppend(a, b, (x: Obj) => IdOf(x) != Some(id));
  }

  /** Toggling changes nothing but the status of the first alert with the
      toggled id. */
  lemma ToggleChangesOnlyStatus(st: AlertState, toggled: Obj, k: nat)
    requires k < |st.alerts| && IdOf(st.alerts[k]) == IdOf(toggled)
    requires forall j :: 0 <= j < k ==> IdOf(st.alerts[j]) != IdOf(toggled)
    ensures var r := ReduceAlerts(st, ToggleFulfilled(toggled)).alerts;
            (forall j :: 0 <= j < |r| && j != k ==> r[j] == st.alerts[j]) &&
            (forall f :: f != "status" ==> (f in r[k] <==> f in st.alerts[k])) &&
            (forall f :: f != "status" && f in st.alerts[k] ==> r[k][f] == st.alerts[k][f]) &&
            Field(r[k], "status") == Field(toggled, "status")
  {
    var i := FindId(st.alerts, IdOf(toggled)).value;
    assert !(k < i);
  }

  /** `createAlert` as written logs an `id` that is bound nowhere in its
      scope, so after the request is sent the payload creator throws and
      the request settles as rejected. The store has no case for that, so
      the new alert is never appended. */
  function CreateAlertAsWritten(st: AlertState, created: Obj): (r: AlertState)
    ensures r == st
  {
    st
  }

  /** The create handler the store declares, reached once the payload
      creator returns the response. */
  function CreateAlert(st: AlertState, created: Obj): (r: AlertState)
    ensures r.alerts == st.alerts + [created] && r.status == st.status && r.error == st.error
  {
    ReduceAlerts(st, CreateFulfilled(created))
  }

  /** As written, a created alert never shows up in the list until the
      next fetch; with the payload creator fixed it is appended. */
  lemma CreateAlertDiscrepancy(st: AlertState, created: Obj)
    ensures multiset(CreateAlertAsWritten(st, created).alerts)[created] == multiset(st.alerts)[created]
    ensures CreateAlert(st, created).alerts == st.alerts + [created]
    ensures multiset(CreateAlert(st, created).alerts)[created] == multiset(st.alerts)[created] + 1
  {
  }
}

=== FILE: sorting.dfy ===
/** `Array.prototype.sort` with a comparator that orders by a key, which
    the engine performs stably. Keys are compared lexicographically on a
    major and a minor part, which covers every comparator in the program
    ("rejected first, then newest", "most reports first", "highest AQI
    first", "oldest first"). */
module Sorting {
  import opened Common

  datatype SortKey = SortKey(major: real, minor: real)

  predicate KeyLe(a: SortKey, b: SortKey) {
    a.major < b.major || (a.major == b.major && a.minor <= b.minor)
  }

  predicate Sorted<T>(s: seq<T>, key: T -> SortKey) {
    forall i, j :: 0 <= i < j < |s| ==> KeyLe(key(s[i]), key(s[j]))
  }

  /** Insert `x` after every element whose key is not above its own. */
  function Insert<T>(s: seq<T>, x: T, key: T -> SortKey): (r: seq<T>)
    ensures |r| == |s| + 1
    ensures multiset(r) == multiset(s) + multiset{x}
  {
    if |s| == 0 then [x]
    else if KeyLe(key(s[0]), key(x)) then
      assert s == [s[0]] + s[1..];
      [s[0]] + Insert(s[1..], x, key)
    else
      [x] + s
  }

  lemma {:induction false} InsertSorted<T>(s: seq<T>, x: T, key: T -> SortKey)
    requires Sorted(s, key)
    ensures Sorted(Insert(s, x, key), key)
    decreases |s|
  {
    if |s| > 0 && KeyLe(key(s[0]), key(x)) {
      var rest := Insert(s[1..], x, key);
      InsertSorted(s[1..], x, key);
      forall j | 0 <= j < |rest|
        ensures KeyLe(key(s[0]), key(rest[j]))
      {
        assert rest[j] in multiset(rest);
        assert rest[j] in multiset(s[1..]) + multiset{x};
        if rest[j] != x {
          assert rest[j] in s[1..];
          var m :| 0 <= m < |s[1..]| && s[1..][m] == rest[j];
          assert s[m + 1] == rest[j];
        }
      }
    }
  }

  /** Insertion sort, taking the elements in their original order. */
  function Sort<T>(s: seq<T>, key: T -> SortKey): (r: seq<T>)
    ensures |r| == |s|
    ensures multiset(r) == multiset(s)
    ensures Sorted(r, key)
  {
    if |s| == 0 then []
    else
      assert s == s[..|s| - 1] + [s[|s| - 1]];
      var sorted := Sort(s[..|s| - 1], key);
      InsertSorted(sorted, s[|s| - 1], key);
      Insert(sorted, s[|s| - 1], key)
  }

  /** The elements whose key equals `k`, in order. */
  function WithKey<T>(s: seq<T>, key: T -> SortKey, k: SortKey): seq<T> {
    if |s| == 0 then [] else (if key(s[0]) == k then [s[0]] else []) + WithKey(s[1..], key, k)
  }

  lemma {:induction false} WithKeyAppend<T>(a: seq<T>, b: seq<T>, key: T -> SortKey, k: SortKey)
    ensures WithKey(a + b, key, k) == WithKey(a, key, k) + WithKey(b, key, k)
    decreases |a|
  {
    if |a| == 0 {
      assert a + b == b;
    } else {
      assert (a + b)[1..] == a[1..] + b;
      WithKeyAppend(a[1..], b, key, k);
    }
  }

  lemma {:induction false} InsertStable<T>(s: seq<T>, x: T, key: T -> SortKey, k: SortKey)
    requires Sorted(s, key)
    ensures WithKey(Insert(s, x, key), key, k) == WithKey(s, key, k) + WithKey([x], key, k)
    decreases |s|
  {
    if |s| == 0 {
    } else if KeyLe(key(s[0]), key(x)) {
      assert Sorted(s[1..], key) by {
        forall i, j | 0 <= i < j < |s[1..]|
          ensures KeyLe(key(s[1..][i]), key(s[1..][j]))
        {
          assert s[1..][i] == s[i + 1] && s[1..][j] == s[j + 1];
        }
      }
      InsertStable(s[1..], x, key, k);
      InsertStableBehind(s, x, key, k);
    } else {
      InsertStableInFront(s, x, key, k);
    }
  }

  /** The step where `x` goes behind the head: the head's contribution is
      the same on both sides. */
  lemma InsertStableBehind<T>(s: seq<T>, x: T, key: T -> SortKey, k: SortKey)
    requires |s| > 0 && KeyLe(key(s[0]), key(x))
    requires WithKey(Insert(s[1..], x, key), key, k) == WithKey(s[1..], key, k) + WithKey([x], key, k)
    ensures WithKey(Insert(s, x, key), key, k) == WithKey(s, key, k) + WithKey([x], key, k)
  {
    InsertBehind(s, x, key);
    var rest := Insert(s[1..], x, key);
    var h := if key(s[0]) == k then [s[0]] else [];
    WithKeyCons(s[0], rest, key, k);
    HeadTail(s);
    WithKeyCons(s[0], s[1..], key, k);
    AppendAssoc(h, WithKey(s[1..], key, k), WithKey([x], key, k));
  }

  lemma InsertBehind<T>(s: seq<T>, x: T, key: T -> SortKey)
    requires |s| > 0 && KeyLe(key(s[0]), key(x))
    ensures Insert(s, x, key) == [s[0]] + Insert(s[1..], x, key)
  {
  }

  lemma HeadTail<T>(s: seq<T>)
    requires |s| > 0
    ensures [s[0]] + s[1..] == s
  {
  }

  lemma WithKeyCons<T>(x: T, s: seq<T>, key: T -> SortKey, k: SortKey)
    ensures WithKey([x] + s, key, k) == (if key(x) == k then [x] else []) + WithKey(s, key, k)
  {
    assert ([x] + s)[1..] == s;
  }

  /** The step where `x` goes in front: it is below every key of the sorted
      list, so it shares its key with none of them. */
  lemma InsertStableInFront<T>(s: seq<T>, x: T, key: T -> SortKey, k: SortKey)
    requires Sorted(s, key) && |s| > 0 && !KeyLe(key(s[0]), key(x))
    ensures WithKey(Insert(s, x, key), key, k) == WithKey(s, key, k) + WithKey([x], key, k)
  {
    assert Insert(s, x, key) == [x] + s;
    WithKeyAppend([x], s, key, k);
    if key(x) == k {
      KeysAboveFirst(s, key, key(x));
      WithKeyNone(s, key, k);
    }
  }

  /** In a sorted list, a key strictly below the first one occurs nowhere. */
  lemma KeysAboveFirst<T>(s: seq<T>, key: T -> SortKey, k: SortKey)
    requires Sorted(s, key) && |s| > 0 && !KeyLe(key(s[0]), k)
    ensures forall j :: 0 <= j < |s| ==> key(s[j]) != k
  {
    forall j | 0 <= j < |s|
      ensures key(s[j]) != k
    {
      if j > 0 {
        assert KeyLe(key(s[0]), key(s[j]));
      }
    }
  }

  lemma {:induction false} WithKeyNone<T>(s: seq<T>, key: T -> SortKey, k: SortKey)
    requires forall j :: 0 <= j < |s| ==> key(s[j]) != k
    ensures WithKey(s, key, k) == []
    decreases |s|
  {
    if |s| > 0 {
      WithKeyNone(s[1..], key, k);
    }
  }

  /** The sort is stable: the elements sharing a key keep their relative
      order. */
  lemma {:induction false} SortStable<T>(s: seq<T>, key: T -> SortKey, k: SortKey)
    ensures WithKey(Sort(s, key), key, k) == WithKey(s, key, k)
    decreases |s|
  {
    if |s| > 0 {
      var init := s[..|s| - 1];
      var last := s[|s| - 1];
      SortStable(init, key, k);
      InsertStable(Sort(init, key), last, key, k);
      assert s == init + [last];
      WithKeyAppend(init, [last], key, k);
    }
  }

  /** A list whose elements all share one key is left as it is. */
  lemma AllEqualKeysUnchanged<T>(s: seq<T>, key: T -> SortKey, k: SortKey)
    requires forall j :: 0 <= j < |s| ==> key(s[j]) == k
    ensures Sort(s, key) == s
  {
    SortStable(s, key, k);
    WithKeyAll(s, key, k);
    var r := Sort(s, key);
    forall j | 0 <= j < |r|
      ensures key(r[j]) == k
    {
      assert r[j] in multiset(s);
    }
    WithKeyAll(r, key, k);
  }

  lemma {:induction false} WithKeyAll<T>(s: seq<T>, key: T -> SortKey, k: SortKey)
    requires forall j :: 0 <= j < |s| ==> key(s[j]) == k
    ensures WithKey(s, key, k) == s
    decreases |s|
  {
    if |s| > 0 {
      WithKeyAll(s[1..], key, k);
      assert s == [s[0]] + s[1..];
    }
  }
}

=== FILE: user_dashboard.dfy ===
/** The user dashboard and the home page: the dominant pollutant, the zone
    boxes and zone search, the report carousel, the contributor leaderboard
    and the initials shown in it. The AQI classifiers and the advice texts of
    these pages are in `Categories`. */
module UserDashboard {
  import opened Common
  import opened Sorting

  // ---------------------------------------------------------------------------
  // Dominant pollutant.

  /** The pollutants in the order the dashboard lists them. */
  const PollutantNames: seq<string> := ["pm2_5", "pm10", "o3", "co", "no2", "so2"]

  datatype Entry = Entry(name: string, value: real)

  /** `b.value - a.value`: higher values first. */
  function EntryKey(e: Entry): SortKey {
    SortKey(-e.value, 0.0)
  }

  /** The entries `{name, value: pollutants[name]?.aqi || 0}`. */
  function Entries(aqiOf: string -> Num): (es: seq<Entry>)
    ensures |es| == |PollutantNames|
    ensures forall i :: 0 <= i < |es| ==> es[i] == Entry(PollutantNames[i], OrZero(aqiOf(PollutantNames[i])))
  {
    Map(PollutantNames, (n: string) => Entry(n, OrZero(aqiOf(n))))
  }

  /** `i` is the first position holding the greatest value. */
  predicate FirstMax(es: seq<Entry>, i: int) {
    0 <= i < |es| &&
    (forall j :: 0 <= j < |es| ==> es[j].value <= es[i].value) &&
    (forall j :: 0 <= j < i ==> es[j].value < es[i].value)
  }

  /** The elements of `s` with key `k` start with the first such element. */
  lemma {:induction false} WithKeyHead<T>(s: seq<T>, key: T -> SortKey, k: SortKey, i: nat)
    requires i < |s| && key(s[i]) == k
    requires forall j :: 0 <= j < i ==> key(s[j]) != k
    ensures |WithKey(s, key, k)| > 0 && WithKey(s, key, k)[0] == s[i]
    decreases i
  {
    if i > 0 {
      WithKeyHead(s[1..], key, k, i - 1);
    }
  }

  /** The head of the stable descending sort is the first entry with the
      greatest value. */
  lemma SortHeadIsFirstMax(es: seq<Entry>)
    requires |es| > 0
    ensures Sort(es, EntryKey)[0] == es[FirstMaxIndex(es)]
  {
    var i := FirstMaxIndex(es);
    var k := EntryKey(es[i]);
    SortedHeadKey(es, i);
    SortStable(es, EntryKey, k);
    WithKeyHead(es, EntryKey, k, i);
    WithKeyHead(Sort(es, EntryKey), EntryKey, k, 0);
  }

  /** The sorted head carries the greatest value: nothing in the list is
      above it, and the greatest entry is not before it. */
  lemma SortedHeadKey(es: seq<Entry>, i: nat)
    requires FirstMax(es, i)
    ensures EntryKey(Sort(es, EntryKey)[0]) == EntryKey(es[i])
  {
    var sorted := Sort(es, EntryKey);
    assert sorted[0] in sorted;
    assert sorted[0] in multiset(es);
    assert sorted[0] in es;
    assert es[i] in multiset(sorted);
    assert es[i] in sorted;
    var p :| 0 <= p < |sorted| && sorted[p] == es[i];
    if p > 0 {
      assert KeyLe(EntryKey(sorted[0]), EntryKey(sorted[p]));
    }
  }

  /** `getDominantPollutant`: null without pollutants; otherwise the entries
      sorted by value (stably, highest first) and the first name, which is
      the first pollutant in list order with the greatest value. */
  function Dominant(pollutants: Option<string -> Num>): (r: Option<string>)
    ensures r.None? <==> pollutants.None?
    ensures r.Some? ==> r.value == PollutantNames[FirstMaxIndex(Entries(pollutants.value))]
  {
    match pollutants
    case None => None
    case Some(aqiOf) =>
      var es := Entries(aqiOf);
      SortHeadIsFirstMax(es);
      Some(Sort(es, EntryKey)[0].name)
  }

  /** The position of the first greatest value. */
  function FirstMaxIndex(es: seq<Entry>): (i: nat)
    requires |es| > 0
    ensures FirstMax(es, i)
    decreases |es|
  {
    if |es| == 1 then 0
    else
      var n := |es| - 1;
      var k := FirstMaxIndex(es[..n]);
      assert forall j :: 0 <= j < n ==> es[..n][j] == es[j];
      if es[n].value > es[k].value then n else k
  }

  /** With equal values the list order decides: pm2_5 beats every other
      pollutant it ties with. */
  lemma DominantTieGoesToPm25(aqiOf: string -> Num)
    requires forall n :: n in PollutantNames ==> OrZero(aqiOf(n)) == OrZero(aqiOf("pm2_5"))
    ensures Dominant(Some(aqiOf)) == Some("pm2_5")
  {
    var es := Entries(aqiOf);
    var i := FirstMaxIndex(es);
    assert PollutantNames[i] in PollutantNames;
    assert es[0].value == es[i].value;
  }

  // ---------------------------------------------------------------------------
  // Zones.

  /** A zone's inclusive latitude and longitude ranges. */
  datatype Box = Box(latLo: real, latHi: real, lonLo: real, lonHi: real)

  const Boxes: seq<Box> := [
    Box(24.8, 25.0, 67.0, 67.2),
    Box(33.6, 33.8, 73.0, 73.2),
    Box(31.5, 31.7, 74.3, 74.5),
    Box(34.0, 34.2, 71.5, 71.7)
  ]

  predicate InBox(b: Box, lat: real, lon: real) {
    b.latLo <= lat <= b.latHi && b.lonLo <= lon <= b.lonHi
  }

  /** No point lies in two boxes, so "the first box containing the point"
      is "the box containing the point". */
  lemma BoxesDisjoint(i: nat, j: nat, lat: real, lon: real)
    requires i < j < |Boxes|
    ensures !(InBox(Boxes[i], lat, lon) && InBox(Boxes[j], lat, lon))
  {
  }

  /** `determineZone` with the zone names `names` (the user dashboard's
      "Zone 1" … "Zone 4", or the home page's translated labels): the zone
      whose box holds the point, else the first zone. */
  function DetermineZone(names: seq<string>, lat: real, lon: real): (r: string)
    requires |names| == |Boxes|
    ensures forall i :: 0 <= i < |Boxes| && InBox(Boxes[i], lat, lon) ==> r == names[i]
    ensures (forall i :: 0 <= i < |Boxes| ==> !InBox(Boxes[i], lat, lon)) ==> r == names[0]
  {
    FirstBox(names, 0, lat, lon)
  }

  function FirstBox(names: seq<string>, from: nat, lat: real, lon: real): (r: string)
    requires |names| == |Boxes| && from <= |Boxes|
    ensures forall i :: (from <= i < |Boxes| && InBox(Boxes[i], lat, lon) &&
                         (forall j :: from <= j < i ==> !InBox(Boxes[j], lat, lon))) ==> r == names[i]
    ensures (forall i :: from <= i < |Boxes| ==> !InBox(Boxes[i], lat, lon)) ==> r == names[0]
    decreases |Boxes| - from
  {
    if from == |Boxes| then names[0]
    else if InBox(Boxes[from], lat, lon) then names[from]
    else FirstBox(names, from + 1, lat, lon)
  }

  /** The user dashboard's zone names. */
  const ZoneNames: seq<string> := ["Zone 1", "Zone 2", "Zone 3", "Zone 4"]

  /** `handleSearch`: the first zone name equal, ignoring ASCII case, to the
      trimmed query; `None` raises the "zone not found" message. */
  function Search(names: seq<string>, query: string): (r: Option<string>)
    ensures r.Some? <==> exists n :: n in names && ToLower(n) == ToLower(Trim(query))
    ensures r.Some? ==> r.value in names && ToLower(r.value) == ToLower(Trim(query))
  {
    if |names| == 0 then None
    else if ToLower(names[0]) == ToLower(Trim(query)) then
      assert names[0] in names;
      Some(names[0])
    else
      var r := Search(names[1..], query);
      assert forall n :: n in names[1..] ==> n in names;
      assert forall n :: n in names && n != names[0] ==> n in names[1..];
      r
  }

  /** Names that differ in more than case. */
  predicate CaseDistinct(names: seq<string>) {
    forall i, j :: 0 <= i < j < |names| ==> ToLower(names[i]) != ToLower(names[j])
  }

  /** Case and surrounding blanks do not matter: among names that differ in
      more than case, a query equal to a name up to case and blanks selects
      that name. */
  lemma {:induction false} SearchIgnoresCase(names: seq<string>, query: string, k: nat)
    requires CaseDistinct(names) && k < |names|
    requires ToLower(names[k]) == ToLower(Trim(query))
    ensures Search(names, query) == Some(names[k])
    decreases |names|
  {
    if k > 0 {
      SearchIgnoresCase(names[1..], query, k - 1);
    }
  }

  /** The user dashboard's zone names differ in more than case. */
  lemma ZoneNamesCaseDistinct()
    ensures CaseDistinct(ZoneNames)
  {
    forall i, j | 0 <= i < j < |ZoneNames|
      ensures ToLower(ZoneNames[i]) != ToLower(ZoneNames[j])
    {
      assert ZoneNames[i][5] != ZoneNames[j][5] && '0' <= ZoneNames[i][5] <= '9' && '0' <= ZoneNames[j][5] <= '9';
      LowerDiffersAt(ZoneNames[i], ZoneNames[j], 5);
    }
  }

  /** Two strings whose characters at one position differ even in lower
      case differ in lower case. */
  lemma LowerDiffersAt(a: string, b: string, k: nat)
    requires k < |a| && k < |b| && LowerChar(a[k]) != LowerChar(b[k])
    ensures ToLower(a) != ToLower(b)
  {
    assert ToLower(a)[k] != ToLower(b)[k];
  }

  // ---------------------------------------------------------------------------
  // Report carousel.

  /** The "previous" button: one back, never below 0. */
  function Prev(i: int): int {
    if i - 1 >= 0 then i - 1 else 0
  }

  /** The "next" button: one on, never past the last report. */
  function Next(i: int, len: int): int {
    if i + 1 <= len - 1 then i + 1 else len - 1
  }

  /** With at least one report, both buttons keep the index on a report,
      and each moves it by at most one. */
  lemma CarouselStaysInRange(i: int, len: int)
    requires len >= 1 && 0 <= i < len
    ensures 0 <= Prev(i) < len && 0 <= Next(i, len) < len
    ensures i - 1 <= Prev(i) <= i && i <= Next(i, len) <= i + 1
    ensures Prev(i) == i <==> i == 0
    ensures Next(i, len) == i <==> i == len - 1
  {
  }

  // ---------------------------------------------------------------------------
  // Leaderboard.

  datatype Contribution = Contribution(user: Option<string>, verificationStatus: string)

  /** A report counts when it is verified and names a user. */
  predicate Counted(r: Contribution) {
    r.user.Some? && r.user.value != "" && r.verificationStatus == "verified"
  }

  datatype Stat = Stat(user: string, count: nat)

  function Total(stats: seq<Stat>): nat {
    if |stats| == 0 then 0 else Total(stats[..|stats| - 1]) + stats[|stats| - 1].count
  }

  lemma {:induction false} TotalAppend(a: seq<Stat>, b: seq<Stat>)
    ensures Total(a + b) == Total(a) + Total(b)
    decreases |b|
  {
    if |b| > 0 {
      assert (a + b)[..|a + b| - 1] == a + b[..|b| - 1];
      TotalAppend(a, b[..|b| - 1]);
    } else {
      assert a + b == a;
    }
  }

  /** `userStats[u].count++`, creating the entry at the end on first sight. */
  function Bump(stats: seq<Stat>, u: string): (r: seq<Stat>)
    ensures Total(r) == Total(stats) + 1
    ensures |r| == |stats| || (|r| == |stats| + 1 && r[|stats|] == Stat(u, 1))
    ensures forall i :: 0 <= i < |stats| ==> r[i].user == stats[i].user
    decreases |stats|
  {
    if |stats| == 0 then [Stat(u, 1)]
    else if stats[0].user == u then
      assert stats == [stats[0]] + stats[1..];
      TotalAppend([stats[0]], stats[1..]);
      TotalAppend([Stat(u, stats[0].count + 1)], stats[1..]);
      [Stat(u, stats[0].count + 1)] + stats[1..]
    else
      assert stats == [stats[0]] + stats[1..];
      var rest := Bump(stats[1..], u);
      TotalAppend([stats[0]], stats[1..]);
      TotalAppend([stats[0]], rest);
      var r := [stats[0]] + rest;
      assert forall i :: 1 <= i < |r| ==> r[i] == rest[i - 1];
      r
  }

  /** The `forEach` that builds `userStats`, in report order. */
  function Tally(reports: seq<Contribution>): seq<Stat> {
    if |reports| == 0 then []
    else
      var before := Tally(reports[..|reports| - 1]);
      var r := reports[|reports| - 1];
      if Counted(r) then Bump(before, r.user.value) else before
  }

  /** The number of counted reports. */
  function CountedReports(reports: seq<Contribution>): nat {
    if |reports| == 0 then 0
    else CountedReports(reports[..|reports| - 1]) + (if Counted(reports[|reports| - 1]) then 1 else 0)
  }

  /** `totalReports` is the number of verified reports that name a user. */
  lemma {:induction false} TallyTotal(reports: seq<Contribution>)
    ensures Total(Tally(reports)) == CountedReports(reports)
    decreases |reports|
  {
    if |reports| > 0 {
      TallyTotal(reports[..|reports| - 1]);
    }
  }

  /** Most reports first; users with equal counts keep their first-seen
      order. */
  function StatKey(s: Stat): SortKey {
    SortKey(-(s.count as real), 0.0)
  }

  function Leaderboard(reports: seq<Contribution>): (r: seq<Stat>)
    ensures |r| == |Tally(reports)| && multiset(r) == multiset(Tally(reports))
    ensures forall i, j :: 0 <= i < j < |r| ==> r[i].count >= r[j].count
    ensures forall k :: WithKey(r, StatKey, k) == WithKey(Tally(reports), StatKey, k)
  {
    var r := Sort(Tally(reports), StatKey);
    forall k
      ensures WithKey(r, StatKey, k) == WithKey(Tally(reports), StatKey, k)
    {
      SortStable(Tally(reports), StatKey, k);
    }
    r
  }

  /** `sorted.findIndex(([u]) => u === currentUser)`, -1 when absent. */
  function Rank(board: seq<Stat>, user: Option<string>): (r: int)
    ensures -1 <= r < |board|
    ensures r >= 0 ==> user.Some? && board[r].user == user.value
    ensures r >= 0 ==> forall j :: 0 <= j < r ==> board[j].user != user.value
    ensures r == -1 ==> user.None? || forall j :: 0 <= j < |board| ==> board[j].user != user.value
  {
    if user.None? || |board| == 0 then -1
    else if board[0].user == user.value then 0
    else
      var r := Rank(board[1..], user);
      if r == -1 then -1 else r + 1
  }

  /** The board shows the first five entries; the extra "your rank" row
      appears when the user is on the board but not among them. */
  predicate ShowsRankRow(board: seq<Stat>, user: Option<string>) {
    Rank(board, user) >= 5
  }

  /** A user appears on the board exactly once: either among the first five
      or in the extra row, and a user without verified reports in neither. */
  lemma RankRowComplementsTopFive(board: seq<Stat>, user: Option<string>)
    ensures ShowsRankRow(board, user) ==>
              user.Some? && forall j :: 0 <= j < 5 && j < |board| ==> board[j].user != user.value
    ensures !ShowsRankRow(board, user) && user.Some? && (exists j :: 0 <= j < |board| && board[j].user == user.value) ==>
              exists j :: 0 <= j < 5 && j < |board| && board[j].user == user.value
  {
  }

  // ---------------------------------------------------------------------------
  // Initials.

  /** The first letter of each word, `w[0]` of an empty word joining as "". */
  function Firsts(words: seq<string>): string {
    if |words| == 0 then ""
    else (if |words[0]| > 0 then [words[0][0]] else "") + Firsts(words[1..])
  }

  /** `getInitials`: "?" for an empty name; otherwise at most two
      upper-cased first letters of the space-separated words. */
  function Initials(name: Option<string>): (r: string)
    ensures name.None? || name == Some("") ==> r == "?"
    ensures name.Some? && name.value != "" ==>
              var f := Firsts(Split(name.value, ' '));
              |r| == (if |f| < 2 then |f| else 2) && forall i :: 0 <= i < |r| ==> r[i] == UpperChar(f[i])
    ensures forall i :: 0 <= i < |r| ==> r[i] != ' '
  {
    if name.None? || name.value == "" then "?"
    else
      var firsts := Firsts(Split(name.value, ' '));
      var r := ToUpper(if |firsts| <= 2 then firsts else firsts[..2]);
      SplitPiecesFree(name.value, ' ');
      FirstsHaveNoSpace(Split(name.value, ' '));
      r
  }

  lemma {:induction false} FirstsHaveNoSpace(words: seq<string>)
    requires forall k :: 0 <= k < |words| ==> ' ' !in words[k]
    ensures ' ' !in Firsts(words)
    decreases |words|
  {
    if |words| > 0 {
      if |words[0]| > 0 {
        assert words[0][0] in words[0];
      }
      FirstsHaveNoSpace(words[1..]);
    }
  }

  /** A one-word name gives one letter. */
  lemma InitialsOfOneWord(w: string)
    requires |w| > 0 && ' ' !in w
    ensures Initials(Some(w)) == [UpperChar(w[0])]
  {
    assert Split(w, ' ') == [w];
    assert Firsts([w]) == [w[0]] + Firsts([]);
  }

  // ---------------------------------------------------------------------------
  // Home page.

  /** The home page's dominant pollutant is initialised to "N/A" and never
      set again. */
  const HomeDominant: string := "N/A"

  /** Hence none of the four pollutant boxes is ever marked dominant. */
  lemma HomeNoBoxDominant(box: string)
    requires box in ["PM2_5", "PM10", "O3", "CO"]
    ensures HomeDominant != box
  {
  }
}
